=== FILE: README.md ===
# homer — a Dafny model of the RAG, report and indexing core

homer is a local retrieval-augmented assistant. It indexes PDF files into a vector
store, answers questions about them in chat threads, and writes multi-section
reports from an outline. A vision model can convert PDF pages to markdown, with a
validator that compares the model's text against the text extracted from the page.
This project models that core in Dafny 4 and proves properties of the model.

Every call into a language model, an embedding model, the vector store, the
filesystem or the PDF renderer becomes an *oracle*: a function parameter that
answers `Ok(value)` or `Fail(message)` (`Text.Outcome`). The model is deterministic
given its oracles. A node's `try` block becomes a `match` on the oracle's outcome.

The modules follow the source files:

- `Text` models Python `str`, `re` and `pathlib` behaviour used throughout: functions and lemmas.
- `Docs` models LangChain `Document`/messages, `get_message_text`, `repr` of metadata: functions and lemmas.
- `Utils` models `src/utils/utils.py` (and the identical helpers of `src/resources/utils.py`): functions, loop methods.
- `MessageFormat` models `_format_message`/`format_messages`: functions.
- `States` models `src/core/states.py`: records, reducer method with its loop.
- `AgentStates` models `src/core/agents/states.py`: records, reducer.
- `Configuration` models `src/core/configuration.py`, `load_config`: functions.
- `Retrieval` models `src/core/retrieval.py`: class over an abstract collection.
- `DbSchema` models `src/schemas/db.py`: sets of rows with keys and cascades.
- `RetrievalGraph` models `src/core/graphs/retrieval_graph.py`: node functions, edge function.
- `CoreRetrievalGraph` models `src/core/retrieval_graph.py`: node functions, edge function.
- `ReportGraph` models `src/core/graphs/report_graph.py`: node functions, edge function.
- `CoreReportGraph` models `src/core/report_graph.py`: node functions, edge function.
- `AgentReportGraph` models `src/core/agents/report_graph.py`: class whose methods mutate the state in place.
- `IndexGraph` models `src/core/graphs/index_graph.py`: loop methods.
- `CoreIndexGraph` models `src/core/index_graph.py`: loop methods.
- `Story` and `Converter` model `src/utils/converter.py`: text cleaners, story-building loop.
- `DictToPdf` models `src/resources/dict_to_pdf.py`: `clean_content`, story-building loop.
- `StreamWorker` models `src/ui/widgets/chat_widget.py`: class with the worker's three fields.
- `Validation` models `src/parser/validation.py`: word/sentence metrics, page loop.
- `Parser` models `src/parser/parser.py`: page loop, result accounting, file naming.
- `VisionLoader` models `src/parser/vision_loader.py`: constructor check, `load`.
- `ImageLoader` models `src/parser/loaders/image_loader.py`: `parse_image_metadata` loop.
- `ChatApp` models `main.py`: thread creation, message pairing.

LangGraph runs a graph by applying each node's partial update to the state. Each
field has its own reducer: messages are appended, `retrieved_docs` goes through
`reduce_docs`, `report` through `add_sections`, and the other fields are
overwritten. The graph modules model this as an `Apply` function. Each edge list
and conditional edge becomes a `Next` function or a route. A run is a recursive
function over these; it decreases on the outline entries still to write.

Three things in the code differ from its own documentation. The model follows the
code in each case:

- `_format_message` ends up with the flag `"message"` for human messages. Its
  second `if` overrides the `"HumanMessage"` set by the first.
- `format_messages` closes with `<messages>` rather than `</messages>`.
- In `src/utils/converter.py`, `<think>` and `</think>` are among the ignored
  tokens, which are removed before `_clean_think_tags` runs. A think block's inner
  text therefore survives in the PDF, and only the tags disappear.

Four more points where the model follows the code:

- The fallback search query of `rephrase_query` is the literal `"general search"`.
- The page number that `parse_image_metadata` computes is thrown away.
- `index_docs` in `src/core/graphs/index_graph.py` imports `make_batch`, which the
  utilities do not define. It is modelled with `make_document_batch` semantics and
  a batch size of 20.
- The remote-parser branch of `parse_pdfs` reads a setting (`vision_model`) that
  the configuration class does not define. Every file there raises and is skipped.

## Model

| member | source | states |
|---|---|---|
| Text.LStrip | src/resources/dict_to_pdf.py:117 | the result is no longer than the input and does not start with whitespace |
| Text.LStripSuffix | src/resources/dict_to_pdf.py:117 | `lstrip` removes exactly an all-whitespace prefix |
| Text.RStrip | src/resources/dict_to_pdf.py:117 | the result is no longer than the input and does not end with whitespace |
| Text.RStripPrefix | src/resources/dict_to_pdf.py:117 | `rstrip` removes exactly an all-whitespace suffix |
| Text.Strip | src/utils/converter.py:107 | the result neither starts nor ends with whitespace |
| Text.StripEmptyIff | main.py:32 | a text strips to empty exactly when it is all whitespace |
| Text.StripAllSpace | src/resources/dict_to_pdf.py:83 | all-whitespace text strips to empty |
| Text.StripKeepsNonSpace | src/resources/dict_to_pdf.py:87 | a text with a non-space character does not strip to empty |
| Text.StripIdempotent | src/resources/dict_to_pdf.py:117 | stripping twice is stripping once |
| Text.StripKeepsOut | src/resources/dict_to_pdf.py:117 | stripping introduces no character |
| Text.StripKeepsVisible | src/resources/dict_to_pdf.py:117 | stripping removes only whitespace: the non-space characters stay, in order |
| Text.VisibleAppend | src/resources/dict_to_pdf.py:85 | the non-space characters of a concatenation are those of each part, in order |
| Text.VisibleAllSpace | src/resources/dict_to_pdf.py:116 | an all-whitespace text has no visible characters |
| Text.FindFrom | src/ui/widgets/chat_widget.py:39 | the result is the first occurrence at or after `from`, or -1 when there is none |
| Text.Find | src/ui/widgets/chat_widget.py:39 | -1 exactly when the pattern does not occur; otherwise the first occurrence |
| Text.ReplaceCharRemoves | src/utils/converter.py:129-131 | after replacing a character by text without it, the character is gone |
| Text.ReplaceCharIntroduces | src/utils/converter.py:129-131 | replacing introduces no character absent from both the text and the replacement |
| Text.ReplaceAbsent | src/utils/converter.py:105 | `replace` of an absent pattern leaves the text unchanged |
| Text.ReplaceSkip | main.py:74 | `replace` leaves a prefix that cannot start the pattern untouched |
| Text.Join | src/utils/utils.py:68 | joining nothing is empty; joining one piece is that piece |
| Text.Split | src/resources/dict_to_pdf.py:85 | `split` always yields at least one piece |
| Text.JoinSnoc | src/utils/utils.py:68 | joining one more part appends the separator and that part |
| Text.JoinSplit | src/resources/dict_to_pdf.py:85 | joining the pieces of `split` with the same separator gives the text back |
| Text.SplitPiecesFree | src/parser/loaders/image_loader.py:38 | no piece of `split` contains the separator |
| Text.AfterFirst | src/ui/widgets/chat_widget.py:41 | `split(sep, 1)[1]` is the text after the first occurrence of the separator (the one `Find` returns), and shorter than the input |
| Text.Lower | src/parser/vision_loader.py:17 | `lower` maps each character and keeps the length |
| Text.Upper | src/core/graphs/report_graph.py:222 | `upper` maps each character and keeps the length |
| Text.SliceBound | src/core/retrieval_graph.py:133 | a Python slice bound is clamped into the sequence |
| Text.PySlice | src/core/retrieval_graph.py:133 | a Python slice is never longer than the sequence |
| Text.PySliceShift | src/utils/utils.py:271 | slicing a suffix is slicing the whole at shifted bounds |
| Text.LastN | src/core/graphs/retrieval_graph.py:269 | `s[-k:]` is the last `min(k, len)` items |
| Text.PyIndex | main.py:36 | Python indexing: defined for `-len <= i < len`, negative indices count from the end |
| Text.NatToString | src/parser/parser.py:182 | `str(n)` is a non-empty run of digits without a leading zero |
| Text.NatToStringRoundTrip | src/parser/parser.py:182 | reading back `str(n)` gives `n` |
| Text.Pad3 | src/parser/parser.py:247 | `f"{n:03d}"` is all digits, at least three of them, exactly three below 1000, and reads back as `n` |
| Text.NatToStringShort | src/parser/parser.py:247 | a number below 1000 has at most three digits |
| Text.LeadingZerosValue | src/parser/parser.py:247 | leading zeros do not change a number's value |
| Text.ZerosValue | src/parser/parser.py:247 | a run of zeros reads as 0 |
| Text.FindTag | src/utils/converter.py:112-115 | the first occurrence of a tag at or after a position, with or without case folding |
| Text.TagNeedsAngle | src/utils/converter.py:112-115 | a tag starting with `<` can only match at a `<` |
| Text.BlockAt | src/utils/converter.py:112-115 | a `<think>.*?</think>` match at the start ends at the first closing tag, and spans no newline without DOTALL |
| Text.RemoveBlocks | src/utils/converter.py:112-115 | `re.sub` of the think pattern never lengthens the text |
| Text.SearchBlock | src/utils/utils.py:301 | `re.search` finds the first position where a block starts: a block starts there and at no earlier position; or it reports that no position starts one |
| Text.NoBlockUnchanged | src/utils/utils.py:310 | with no block in the text, the substitution leaves it unchanged |
| Text.NoAngleNoBlock | src/utils/utils.py:301 | a text without `<` holds no block |
| Text.LeadingBlockAt | src/utils/utils.py:307 | a leading block is matched up to its own closing tag, and its body is the group |
| Text.LeadingBlockDropped | src/resources/dict_to_pdf.py:113 | a leading block is deleted and the rest is substituted on its own |
| Text.LastIndexOf | src/parser/vision_loader.py:17 | the last position of a character, or -1 exactly when it is absent |
| Text.Components | src/parser/loaders/image_loader.py:62 | path components are non-empty and not `.` |
| Text.PathName | src/parser/loaders/image_loader.py:37 | `Path.name` holds no `/` |
| Text.CharContains | src/parser/loaders/image_loader.py:51 | a character in a text is a one-character substring of it |
| Text.LastComponentFree | src/parser/loaders/image_loader.py:62 | a component of a path without the separator has none either |
| Text.Suffix | src/parser/vision_loader.py:17 | `Path.suffix` is empty or starts with `.`, and is a tail of the name |
| Text.Stem | src/parser/loaders/image_loader.py:37 | `Path.stem` followed by the suffix is the name |
| Docs.Get | src/utils/utils.py:164 | `dict.get` finds a value exactly when the key is present, and the value is the key's |
| Docs.PartsText | src/utils/utils.py:203-204 | the text of no parts is empty |
| Docs.PartsTextAppend | src/utils/utils.py:203-204 | the parts' texts are concatenated in order: two runs of parts give the first's text followed by the second's |
| Docs.PartsTextSnoc | src/utils/utils.py:203-204 | one more part adds its text at the end: a string as is, a dict's `text`, or nothing when `text` is missing |
| Docs.MessageText | src/utils/utils.py:197-204 | a str content is returned as is; a dict gives its `text` entry, or `""` when missing; a list gives the stripped concatenation of its parts' texts, so the result has no whitespace at either end and is empty when every part is a dict without text |
| Docs.MissingTextsEmpty | src/utils/utils.py:203 | a list of dicts without text gives `""` |
| Docs.MessageTextExamples | src/utils/utils.py:189-195 | the three documented examples give `Hello`, `World` and `Hello World` |
| Docs.QuoteFor | src/utils/utils.py:34 | `repr` uses double quotes exactly when the text has a single quote and no double quote |
| Docs.EscapeChar | src/utils/utils.py:34 | each character is kept or escaped with a backslash; below U+0100 the escaped set is exactly Python's non-printable characters (C0 controls, 0x7f-0xa0, the soft hyphen 0xad), written `\xHH`, with `\t`, `\n`, `\r`, the backslash and the chosen quote escaped by letter |
| Docs.PyRepr | src/utils/utils.py:34 | the repr of a string is enclosed in the quote `QuoteFor` chooses |
| Docs.UnescapeOne | src/utils/utils.py:34 | unescaping undoes one escaped character |
| Docs.ReprRoundTrip | src/utils/utils.py:34 | the body of a string's repr unescapes to the string: metadata values are rendered losslessly |
| Docs.EscapeRoundTrip | src/utils/utils.py:34 | unescaping an escaped body gives the text back |
| Docs.QuoteAlwaysEscaped | src/utils/utils.py:34 | every quote character inside the repr body is preceded by a backslash, so the body cannot end the literal early |
| Utils.RemoveDuplicates | src/utils/utils.py:208-210 | the result holds exactly the items of `new` that are not in `base` |
| Utils.RemoveDuplicatesCounts | src/utils/utils.py:208-210 | each kept item keeps all its repeats: the count in the result is 0 for base items, otherwise the count in `new` |
| Utils.RemoveDuplicatesAppend | src/utils/utils.py:208-210 | the filter distributes over concatenation, so order is preserved |
| Utils.ChunksFlatten | src/utils/utils.py:238-248 | the batches concatenate back to the input |
| Utils.ChunksSizes | src/utils/utils.py:238-248 | no batches exactly for no input; every batch but the last has `size` items; the last has 1..`size`, the remainder |
| Utils.MakeDocumentBatch | src/utils/utils.py:217-248 | fails with `Batch size must be at least 1` exactly when `size < 1`; otherwise returns the batches `Chunks` describes |
| Utils.ChunksExample | src/utils/utils.py:217-248 | 97 items at size 20 give batches of 20, 20, 20, 20 and 17 |
| Utils.SlicesAt | src/utils/utils.py:271 | one slice per start, each `documents[i:i+size]` |
| Utils.MakeDocumentBatchOneliner | src/utils/utils.py:269-272 | `range` with step 0 fails, and a negative step gives no batches |
| Utils.OnelinerMatchesBatch | src/utils/utils.py:269-272 | for `size >= 1` the one-liner returns the same batches as `make_document_batch` |
| Utils.SlicesFromMatchChunks | src/utils/utils.py:271 | the slices at `range(d, len, size)` are the chunks of the suffix from `d` |
| Utils.MetaAttrs | src/utils/utils.py:33-36 | the attribute text is empty exactly when the metadata is |
| Utils.MetaAttrsAppend | src/utils/utils.py:34 | the attributes of two runs of entries are the first's followed by the second's |
| Utils.MetaAttrsEntry | src/utils/utils.py:34 | entry `i` appears as ` key=repr(value)` between the attributes of the entries before it and those after it |
| Utils.FormatDoc | src/utils/utils.py:24-38 | without metadata a document is exactly `<document>\n` + content + `\n</document>`; with metadata it is `<document ` + the attribute text + `>\n` + content + `\n</document>`, the extra space included |
| Utils.FormatDocFrame | src/utils/utils.py:24-38 | every rendering opens with `<document` and ends with the content and the closing tag; it has the bare opening tag exactly when there is no metadata |
| Utils.FormatEach | src/utils/utils.py:68 | one rendered block per document, in order |
| Utils.FormatDocs | src/utils/utils.py:40-71 | empty input gives exactly `<documents></documents>`; otherwise `<documents>\n`, the rendered documents joined by newlines in input order, and `\n</documents>` |
| Utils.FormatDocsHoldsEach | src/utils/utils.py:68-71 | every document's block appears in the formatted text |
| Utils.JoinOffset | src/utils/utils.py:68 | every joined piece occurs in the joined text |
| Utils.StrLeTotal | src/utils/utils.py:168 | string order is total |
| Utils.StrLeAntisymmetric | src/utils/utils.py:168 | string order is antisymmetric |
| Utils.StrLeTransitive | src/utils/utils.py:168 | string order is transitive |
| Utils.Least | src/utils/utils.py:168 | the selection loop finds a member of the set no greater than any other |
| Utils.SortStrings | src/utils/utils.py:168 | `sorted(set)` is strictly increasing and holds exactly the set's members |
| Utils.Bullets | src/utils/utils.py:169 | each source becomes one line `- source`, in order |
| Utils.SourceStems | src/utils/utils.py:163-165 | one stem outcome per document |
| Utils.SourceStemsAt | src/utils/utils.py:163-165 | the i-th outcome is the stem of the i-th document's source |
| Utils.OkSetMembers | src/utils/utils.py:162-165 | the collected set holds exactly the stems some document yields |
| Utils.FormatSources | src/utils/utils.py:148-171 | no documents give `No sources available.`; a source that is not text fails; otherwise the lines are `- stem` for each distinct stem, sorted, each once |
| Utils.CollectStems | src/utils/utils.py:162-165 | the loop collects exactly the set of stems, or fails when a source has none |
| Utils.UnknownStem | src/utils/utils.py:164 | a document without `source` is listed as `unknown` |
| Utils.ExtractThinkAndAnswer | src/utils/utils.py:289-310 | no thinking part exactly when no block matches, and then the text is returned unchanged; otherwise the thinking part is the first block's body, stripped, and the answer is the text with every block removed, stripped |
| Utils.ExtractLeadingBlock | src/utils/utils.py:301-309 | for a leading block, the thinking part is its body stripped and the answer is the rest cleaned and stripped |
| Utils.CombinePrompts | src/utils/utils.py:328-334 | the prompt starts with `SYSTEM:\n `, then holds exactly the system text, then ends with `\nUSER:\n ` + user; a missing or empty system prompt leaves nothing between them |
| Utils.CombinePromptsRecoversUser | src/utils/utils.py:328-334 | with a one-line system prompt, the text after the first user marker is exactly the user prompt |
| MessageFormat.Flag | src/resources/utils.py:91-96 | the flag is `AIMessage` exactly for AI messages and `message` for all others; it is never `HumanMessage` |
| MessageFormat.Unwrap | src/resources/utils.py:97 | the text inside a `<flag>\n...\n</flag>` wrapper is recovered from its position |
| MessageFormat.FormatMessage | src/resources/utils.py:89-97 | a non-string content raises; otherwise the message is wrapped in its flag and the wrapped text is the content with every think block removed |
| MessageFormat.FormatMessagePlain | src/resources/utils.py:89-97 | content without `<` is wrapped unchanged |
| MessageFormat.FormatMessageDropsLeadingBlock | src/resources/utils.py:90 | a leading think block does not reach the formatted message |
| MessageFormat.FormatAll | src/resources/utils.py:102 | every message formatted in order, or the type error when one content is not a string |
| MessageFormat.FormatMessages | src/resources/utils.py:99-105 | no messages give `<messages></messages>`; a non-text content fails; otherwise the text is `<messages>\n`, then the formatted messages in order joined by newlines with nothing else, then `\n<messages>` |
| MessageFormat.NoClosingTag | src/resources/utils.py:103-105 | a non-empty formatted list never ends with `</messages>` |
| MessageFormat.FormatMessagesHoldsEach | src/resources/utils.py:102 | every formatted message appears in the formatted list |
| States.FromText | src/core/states.py:23-24 | a string becomes one Document with that text and exactly an `id` metadata key |
| States.Coerce | src/core/states.py:27-33 | a str becomes a Document with a fresh id; a dict needs `page_content` and becomes `Document(**item)` with its own page content and metadata (empty when absent); a Document passes through |
| States.CoerceAll | src/core/states.py:25-36 | a list succeeds exactly when every item coerces, and then gives one Document per item, in order |
| States.Reduced | src/core/states.py:10-37 | `delete` clears; another string gives one Document; a list replaces the field; anything else keeps `existing`, or `[]` |
| States.ReduceDocs | src/core/states.py:10-37 | the reducer's loop computes `Reduced` |
| States.CoerceAllFailExtends | src/core/states.py:25-36 | a failing prefix makes the whole list fail the same way |
| States.ListReplaces | src/core/states.py:25-36 | with a list update the existing value does not matter |
| States.DocumentsStoredAsIs | src/core/states.py:33-34 | a list of Documents is stored as it is |
| States.DeleteClears | src/core/states.py:21-22 | `delete` gives `[]` whatever the field holds, and it stays empty under a no-op update |
| States.AddSections | src/core/states.py:121-132 | a dict appends exactly that section; a list appends its sections in order; anything else changes nothing; the existing sections are always a prefix |
| States.OneAsList | src/core/states.py:128-131 | appending one section is appending the one-element list |
| States.AddSectionsAssociative | src/core/states.py:126-131 | two list updates in a row equal one update with both lists |
| States.Written | src/core/report_graph.py:113-125 | the section an entry becomes holds exactly its title, its summary and the written content |
| States.Contents | src/core/report_graph.py:119 | one content per section, `""` for a section without one |
| States.PreviousSections | src/core/report_graph.py:116-120 | before the first section, the fixed first-section sentence; otherwise the sections' contents joined by newlines in report order |
| States.PreviousSectionsAppend | src/core/agents/report_graph.py:168 | writing one more section adds a line with its content at the end; the first section becomes the whole text |
| States.NewRetrievalState | src/core/states.py:108-117 | a fresh retrieval state holds the input messages, an empty query and summary, and no documents |
| States.NewReportState | src/core/states.py:136-145 | a fresh report state starts at section 0 with empty outlines, report and documents |
| AgentStates.AddSections | src/core/agents/states.py:71-84 | the result is the existing sections followed by the new ones |
| AgentStates.AgreesWithListReducer | src/core/agents/states.py:71-84 | it agrees with the list case of the reducer in `src/core/states.py` |
| AgentStates.NewState | src/core/agents/states.py:58-64 | a fresh state has no improved query and no documents |
| AgentStates.NewStateReport | src/core/agents/states.py:87-99 | a fresh report state has empty query, outlines, report and documents |
| Configuration.Defaults | src/core/configuration.py:22-60 | the default models and the host taken from the environment |
| Configuration.AsDict | src/core/configuration.py:62-73 | the dict has exactly the declared fields, each with its value |
| Configuration.FromRunnableConfig | src/core/configuration.py:75-91 | each field comes from `configurable` when given there, otherwise from the defaults |
| Configuration.NoOverridesGiveDefaults | src/core/configuration.py:75-91 | without matching keys the result is the defaults |
| Configuration.UnknownKeysDropped | src/core/configuration.py:86-91 | keys that are not fields are ignored |
| Configuration.AsDictRoundTrip | src/core/configuration.py:62-91 | `from_runnable_config(asdict(c))` gives `c` back |
| Configuration.LoadConfig | src/resources/utils.py:195-198 | `load_config` is the default configuration |
| Retrieval.SourcesOf | src/core/retrieval.py:50-53 | the sources named by metadata entries that have one |
| Retrieval.Kept | src/core/retrieval.py:73-77 | deleting keeps exactly the entries whose source is not listed |
| Retrieval.KeptTwice | src/core/retrieval.py:73-77 | deleting one list after another is deleting both |
| Retrieval.KeptNothing | src/core/retrieval.py:73-77 | deleting nothing keeps everything |
| Retrieval.KeptSources | src/core/retrieval.py:59-78 | after deleting, the sources are the old ones minus the listed ones |
| Retrieval.AsList | src/core/retrieval.py:70-71 | a single name is treated as a one-element list |
| Retrieval.Collection.constructor | src/core/retrieval.py:44 | the collection starts with the given entries |
| Retrieval.Collection.GetExistingDocuments | src/core/retrieval.py:36-56 | the loop returns exactly the set of sources present |
| Retrieval.Collection.DeleteDocuments | src/core/retrieval.py:59-78 | the collection keeps exactly the entries whose source was not listed |
| Retrieval.DeleteThenList | src/core/retrieval.py:36-78 | after deleting, listing shows none of the deleted sources and all others |
| DbSchema.SchemaCreatesRequiredTables | src/schemas/db.py:1-38 | the schema creates exactly the three required tables |
| DbSchema.InsertThread | src/schemas/db.py:3-7 | an insert fails exactly on a duplicate thread id |
| DbSchema.InsertCheckpoint | src/schemas/db.py:9-21 | fails exactly on a duplicate key or an unknown thread |
| DbSchema.InsertWrite | src/schemas/db.py:23-36 | fails exactly on a duplicate key or an unknown checkpoint |
| DbSchema.InsertsKeepValid | src/schemas/db.py:1-37 | successful inserts keep keys unique and foreign keys resolved |
| DbSchema.DeleteThread | src/schemas/db.py:18-20 | deleting a thread cascades to its checkpoints and their writes, and to nothing else |
| DbSchema.DeleteThreadKeepsValid | src/schemas/db.py:18-20 | the cascade leaves a valid database without the thread |
| DbSchema.DeleteCheckpoint | src/schemas/db.py:33-35 | deleting a checkpoint removes exactly its writes |
| DbSchema.DeleteCheckpointKeepsValid | src/schemas/db.py:33-35 | the cascade leaves a valid database without the checkpoint |
| DbSchema.CascadeIsTransitive | src/schemas/db.py:18-35 | a write disappears with a thread exactly when its checkpoint does |
| RetrievalGraph.Apply | src/core/states.py:108-117 | messages are appended, other returned fields overwrite, and missing ones are kept |
| RetrievalGraph.RephraseRequest | src/core/graphs/retrieval_graph.py:81-92 | the request exists exactly when there is a last message and the discarded history of the two before it formats; its system part always says there were no previous messages, and its user part is the last message |
| RetrievalGraph.ClearedDocs | src/core/graphs/retrieval_graph.py:102 | `delete` exactly when documents were held, otherwise `[]` |
| RetrievalGraph.RephraseQuery | src/core/graphs/retrieval_graph.py:59-119 | the query is the model's answer, blank or not, whenever the request builds and the model answers, and `general search` when either fails; documents are cleared either way |
| RetrievalGraph.Retrieve | src/core/graphs/retrieval_graph.py:125-168 | a blank query gives no documents; otherwise the retriever's documents, or none on failure |
| RetrievalGraph.BlankQuerySkipsRetriever | src/core/graphs/retrieval_graph.py:133-135 | a blank query never consults the retriever |
| RetrievalGraph.Context | src/core/graphs/retrieval_graph.py:196-198 | no documents give an empty context, others are formatted; the `delete` marker raises |
| RetrievalGraph.Respond | src/core/graphs/retrieval_graph.py:174-247 | exactly one new message, with the query and documents reset and the summary untouched |
| RetrievalGraph.RespondAnswer | src/core/graphs/retrieval_graph.py:174-247 | the message is the model's answer exactly when the context formats, there is a last message, the model answers and printing the sources does not raise, and the apology otherwise |
| RetrievalGraph.ExtendPrompt | src/core/graphs/retrieval_graph.py:276-281 | the extension prompt opens with its head and quotes the existing summary right after it |
| RetrievalGraph.SummaryRequest | src/core/graphs/retrieval_graph.py:268-294 | the create prompt exactly when there is no summary, otherwise the extension prompt; the last six messages at most, as a suffix of the conversation |
| RetrievalGraph.SummarizeConversation | src/core/graphs/retrieval_graph.py:253-309 | the summary is the model's answer, or the old summary on failure |
| RetrievalGraph.ShouldSummarize | src/core/graphs/retrieval_graph.py:315-330 | summarize exactly when the message count is a multiple of 6 |
| RetrievalGraph.RetrievedKeepsHistory | src/core/graphs/retrieval_graph.py:59-172 | `rephrase_query` and `retrieve` leave the messages and the summary unchanged |
| RetrievalGraph.RespondThenSummary | src/core/graphs/retrieval_graph.py:358-361 | after `respond` and the optional summary there is one more message, the old ones kept, query and documents cleared, and the summary kept unless the length is a multiple of 6 |
| RetrievalGraph.RunShape | src/core/graphs/retrieval_graph.py:358-361 | a turn appends exactly one message, resets query and documents, and changes the summary only on a multiple of 6 |
| RetrievalGraph.RetrieverSeesRephrasedQuery | src/core/graphs/retrieval_graph.py:358-359 | the retriever is asked the rephrased query |
| CoreRetrievalGraph.LastOne | src/core/retrieval_graph.py:74 | `messages[-1:]`: the last message, or nothing |
| CoreRetrievalGraph.QueryRequest | src/core/retrieval_graph.py:72-79 | the prompt builds exactly when the last message and, from three messages on, the two before it have string content; the message part is the formatted last message; the history is the formatted two before it from three messages on, the no-previous text below that |
| CoreRetrievalGraph.GenerateQuery | src/core/retrieval_graph.py:37-86 | the query is the model's answer and the documents are cleared |
| CoreRetrievalGraph.Retrieve | src/core/retrieval_graph.py:89-111 | the documents are the retriever's answer; its failure ends the run |
| CoreRetrievalGraph.PreviousMessages | src/core/retrieval_graph.py:127-133 | the history slice `[-(n % 6):-1]`, which is every message but the last when `n % 6 == 0` |
| CoreRetrievalGraph.Context | src/core/retrieval_graph.py:131 | documents are formatted; the `delete` marker raises |
| CoreRetrievalGraph.RespondRequest | src/core/retrieval_graph.py:128-138 | the request builds exactly when the last message, the documents and (from six messages on) `PreviousMessages` all format; its parts are the formatted last message, the formatted documents, the no-previous text below six messages or the formatted `PreviousMessages`, and the summary; the `delete` marker fails |
| CoreRetrievalGraph.Respond | src/core/retrieval_graph.py:114-149 | a successful `respond` adds one message, with the query and documents reset and the summary untouched |
| CoreRetrievalGraph.RespondAnswer | src/core/retrieval_graph.py:114-149 | `respond` succeeds only when its request forms, the model answers and printing the sources does not raise, and then its one message is the model's answer; with a formed request it fails only when the model fails or the sources raise |
| CoreRetrievalGraph.SummarizeConversation | src/core/retrieval_graph.py:152-195 | the summary is the model's answer to the shared summary request with this pipeline's prompt wording; its failure ends the run |
| CoreRetrievalGraph.ShouldSummarize | src/core/retrieval_graph.py:197-202 | summarize exactly when the message count is a multiple of 6 |
| CoreRetrievalGraph.Retrieved | src/core/retrieval_graph.py:261-262 | the first two nodes keep messages and summary |
| CoreRetrievalGraph.Responded | src/core/retrieval_graph.py:263 | responding follows a successful retrieval |
| CoreRetrievalGraph.Run | src/core/retrieval_graph.py:261-264 | a successful run passed through every node |
| CoreRetrievalGraph.RespondedShape | src/core/retrieval_graph.py:114-149 | after `respond` one message has been appended, the query and documents are reset and the summary is unchanged |
| CoreRetrievalGraph.RunShape | src/core/retrieval_graph.py:261-264 | a successful turn appends one message, resets query and documents, and changes the summary only on a multiple of 6 |
| CoreRetrievalGraph.RespondSeesRetrieved | src/core/retrieval_graph.py:262-263 | `respond` sees the documents retrieved for the generated query |
| ReportGraph.Apply | src/core/states.py:136-145 | `report` goes through `add_sections`; returned fields overwrite; fields a node does not return are kept |
| ReportGraph.InitialRetrieval | src/core/graphs/report_graph.py:68-135 | the documents retrieved for the last message's text; none when there is no message or the retriever fails |
| ReportGraph.Header | src/core/graphs/report_graph.py:220-222 | `TECHNICAL REPORT` or `GENERIC REPORT`, then the title line |
| ReportGraph.GenerateOutline | src/core/graphs/report_graph.py:138-248 | the model's outline with its header, or the one-section fallback; the section index restarts at 0 |
| ReportGraph.RetrieveForSection | src/core/graphs/report_graph.py:251-331 | the documents for the current outline entry, or none |
| ReportGraph.SynthesizeSection | src/core/graphs/report_graph.py:334-436 | out of range the draft is empty; in range it is the model's text stripped, `Error synthesizing section: ` + the failure, or that prefix + the `IndexError` text when the entry or the last message is missing; so it is stripped or starts with the error prefix |
| ReportGraph.DraftShape | src/core/graphs/report_graph.py:423-434 | a draft is stripped text or starts with the error prefix |
| ReportGraph.SectionOf | src/core/graphs/report_graph.py:439-556 | a section with just its title and content |
| ReportGraph.ReviewSection | src/core/graphs/report_graph.py:439-556 | in range, one section titled after the current entry is appended and the index advances; its content is the review model's reply stripped, `Error reviewing section: ` + the failure, or that prefix + the `IndexError` text when the entry or the last message is missing |
| ReportGraph.ReviewTitleIsEntry | src/core/graphs/report_graph.py:439-556 | the reviewed section's title is the outline entry |
| ReportGraph.ShouldContinue | src/core/graphs/report_graph.py:559-610 | the run ends exactly when the outline is empty or used up |
| ReportGraph.PassContent | src/core/graphs/report_graph.py:251-556 | the section a pass emits holds the review of the draft written from the documents found for its entry |
| ReportGraph.Pass | src/core/graphs/report_graph.py:674-679 | one pass writes one section for the current entry, holding the review of that entry's draft, and advances the index; messages and style are kept |
| ReportGraph.LoopAppendsRemaining | src/core/graphs/report_graph.py:674-679 | the loop writes one section per remaining entry, in outline order, each holding what the pass over its entry writes |
| ReportGraph.LastPass | src/core/graphs/report_graph.py:674-679 | the pass over the last entry ends at the outline's length |
| ReportGraph.LastPassWrote | src/core/graphs/report_graph.py:674-679 | that last pass has written all remaining entries |
| ReportGraph.FirstPassThenRest | src/core/graphs/report_graph.py:674-679 | one pass followed by the rest of the loop writes all remaining entries |
| ReportGraph.RunWritesEveryEntry | src/core/graphs/report_graph.py:674-679 | a run writes exactly one section per outline entry, titled in order, section `k` holding the review of the draft for entry `k`, and stops |
| CoreReportGraph.Apply | src/core/states.py:136-145 | `report` goes through `add_sections`; other returned fields overwrite |
| CoreReportGraph.GenerateOutline | src/core/report_graph.py:36-68 | the model's outline or the one-entry fallback; the index restarts at 0 |
| CoreReportGraph.RetrieveQuery | src/core/report_graph.py:79-83 | the current entry's title and summary, or the last message's text when out of range |
| CoreReportGraph.Retrieve | src/core/report_graph.py:71-92 | the retriever's documents for that query, or none |
| CoreReportGraph.ErrorSection | src/core/report_graph.py:129-136 | on failure, a section titled `Error` carrying the message |
| CoreReportGraph.GenerateSection | src/core/report_graph.py:95-136 | in range, one section is appended (the written one or the error one) and the index advances |
| CoreReportGraph.GenerateSectionAddsOne | src/core/report_graph.py:95-136 | the report grows by exactly one section and the outline is unchanged |
| CoreReportGraph.ShouldContinue | src/core/report_graph.py:139-144 | the run ends exactly when the outline is empty or used up |
| CoreReportGraph.Pass | src/core/report_graph.py:158-162 | one pass appends one section and advances the index |
| CoreReportGraph.LoopWritesRemaining | src/core/report_graph.py:158-162 | the loop appends one section per remaining entry |
| CoreReportGraph.RunWritesEveryEntry | src/core/report_graph.py:158-162 | a run appends exactly one section per outline entry and stops |
| AgentReportGraph.RetrieveQuery | src/core/agents/report_graph.py:134-138 | the improved query, or the first pending entry's title and summary |
| AgentReportGraph.LastField | src/core/agents/report_graph.py:163-172 | a field of the last written section, `""` before the first, missing when the section lacks it |
| AgentReportGraph.SectionRequest | src/core/agents/report_graph.py:163-172 | the prompt exists exactly when the last section has a title and a summary |
| AgentReportGraph.ShouldContinue | src/core/agents/report_graph.py:180-184 | the run ends exactly when no entry is left |
| AgentReportGraph.ReportRun.constructor | src/core/agents/states.py:87-99 | the run starts from the messages with everything else empty |
| AgentReportGraph.ReportRun.ImproveQuery | src/core/agents/report_graph.py:42-69 | the query becomes the model's answer text; nothing else changes |
| AgentReportGraph.ReportRun.RetrieveDocs | src/core/agents/report_graph.py:116-145 | the documents become the retriever's answer; nothing else changes |
| AgentReportGraph.ReportRun.GenerateOutline | src/core/agents/report_graph.py:71-113 | the outline becomes the model's entries; nothing else changes |
| AgentReportGraph.ReportRun.GenerateSection | src/core/agents/report_graph.py:148-177 | `pop(0)` removes the first entry (an empty list raises) and one section is appended for it |
| AgentReportGraph.ReportRun.Run | src/core/agents/report_graph.py:194-199 | a run writes one section per planned entry, in order, and consumes the outline |
| AgentReportGraph.ImprovedQuery | src/core/agents/report_graph.py:42-69 | the improved query exists exactly when the model answers |
| AgentReportGraph.Plan | src/core/agents/report_graph.py:194-199 | a plan exists only when the query improvement and the retrieval for the improved query both succeed |
| AgentReportGraph.EmptyOutlineFails | src/core/agents/report_graph.py:162 | an outline model that returns no entries makes the run fail, since the first `pop(0)` raises |
| IndexGraph.SourceOnly | src/core/graphs/index_graph.py:123 | the first chunk's metadata is exactly its source |
| IndexGraph.FileChunksCases | src/core/graphs/index_graph.py:99-131 | a file yields its chunks with the first relabelled to its source alone and the rest unchanged, or nothing when the parser is remote, the load fails or there are no chunks |
| IndexGraph.ParsedSnoc | src/core/graphs/index_graph.py:99-131 | files are processed one after another |
| IndexGraph.ParsedAppend | src/core/graphs/index_graph.py:99-131 | the chunks of two file lists are concatenated |
| IndexGraph.SkippedFile | src/core/graphs/index_graph.py:129-131 | a file that fails to load contributes nothing and the others are unaffected |
| IndexGraph.RemoteParsesNothing | src/core/graphs/index_graph.py:104-111 | with a remote host no file is parsed |
| IndexGraph.ParsePdfs | src/core/graphs/index_graph.py:28-138 | fails exactly when the path is no directory; otherwise the chunks of the new files, in order |
| IndexGraph.AddBatches | src/core/graphs/index_graph.py:203-210 | all batches are added, or the run stops at the first failing batch |
| IndexGraph.IndexDocs | src/core/graphs/index_graph.py:144-217 | on success every chunk was added in batches of 20 and the documents are cleared with `delete` |
| IndexGraph.ShouldIndex | src/core/graphs/index_graph.py:220-253 | the run ends exactly when there are no documents |
| IndexGraph.AsItems | src/core/graphs/index_graph.py:134 | the documents are handed to the reducer as they are |
| IndexGraph.Run | src/core/graphs/index_graph.py:297-298 | a successful run added exactly the new files' chunks and left no documents |
| CoreIndexGraph.Loaded | src/core/index_graph.py:41-43 | the pages load exactly when every file loads |
| CoreIndexGraph.LoadedAt | src/core/index_graph.py:41-43 | each file's pages sit in order in the loaded list |
| CoreIndexGraph.ParsePdfs | src/core/index_graph.py:18-47 | a missing directory fails; otherwise the split pages of the new files |
| CoreIndexGraph.IndexDocs | src/core/index_graph.py:50-74 | all chunks are added in batches of 100, or the run stops at the first failure |
| CoreIndexGraph.Run | src/core/index_graph.py:77-89 | a successful run added exactly the split pages of the new files |
| Story.ItemGet | src/utils/converter.py:178 | `item.get(key, default)` |
| Story.DefaultTitle | src/utils/converter.py:178 | the default title starts with `Section ` |
| Converter.Delete | src/utils/converter.py:105 | deleting an absent token changes nothing |
| Converter.FilteredFromAbsent | src/utils/converter.py:104-105 | tokens that do not occur are skipped without effect |
| Converter.Filter | src/utils/converter.py:99-107 | empty input is returned unchanged |
| Converter.NothingToFilter | src/utils/converter.py:99-107 | without ignored tokens the text is only stripped |
| Converter.FilterIgnoredTokens | src/utils/converter.py:99-107 | the loop removes each token in list order, then strips |
| Converter.CleanThinkTags | src/utils/converter.py:109-115 | cleaning never lengthens the text |
| Converter.NoAngleOnlyStripped | src/utils/converter.py:109-115 | text without `<` is only stripped |
| Converter.LeadingThinkBlockCleaned | src/utils/converter.py:109-115 | a leading think block is removed |
| Converter.ReplaceChar | src/utils/converter.py:129-131 | replacing an absent character changes nothing |
| Converter.ReplaceCharIsReplace | src/utils/converter.py:129-131 | single-character replacement agrees with `str.replace` |
| Converter.ReplaceCharAppend | src/utils/converter.py:129-131 | replacement distributes over concatenation |
| Converter.EscapeChars | src/utils/converter.py:129-131 | escaped text has no `<` or `>` |
| Converter.UnescapeEscapeChars | src/utils/converter.py:129-131 | unescaping gives the text back |
| Converter.ReplacementsEscape | src/utils/converter.py:129-131 | the three chained replacements, `&` first, escape each character once |
| Converter.Escape | src/utils/converter.py:129-131 | the escape step leaves no `<` or `>`, and unescapes back to its input |
| Converter.WrappedChar | src/utils/converter.py:52-58 | a character absent from the body of a think block comes from its tags |
| Converter.WrappedAngleAbsent | src/utils/converter.py:52-58 | the other angle tokens do not occur in a think block |
| Converter.DeleteOpen | src/utils/converter.py:105 | deleting `<think>` leaves body and closing tag |
| Converter.DeleteClose | src/utils/converter.py:105 | deleting `</think>` leaves the body |
| Converter.LeadingTokensAbsent | src/utils/converter.py:52-55 | in a think block whose body has no `<`, `a` or `h`, none of the tokens listed before `<think>` occurs |
| Converter.TrailingTokensAbsent | src/utils/converter.py:55-57 | a body without `<` holds none of the tokens listed after `</think>` |
| Converter.FilterUnwraps | src/utils/converter.py:99-107 | for a body without `<`, `a` or `h`, filtering the think block leaves the body, stripped |
| Converter.ThinkBodySurvives | src/utils/converter.py:122-126 | for a body without `<`, `a` or `h`: because the filter runs first, the think body reaches the PDF, while cleaning alone would have removed the whole block |
| Converter.PreparedIsEscaped | src/utils/converter.py:122-131 | the text handed to the conversions has no raw `<` or `>`, and unescapes to the filtered and cleaned text |
| Converter.MarkdownToReportlab | src/utils/converter.py:117-137 | empty input gives `""`; otherwise filter, clean, escape, then the conversions |
| Converter.SectionBody | src/utils/converter.py:184-194 | a section's paragraphs, headed by the default title when there is none |
| Converter.SectionFlowables | src/utils/converter.py:177-198 | an item with neither title nor content adds nothing; a spacer follows exactly the kept items before the last |
| Converter.SectionsSnoc | src/utils/converter.py:177-198 | items are rendered one after another |
| Converter.AppendSection | src/utils/converter.py:178-198 | one loop iteration appends that item's flowables |
| Converter.GeneratePdf | src/utils/converter.py:172-198 | the story is the header followed by each item's flowables |
| Converter.SpacersBetweenSections | src/utils/converter.py:197-198 | at most one spacer between consecutive items, exactly `n - 1` when none is skipped |
| Converter.SpacersAtMost | src/utils/converter.py:197-198 | no more spacers than items shown before the last one |
| Converter.SpacersExact | src/utils/converter.py:197-198 | with no section skipped, one spacer per item except the last |
| DictToPdf.SpaceRun | src/resources/dict_to_pdf.py:116 | the longest whitespace prefix |
| DictToPdf.MatchLength | src/resources/dict_to_pdf.py:116 | the `\n\s*\n` match at a position: greedy, ending at the run's last newline |
| DictToPdf.NewlineNotReached | src/resources/dict_to_pdf.py:116 | after a match no further newline follows in the same blank run |
| DictToPdf.RunTail | src/resources/dict_to_pdf.py:116 | the tail of a run past its last newline has no newline |
| DictToPdf.AfterNewline | src/resources/dict_to_pdf.py:116 | after a substitution the text does not start a new blank run |
| DictToPdf.CollapseKeepsNoLeadingNewline | src/resources/dict_to_pdf.py:116 | collapsing keeps that property |
| DictToPdf.CollapseBlankFree | src/resources/dict_to_pdf.py:116 | collapsed text has no blank run longer than one empty line |
| DictToPdf.BlankFreeNoBlankRun | src/resources/dict_to_pdf.py:116 | the recursive and positional forms of that agree |
| DictToPdf.CollapseNoBlankRun | src/resources/dict_to_pdf.py:116 | no two newlines in collapsed text are separated only by whitespace and another newline |
| DictToPdf.CollapseKeepsVisible | src/resources/dict_to_pdf.py:116 | collapsing removes only whitespace |
| DictToPdf.CollapseWithoutNewline | src/resources/dict_to_pdf.py:116 | text without a newline is unchanged |
| DictToPdf.NoBlankRunSlice | src/resources/dict_to_pdf.py:117 | a slice of such text is such text |
| DictToPdf.StripKeepsNoBlankRun | src/resources/dict_to_pdf.py:117 | stripping keeps it |
| DictToPdf.CleanContentShape | src/resources/dict_to_pdf.py:102-119 | cleaned content has no oversized blank run, is stripped, and keeps every non-space character that is outside a think block |
| DictToPdf.LeadingThinkBlockDeleted | src/resources/dict_to_pdf.py:113 | a leading lower-case think block is removed |
| DictToPdf.UpperCaseBlockKept | src/resources/dict_to_pdf.py:113 | the match is case-sensitive: `<THINK>` is kept |
| DictToPdf.OnlyFirstAngleKept | src/resources/dict_to_pdf.py:113 | a text whose only `<` is its first character and does not open a `<think>` tag is left unchanged by the substitution |
| DictToPdf.ContentParagraphs | src/resources/dict_to_pdf.py:86-89 | content yields only content paragraphs and small spacers |
| DictToPdf.ContentParagraphsSnoc | src/resources/dict_to_pdf.py:86-89 | pieces are rendered one after another |
| DictToPdf.AppendContent | src/resources/dict_to_pdf.py:83-89 | the paragraph loop appends each non-blank piece, stripped, with a spacer |
| DictToPdf.AppendItem | src/resources/dict_to_pdf.py:68-95 | one loop iteration appends that item's flowables |
| DictToPdf.DictToPdf | src/resources/dict_to_pdf.py:65-95 | the story is every item's flowables in order |
| DictToPdf.OnlyTitleAndContentShown | src/resources/dict_to_pdf.py:69-74 | only the title and the content of an item affect the story |
| DictToPdf.SummaryNeverShown | src/resources/dict_to_pdf.py:70-80 | changing the summaries changes nothing |
| DictToPdf.ItemSeparators | src/resources/dict_to_pdf.py:91-95 | one separator, and a page break if asked, after each item but the last |
| DictToPdf.Separators | src/resources/dict_to_pdf.py:91-95 | the count of separators and page breaks over a prefix |
| DictToPdf.ReportSeparators | src/resources/dict_to_pdf.py:91-95 | exactly `n - 1` separators, and `n - 1` page breaks when asked |
| DictToPdf.ItemTitle | src/resources/dict_to_pdf.py:69-78 | each item contributes exactly one title, its own or `Section i+1` |
| DictToPdf.TitleCount | src/resources/dict_to_pdf.py:67-78 | one title per item |
| DictToPdf.TitleAt | src/resources/dict_to_pdf.py:67-78 | the k-th title is item k's |
| DictToPdf.SectionTitles | src/resources/dict_to_pdf.py:67-78 | the titles are the items' titles, in order |
| DictToPdf.ContentParagraphsClean | src/resources/dict_to_pdf.py:85-88 | no content paragraph contains a blank line |
| DictToPdf.ItemClean | src/resources/dict_to_pdf.py:83-88 | an item's paragraphs are clean |
| DictToPdf.ContentParagraphsAreClean | src/resources/dict_to_pdf.py:67-95 | every paragraph of the story is clean |
| DictToPdf.ContentParagraphsVisible | src/resources/dict_to_pdf.py:85-88 | splitting and stripping lose no visible character |
| DictToPdf.ContentKept | src/resources/dict_to_pdf.py:71-88 | the rendered content keeps every non-space character outside think blocks, in order |
| StreamWorker.Step | src/ui/widgets/chat_widget.py:35-59 | the notice flag never goes down and only rises together with the notice; outside a block the buffer is empty; output is held back only inside a block |
| StreamWorker.StepCases | src/ui/widgets/chat_widget.py:35-59 | the worker's reaction to a token in each case: pass through, first notice, hidden block, block closed, later block entered silently |
| StreamWorker.Kept | src/ui/widgets/chat_widget.py:31-32 | the notice and silent steps add nothing to the response |
| StreamWorker.NoticeAtMostOnce | src/ui/widgets/chat_widget.py:42-44 | `Thinking...` is emitted at most once per worker |
| StreamWorker.PlainStreamPassesThrough | src/ui/widgets/chat_widget.py:25-33 | without think tags the response is the tokens concatenated |
| StreamWorker.OpenBlockHidesEverything | src/ui/widgets/chat_widget.py:46-54 | inside an unclosed block nothing is emitted |
| StreamWorker.Worker.constructor | src/ui/widgets/chat_widget.py:17-23 | a new worker is outside a block, with an empty buffer, no notice shown |
| StreamWorker.Worker.ProcessToken | src/ui/widgets/chat_widget.py:35-59 | the fields and result move as `Step` says |
| StreamWorker.Worker.Run | src/ui/widgets/chat_widget.py:25-33 | the accumulated response is what `Stream` computes |
| Validation.WordRun | src/parser/validation.py:152 | the longest run of word characters |
| Validation.Tokens | src/parser/validation.py:152 | `\b\w+\b` matches are non-empty word runs |
| Validation.WordCharsOfRun | src/parser/validation.py:152 | word characters of a run followed by the rest |
| Validation.TokensCoverWordChars | src/parser/validation.py:152 | the tokens together are exactly the text's word characters |
| Validation.KeepWords | src/parser/validation.py:155 | kept words are longer than 2 and not all digits |
| Validation.KeepWordsMembers | src/parser/validation.py:155 | a word is kept exactly when it is a token and passes the filter |
| Validation.Words | src/parser/validation.py:149-157 | every word is a token that passes the filter |
| Validation.WordsIgnoreCase | src/parser/validation.py:152 | words ignore case and come out lower-case |
| Validation.TokensOfLower | src/parser/validation.py:152 | tokens of lower-case text are lower-case |
| Validation.Overlap | src/parser/validation.py:164-168 | the ratio is between 0 and 1 |
| Validation.OverlapFull | src/parser/validation.py:164-168 | 1 exactly when every extracted word appears (and both are empty or the extracted set is not) |
| Validation.OverlapNone | src/parser/validation.py:164-168 | 0 exactly when there is nothing to match against or nothing matches |
| Validation.WordOverlap | src/parser/validation.py:159-168 | word overlap is between 0 and 1 |
| Validation.MissingImportant | src/parser/validation.py:222-235 | reported words are longer than 4 and no stopword |
| Validation.MissingShrinks | src/parser/validation.py:222-235 | more LLM words never report more missing words; covering all extracted words reports none |
| Validation.MissingReported | src/parser/validation.py:222-235 | every important missing word is reported |
| Validation.TerminatorRun | src/parser/validation.py:209 | a run of `.!?` |
| Validation.FirstTerminator | src/parser/validation.py:209 | the first `.!?` position |
| Validation.Pieces | src/parser/validation.py:209 | `re.split` gives at least one piece, none holding a terminator |
| Validation.StripNoTerminator | src/parser/validation.py:210 | stripping keeps that |
| Validation.KeepSentences | src/parser/validation.py:210 | kept sentences are non-empty and stripped |
| Validation.Sentences | src/parser/validation.py:206-211 | sentences are non-empty, stripped and free of terminators |
| Validation.SentencesWithoutTerminator | src/parser/validation.py:206-211 | text without terminators is one sentence, or none when blank |
| Validation.MatchCount | src/parser/validation.py:192-202 | no more matches than sentences |
| Validation.SentenceOverlap | src/parser/validation.py:182-204 | the ratio is between 0 and 1 |
| Validation.SimilarRatio | src/parser/validation.py:200 | the quotient of shared words over the sentence's words exceeds 0.6 exactly when ten times the shared count exceeds six times the word count |
| Validation.QuotientAbove | src/parser/validation.py:200 | `k / n > 0.6` exactly when `10 * k > 6 * n`, for any positive `n` |
| Validation.FindSimilar | src/parser/validation.py:198-202 | the inner loop finds a match exactly when some LLM sentence shares over 60% of the words |
| Validation.CountMatches | src/parser/validation.py:192-202 | the counting loop finds how many sentences with at least three distinct words have a similar sentence in the LLM output (`MatchCount`) |
| Validation.CalculateSentenceOverlap | src/parser/validation.py:182-204 | the result is `SentenceOverlap`: 1 when both texts have no sentences, 0 when only the extracted text has none, otherwise the fraction of extracted sentences that are matched |
| Validation.ShortSentencesNeverMatch | src/parser/validation.py:195-196 | sentences with fewer than 3 words never count |
| Validation.LongCount | src/parser/validation.py:194-196 | at most one per sentence |
| Validation.SelfMatch | src/parser/validation.py:192-202 | when every sentence is present, every long one matches |
| Validation.SentenceOverlapOfSelf | src/parser/validation.py:182-204 | a text against itself scores the share of its long sentences, not 1 |
| Validation.ExtraContentRatio | src/parser/validation.py:237-243 | the ratio is never negative |
| Validation.NoExtraContent | src/parser/validation.py:237-243 | 0 exactly when the LLM text is no longer |
| Validation.ValidationScore | src/parser/validation.py:245-264 | the score is capped at 1 |
| Validation.ScoreBounds | src/parser/validation.py:245-264 | for ratios in [0,1] the score is the weighted sum (0.4, 0.2, 0.3, 0.1), not negative, and 1 for perfect ratios |
| Validation.ScoreMonotone | src/parser/validation.py:245-264 | better ratios never lower the score |
| Validation.ValidatePage | src/parser/validation.py:48-105 | passed exactly when the score reaches the threshold; the word counts are those of `_get_words`; the word and sentence overlaps, missing words and extra-content ratio are those of their own definitions, and the score is `ValidationScore` of the four measures |
| Validation.PageScoreBounds | src/parser/validation.py:48-105 | with the two difflib measures in [0, 1], a page's score is in [0, 1] and is the 0.4/0.2/0.3/0.1 sum of its measures |
| Validation.PageScoreMonotone | src/parser/validation.py:48-105 | for the same texts, better difflib measures never lower a page's score and never turn a pass into a fail |
| Validation.CheckedPages | src/parser/validation.py:287-288 | only pages that exist in the PDF are validated |
| Validation.DocumentResults | src/parser/validation.py:286-291 | one result per validated page |
| Validation.ValidateDocument | src/parser/validation.py:282-300 | the page loop's results, or the division by zero when there are none |
| Validation.CheckPages | src/parser/validation.py:287-291 | the loop checks the first pages, as many as both the PDF and the transcription have, each once and in order |
| Validation.ValidateDocumentFails | src/parser/validation.py:287-295 | there are no results exactly when there are no pages on either side |
| Parser.NewPipeline | src/parser/parser.py:123-138 | the pipeline keeps the threshold and the validation switch |
| Parser.PipelineMetadata | src/parser/parser.py:142-148 | the pipeline's metadata has no per-run fields |
| Parser.PageErrors | src/parser/parser.py:181-185 | at most one error per page |
| Parser.ErrorsAndSuccesses | src/parser/parser.py:169-204 | errors and successes add up to the page count; no errors exactly when every page succeeds |
| Parser.PassedCount | src/parser/parser.py:209 | at most every result passes |
| Parser.Summary | src/parser/parser.py:208-218 | the summary counts every result and its pass rate is between 0 and 1 |
| Parser.PipelineError | src/parser/parser.py:228-234 | an unexpected error gives no pages and one `Pipeline error` message |
| Parser.Pages | src/parser/parser.py:169-185 | one markdown entry per page |
| Parser.ProcessPages | src/parser/parser.py:164-185 | the page loop gives each page's markdown or placeholder, and the errors in page order |
| Parser.ConvertPdf | src/parser/parser.py:150-234 | `convert_pdf` computes `Convert` |
| Parser.MissingFile | src/parser/parser.py:154-160 | a missing file gives no pages, one `PDF file not found` error, and the pipeline's metadata |
| Parser.OpenFailure | src/parser/parser.py:228-234 | a PDF that cannot be opened gives the pipeline error |
| Parser.ValidationNeverEmpty | src/parser/parser.py:189-191 | validating the converted pages of a non-empty PDF gives one result per page, so the division cannot fail |
| Parser.PagesKept | src/parser/parser.py:169-185 | each page's markdown, or its placeholder naming the page, in order |
| Parser.PageAccounting | src/parser/parser.py:199-226 | success exactly when every page converted; errors absent exactly on success; total, successful and source are recorded |
| Parser.ValidationWhenEnabled | src/parser/parser.py:187-218 | validation results exist exactly when enabled and there are pages, one per page, and the summary is recorded |
| Parser.PageErrorNamesPage | src/parser/parser.py:182 | the error message names the page number `i + 1` and ends with the exception text |
| Parser.PageFileName | src/parser/parser.py:247 | page files are named `page_NNN.md` |
| Parser.PageFileNumber | src/parser/parser.py:247 | the digits of the name read back as the page number |
| Parser.PageFileNamesDistinct | src/parser/parser.py:247 | different pages get different file names |
| Parser.SaveResults | src/parser/parser.py:236-299 | the files saved are the page files, the combined document, the metadata, and the validation report when there are results |
| Parser.SavedFileName | src/parser/parser.py:246-294 | file k is page k's, or one of the three fixed names |
| Parser.SavedNamesDistinct | src/parser/parser.py:246-294 | no two saved files share a name |
| VisionLoader.NewLoader | src/parser/vision_loader.py:10-28 | the constructor fails exactly when the suffix is not `.pdf` in any case; otherwise a 400-dpi pipeline without validation |
| VisionLoader.DefaultLoader | src/parser/vision_loader.py:14 | the mode defaults to `page` |
| VisionLoader.Load | src/parser/vision_loader.py:31-35 | one document in single mode, one per page in page mode |
| VisionLoader.UpperCaseSuffixAccepted | src/parser/vision_loader.py:17 | `.PDF` is accepted |
| VisionLoader.SingleModeOneDocument | src/parser/vision_loader.py:33-34 | the single document joins the pages with a blank line |
| VisionLoader.PageModeOnePerPage | src/parser/vision_loader.py:35 | one document per PDF page, in page order |
| VisionLoader.ModesAgree | src/parser/vision_loader.py:31-35 | the single document is the page documents joined |
| VisionLoader.MissingFileLoads | src/parser/vision_loader.py:31-35 | a missing file loads as no pages |
| ImageLoader.NameTokens | src/parser/loaders/image_loader.py:37-38 | the stem's tokens, at least one, none holding `_` |
| ImageLoader.IndexOf | src/parser/loaders/image_loader.py:41 | `parts.index` is the first occurrence, or raises when absent |
| ImageLoader.ParseInt | src/parser/loaders/image_loader.py:42 | `int()` succeeds only on non-blank text |
| ImageLoader.PageNumber | src/parser/loaders/image_loader.py:40-45 | a page number requires a `page` token |
| ImageLoader.PageNumberOfFigureName | src/parser/loaders/image_loader.py:40-45 | `_page_100_Figure_3` has page 100 |
| ImageLoader.Label | src/parser/loaders/image_loader.py:59-60 | a label exists exactly when type and number are both non-empty, as `type number` |
| ImageLoader.ParseImageMetadata | src/parser/loaders/image_loader.py:32-64 | the token loop computes the label and source `Metadata` describes |
| ImageLoader.StartingTokenStops | src/parser/loaders/image_loader.py:48-52 | a token starting with a figure word ends the scan, with the last token as number |
| ImageLoader.QuietTokensKeep | src/parser/loaders/image_loader.py:46-58 | tokens that mention no figure word change nothing |
| ImageLoader.NoFigureNoLabel | src/parser/loaders/image_loader.py:46-60 | without a figure word there is no label |
| ImageLoader.LastMentionWins | src/parser/loaders/image_loader.py:53-58 | the last token that mentions a figure word sets the label |
| ImageLoader.FigureExample | src/parser/loaders/image_loader.py:32-64 | `_page_100_Figure_3` is labelled `Figure 3` |
| ChatApp.CreateThread | main.py:30-45 | a blank name is refused; otherwise the stripped name with the last id plus one, or 1 |
| ChatApp.NewIdFresh | main.py:36 | with increasing ids the new id is unused |
| ChatApp.FindThread | main.py:76-82 | the first thread with the name, or none when no thread has it |
| ChatApp.Session.constructor | main.py:16 | no thread is selected at start |
| ChatApp.Session.LoadThreadMessages | main.py:64-97 | the selection and the pairing loop give `Selection` |
| ChatApp.HistoryKeepsMessages | main.py:88-95 | the pairs hold every question and every answer in order, and no pair is empty |
| ChatApp.HistoryNoEmptyLine | main.py:88-95 | every line of the history has a question or an answer |
| ChatApp.QuestionThenAnswer | main.py:89-93 | an answer right after a question completes its pair |
| ChatApp.SecondAnswerStandsAlone | main.py:94-95 | a second answer opens a pair of its own |
| ChatApp.UnknownThreadClears | main.py:80-82 | an unknown name clears the selection |

## Left out

- Language models, embeddings, the vector store, Ollama and Chroma are foreign services. Each is an oracle parameter returning `Ok` or `Fail`.
- LangGraph's own machinery (`StateGraph`, compilation, streaming, the SQLite checkpointer, the recursion limit) is library code. The edge lists are transition functions.
- The `add_messages` reducer's merging by message id is not modelled. A node's new messages are appended.
- Logging and `print` calls are not modelled. The `format_sources` call that both `respond` nodes print is modelled only for whether it raises: a document whose `source` entry is not text makes `Path` raise, which turns the turn into the apology (`RetrievalGraph.Respond`) or ends it (`CoreRetrievalGraph.Respond`).
- RecursiveCharacterTextSplitter is left out, with its chunk size and overlap. Splitting is an oracle, or part of `load`.
- PyMuPDF rendering, PIL, base64 and ReportLab's drawing are left out. ReportLab objects are the abstract `Flowable` datatype.
- The ImageLoader captioning model (`ImageLoader.load`) and `iterate_image_caption` are left out.
- DictToPdf.DictToPdf does not model the output filename, `doc.build` or the returned absolute path.
- Converter.GeneratePdf: the same. The forwarding `dict_to_pdf` at the end of `src/utils/converter.py` is not modelled.
- Converter.MarkdownToReportlab: the markdown regex conversions (`_CONVERSIONS`) are the parameter `markup`. Only the filter, clean and escape steps before them are modelled.
- Text.Lower, Text.Upper and Validation.Words handle ASCII letters and digits only. Python's `lower()`, `\w` and `isdigit()` also act on other Unicode characters.
- ImageLoader.ParseInt accepts only ASCII digits. Python's `int()` also accepts other Unicode digits and `_` separators.
- Floating point: all ratios and scores are exact `real` numbers, so rounding is not modelled. The `> 0.6` sentence test is an exact comparison.
- Validation.ValidatePage takes the character overlap and semantic similarity (difflib's `SequenceMatcher`) as inputs. Its texts are already cleaned: `_extract_clean_text` and `_clean_llm_output` are regex pipelines that are not modelled. The result's `metadata` dict is not modelled either.
- Parser.SaveResults models the saved files' names, the page contents and the combined document. The contents of the two JSON files are not modelled.
- The filesystem itself is not modelled: path normalisation, `mkdir`, writing files, `exists`. A path's existence and its glob are inputs.
- Retrieval.Collection.GetExistingDocuments returns a set. The order of `list(set)` in Python is unspecified and not modelled.
- The `Configuration` class shown lacks `outline_model`, `report_model`, `number_of_parts` and `vision_model`, which the report graphs and the remote parser read. Reading them raises. In the report graphs that failure is folded into the node's oracle outcome.
- Docs.EscapeChar and Docs.PyRepr: `repr` escapes every character for which `str.isprintable()` is false. Above U+00FF it writes those as `\uXXXX` or `\UXXXXXXXX` (the line and paragraph separators U+2028 and U+2029, the ideographic space U+3000, format characters, unassigned code points and more). The model has no Unicode category table and leaves every character above U+00FF raw, so `FormatDoc` and `MetaAttrs` differ from `_format_doc` on metadata holding such characters. `MetaValue` also has only string, integer and `None` values: a float, boolean or list in the metadata cannot be represented.
- States.ReportState: the dataclass in `src/core/states.py` declares no `number_of_parts`, `writing_style`, `report_header` or `raw_section_content` field. Yet the nodes of `src/core/graphs/report_graph.py` read the first two and the draft inside their `try` blocks, and return the last three as updates. As written, those reads raise, so `generate_outline` always takes its fallback and `review_section` always writes its error text. The returned keys also have no channel, so the draft never reaches the review. The model adds the four fields, so these failures are not reproduced: the draft is carried to the review (`ReportGraph.PassContent`). This is the same folding as for the missing `Configuration` fields.
- Retrieval: `src/core/retrieval.py` imports `VECTORSTORE_DIR` and `get_chroma_client` from `src/resources/utils.py`, which defines neither. As written, that module fails at import, and so does every graph module that imports it. The model treats the vector store as working and leaves out that import failure.
- AgentReportGraph: `generate_outline` in `src/core/agents/report_graph.py` reads `configuration.outline_system_prompt`, a field the `Configuration` class lacks. That read raises before the model is called, and the model folds the raise into the outline oracle's `Fail`, which ends the run, as for the other missing `Configuration` fields.
- `from_runnable_config` always returns an object, so the `if not configuration` guards never fire and are not modelled.
- CoreIndexGraph.IndexDocs uses `make_document_batch`'s default batch size of 100. The source imports `remove_duplicates` and `make_document_batch` from `src/resources/utils.py`, which does not define them; the model uses the versions in `src/utils/utils.py`.
- AgentReportGraph.SectionRequest: the prompt reads `state.report[-1]`, the last section written so far, rather than the entry being written. The model keeps that reading and states only the prompt's existence and title.
- ImageLoader.PageNumber is computed and then thrown away, as in the source. The returned metadata holds only the figure label and the source.
- VisionLoader: `lazy_load`, `aload` and `alazy_load` only return a "not implemented yet" string and are not modelled.
- The `main.py` database module (`src/core/database.py`) writes threads to a table named `chats` but lists them from `threads`. It is I/O and is not modelled. The list of threads is an input.
- The rest of `main.py` is not modelled: `respond_to_message`, `delete_current_thread`, `get_threads` and the Gradio layout. So are the Qt `ChatWidget` and the QThread plumbing.
- `ya_format_messages` and `format_sources_markdown` in `src/utils/utils.py` are left out. The latter is `format_sources` without taking the stem.
- Also left out of `src/utils/utils.py`:
  - `make_document_batch_generator` (a generator with the same batches);
  - `is_connected` (a Streamlit session lookup);
  - `get_connection` and `get_chroma_client` (I/O);
  - `ensure_path` (filesystem).
- `get_connection` and `aget_connection` in `src/resources/utils.py` are left out as I/O. So are its `load_embedding_model` and `load_chat_model` (model constructors).
- ImageLoader.ParseInt: the contract states only that blank text never parses. Its value is checked on one concrete page number, in `ImageLoader.PageNumberOfFigureName`.
- `src/core/retrieval_graph.py` imports `RetrievalState` from `src/core/agents/states.py` (line 23) and `format_sources` from `src/resources/utils.py` (line 25); neither module defines that name, so the module fails at import as written. `CoreRetrievalGraph` uses the state of `src/core/states.py` and the `format_sources` of `src/utils/utils.py` in their place. `format_docs`, `format_messages` and `get_message_text` in `src/resources/utils.py` are the same code as in `src/utils/utils.py`.
- DbSchema.InsertCheckpoint, DbSchema.InsertWrite and DbSchema.DeleteThread enforce the declared foreign keys and `ON DELETE CASCADE`. SQLite checks these only on a connection with `PRAGMA foreign_keys=ON`, which nothing in the repository sets. On a default connection dangling rows are accepted and deletes do not cascade; that behaviour is not modelled.
- Text.TagAt and Text.FindTag fold ASCII letters only. With `re.IGNORECASE` Python also matches `İ` (U+0130) and `ı` (U+0131) to `i` and the Kelvin sign (U+212A) to `k`, so a tag spelled with those is a match in Python and not in the model.
- Validation.Tokens: the tokens are stated to be word runs that cover the text's word characters. That each token is a maximal run is not stated separately.

=== FILE: agent_report_graph.dfy ===
/** The report pipeline of `src/core/agents/report_graph.py`. Its nodes have
    no failure handling: any failed external call ends the run. The outline
    is a list consumed in place: each `generate_section` pops its first entry
    and turns it into the next report section, and the loop ends when the
    list is empty. */
module AgentReportGraph {
  import opened Text
  import opened Docs
  import opened AgentStates
  import Utils
  import States

  datatype Oracles = Oracles(
    // the query improver: the conversation to an improved query message
    improve: seq<Message> -> Outcome<Message>,
    // the retriever: a query to the documents it finds
    retrieve: string -> Outcome<seq<Document>>,
    // the outline model: the query and the formatted context
    outline: (string, string) -> Outcome<seq<OutlineEntry>>,
    // the section writer: the conversation, the last written section's
    // title and summary, the previous sections' text, the formatted context
    section: (seq<Message>, string, string, string, string) -> Outcome<Message>)

  /** What `retrieve` searches for: the query while there is no outline,
      otherwise the first entry's title and summary on two lines. */
  function RetrieveQuery(query: string, outlines: seq<OutlineEntry>): (q: string)
    ensures outlines == [] ==> q == query
    ensures outlines != [] ==> q == outlines[0].title + "\n" + outlines[0].summary
  {
    if outlines == [] then query else Join("\n", [outlines[0].title, outlines[0].summary])
  }

  /** `section.get(key)` of the last section, or "" when there is none;
      `None` where the key is missing and the lookup raises. */
  function LastField(report: seq<Section>, key: string): (r: Option<string>)
    ensures report == [] ==> r == Some("")
    ensures report != [] ==> (r.Some? <==> key in report[|report| - 1])
  {
    if report == [] then Some("")
    else if key in report[|report| - 1] then Some(report[|report| - 1][key])
    else None
  }

  /** The request `generate_section` sends to the writer. It is built from
      the conversation, the report so far and the documents; the entry being
      written is not part of it (the title and summary sent are those of the
      last section already written). */
  function SectionRequest(messages: seq<Message>, report: seq<Section>, docs: seq<Document>): (r: Option<(seq<Message>, string, string, string, string)>)
    ensures r.Some? <==> LastField(report, "title").Some? && LastField(report, "summary").Some?
    ensures r.Some? ==> r.value.0 == messages && r.value.1 == LastField(report, "title").value
  {
    match LastField(report, "title")
    case None => None
    case Some(t) =>
      match LastField(report, "summary")
      case None => None
      case Some(sm) => Some((messages, t, sm, States.PreviousSections(report), Utils.FormatDocs(docs)))
  }

  datatype Route = Retrieve | End

  /** `should_continue`. */
  function ShouldContinue(outlines: seq<OutlineEntry>): (r: Route)
    ensures r == End <==> |outlines| == 0
  {
    if |outlines| == 0 then End else Retrieve
  }

  /** A failed external call, or `pop` on an empty outline. */
  const POP_EMPTY := "pop from empty list"

  /** The state of one run, updated node by node. */
  class ReportRun {
    var messages: seq<Message>
    var query: string
    var outlines: seq<OutlineEntry>
    var report: seq<Section>
    var retrievedDocs: seq<Document>

    /** The state a run starts from: the conversation and defaults. */
    constructor (messages: seq<Message>)
      ensures this.messages == messages && query == [] && outlines == [] && report == [] && retrievedDocs == []
    {
      this.messages := messages;
      query := [];
      outlines := [];
      report := [];
      retrievedDocs := [];
    }

    /** `improve_query`: the query becomes the improved message's text. */
    method ImproveQuery(o: Oracles) returns (r: Outcome<()>)
      modifies this
      ensures r.Ok? <==> o.improve(old(messages)).Ok?
      ensures r.Ok? ==> query == MessageText(o.improve(old(messages)).value)
      ensures r.Fail? ==> query == old(query)
      ensures messages == old(messages) && outlines == old(outlines) && report == old(report) && retrievedDocs == old(retrievedDocs)
    {
      match o.improve(messages)
      case Fail(e) => return Fail(e);
      case Ok(m) =>
        query := MessageText(m);
        return Ok(());
    }

    /** `retrieve` (also the initial retrieval): the documents found for
      `RetrieveQuery`. */
    method RetrieveDocs(o: Oracles) returns (r: Outcome<()>)
      modifies this
      ensures r.Ok? <==> o.retrieve(RetrieveQuery(old(query), old(outlines))).Ok?
      ensures r.Ok? ==> retrievedDocs == o.retrieve(RetrieveQuery(old(query), old(outlines))).value
      ensures r.Fail? ==> retrievedDocs == old(retrievedDocs)
      ensures messages == old(messages) && query == old(query) && outlines == old(outlines) && report == old(report)
    {
      match o.retrieve(RetrieveQuery(query, outlines))
      case Fail(e) => return Fail(e);
      case Ok(docs) =>
        retrievedDocs := docs;
        return Ok(());
    }

    /** `generate_outline`: the outline becomes the generated entries. */
    method GenerateOutline(o: Oracles) returns (r: Outcome<()>)
      modifies this
      ensures r.Ok? <==> o.outline(old(query), Utils.FormatDocs(old(retrievedDocs))).Ok?
      ensures r.Ok? ==> outlines == o.outline(old(query), Utils.FormatDocs(old(retrievedDocs))).value
      ensures r.Fail? ==> outlines == old(outlines)
      ensures messages == old(messages) && query == old(query) && report == old(report) && retrievedDocs == old(retrievedDocs)
    {
      match o.outline(query, Utils.FormatDocs(retrievedDocs))
      case Fail(e) => return Fail(e);
      case Ok(entries) =>
        outlines := entries;
        return Ok(());
    }

    /** `generate_section`: pops the first entry in place, then appends it,
      with the written content, to the report. An empty outline makes the
      pop raise; a failure after the pop loses the entry. */
    method GenerateSection(o: Oracles) returns (r: Outcome<()>)
      modifies this
      ensures old(outlines) == [] ==> r == Fail(POP_EMPTY) && outlines == [] && report == old(report)
      ensures old(outlines) != [] ==> outlines == old(outlines)[1..]
      ensures r.Ok? ==>
        var req := SectionRequest(old(messages), old(report), old(retrievedDocs));
        req.Some? && o.section(req.value.0, req.value.1, req.value.2, req.value.3, req.value.4).Ok?
        && report == AddSections(old(report), [States.Written(old(outlines)[0].title, old(outlines)[0].summary, MessageText(o.section(req.value.0, req.value.1, req.value.2, req.value.3, req.value.4).value))])
      ensures r.Fail? ==> report == old(report)
      ensures messages == old(messages) && query == old(query) && retrievedDocs == old(retrievedDocs)
    {
      if outlines == [] {
        return Fail(POP_EMPTY);
      }
      var current := outlines[0];
      outlines := outlines[1..];
      var req := SectionRequest(messages, report, retrievedDocs);
      if req.None? {
        return Fail("KeyError");
      }
      var (m, t, sm, prev, ctx) := req.value;
      match o.section(m, t, sm, prev, ctx)
      case Fail(e) => return Fail(e);
      case Ok(resp) =>
        report := AddSections(report, [States.Written(current.title, current.summary, MessageText(resp))]);
        return Ok(());
    }

    /** The whole graph: `improve_query`, the initial retrieval,
      `generate_outline`, then `retrieve` and `generate_section` until the
      outline is used up. A successful run has planned the outline `Plan`
      describes, written one section per entry of it, in order, and
      consumed it. */
    method Run(o: Oracles) returns (r: Outcome<seq<OutlineEntry>>)
      modifies this
      ensures messages == old(messages)
      ensures Plan(o, old(messages), old(outlines)).Fail? ==> r.Fail?
      ensures r.Ok? ==> Plan(o, old(messages), old(outlines)) == Ok(r.value)
      ensures r.Ok? ==> r.value != [] && outlines == [] && WroteEntries(report, old(report), r.value, |r.value|)
    {
      var step := ImproveQuery(o);
      if step.Fail? { return Fail(step.msg); }
      step := RetrieveDocs(o);
      if step.Fail? { return Fail(step.msg); }
      step := GenerateOutline(o);
      if step.Fail? { return Fail(step.msg); }
      var entries := outlines;
      ghost var n := 0;
      while true
        invariant messages == old(messages)
        invariant Plan(o, old(messages), old(outlines)) == Ok(entries)
        invariant 0 <= n <= |entries| && outlines == entries[n..]
        invariant WroteEntries(report, old(report), entries, n)
        decreases |outlines|
      {
        step := RetrieveDocs(o);
        if step.Fail? { return Fail(step.msg); }
        ghost var before := report;
        ghost var pending := outlines;
        step := GenerateSection(o);
        if step.Fail? { return Fail(step.msg); }
        assert pending[0] == entries[n] && report[|before|..] == [States.Written(entries[n].title, entries[n].summary, report[|before|]["content"])];
        WroteOneMore(before, report, old(report), entries, n);
        n := n + 1;
        if ShouldContinue(outlines) == End {
          return Ok(entries);
        }
      }
    }
  }

  /** The query `improve_query` produces for a conversation. */
  function ImprovedQuery(o: Oracles, messages: seq<Message>): (r: Outcome<string>)
    ensures r.Ok? <==> o.improve(messages).Ok?
  {
    match o.improve(messages)
    case Fail(e) => Fail(e)
    case Ok(m) => Ok(MessageText(m))
  }

  /** The outline the first three nodes produce: the improved query, the
      documents retrieved for it (for the first outline entry when the run
      starts with one), and the outline generated from both. */
  function Plan(o: Oracles, messages: seq<Message>, outlines: seq<OutlineEntry>): (r: Outcome<seq<OutlineEntry>>)
    ensures r.Ok? ==>
      ImprovedQuery(o, messages).Ok? && o.retrieve(RetrieveQuery(ImprovedQuery(o, messages).value, outlines)).Ok?
  {
    match ImprovedQuery(o, messages)
    case Fail(e) => Fail(e)
    case Ok(q) =>
      match o.retrieve(RetrieveQuery(q, outlines))
      case Fail(e) => Fail(e)
      case Ok(docs) => o.outline(q, Utils.FormatDocs(docs))
  }

  /** `report` is `start` followed by one section per entry of
      `entries[..n]`, carrying that entry's title and summary. */
  ghost predicate WroteEntries(report: seq<Section>, start: seq<Section>, entries: seq<OutlineEntry>, n: nat)
  {
    n <= |entries| && |report| == |start| + n && report[..|start|] == start
    && forall j :: |start| <= j < |report| ==>
         "title" in report[j] && report[j]["title"] == entries[j - |start|].title
         && "summary" in report[j] && report[j]["summary"] == entries[j - |start|].summary
  }

  /** Appending the section written for entry `n` extends `WroteEntries`. */
  lemma WroteOneMore(before: seq<Section>, after: seq<Section>, start: seq<Section>, entries: seq<OutlineEntry>, n: nat)
    requires WroteEntries(before, start, entries, n) && n < |entries|
    requires |after| == |before| + 1 && after[..|before|] == before
    requires "title" in after[|before|] && after[|before|]["title"] == entries[n].title
    requires "summary" in after[|before|] && after[|before|]["summary"] == entries[n].summary
    ensures WroteEntries(after, start, entries, n + 1)
  {
    assert after[..|start|] == before[..|start|];
    forall j | |start| <= j < |after|
      ensures "title" in after[j] && after[j]["title"] == entries[j - |start|].title
      ensures "summary" in after[j] && after[j]["summary"] == entries[j - |start|].summary
    {
      if j < |before| {
        assert after[j] == before[j];
      }
    }
  }

  /** A run whose outline comes back empty fails on the first pop. */
  method EmptyOutlineFails(o: Oracles, messages: seq<Message>) returns (r: Outcome<seq<OutlineEntry>>)
    requires forall q, c :: o.outline(q, c) == Ok([])
    ensures r.Fail?
  {
    var run := new ReportRun(messages);
    r := run.Run(o);
  }
}

=== FILE: agent_states.dfy ===
/** The graph states of the agents pipelines (`src/core/agents/states.py`). */
module AgentStates {
  import opened Docs
  import States

  type Section = States.Section

  /** `add_sections`: the existing sections followed by the new ones. */
  function AddSections(existing: seq<Section>, update: seq<Section>): (r: seq<Section>)
    ensures |r| == |existing| + |update|
    ensures r[..|existing|] == existing
    ensures r[|existing|..] == update
  {
    existing + update
  }

  /** This reducer and the one of `src/core/states.py` agree on lists. */
  lemma AgreesWithListReducer(existing: seq<Section>, update: seq<Section>)
    ensures AddSections(existing, update) == States.AddSections(existing, States.ManySections(update))
  {
  }

  /** `State`: the conversation, generated queries and retrieved documents. */
  datatype State = State(messages: seq<Message>, enhancedQuery: seq<string>, retrievedDocs: seq<Document>)

  function NewState(messages: seq<Message>): (s: State)
    ensures s.messages == messages && s.enhancedQuery == [] && s.retrievedDocs == []
  {
    State(messages, [], [])
  }

  /** An outline entry of the agents report pipeline. */
  datatype OutlineEntry = OutlineEntry(title: string, summary: string)

  /** `StateReport`. The query's declared default is an empty list, which
      this model writes as the empty string. */
  datatype StateReport = StateReport(
    messages: seq<Message>,
    query: string,
    outlines: seq<OutlineEntry>,
    report: seq<Section>,
    retrievedDocs: seq<Document>)

  function NewStateReport(messages: seq<Message>): (s: StateReport)
    ensures s.messages == messages && s.query == [] && s.outlines == [] && s.report == [] && s.retrievedDocs == []
  {
    StateReport(messages, [], [], [], [])
  }
}

=== FILE: chat_app.dfy ===
/** The thread handling of the chat front end (`main.py`): creating a
    thread and loading a thread's messages as question/answer pairs. The
    thread list and the messages are what the database and the
    application answer; the interface widgets are left out. */
module ChatApp {
  import opened Text

  /** A row of the thread list: its id and its name. */
  datatype Thread = Thread(id: int, name: string)

  datatype Message = Human(content: string) | Ai(content: string) | Other(content: string)

  /** A line of the chat history: the question and the answer, either of
      which may be missing. */
  datatype Pair = Pair(question: Option<string>, answer: Option<string>)

  // ---------------------------------------------------------------- create_thread

  /** `create_thread`: a name that is empty once stripped is refused and no
      thread is created; otherwise the new thread takes the stripped name
      and the id after the last listed thread's, or 1. */
  function CreateThread(name: string, existing: seq<Thread>): (r: Outcome<Thread>)
    ensures r.Fail? <==> Strip(name) == []
    ensures r.Ok? ==> r.value.name == Strip(name) && Strip(r.value.name) == r.value.name
    ensures r.Ok? ==> r.value.id == if existing == [] then 1 else existing[|existing| - 1].id + 1
  {
    StripIdempotent(name);
    if Strip(name) == [] then Fail("empty name")
    else
      var newId := if existing != [] then existing[|existing| - 1].id + 1 else 1;
      Ok(Thread(newId, Strip(name)))
  }

  /** When the listed ids increase, the new id is taken by no listed thread. */
  lemma NewIdFresh(name: string, existing: seq<Thread>)
    requires forall i, j :: 0 <= i < j < |existing| ==> existing[i].id < existing[j].id
    requires Strip(name) != []
    ensures forall t :: t in existing ==> t.id != CreateThread(name, existing).value.id
  {
  }

  // ---------------------------------------------------------------- load_thread_messages

  /** The prefix the thread selector shows before each name. */
  const THREAD_PREFIX := "\U{1F4AC} "

  /** The id of the first listed thread called `name`. */
  function FindThread(threads: seq<Thread>, name: string): (r: Option<int>)
    ensures r.None? <==> forall i :: 0 <= i < |threads| ==> threads[i].name != name
    ensures r.Some? ==> exists i :: (0 <= i < |threads| && threads[i] == Thread(r.value, name)
                                     && forall j :: 0 <= j < i ==> threads[j].name != name)
  {
    if threads == [] then None
    else if threads[0].name == name then Some(threads[0].id)
    else
      var r := FindThread(threads[1..], name);
      if r.Some? then
        ghost var i :| 0 <= i < |threads[1..]| && threads[1..][i] == Thread(r.value, name)
          && forall j :: 0 <= j < i ==> threads[1..][j].name != name;
        assert threads[i + 1] == Thread(r.value, name);
        r
      else r
  }

  /** The chat history the pairing loop builds from `messages`: a human
      message opens a pair; an AI message answers the last pair when it
      has no answer yet and otherwise stands alone; other messages are
      skipped. */
  function History(messages: seq<Message>): seq<Pair>
  {
    if messages == [] then []
    else
      var h := History(messages[..|messages| - 1]);
      match messages[|messages| - 1]
      case Human(c) => h + [Pair(Some(c), None)]
      case Ai(c) =>
        if h != [] && h[|h| - 1].answer.None? then h[..|h| - 1] + [Pair(h[|h| - 1].question, Some(c))]
        else h + [Pair(None, Some(c))]
      case Other(_) => h
  }

  /** The thread selected and the history shown for a selection. */
  function Selection(selected: string, threads: seq<Thread>, messagesOf: int -> seq<Message>): (Option<int>, seq<Pair>)
  {
    if selected == [] then (None, [])
    else match FindThread(threads, ReplaceAll(selected, THREAD_PREFIX, ""))
      case None => (None, [])
      case Some(id) => (Some(id), History(messagesOf(id)))
  }

  /** The front end's global state. */
  class Session {
    var currentThreadId: Option<int>

    constructor()
      ensures currentThreadId == None
    {
      currentThreadId := None;
    }

    /** `load_thread_messages`: selects the thread named by `selected`
        and returns its history; an empty selection or an unknown name
        clears the selection and shows nothing. */
    method LoadThreadMessages(selected: string, threads: seq<Thread>, messagesOf: int -> seq<Message>)
      returns (chatHistory: seq<Pair>)
      modifies this
      ensures (currentThreadId, chatHistory) == Selection(selected, threads, messagesOf)
    {
      if selected == [] {
        currentThreadId := None;
        return [];
      }
      var threadName := ReplaceAll(selected, THREAD_PREFIX, "");
      var found := FindThread(threads, threadName);
      if found.None? {
        currentThreadId := None;
        return [];
      }
      currentThreadId := found;
      var messages := messagesOf(found.value);
      chatHistory := [];
      for i := 0 to |messages|
        invariant chatHistory == History(messages[..i])
      {
        assert messages[..i + 1][..i] == messages[..i];
        match messages[i]
        case Human(c) =>
          chatHistory := chatHistory + [Pair(Some(c), None)];
        case Ai(c) =>
          if chatHistory != [] && chatHistory[|chatHistory| - 1].answer.None? {
            chatHistory := chatHistory[|chatHistory| - 1 := Pair(chatHistory[|chatHistory| - 1].question, Some(c))];
            assert chatHistory == History(messages[..i])[..|chatHistory| - 1] + [chatHistory[|chatHistory| - 1]];
          } else {
            chatHistory := chatHistory + [Pair(None, Some(c))];
          }
        case Other(_) =>
      }
      assert messages[..|messages|] == messages;
    }
  }

  // ---------------------------------------------------------------- properties of the pairing

  /** The human messages' contents, in order. */
  function Questions(messages: seq<Message>): seq<string>
  {
    if messages == [] then []
    else Questions(messages[..|messages| - 1]) + (if messages[|messages| - 1].Human? then [messages[|messages| - 1].content] else [])
  }

  /** The AI messages' contents, in order. */
  function Answers(messages: seq<Message>): seq<string>
  {
    if messages == [] then []
    else Answers(messages[..|messages| - 1]) + (if messages[|messages| - 1].Ai? then [messages[|messages| - 1].content] else [])
  }

  /** The questions present in a history, in order. */
  function AskedIn(h: seq<Pair>): seq<string>
  {
    if h == [] then [] else AskedIn(h[..|h| - 1]) + (if h[|h| - 1].question.Some? then [h[|h| - 1].question.value] else [])
  }

  /** The answers present in a history, in order. */
  function AnsweredIn(h: seq<Pair>): seq<string>
  {
    if h == [] then [] else AnsweredIn(h[..|h| - 1]) + (if h[|h| - 1].answer.Some? then [h[|h| - 1].answer.value] else [])
  }

  lemma AskedInSnoc(h: seq<Pair>, p: Pair)
    ensures AskedIn(h + [p]) == AskedIn(h) + (if p.question.Some? then [p.question.value] else [])
    ensures AnsweredIn(h + [p]) == AnsweredIn(h) + (if p.answer.Some? then [p.answer.value] else [])
  {
    assert (h + [p])[..|h|] == h;
  }

  /** Answering the last, unanswered line keeps the questions and adds
      the answer at the end. */
  lemma AnswerLast(h: seq<Pair>, c: string)
    requires h != [] && h[|h| - 1].answer.None?
    ensures var h' := h[..|h| - 1] + [Pair(h[|h| - 1].question, Some(c))];
      AskedIn(h') == AskedIn(h) && AnsweredIn(h') == AnsweredIn(h) + [c]
  {
    var last := h[|h| - 1];
    assert h == h[..|h| - 1] + [last];
    AskedInSnoc(h[..|h| - 1], last);
    AskedInSnoc(h[..|h| - 1], Pair(last.question, Some(c)));
  }

  /** The pairing loses nothing and reorders nothing: the history holds
      every human message as a question and every AI message as an
      answer, each in the order they were sent, and no line is empty. */
  lemma {:induction false} HistoryKeepsMessages(messages: seq<Message>)
    ensures AskedIn(History(messages)) == Questions(messages)
    ensures AnsweredIn(History(messages)) == Answers(messages)
    ensures forall k :: 0 <= k < |History(messages)| ==> History(messages)[k] != Pair(None, None)
  {
    if messages != [] {
      var init := messages[..|messages| - 1];
      var h := History(init);
      HistoryKeepsMessages(init);
      HistoryNoEmptyLine(messages);
      match messages[|messages| - 1]
      case Human(c) =>
        assert History(messages) == h + [Pair(Some(c), None)];
        AskedInSnoc(h, Pair(Some(c), None));
      case Ai(c) =>
        if h != [] && h[|h| - 1].answer.None? {
          assert History(messages) == h[..|h| - 1] + [Pair(h[|h| - 1].question, Some(c))];
          AnswerLast(h, c);
        } else {
          assert History(messages) == h + [Pair(None, Some(c))];
          AskedInSnoc(h, Pair(None, Some(c)));
        }
      case Other(_) =>
        assert History(messages) == h;
    }
  }

  /** No line of the history is empty. */
  lemma {:induction false} HistoryNoEmptyLine(messages: seq<Message>)
    ensures forall k :: 0 <= k < |History(messages)| ==> History(messages)[k] != Pair(None, None)
  {
    if messages != [] {
      HistoryNoEmptyLine(messages[..|messages| - 1]);
    }
  }

  /** A question answered straight away forms one line. */
  lemma QuestionThenAnswer(messages: seq<Message>, q: string, a: string)
    ensures History(messages + [Human(q), Ai(a)]) == History(messages) + [Pair(Some(q), Some(a))]
  {
    var m1 := messages + [Human(q)];
    assert messages + [Human(q), Ai(a)] == m1 + [Ai(a)];
    assert (m1 + [Ai(a)])[..|m1|] == m1;
    assert m1[..|messages|] == messages;
    var h := History(messages) + [Pair(Some(q), None)];
    assert History(m1) == h;
    assert h[..|h| - 1] == History(messages);
  }

  /** Two AI messages in a row: the second opens a line of its own. */
  lemma SecondAnswerStandsAlone(messages: seq<Message>, q: string, a: string, b: string)
    ensures History(messages + [Human(q), Ai(a), Ai(b)]) == History(messages) + [Pair(Some(q), Some(a)), Pair(None, Some(b))]
  {
    QuestionThenAnswer(messages, q, a);
    var m2 := messages + [Human(q), Ai(a)];
    assert (m2 + [Ai(b)])[..|m2|] == m2;
    assert messages + [Human(q), Ai(a), Ai(b)] == m2 + [Ai(b)];
  }

  /** An unknown thread name clears the selection and shows nothing. */
  lemma UnknownThreadClears(selected: string, threads: seq<Thread>, messagesOf: int -> seq<Message>)
    requires forall i :: 0 <= i < |threads| ==> threads[i].name != ReplaceAll(selected, THREAD_PREFIX, "")
    ensures Selection(selected, threads, messagesOf) == (None, [])
  {
  }
}

=== FILE: configuration.dfy ===
/** The run configuration of the pipelines (`src/core/configuration.py`):
    six named settings with defaults, their dictionary view, and the
    construction from a runnable config's "configurable" entries. */
module Configuration {
  import opened Text

  /** A setting's value; `None` stands for Python's `None` (the Ollama host
      when `OLLAMA_HOST` is unset). */
  type Value = Option<string>

  datatype Config = Config(
    embeddingModel: Value,
    responseSystemPrompt: Value,
    responseModel: Value,
    querySystemPrompt: Value,
    queryModel: Value,
    ollamaHost: Value)

  /** What the defaults depend on outside this file: the two prompt texts
      of the prompts module and the `OLLAMA_HOST` environment variable. */
  datatype Environment = Environment(responsePrompt: string, queryPrompt: string, ollamaHostVar: Option<string>)

  const FIELDS: seq<string> := ["embedding_model", "response_system_prompt", "response_model",
                                "query_system_prompt", "query_model", "ollama_host"]

  /** `Configuration()`: every setting at its default. */
  function Defaults(env: Environment): (c: Config)
    ensures c.embeddingModel == Some("nomic-embed-text")
    ensures c.responseModel == Some("qwen3:0.6b") && c.queryModel == Some("qwen3:0.6b")
    ensures c.ollamaHost == env.ollamaHostVar
  {
    Config(Some("nomic-embed-text"), Some(env.responsePrompt), Some("qwen3:0.6b"),
           Some(env.queryPrompt), Some("qwen3:0.6b"), env.ollamaHostVar)
  }

  /** The value of the setting named `name`. */
  function Field(c: Config, name: string): Value
    requires name in FIELDS
  {
    if name == "embedding_model" then c.embeddingModel
    else if name == "response_system_prompt" then c.responseSystemPrompt
    else if name == "response_model" then c.responseModel
    else if name == "query_system_prompt" then c.querySystemPrompt
    else if name == "query_model" then c.queryModel
    else c.ollamaHost
  }

  /** `asdict`: each declared setting name mapped to its value. */
  function AsDict(c: Config): (d: map<string, Value>)
    ensures d.Keys == set f | f in FIELDS
    ensures forall f :: f in FIELDS ==> d[f] == Field(c, f)
  {
    map f | f in FIELDS :: Field(c, f)
  }

  /** The value a constructor keyword argument gives a setting, or its default. */
  function Pick(configurable: map<string, Value>, name: string, default: Value): Value
  {
    if name in configurable then configurable[name] else default
  }

  /** `from_runnable_config`: the entries of "configurable" (missing or empty
      meaning none) whose keys name a setting override that setting's
      default; every other entry is dropped. */
  function FromRunnableConfig(configurable: Option<map<string, Value>>, env: Environment): (c: Config)
    ensures forall f :: f in FIELDS ==>
      Field(c, f) == if configurable.Some? && f in configurable.value then configurable.value[f] else Field(Defaults(env), f)
  {
    var given := if configurable.Some? then configurable.value else map[];
    var d := Defaults(env);
    Config(
      Pick(given, "embedding_model", d.embeddingModel),
      Pick(given, "response_system_prompt", d.responseSystemPrompt),
      Pick(given, "response_model", d.responseModel),
      Pick(given, "query_system_prompt", d.querySystemPrompt),
      Pick(given, "query_model", d.queryModel),
      Pick(given, "ollama_host", d.ollamaHost))
  }

  /** No "configurable" entries, or none that name a setting, give the defaults. */
  lemma NoOverridesGiveDefaults(configurable: Option<map<string, Value>>, env: Environment)
    requires configurable.None? || forall k :: k in configurable.value ==> k !in FIELDS
    ensures FromRunnableConfig(configurable, env) == Defaults(env)
  {
    var c := FromRunnableConfig(configurable, env);
    var d := Defaults(env);
    assert forall f :: f in FIELDS ==> Field(c, f) == Field(d, f);
    assert Field(c, "embedding_model") == Field(d, "embedding_model");
    assert Field(c, "response_system_prompt") == Field(d, "response_system_prompt");
    assert Field(c, "response_model") == Field(d, "response_model");
    assert Field(c, "query_system_prompt") == Field(d, "query_system_prompt");
    assert Field(c, "query_model") == Field(d, "query_model");
    assert Field(c, "ollama_host") == Field(d, "ollama_host");
  }

  /** Entries whose keys name no setting are dropped: only the restriction
      of "configurable" to the setting names matters. */
  lemma UnknownKeysDropped(configurable: map<string, Value>, env: Environment)
    ensures FromRunnableConfig(Some(configurable), env)
         == FromRunnableConfig(Some(map k | k in configurable && k in FIELDS :: configurable[k]), env)
  {
  }

  /** Building a configuration from another one's dictionary gives it back. */
  lemma AsDictRoundTrip(c: Config, env: Environment)
    ensures FromRunnableConfig(Some(AsDict(c)), env) == c
  {
    var r := FromRunnableConfig(Some(AsDict(c)), env);
    assert Field(r, "embedding_model") == Field(c, "embedding_model");
    assert Field(r, "response_system_prompt") == Field(c, "response_system_prompt");
    assert Field(r, "response_model") == Field(c, "response_model");
    assert Field(r, "query_system_prompt") == Field(c, "query_system_prompt");
    assert Field(r, "query_model") == Field(c, "query_model");
    assert Field(r, "ollama_host") == Field(c, "ollama_host");
  }

  /** `load_config`: a configuration built with no arguments, which is the
      one a runnable config without "configurable" entries yields. */
  function LoadConfig(env: Environment): (c: Config)
    ensures c == FromRunnableConfig(None, env)
    ensures c.embeddingModel == Some("nomic-embed-text")
  {
    NoOverridesGiveDefaults(None, env);
    Defaults(env)
  }
}

=== FILE: converter.dfy ===
/** The Markdown-to-PDF converter of `src/utils/converter.py`: each title
    and content string goes through token filtering, think-block removal
    and XML escaping before the Markdown conversions, and `generate_pdf`
    lays the sections out one after the other. */
module Converter {
  import opened Text
  import opened Story

  /** Model-vocabulary tokens deleted from every text, in this order. */
  const IGNORED_TOKENS: seq<string> := [
    "<|endoftext|>", "<|startoftext|>", "<pad>", "<unk>", "<s>", "</s>",
    "<mask>", "<cls>", "<sep>", "<|im_start|>", "<|im_end|>", "<text>",
    "assistant", "human", "<think>", "</think>", "</message>", "</messages>",
    "<message>", "<messages>", "</endofturn>", "<endofturn>", "<startofturn>",
    "<startofturn>"]

  /** `text.replace(tok, "")`; deleting the empty string changes nothing. */
  function Delete(text: string, tok: string): (r: string)
    ensures !Contains(text, tok) ==> r == text
  {
    if tok == [] then text
    else
      ReplaceAbsent(text, tok, "");
      ReplaceAll(text, tok, "")
  }

  /** `text` with every occurrence of each ignored token from the `i`-th
      on deleted, one token after the other. */
  function FilteredFrom(text: string, i: nat): string
    decreases |IGNORED_TOKENS| - i
  {
    if i >= |IGNORED_TOKENS| then text else FilteredFrom(Delete(text, IGNORED_TOKENS[i]), i + 1)
  }

  /** Tokens that do not occur are not deleted: skipping the `i`-th to the
      `j`-th token changes nothing when none of them occurs. */
  lemma {:induction false} FilteredFromAbsent(text: string, i: nat, j: nat)
    requires i <= j <= |IGNORED_TOKENS|
    requires forall k :: i <= k < j ==> !Contains(text, IGNORED_TOKENS[k])
    ensures FilteredFrom(text, i) == FilteredFrom(text, j)
    decreases j - i
  {
    if i < j {
      FilteredFromAbsent(text, i + 1, j);
    }
  }

  /** `_filter_ignored_tokens`: an empty text is returned as it is;
      otherwise every ignored token is deleted and the result stripped. */
  function Filter(text: string): (r: string)
    ensures text == "" ==> r == ""
  {
    if text == "" then text else Strip(FilteredFrom(text, 0))
  }

  /** A text holding none of the ignored tokens is only stripped. */
  lemma NothingToFilter(text: string)
    requires forall k :: 0 <= k < |IGNORED_TOKENS| ==> !Contains(text, IGNORED_TOKENS[k])
    ensures Filter(text) == Strip(text)
  {
    FilteredFromAbsent(text, 0, |IGNORED_TOKENS|);
  }

  /** `_filter_ignored_tokens`, the loop over the token list. */
  method FilterIgnoredTokens(text: string) returns (r: string)
    ensures r == Filter(text)
  {
    if text == "" {
      return text;
    }
    r := text;
    for i := 0 to |IGNORED_TOKENS|
      invariant FilteredFrom(r, i) == FilteredFrom(text, 0)
    {
      r := Delete(r, IGNORED_TOKENS[i]);
    }
    r := Strip(r);
  }

  /** `_clean_think_tags`: every `<think>...</think>` block is deleted, the
      tags matched in any case and the body across lines, and the result
      stripped. */
  function CleanThinkTags(text: string): (r: string)
    ensures |r| <= |text|
  {
    Strip(RemoveBlocks(text, true, true))
  }

  /** Text without a '<' holds no think block and is only stripped. */
  lemma NoAngleOnlyStripped(text: string)
    requires '<' !in text
    ensures CleanThinkTags(text) == Strip(text)
  {
    NoAngleNoBlock(text, true, true);
    NoBlockUnchanged(text, true, true);
  }

  /** A leading think block, in any letter case, is deleted with its body. */
  lemma LeadingThinkBlockCleaned(t: string, a: string)
    requires '<' !in t
    ensures CleanThinkTags(OPEN + t + CLOSE + a) == Strip(RemoveBlocks(a, true, true))
  {
    LeadingBlockDropped(t, a, true, true);
  }

  // ---------------------------------------------------------------- escaping

  /** `s` with each `c` replaced by `rep`, character by character. */
  function ReplaceChar(s: string, c: char, rep: string): (r: string)
    ensures c !in s ==> r == s
  {
    if s == [] then [] else (if s[0] == c then rep else [s[0]]) + ReplaceChar(s[1..], c, rep)
  }

  lemma {:induction false} ReplaceCharIsReplace(s: string, c: char, rep: string)
    ensures ReplaceAll(s, [c], rep) == ReplaceChar(s, c, rep)
  {
    if s != [] {
      ReplaceCharIsReplace(s[1..], c, rep);
      assert s[..1] == [c] <==> s[0] == c;
    }
  }

  lemma {:induction false} ReplaceCharAppend(a: string, b: string, c: char, rep: string)
    ensures ReplaceChar(a + b, c, rep) == ReplaceChar(a, c, rep) + ReplaceChar(b, c, rep)
  {
    if a == [] {
      assert a + b == b;
    } else {
      assert (a + b)[1..] == a[1..] + b;
      ReplaceCharAppend(a[1..], b, c, rep);
    }
  }

  /** The XML entity of one character: `&`, `<` and `>` are escaped. */
  function EscapeChar(x: char): string
  {
    if x == '&' then "&amp;" else if x == '<' then "&lt;" else if x == '>' then "&gt;" else [x]
  }

  /** Escaping as a character-by-character translation. */
  function EscapeChars(s: string): (r: string)
    ensures '<' !in r && '>' !in r
  {
    if s == [] then [] else EscapeChar(s[0]) + EscapeChars(s[1..])
  }

  /** Reading the entities back. */
  function Unescape(s: string): string
  {
    if s == [] then []
    else if |s| >= 5 && s[..5] == "&amp;" then "&" + Unescape(s[5..])
    else if |s| >= 4 && s[..4] == "&lt;" then "<" + Unescape(s[4..])
    else if |s| >= 4 && s[..4] == "&gt;" then ">" + Unescape(s[4..])
    else [s[0]] + Unescape(s[1..])
  }

  lemma {:induction false} UnescapeEscapeChars(s: string)
    ensures Unescape(EscapeChars(s)) == s
  {
    if s != [] {
      UnescapeEscapeChars(s[1..]);
      var e := EscapeChars(s[1..]);
      var x := s[0];
      assert EscapeChars(s) == EscapeChar(x) + e;
      var w := EscapeChar(x) + e;
      if x == '&' {
        assert w[..5] == "&amp;" && w[5..] == e;
        assert Unescape(w) == "&" + Unescape(e);
      } else if x == '<' {
        assert w[..4] == "&lt;" && w[4..] == e;
        assert !(|w| >= 5 && w[..5] == "&amp;") by { assert w[1] == 'l'; }
        assert Unescape(w) == "<" + Unescape(e);
      } else if x == '>' {
        assert w[..4] == "&gt;" && w[4..] == e;
        assert !(|w| >= 5 && w[..5] == "&amp;") by { assert w[1] == 'g'; }
        assert w[..4] != "&lt;" by { assert w[1] == 'g'; }
        assert Unescape(w) == ">" + Unescape(e);
      } else {
        assert w[0] == x && w[1..] == e;
        assert |w| >= 5 ==> w[..5][0] == x;
        assert |w| >= 4 ==> w[..4][0] == x;
        assert Unescape(w) == [x] + Unescape(e);
      }
      assert s == [x] + s[1..];
    }
  }

  /** The three replacements, `&` first, amount to escaping each character
      on its own. */
  lemma {:induction false} ReplacementsEscape(s: string)
    ensures ReplaceChar(ReplaceChar(ReplaceChar(s, '&', "&amp;"), '<', "&lt;"), '>', "&gt;") == EscapeChars(s)
  {
    if s != [] {
      var x, rest := s[0], s[1..];
      assert s == [x] + rest;
      var a1, r1 := ReplaceChar([x], '&', "&amp;"), ReplaceChar(rest, '&', "&amp;");
      ReplaceCharAppend([x], rest, '&', "&amp;");
      var a2, r2 := ReplaceChar(a1, '<', "&lt;"), ReplaceChar(r1, '<', "&lt;");
      ReplaceCharAppend(a1, r1, '<', "&lt;");
      ReplaceCharAppend(a2, r2, '>', "&gt;");
      EscapeOne(x);
      ReplacementsEscape(rest);
      assert EscapeChars(s) == EscapeChar(x) + EscapeChars(rest);
    }
  }

  /** The three replacements on one character give its entity. */
  lemma EscapeOne(x: char)
    ensures ReplaceChar(ReplaceChar(ReplaceChar([x], '&', "&amp;"), '<', "&lt;"), '>', "&gt;") == EscapeChar(x)
  {
    assert ReplaceChar([x], '&', "&amp;") == (if x == '&' then "&amp;" else [x]) + ReplaceChar([], '&', "&amp;");
    if x == '<' {
      assert ReplaceChar([x], '<', "&lt;") == "&lt;" + ReplaceChar([], '<', "&lt;");
    } else if x == '>' {
      assert ReplaceChar([x], '>', "&gt;") == "&gt;" + ReplaceChar([], '>', "&gt;");
    }
  }

  /** The escape step of `_markdown_to_reportlab`: `&`, then `<`, then `>`. */
  function Escape(text: string): (r: string)
    ensures r == EscapeChars(text)
    ensures '<' !in r && '>' !in r
    ensures Unescape(r) == text
  {
    var s1 := ReplaceAll(text, "&", "&amp;");
    var s2 := ReplaceAll(s1, "<", "&lt;");
    var s3 := ReplaceAll(s2, ">", "&gt;");
    ReplaceCharIsReplace(text, '&', "&amp;");
    ReplaceCharIsReplace(s1, '<', "&lt;");
    ReplaceCharIsReplace(s2, '>', "&gt;");
    ReplacementsEscape(text);
    UnescapeEscapeChars(text);
    s3
  }

  // ---------------------------------------------------------------- the think block body

  /** Where the characters of a wrapped body can sit: a character the body
      lacks is found only in the tags. */
  lemma WrappedChar(t: string, i: int, ch: char)
    requires ch !in t && 0 <= i < |OPEN + t + CLOSE| && (OPEN + t + CLOSE)[i] == ch
    ensures (i < |OPEN| && OPEN[i] == ch) || (|OPEN| + |t| <= i && CLOSE[i - |OPEN| - |t|] == ch)
  {
  }

  /** A tag-like token whose first three characters are not those of
      either think tag cannot occur in a wrapped body free of '<'. */
  lemma WrappedAngleAbsent(t: string, tok: string)
    requires '<' !in t && |tok| >= 3 && tok[0] == '<' && tok[2] != 'h' && tok[2] != 't'
    ensures !Contains(OPEN + t + CLOSE, tok)
  {
    var s := OPEN + t + CLOSE;
    forall i | 0 <= i <= |s| ensures !IsAt(s, i, tok) {
      if i + |tok| <= |s| {
        assert s[i..i + |tok|][2] == s[i + 2];
        if s[i] == '<' {
          WrappedChar(t, i, '<');
          assert s[i + 2] == if i < |OPEN| then OPEN[2] else CLOSE[2];
        }
      }
    }
  }

  /** Deleting `<think>` from a think block whose body holds no '<'
      removes the opening tag only. */
  lemma DeleteOpen(t: string)
    requires '<' !in t
    ensures Delete(OPEN + t + CLOSE, OPEN) == t + CLOSE
  {
    var s := OPEN + t + CLOSE;
    assert s[..|OPEN|] == OPEN && s[|OPEN|..] == t + CLOSE;
    assert ReplaceAll(s, OPEN, "") == ReplaceAll(t + CLOSE, OPEN, "");
    ReplaceSkip(t, CLOSE, OPEN, "");
    forall i | 0 <= i <= |CLOSE| ensures !IsAt(CLOSE, i, OPEN) {
      if i + |OPEN| <= |CLOSE| {
        assert CLOSE[i..i + |OPEN|][1] == CLOSE[i + 1];
      }
    }
    ReplaceAbsent(CLOSE, OPEN, "");
  }

  /** Deleting `</think>` from a body holding no '<' followed by the tag
      leaves the body. */
  lemma DeleteClose(t: string)
    requires '<' !in t
    ensures Delete(t + CLOSE, CLOSE) == t
  {
    ReplaceSkip(t, CLOSE, CLOSE, "");
    assert ReplaceAll(CLOSE, CLOSE, "") == "" + ReplaceAll([], CLOSE, "");
    assert t + [] == t;
  }

  /** None of the ignored tokens before the think tags occurs in a think
      block whose body holds no '<' and neither of the letters that start
      the plain-word tokens ('a' of "assistant", 'h' of "human"). */
  lemma LeadingTokensAbsent(t: string)
    requires '<' !in t && 'a' !in t && 'h' !in t
    ensures forall k :: 0 <= k < 14 ==> !Contains(OPEN + t + CLOSE, IGNORED_TOKENS[k])
  {
    var s := OPEN + t + CLOSE;
    forall k | 0 <= k < 14 ensures !Contains(s, IGNORED_TOKENS[k]) {
      var tok := IGNORED_TOKENS[k];
      if k == 12 {
        forall i | 0 <= i <= |s| ensures !IsAt(s, i, tok) {
          if i + |tok| <= |s| {
            assert s[i..i + |tok|][0] == s[i];
            if s[i] == 'a' {
              WrappedChar(t, i, 'a');
            }
          }
        }
      } else if k == 13 {
        forall i | 0 <= i <= |s| ensures !IsAt(s, i, tok) {
          if i + |tok| <= |s| {
            assert s[i..i + |tok|][0] == s[i] && s[i..i + |tok|][1] == s[i + 1];
            if s[i] == 'h' {
              WrappedChar(t, i, 'h');
              assert s[i + 1] == 'i';
            }
          }
        }
      } else {
        WrappedAngleAbsent(t, tok);
      }
    }
  }

  /** The ignored tokens after the think tags all start with '<'. */
  lemma TrailingTokensAbsent(t: string)
    requires '<' !in t
    ensures forall k :: 16 <= k < |IGNORED_TOKENS| ==> !Contains(t, IGNORED_TOKENS[k])
  {
    forall k | 16 <= k < |IGNORED_TOKENS| ensures !Contains(t, IGNORED_TOKENS[k]) {
      var tok := IGNORED_TOKENS[k];
      assert tok[0] == '<';
      forall i | 0 <= i <= |t| ensures !IsAt(t, i, tok) {
        if i + |tok| <= |t| {
          assert t[i..i + |tok|][0] == t[i];
        }
      }
    }
  }

  /** Deleting the ignored tokens from such a think block deletes the tags
      and keeps the body. */
  lemma FilterUnwraps(t: string)
    requires '<' !in t && 'a' !in t && 'h' !in t
    ensures Filter(OPEN + t + CLOSE) == Strip(t)
  {
    var s := OPEN + t + CLOSE;
    LeadingTokensAbsent(t);
    FilteredFromAbsent(s, 0, 14);
    assert IGNORED_TOKENS[14] == OPEN && IGNORED_TOKENS[15] == CLOSE;
    DeleteOpen(t);
    DeleteClose(t);
    assert FilteredFrom(s, 14) == FilteredFrom(t, 16);
    TrailingTokensAbsent(t);
    FilteredFromAbsent(t, 16, |IGNORED_TOKENS|);
  }

  /** Because the think tags are themselves ignored tokens, they are
      deleted before `_clean_think_tags` runs: the body of a think block
      survives into the PDF, while `_clean_think_tags` alone would delete
      the whole block. */
  lemma ThinkBodySurvives(t: string)
    requires '<' !in t && 'a' !in t && 'h' !in t
    ensures CleanThinkTags(Filter(OPEN + t + CLOSE)) == Strip(t)
    ensures CleanThinkTags(OPEN + t + CLOSE) == ""
  {
    FilterUnwraps(t);
    StripKeepsOut(t, '<');
    NoAngleOnlyStripped(Strip(t));
    StripIdempotent(t);
    assert OPEN + t + CLOSE == OPEN + t + CLOSE + "";
    LeadingThinkBlockCleaned(t, "");
  }

  // ---------------------------------------------------------------- conversion

  /** What the Markdown conversions receive: the filtered, cleaned and
      escaped text. */
  function Prepared(text: string): string
  {
    Escape(CleanThinkTags(Filter(text)))
  }

  /** The prepared text holds no angle bracket, and reading its entities
      back gives the filtered and cleaned text. */
  lemma PreparedIsEscaped(text: string)
    ensures '<' !in Prepared(text) && '>' !in Prepared(text)
    ensures Unescape(Prepared(text)) == CleanThinkTags(Filter(text))
  {
  }

  /** `_markdown_to_reportlab`, with the table of regular-expression
      conversions (bold, italic, code, headers, links, line breaks) given
      as `markup`. */
  method MarkdownToReportlab(text: string, markup: string -> string) returns (r: string)
    ensures r == Converted(text, markup)
  {
    if text == "" {
      return "";
    }
    var filtered := FilterIgnoredTokens(text);
    var cleaned := CleanThinkTags(filtered);
    var escaped := Escape(cleaned);
    r := markup(escaped);
  }

  /** The converted form of a non-empty title or content. */
  function Converted(text: string, markup: string -> string): string
  {
    if text == "" then "" else markup(Prepared(text))
  }

  /** `_markdown_to_reportlab` as a function of the text. */
  function ConvertWith(markup: string -> string): string -> string
  {
    t => Converted(t, markup)
  }

  /** A section skipped by `generate_pdf`: no title and no content. */
  predicate Skipped(i: nat, item: Item)
  {
    ItemGet(item, "title", DefaultTitle(i)) == "" && ItemGet(item, "content", "") == ""
  }

  /** The paragraphs of a section that is not skipped: the converted
      title when there is one, then the converted content when there is
      some and it converts to something. `convert` is
      `_markdown_to_reportlab`. */
  function SectionBody(i: nat, item: Item, convert: string -> string): (r: seq<Flowable>)
    ensures forall k :: 0 <= k < |r| ==> r[k].Paragraph?
    ensures "title" !in item ==> r != [] && r[0] == Paragraph(convert(DefaultTitle(i)), "title")
  {
    var title := ItemGet(item, "title", DefaultTitle(i));
    var content := ItemGet(item, "content", "");
    var head := if title != "" then [Paragraph(convert(title), "title")] else [];
    var formatted := convert(content);
    var body := if content != "" && formatted != "" then [Paragraph(formatted, "content")] else [];
    head + body
  }

  /** The flowables `generate_pdf` appends for the `i`-th of `n` sections. */
  function SectionFlowables(i: nat, n: nat, item: Item, convert: string -> string): (r: seq<Flowable>)
    ensures Skipped(i, item) ==> r == []
    ensures "title" !in item ==> r != [] && r[0] == Paragraph(convert(DefaultTitle(i)), "title")
    ensures r != [] && r[|r| - 1] == Spacer(1, 24) <==> !Skipped(i, item) && i + 1 < n
    ensures Count(r, Spacer(1, 24)) == if !Skipped(i, item) && i + 1 < n then 1 else 0
  {
    if Skipped(i, item) then []
    else
      var b := SectionBody(i, item, convert);
      assert Spacer(1, 24) !in b;
      b + if i + 1 < n then [Spacer(1, 24)] else []
  }

  /** The sections of the first items, for a list of `n`. */
  function Sections(items: seq<Item>, n: nat, convert: string -> string): seq<Flowable>
  {
    if items == [] then []
    else Sections(items[..|items| - 1], n, convert) + SectionFlowables(|items| - 1, n, items[|items| - 1], convert)
  }

  /** The sections of one more item: that item's flowables appended. */
  lemma SectionsSnoc(items: seq<Item>, i: nat, n: nat, convert: string -> string)
    requires i < |items|
    ensures Sections(items[..i + 1], n, convert) == Sections(items[..i], n, convert) + SectionFlowables(i, n, items[i], convert)
  {
    assert items[..i + 1][..i] == items[..i];
  }

  /** The story starts with the header and an 18-point spacer. */
  function Header(header: string): seq<Flowable>
  {
    [Paragraph(header, "title"), Spacer(1, 18)]
  }


  /** One pass of `generate_pdf`'s loop: the flowables of the `i`-th of
      `n` sections appended to the story. */
  method AppendSection(story: seq<Flowable>, i: nat, n: nat, item: Item, markup: string -> string)
    returns (r: seq<Flowable>)
    ensures r == story + SectionFlowables(i, n, item, ConvertWith(markup))
  {
    r := story;
    var title := ItemGet(item, "title", DefaultTitle(i));
    var content := ItemGet(item, "content", "");
    if title == "" && content == "" {
      assert story + [] == story;
      return;
    }
    var head: seq<Flowable> := [];
    if title != "" {
      var formatted := MarkdownToReportlab(title, markup);
      head := [Paragraph(formatted, "title")];
      r := r + head;
    }
    assert r == story + head;
    var body: seq<Flowable> := [];
    if content != "" {
      var formatted := MarkdownToReportlab(content, markup);
      if formatted != "" {
        body := [Paragraph(formatted, "content")];
        r := r + body;
      }
    }
    assert r == story + head + body;
    var tail: seq<Flowable> := [];
    if i < n - 1 {
      tail := [Spacer(1, 24)];
      r := r + tail;
    }
    assert r == story + head + body + tail;
    SectionFlowablesOf(i, n, item, ConvertWith(markup), head, body, tail);
    AppendAssoc(story + head, body, tail);
    AppendAssoc(story, head, body + tail);
    AppendAssoc(head, body, tail);
  }

  /** A section that is not skipped is its title paragraph, its content
      paragraph and its spacer, each of them present or absent. */
  lemma SectionFlowablesOf(i: nat, n: nat, item: Item, convert: string -> string,
                           head: seq<Flowable>, body: seq<Flowable>, tail: seq<Flowable>)
    requires !Skipped(i, item)
    requires var title := ItemGet(item, "title", DefaultTitle(i));
      head == if title != "" then [Paragraph(convert(title), "title")] else []
    requires var content := ItemGet(item, "content", "");
      body == if content != "" && convert(content) != "" then [Paragraph(convert(content), "content")] else []
    requires tail == if i + 1 < n then [Spacer(1, 24)] else []
    ensures SectionFlowables(i, n, item, convert) == head + body + tail
  {
    assert SectionBody(i, item, convert) == head + body;
  }

  /** `generate_pdf`, up to building the document: the story. */
  method GeneratePdf(data: seq<Item>, header: string, markup: string -> string) returns (story: seq<Flowable>)
    ensures story == Header(header) + Sections(data, |data|, ConvertWith(markup))
  {
    story := Header(header);
    ghost var sections: seq<Flowable> := [];
    for i := 0 to |data|
      invariant sections == Sections(data[..i], |data|, ConvertWith(markup))
      invariant story == Header(header) + sections
    {
      SectionsSnoc(data, i, |data|, ConvertWith(markup));
      ghost var f := SectionFlowables(i, |data|, data[i], ConvertWith(markup));
      story := AppendSection(story, i, |data|, data[i], markup);
      AppendAssoc(Header(header), sections, f);
      sections := sections + f;
    }
    assert data[..|data|] == data;
  }

  /** Section spacers sit only between sections: one after every section
      that is not skipped, except the last item; with no section skipped
      there are exactly `n - 1` of them. */
  lemma SpacersBetweenSections(items: seq<Item>, n: nat, convert: string -> string)
    requires |items| <= n
    ensures Count(Sections(items, n, convert), Spacer(1, 24)) <= if |items| == n && n > 0 then n - 1 else |items|
    ensures (forall i :: 0 <= i < |items| ==> !Skipped(i, items[i])) ==>
      Count(Sections(items, n, convert), Spacer(1, 24)) == if |items| == n && n > 0 then n - 1 else |items|
  {
    SpacersAtMost(items, n, convert);
    if forall i :: 0 <= i < |items| ==> !Skipped(i, items[i]) {
      SpacersExact(items, n, convert);
    }
  }

  lemma {:induction false} SpacersAtMost(items: seq<Item>, n: nat, convert: string -> string)
    requires |items| <= n
    ensures Count(Sections(items, n, convert), Spacer(1, 24)) <= if |items| == n && n > 0 then n - 1 else |items|
  {
    if items != [] {
      SpacerCountSnoc(items, n, convert);
      SpacersAtMost(items[..|items| - 1], n, convert);
    }
  }

  lemma {:induction false} SpacersExact(items: seq<Item>, n: nat, convert: string -> string)
    requires |items| <= n
    requires forall i :: 0 <= i < |items| ==> !Skipped(i, items[i])
    ensures Count(Sections(items, n, convert), Spacer(1, 24)) == if |items| == n && n > 0 then n - 1 else |items|
  {
    if items != [] {
      var init := items[..|items| - 1];
      forall i | 0 <= i < |init| ensures !Skipped(i, init[i]) {
        assert init[i] == items[i];
      }
      SpacerCountSnoc(items, n, convert);
      SpacersExact(init, n, convert);
    }
  }

  /** One more item adds one spacer when it is shown and not the last. */
  lemma SpacerCountSnoc(items: seq<Item>, n: nat, convert: string -> string)
    requires items != []
    ensures var m := |items| - 1;
      Count(Sections(items, n, convert), Spacer(1, 24))
      == Count(Sections(items[..m], n, convert), Spacer(1, 24)) + (if !Skipped(m, items[m]) && m + 1 < n then 1 else 0)
  {
    var m := |items| - 1;
    var before, f := Sections(items[..m], n, convert), SectionFlowables(m, n, items[m], convert);
    assert Sections(items, n, convert) == before + f;
    assert multiset(before + f) == multiset(before) + multiset(f);
  }
}

=== FILE: core_index_graph.dfy ===
/** The indexing pipeline of `src/core/index_graph.py`: `parse_pdfs` loads
    every new PDF file of the directory and splits the loaded pages into
    chunks, `should_index` ends the run when there are none, and
    `index_docs` adds them to the vector store with `make_document_batch`'s
    default batch size of 100. No step catches failures: any failed load or
    batch ends the run. */
module CoreIndexGraph {
  import opened Text
  import opened Docs
  import opened States
  import Utils
  import IndexGraph

  /** The outside world: whether a path is a directory, the `*.pdf` paths
      in it, a file's pages, the text splitter over all loaded pages, and
      the vector store's `add_documents`. */
  datatype Oracles = Oracles(
    isDir: string -> bool,
    glob: string -> seq<string>,
    load: string -> Outcome<seq<Document>>,
    split: seq<Document> -> seq<Document>,
    add: seq<Document> -> Outcome<()>)

  /** The pages of `files`, file after file, or the first load failure. */
  function Loaded(files: seq<string>, o: Oracles): (r: Outcome<seq<Document>>)
    ensures r.Ok? <==> forall i :: 0 <= i < |files| ==> o.load(files[i]).Ok?
  {
    if files == [] then Ok([])
    else
      var n := |files| - 1;
      assert forall i :: 0 <= i < n ==> files[..n][i] == files[i];
      match Loaded(files[..n], o)
      case Fail(e) => Fail(e)
      case Ok(pages) =>
        match o.load(files[n])
        case Fail(e) => Fail(e)
        case Ok(more) => Ok(pages + more)
  }

  /** Loading files that all load gives each file's pages in file order:
      the `i`-th file's pages sit at offset `k`, after those of the files
      before it. */
  lemma {:induction false} LoadedAt(files: seq<string>, o: Oracles, i: nat) returns (k: nat)
    requires Loaded(files, o).Ok? && i < |files|
    ensures Loaded(files[..i], o).Ok? && k == |Loaded(files[..i], o).value|
    ensures k + |o.load(files[i]).value| <= |Loaded(files, o).value|
    ensures Loaded(files, o).value[k..k + |o.load(files[i]).value|] == o.load(files[i]).value
    decreases |files|
  {
    var n := |files| - 1;
    var pages := Loaded(files[..n], o).value;
    var more := o.load(files[n]).value;
    assert Loaded(files, o).value == pages + more;
    if i == n {
      k := |pages|;
      assert (pages + more)[k..k + |more|] == more;
    } else {
      assert files[..n][i] == files[i];
      assert files[..n][..i] == files[..i];
      k := LoadedAt(files[..n], o, i);
      assert (pages + more)[k..k + |o.load(files[i]).value|] == pages[k..k + |o.load(files[i]).value|];
    }
  }

  /** `parse_pdfs`: the chunks of the pages of the directory's PDF files
      that are not among the already indexed sources `existing`. */
  method ParsePdfs(path: string, existing: seq<string>, o: Oracles) returns (r: Outcome<seq<Document>>)
    ensures !o.isDir(path) ==> r == Fail(IndexGraph.NOT_FOUND + path)
    ensures o.isDir(path) ==> (r.Ok? <==> Loaded(Utils.RemoveDuplicates(existing, o.glob(path)), o).Ok?)
    ensures r.Ok? ==> r.value == o.split(Loaded(Utils.RemoveDuplicates(existing, o.glob(path)), o).value)
  {
    if !o.isDir(path) {
      return Fail(IndexGraph.NOT_FOUND + path);
    }
    var documents: seq<Document> := [];
    var files := Utils.RemoveDuplicates(existing, o.glob(path));
    for i := 0 to |files|
      invariant Loaded(files[..i], o) == Ok(documents)
    {
      assert files[..i + 1][..i] == files[..i];
      var pages := o.load(files[i]);
      if pages.Fail? {
        assert Loaded(files[..i + 1], o).Fail?;
        return Fail(pages.msg);
      }
      documents := documents + pages.value;
    }
    assert files[..|files|] == files;
    return Ok(o.split(documents));
  }

  const BATCH_SIZE := 100

  /** `index_docs`: the documents in batches of 100, added in order; on
      success the documents field is set to the delete marker. */
  method IndexDocs(docs: seq<Document>, o: Oracles) returns (r: Outcome<DocsUpdate>, added: seq<seq<Document>>)
    ensures r.Ok? ==> r.value == Text(DELETE) && added == Utils.Chunks(docs, BATCH_SIZE) && Utils.Flatten(added) == docs
    ensures r.Fail? ==>
      var all := Utils.Chunks(docs, BATCH_SIZE);
      |added| < |all| && added == all[..|added|] && o.add(all[|added|]).Fail?
  {
    var batches := Utils.MakeDocumentBatch(docs, BATCH_SIZE);
    var res;
    res, added := IndexGraph.AddBatches(batches.value, o.add);
    if res.Fail? {
      return Fail(res.msg), added;
    }
    Utils.ChunksFlatten(docs, BATCH_SIZE);
    return Ok(Text(DELETE)), added;
  }

  /** The whole graph, from an input state holding only the path: on
      success the store has received every chunk, in order, and the
      state's documents are cleared again. */
  method Run(path: string, existing: seq<string>, o: Oracles, ids: nat -> string)
    returns (r: Outcome<IndexState>, added: seq<seq<Document>>)
    ensures r.Ok? ==> r.value.path == path && r.value.docs == []
    ensures r.Ok? ==>
      o.isDir(path) && Loaded(Utils.RemoveDuplicates(existing, o.glob(path)), o).Ok?
      && Utils.Flatten(added) == o.split(Loaded(Utils.RemoveDuplicates(existing, o.glob(path)), o).value)
    ensures !o.isDir(path) ==> r.Fail? && added == []
  {
    added := [];
    var parsed := ParsePdfs(path, existing, o);
    if parsed.Fail? {
      return Fail(parsed.msg), added;
    }
    var docs := parsed.value;
    DocumentsStoredAsIs(docs, ids);
    assert IndexGraph.AsItems(docs) == seq(|docs|, i requires 0 <= i < |docs| => ItemDoc(docs[i]));
    var stored := ReduceDocs(None, Items(IndexGraph.AsItems(docs)), ids);
    var state := IndexState(path, stored.value);
    if IndexGraph.ShouldIndex(state.docs) == IndexGraph.End {
      assert Utils.Flatten(added) == [];
      return Ok(state), added;
    }
    var update;
    update, added := IndexDocs(state.docs, o);
    if update.Fail? {
      return Fail(update.msg), added;
    }
    var cleared := ReduceDocs(Some(state.docs), update.value, ids);
    return Ok(IndexState(path, cleared.value)), added;
  }
}

=== FILE: core_report_graph.dfy ===
/** The report pipeline of `src/core/report_graph.py`: the outline entries
    carry a title and a summary, one `retrieve` node serves both the initial
    retrieval and the per-section retrieval, and `generate_section` writes a
    section and moves `current_section_index` on, also when it fails. */
module CoreReportGraph {
  import opened Text
  import opened Docs
  import opened States
  import Utils

  /** An `OutlineEntry` as `model_dump` renders it. */
  datatype OutlineEntry = OutlineEntry(title: string, summary: string)

  type State = ReportState<OutlineEntry>

  datatype Oracles = Oracles(
    // the retriever: a query to the documents it finds
    retrieve: string -> Outcome<seq<Document>>,
    // the outline model: the user content and the formatted context
    outline: (Content, string) -> Outcome<seq<OutlineEntry>>,
    // the section writer: title, summary, previous sections' text, formatted context
    section: (string, string, string, string) -> Outcome<Message>)

  datatype Update = Update(
    outlines: Option<seq<OutlineEntry>>,
    report: Option<SectionsUpdate>,
    retrievedDocs: Option<seq<Document>>,
    currentSectionIndex: Option<int>)

  const NO_CHANGE: Update := Update(None, None, None, None)

  /** Merging a partial output: returned keys overwrite their field, the
      report goes through `add_sections`. */
  function Apply(s: State, u: Update): (r: State)
    ensures r.messages == s.messages
    ensures r.outlines == (if u.outlines.Some? then u.outlines.value else s.outlines)
    ensures r.report == (if u.report.Some? then AddSections(s.report, u.report.value) else s.report)
    ensures r.currentSectionIndex == (if u.currentSectionIndex.Some? then u.currentSectionIndex.value else s.currentSectionIndex)
  {
    s.(outlines := if u.outlines.Some? then u.outlines.value else s.outlines,
       report := if u.report.Some? then AddSections(s.report, u.report.value) else s.report,
       retrievedDocs := if u.retrievedDocs.Some? then u.retrievedDocs.value else s.retrievedDocs,
       currentSectionIndex := if u.currentSectionIndex.Some? then u.currentSectionIndex.value else s.currentSectionIndex)
  }

  function Last(ms: seq<Message>): Message
    requires ms != []
  {
    ms[|ms| - 1]
  }

  const FALLBACK_ENTRY := OutlineEntry("Report Section", "Unable to generate outline")

  /** `generate_outline`: the generated entries, or the single fallback
      entry; the index is reset either way. */
  function GenerateOutline(s: State, o: Oracles): (u: Update)
    ensures u.currentSectionIndex == Some(0) && u.report.None? && u.outlines.Some?
    ensures s.messages != [] && o.outline(Last(s.messages).content, Utils.FormatDocs(s.retrievedDocs)).Ok? ==>
      u.outlines == Some(o.outline(Last(s.messages).content, Utils.FormatDocs(s.retrievedDocs)).value)
    ensures s.messages == [] || o.outline(Last(s.messages).content, Utils.FormatDocs(s.retrievedDocs)).Fail? ==>
      u.outlines == Some([FALLBACK_ENTRY])
  {
    var fallback := Update(Some([FALLBACK_ENTRY]), None, None, Some(0));
    if s.messages == [] then fallback
    else
      match o.outline(Last(s.messages).content, Utils.FormatDocs(s.retrievedDocs))
      case Ok(entries) => Update(Some(entries), None, None, Some(0))
      case Fail(_) => fallback
  }

  predicate InRange(s: State)
  {
    s.outlines != [] && s.currentSectionIndex < |s.outlines|
  }

  /** What `retrieve` searches for: the current entry's title and summary on
      two lines, or the last message's text when no entry is in range;
      `None` where computing it raises. */
  function RetrieveQuery(s: State): (q: Option<string>)
    ensures InRange(s) && 0 <= s.currentSectionIndex ==>
      q == Some(s.outlines[s.currentSectionIndex].title + "\n" + s.outlines[s.currentSectionIndex].summary)
    ensures !InRange(s) ==> q == (if s.messages == [] then None else Some(MessageText(Last(s.messages))))
  {
    if InRange(s) then
      match PyIndex(s.outlines, s.currentSectionIndex)
      case None => None
      case Some(e) => Some(Join("\n", [e.title, e.summary]))
    else if s.messages == [] then None
    else Some(MessageText(Last(s.messages)))
  }

  /** `retrieve`: the documents found for `RetrieveQuery`, or none on any
      failure. */
  function Retrieve(s: State, o: Oracles): (u: Update)
    ensures u.outlines.None? && u.report.None? && u.currentSectionIndex.None? && u.retrievedDocs.Some?
    ensures RetrieveQuery(s).None? ==> u.retrievedDocs == Some([])
    ensures RetrieveQuery(s).Some? && o.retrieve(RetrieveQuery(s).value).Ok? ==>
      u.retrievedDocs == Some(o.retrieve(RetrieveQuery(s).value).value)
    ensures RetrieveQuery(s).Some? && o.retrieve(RetrieveQuery(s).value).Fail? ==> u.retrievedDocs == Some([])
  {
    var docs :=
      match RetrieveQuery(s)
      case None => []
      case Some(q) =>
        match o.retrieve(q)
        case Ok(d) => d
        case Fail(_) => [];
    NO_CHANGE.(retrievedDocs := Some(docs))
  }

  const SECTION_ERROR := "Error generating section: "

  function ErrorSection(msg: string): (r: Section)
    ensures r.Keys == {"title", "summary", "content"}
    ensures r["title"] == "Error" && r["summary"] == "" && r["content"] == SECTION_ERROR + msg
  {
    map["title" := "Error", "summary" := "", "content" := SECTION_ERROR + msg]
  }

  /** `generate_section`: nothing when no entry is in range; otherwise the
      index moves on and the report grows by one section, a copy of the
      current entry with its content on success, a single "Error" dict on
      failure. The outline is never touched. */
  function GenerateSection(s: State, o: Oracles): (u: Update)
    ensures !InRange(s) ==> u == NO_CHANGE
    ensures u.outlines.None? && u.retrievedDocs.None?
    ensures InRange(s) ==>
      u.currentSectionIndex == Some(s.currentSectionIndex + 1) && u.report.Some?
      && (u.report.value.ManySections? || u.report.value.OneSection?)
      && (u.report.value.ManySections? ==> |u.report.value.sections| == 1)
      && (u.report.value.OneSection? ==> "title" in u.report.value.section && u.report.value.section["title"] == "Error")
    ensures InRange(s) && 0 <= s.currentSectionIndex ==>
      var e := s.outlines[s.currentSectionIndex];
      var res := o.section(e.title, e.summary, PreviousSections(s.report), Utils.FormatDocs(s.retrievedDocs));
      u.report == Some(if res.Ok? then ManySections([Written(e.title, e.summary, MessageText(res.value))]) else OneSection(ErrorSection(res.msg)))
  {
    if !InRange(s) then NO_CHANGE
    else
      var next := Some(s.currentSectionIndex + 1);
      match PyIndex(s.outlines, s.currentSectionIndex)
      case None => Update(None, Some(OneSection(ErrorSection(INDEX_ERROR))), None, next)
      case Some(e) =>
        match o.section(e.title, e.summary, PreviousSections(s.report), Utils.FormatDocs(s.retrievedDocs))
        case Ok(m) => Update(None, Some(ManySections([Written(e.title, e.summary, MessageText(m))])), None, next)
        case Fail(msg) => Update(None, Some(OneSection(ErrorSection(msg))), None, next)
  }

  /** Either way, `add_sections` grows the report by exactly one section. */
  lemma GenerateSectionAddsOne(s: State, o: Oracles)
    requires InRange(s)
    ensures var r := Apply(s, GenerateSection(s, o));
      |r.report| == |s.report| + 1 && r.report[..|s.report|] == s.report
      && r.currentSectionIndex == s.currentSectionIndex + 1 && r.outlines == s.outlines
  {
  }

  // ---------------------------------------------------------------- the graph

  datatype Node = Start | InitialRetrievalNode | GenerateOutlineNode | RetrieveNode | GenerateSectionNode | End

  /** `should_continue`. */
  function ShouldContinue(s: State): (n: Node)
    ensures n == End <==> s.outlines == [] || s.currentSectionIndex >= |s.outlines|
    ensures n != End ==> n == RetrieveNode
  {
    if s.outlines == [] || s.currentSectionIndex >= |s.outlines| then End else RetrieveNode
  }

  /** The edges of `get_report_graph`. */
  function Next(n: Node, s: State): Node
  {
    match n
    case Start => InitialRetrievalNode
    case InitialRetrievalNode => GenerateOutlineNode
    case GenerateOutlineNode => RetrieveNode
    case RetrieveNode => GenerateSectionNode
    case GenerateSectionNode => ShouldContinue(s)
    case End => End
  }

  /** Running one node; both retrieval nodes run `retrieve`. */
  function Exec(n: Node, s: State, o: Oracles): State
  {
    match n
    case InitialRetrievalNode => Apply(s, Retrieve(s, o))
    case GenerateOutlineNode => Apply(s, GenerateOutline(s, o))
    case RetrieveNode => Apply(s, Retrieve(s, o))
    case GenerateSectionNode => Apply(s, GenerateSection(s, o))
    case _ => s
  }

  /** One pass: `retrieve` then `generate_section`. */
  function Pass(s: State, o: Oracles): (r: State)
    ensures r.outlines == s.outlines && r.messages == s.messages
    ensures InRange(s) ==>
      r.currentSectionIndex == s.currentSectionIndex + 1 && |r.report| == |s.report| + 1 && r.report[..|s.report|] == s.report
    ensures !InRange(s) ==> r.currentSectionIndex == s.currentSectionIndex && r.report == s.report
  {
    assert Next(RetrieveNode, s) == GenerateSectionNode;
    var s1 := Exec(RetrieveNode, s, o);
    assert InRange(s1) == InRange(s);
    Exec(GenerateSectionNode, s1, o)
  }

  function Loop(s: State, o: Oracles): State
    decreases |s.outlines| - s.currentSectionIndex
  {
    var p := Pass(s, o);
    if Next(GenerateSectionNode, p) == End then p else Loop(p, o)
  }

  function Run(s0: State, o: Oracles): State
  {
    var s1 := Exec(InitialRetrievalNode, s0, o);
    Loop(Exec(GenerateOutlineNode, s1, o), o)
  }

  predicate WroteRemaining(s: State, r: State)
    requires 0 <= s.currentSectionIndex <= |s.outlines|
  {
    r.outlines == s.outlines && r.currentSectionIndex == |s.outlines|
    && |r.report| == |s.report| + |s.outlines| - s.currentSectionIndex && r.report[..|s.report|] == s.report
  }

  /** From index `k` with `0 <= k <= |outlines|` the loop writes one section
      per remaining entry and stops at the end of the outline. */
  lemma {:induction false} LoopWritesRemaining(s: State, o: Oracles)
    requires 0 <= s.currentSectionIndex <= |s.outlines|
    ensures WroteRemaining(s, Loop(s, o))
    decreases |s.outlines| - s.currentSectionIndex
  {
    var p := Pass(s, o);
    if !InRange(s) || s.currentSectionIndex + 1 == |s.outlines| {
      assert Loop(s, o) == p;
    } else {
      assert Loop(s, o) == Loop(p, o);
      LoopWritesRemaining(p, o);
      var r := Loop(p, o);
      PrefixOfPrefix(r.report, |s.report|, |p.report|);
    }
  }

  lemma PrefixOfPrefix<T>(x: seq<T>, a: nat, b: nat)
    requires a <= b <= |x|
    ensures x[..a] == x[..b][..a]
  {
  }

  /** After `generate_outline` the pipeline writes exactly one section per
      outline entry and halts. */
  lemma RunWritesEveryEntry(s0: State, o: Oracles)
    ensures var s2 := Exec(GenerateOutlineNode, Exec(InitialRetrievalNode, s0, o), o);
      var r := Run(s0, o);
      s2.currentSectionIndex == 0 && r.outlines == s2.outlines
      && |r.report| == |s0.report| + |s2.outlines| && r.report[..|s0.report|] == s0.report
      && Next(GenerateSectionNode, r) == End
  {
    var s1 := Exec(InitialRetrievalNode, s0, o);
    var s2 := Exec(GenerateOutlineNode, s1, o);
    assert s1.report == s0.report;
    assert s2.currentSectionIndex == 0;
    LoopWritesRemaining(s2, o);
    assert Run(s0, o) == Loop(s2, o);
  }
}

=== FILE: core_retrieval_graph.dfy ===
/** The conversational pipeline of `src/core/retrieval_graph.py`:
    `generate_query`, `retrieve`, `respond`, then `summarize_conversation`
    when the conversation length is a multiple of six. Unlike the pipeline
    of `RetrievalGraph`, no node catches failures: any failed step ends the
    turn. The state and its merge rules are those of `RetrievalGraph`. */
module CoreRetrievalGraph {
  import opened Text
  import opened Docs
  import opened States
  import Utils
  import MessageFormat
  import RetrievalGraph

  type Update = RetrievalGraph.Update

  /** The external calls: the query model (given the formatted last message
      and the previous-messages text), the retriever, the response model
      (given the formatted last message, the context, the previous-messages
      text and the summary) and the summary model (given its system prompt
      and the messages to summarise). */
  datatype Oracles = Oracles(
    query: (string, string) -> Outcome<string>,
    retrieve: string -> Outcome<seq<Document>>,
    respond: (string, string, string, string) -> Outcome<Message>,
    summarize: (string, seq<Message>) -> Outcome<string>)

  const NO_PREVIOUS := "There were no previous messages."

  // ---------------------------------------------------------------- generate_query

  /** `messages[-1:]`: the last message, or nothing for an empty list. */
  function LastOne(messages: seq<Message>): (r: seq<Message>)
    ensures messages == [] ==> r == []
    ensures messages != [] ==> r == [messages[|messages| - 1]]
  {
    var n := |messages|;
    assert n >= 1 ==> PySlice(messages, -1, n) == [messages[n - 1]];
    PySlice(messages, -1, n)
  }

  /** What the query model is asked: the last message and, with three or
      more messages, the two before it, each formatted; formatting fails on
      non-text content. */
  function QueryRequest(messages: seq<Message>): (r: Outcome<(string, string)>)
    ensures r.Ok? <==>
      (messages != [] ==> messages[|messages| - 1].content.CStr?)
      && (|messages| >= 3 ==> messages[|messages| - 3].content.CStr? && messages[|messages| - 2].content.CStr?)
    ensures r.Ok? ==> MessageFormat.FormatMessages(Some(LastOne(messages))) == Ok(r.value.0)
    ensures r.Ok? && |messages| < 3 ==> r.value.1 == NO_PREVIOUS
    ensures r.Ok? && |messages| >= 3 ==>
      MessageFormat.FormatMessages(Some([messages[|messages| - 3], messages[|messages| - 2]])) == Ok(r.value.1)
    ensures r.Ok? && messages == [] ==> r.value.0 == "<messages></messages>"
  {
    var n := |messages|;
    assert n >= 3 ==> PySlice(messages, -3, -1) == [messages[n - 3], messages[n - 2]];
    match MessageFormat.FormatMessages(Some(LastOne(messages)))
    case Fail(e) => Fail(e)
    case Ok(last) =>
      if n >= 3 then
        match MessageFormat.FormatMessages(Some(PySlice(messages, -3, -1)))
        case Fail(e) => Fail(e)
        case Ok(prev) => Ok((last, prev))
      else Ok((last, NO_PREVIOUS))
  }

  /** `generate_query`: the generated query, and the documents field
      cleared (the marker when it held something, an empty list otherwise). */
  function GenerateQuery(s: RetrievalState, o: Oracles): (r: Outcome<Update>)
    ensures r.Ok? <==> QueryRequest(s.messages).Ok? && o.query(QueryRequest(s.messages).value.0, QueryRequest(s.messages).value.1).Ok?
    ensures r.Ok? ==>
      r.value.messages.None? && r.value.summary.None?
      && r.value.query == Some(o.query(QueryRequest(s.messages).value.0, QueryRequest(s.messages).value.1).value)
      && r.value.retrievedDocs == Some(RetrievalGraph.ClearedDocs(s.retrievedDocs))
  {
    match QueryRequest(s.messages)
    case Fail(e) => Fail(e)
    case Ok((last, prev)) =>
      match o.query(last, prev)
      case Fail(e) => Fail(e)
      case Ok(q) => Ok(RetrievalGraph.Update(None, Some(q), Some(RetrievalGraph.ClearedDocs(s.retrievedDocs)), None))
  }

  // ---------------------------------------------------------------- retrieve

  /** `retrieve`: what the retriever returns for the query, which is sent
      as it is, blank or not. */
  function Retrieve(s: RetrievalState, o: Oracles): (r: Outcome<Update>)
    ensures r.Ok? <==> o.retrieve(s.query).Ok?
    ensures r.Ok? ==> r.value == RetrievalGraph.Update(None, None, Some(Docs(o.retrieve(s.query).value)), None)
  {
    match o.retrieve(s.query)
    case Fail(e) => Fail(e)
    case Ok(docs) => Ok(RetrievalGraph.Update(None, None, Some(Docs(docs)), None))
  }

  // ---------------------------------------------------------------- respond

  /** The earlier messages `respond` shows the model: with six or more
      messages, `messages[-(n % 6):-1]`. When `n % 6` is 0 the slice starts
      at 0 and covers every message but the last; otherwise it holds the
      `n % 6 - 1` messages before the last. */
  function PreviousMessages(messages: seq<Message>): (r: seq<Message>)
    requires |messages| >= 6
    ensures var n := |messages|;
      if n % 6 == 0 then r == messages[..n - 1] else r == messages[n - n % 6..n - 1]
  {
    var n := |messages|;
    PySlice(messages, -(n % 6), -1)
  }

  const NOT_A_DOCUMENT := "'str' object has no attribute 'metadata'"

  /** The context `format_docs` gives, or a failure for the marker string,
      whose characters are not documents. */
  function Context(f: DocsField): (r: Outcome<string>)
    ensures r.Fail? <==> f.DeleteMarker?
    ensures f.Docs? ==> r == Ok(Utils.FormatDocs(f.list))
  {
    match f
    case DeleteMarker => Fail(NOT_A_DOCUMENT)
    case Docs(ds) => Ok(Utils.FormatDocs(ds))
  }

  /** What the response model is asked: the formatted last message, the
      context, the formatted earlier messages (`PreviousMessages`) or the
      fixed text below six messages, and the summary. */
  function RespondRequest(s: RetrievalState): (r: Outcome<(string, string, string, string)>)
    ensures r.Ok? <==>
      MessageFormat.FormatMessages(Some(LastOne(s.messages))).Ok? && Context(s.retrievedDocs).Ok?
      && (|s.messages| >= 6 ==> MessageFormat.FormatMessages(Some(PreviousMessages(s.messages))).Ok?)
    ensures r.Ok? ==> MessageFormat.FormatMessages(Some(LastOne(s.messages))) == Ok(r.value.0)
    ensures r.Ok? ==> Context(s.retrievedDocs) == Ok(r.value.1) && r.value.3 == s.summary
    ensures r.Ok? && |s.messages| < 6 ==> r.value.2 == NO_PREVIOUS
    ensures r.Ok? && |s.messages| >= 6 ==> MessageFormat.FormatMessages(Some(PreviousMessages(s.messages))) == Ok(r.value.2)
    ensures s.retrievedDocs.DeleteMarker? ==> r.Fail?
  {
    var n := |s.messages|;
    match MessageFormat.FormatMessages(Some(LastOne(s.messages)))
    case Fail(e) => Fail(e)
    case Ok(last) =>
      match Context(s.retrievedDocs)
      case Fail(e) => Fail(e)
      case Ok(ctx) =>
        if n >= 6 then
          match MessageFormat.FormatMessages(Some(PreviousMessages(s.messages)))
          case Fail(e) => Fail(e)
          case Ok(prev) => Ok((last, ctx, prev, s.summary))
        else Ok((last, ctx, NO_PREVIOUS, s.summary))
  }

  /** `respond`: the model's answer as one new message, and the documents
      and query cleared; printing the sources afterwards raises when some
      document's "source" entry is not text, and then the turn fails. */
  function Respond(s: RetrievalState, o: Oracles): (r: Outcome<Update>)
    ensures r.Ok? ==> r.value.messages.Some? && |r.value.messages.value| == 1
    ensures r.Ok? ==> r.value.query == Some("") && r.value.retrievedDocs == Some(Docs([])) && r.value.summary.None?
  {
    match RespondRequest(s)
    case Fail(e) => Fail(e)
    case Ok((a, b, c, d)) =>
      match o.respond(a, b, c, d)
      case Fail(e) => Fail(e)
      case Ok(m) =>
        if RetrievalGraph.SourcesRaise(s.retrievedDocs) then Fail(Utils.PATH_TYPE_ERROR)
        else Ok(RetrievalGraph.Update(Some([m]), Some(""), Some(Docs([])), None))
  }

  /** `respond` succeeds exactly when its request forms, the model answers
      and the source names format; the one message it appends is that
      answer. */
  lemma RespondAnswer(s: RetrievalState, o: Oracles)
    ensures Respond(s, o).Ok? ==> RespondRequest(s).Ok? && !RetrievalGraph.SourcesRaise(s.retrievedDocs)
    ensures Respond(s, o).Ok? ==>
      var (a, b, c, d) := RespondRequest(s).value;
      o.respond(a, b, c, d).Ok?
      && Respond(s, o).value == RetrievalGraph.Update(Some([o.respond(a, b, c, d).value]), Some(""), Some(Docs([])), None)
    ensures RespondRequest(s).Ok? && Respond(s, o).Fail? ==>
      var (a, b, c, d) := RespondRequest(s).value;
      o.respond(a, b, c, d).Fail? || RetrievalGraph.SourcesRaise(s.retrievedDocs)
  {
  }

  // ---------------------------------------------------------------- summarize_conversation

  const EXTEND_HEAD := "This is summary of the conversation to date:\n        <summary>\n        "
  const EXTEND_TAIL := "\n        </summary>\n\n        Extend the summary by taking into account the new messages above:\n        "

  /** `summarize_conversation`: the new summary, or the model's failure. */
  function SummarizeConversation(s: RetrievalState, o: Oracles): (r: Outcome<Update>)
    ensures var req := RetrievalGraph.SummaryRequest(s, EXTEND_HEAD, EXTEND_TAIL);
      (r.Ok? <==> o.summarize(req.0, req.1).Ok?)
      && (r.Ok? ==> r.value == RetrievalGraph.Update(None, None, None, Some(o.summarize(req.0, req.1).value)))
  {
    var (p, ms) := RetrievalGraph.SummaryRequest(s, EXTEND_HEAD, EXTEND_TAIL);
    match o.summarize(p, ms)
    case Fail(e) => Fail(e)
    case Ok(t) => Ok(RetrievalGraph.Update(None, None, None, Some(t)))
  }

  // ---------------------------------------------------------------- edges

  /** `should_summarize`. */
  function ShouldSummarize(messages: seq<Message>): (r: RetrievalGraph.Route)
    ensures r == RetrievalGraph.Summarize <==> |messages| % 6 == 0
  {
    if |messages| % 6 == 0 then RetrievalGraph.Summarize else RetrievalGraph.End
  }

  /** The state after `generate_query` and `retrieve`. */
  function Retrieved(s: RetrievalState, o: Oracles): (r: Outcome<RetrievalState>)
    ensures r.Ok? ==> r.value.messages == s.messages && r.value.summary == s.summary
  {
    match GenerateQuery(s, o)
    case Fail(e) => Fail(e)
    case Ok(u1) =>
      var s1 := RetrievalGraph.Apply(s, u1);
      match Retrieve(s1, o)
      case Fail(e) => Fail(e)
      case Ok(u2) => Ok(RetrievalGraph.Apply(s1, u2))
  }

  /** The state after `respond` as well. */
  function Responded(s: RetrievalState, o: Oracles): (r: Outcome<RetrievalState>)
    ensures r.Ok? ==> Retrieved(s, o).Ok?
  {
    match Retrieved(s, o)
    case Fail(e) => Fail(e)
    case Ok(s2) =>
      match Respond(s2, o)
      case Fail(e) => Fail(e)
      case Ok(u3) => Ok(RetrievalGraph.Apply(s2, u3))
  }

  /** One turn: start, `generate_query`, `retrieve`, `respond`, then the
      summary when `should_summarize` asks for it. */
  function Run(s: RetrievalState, o: Oracles): (r: Outcome<RetrievalState>)
    ensures r.Ok? ==> Responded(s, o).Ok?
  {
    match Responded(s, o)
    case Fail(e) => Fail(e)
    case Ok(s3) =>
      if ShouldSummarize(s3.messages) == RetrievalGraph.End then Ok(s3)
      else
        match SummarizeConversation(s3, o)
        case Fail(e) => Fail(e)
        case Ok(u4) => Ok(RetrievalGraph.Apply(s3, u4))
  }

  /** After `respond` one message has been appended and the query and
      documents are cleared; the summary is untouched. */
  lemma {:induction false} RespondedShape(s: RetrievalState, o: Oracles)
    requires Responded(s, o).Ok?
    ensures |Responded(s, o).value.messages| == |s.messages| + 1
    ensures Responded(s, o).value.messages[..|s.messages|] == s.messages
    ensures Responded(s, o).value.query == "" && Responded(s, o).value.retrievedDocs == Docs([])
    ensures Responded(s, o).value.summary == s.summary
  {
    var s2 := Retrieved(s, o).value;
    var u := Respond(s2, o).value;
    assert Responded(s, o).value == RetrievalGraph.Apply(s2, u);
    assert Responded(s, o).value.messages == s.messages + u.messages.value;
  }

  /** A turn that completes has appended exactly one message and left the
      query and documents cleared, and its summary changed only if the new
      length is a multiple of six. */
  lemma {:induction false} RunShape(s: RetrievalState, o: Oracles)
    requires Run(s, o).Ok?
    ensures |Run(s, o).value.messages| == |s.messages| + 1
    ensures Run(s, o).value.messages[..|s.messages|] == s.messages
    ensures Run(s, o).value.query == "" && Run(s, o).value.retrievedDocs == Docs([])
    ensures (|s.messages| + 1) % 6 != 0 ==> Run(s, o).value.summary == s.summary
  {
    RespondedShape(s, o);
    var s3 := Responded(s, o).value;
    if ShouldSummarize(s3.messages) == RetrievalGraph.End {
      assert Run(s, o).value == s3;
    } else {
      assert Run(s, o).value == RetrievalGraph.Apply(s3, SummarizeConversation(s3, o).value);
    }
  }

  /** The documents `respond` sees are those retrieved for the generated
      query, whatever the field held before the turn: the marker written by
      `generate_query` is always overwritten by `retrieve`. */
  lemma {:induction false} RespondSeesRetrieved(s: RetrievalState, o: Oracles)
    requires Retrieved(s, o).Ok?
    ensures var s2 := Retrieved(s, o).value;
      s2.retrievedDocs == Docs(o.retrieve(s2.query).value) && Context(s2.retrievedDocs).Ok?
  {
  }
}

=== FILE: db_schema.dfy ===
/** The checkpoint store's schema (`src/schemas/db.py`): three tables with
    primary keys and cascading foreign keys, modelled as sets of rows. The
    declared keys and cascades are modelled as SQLite applies them on a
    connection with foreign-key checking switched on; SQLite's default
    connection checks only the primary keys. */
module DbSchema {
  import opened Text

  /** `threads`, keyed by `thread_id`. */
  datatype Thread = Thread(threadId: int, threadName: string)

  /** A checkpoint's key: thread, namespace and id. */
  datatype CheckpointKey = CheckpointKey(threadId: int, ns: string, checkpointId: string)

  /** `checkpoints`; the columns outside the key are nullable text. */
  datatype Checkpoint = Checkpoint(key: CheckpointKey, parentCheckpointId: Option<string>, kind: Option<string>,
                                   checkpoint: Option<string>, metadata: Option<string>)

  /** A write's key: its checkpoint's key, its task id and its index. */
  datatype WriteKey = WriteKey(checkpoint: CheckpointKey, taskId: string, idx: int)

  /** `writes`. */
  datatype Write = Write(key: WriteKey, channel: Option<string>, kind: Option<string>, value: Option<string>)

  datatype Db = Db(threads: set<Thread>, checkpoints: set<Checkpoint>, writes: set<Write>)

  const REQUIRED_TABLES: set<string> := {"threads", "checkpoints", "writes"}

  /** The tables the schema creates, in order. */
  const SCHEMA_TABLES: seq<string> := ["threads", "checkpoints", "writes"]

  lemma SchemaCreatesRequiredTables()
    ensures (set t | t in SCHEMA_TABLES) == REQUIRED_TABLES && |REQUIRED_TABLES| == 3
  {
    assert "threads" in SCHEMA_TABLES && "checkpoints" in SCHEMA_TABLES && "writes" in SCHEMA_TABLES;
    assert |{"threads", "checkpoints"}| == 2;
  }

  predicate HasThread(db: Db, id: int)
  {
    exists t :: t in db.threads && t.threadId == id
  }

  predicate HasCheckpoint(db: Db, k: CheckpointKey)
  {
    exists c :: c in db.checkpoints && c.key == k
  }

  /** What the schema guarantees of a database: unique primary keys, and
      every checkpoint and write referring to an existing parent row. */
  ghost predicate Valid(db: Db)
  {
    && (forall a, b :: a in db.threads && b in db.threads && a.threadId == b.threadId ==> a == b)
    && (forall a, b :: a in db.checkpoints && b in db.checkpoints && a.key == b.key ==> a == b)
    && (forall a, b :: a in db.writes && b in db.writes && a.key == b.key ==> a == b)
    && (forall c :: c in db.checkpoints ==> HasThread(db, c.key.threadId))
    && (forall w :: w in db.writes ==> HasCheckpoint(db, w.key.checkpoint))
  }

  const UNIQUE := "UNIQUE constraint failed"
  const FOREIGN_KEY := "FOREIGN KEY constraint failed"

  /** Inserting a thread fails when its id is taken. */
  function InsertThread(db: Db, t: Thread): (r: Outcome<Db>)
    ensures r.Fail? <==> HasThread(db, t.threadId)
    ensures r.Ok? ==> r.value == db.(threads := db.threads + {t})
  {
    if HasThread(db, t.threadId) then Fail(UNIQUE) else Ok(db.(threads := db.threads + {t}))
  }

  /** Inserting a checkpoint fails when its key is taken or its thread is
      missing. */
  function InsertCheckpoint(db: Db, c: Checkpoint): (r: Outcome<Db>)
    ensures r.Fail? <==> HasCheckpoint(db, c.key) || !HasThread(db, c.key.threadId)
    ensures r.Ok? ==> r.value == db.(checkpoints := db.checkpoints + {c})
  {
    if HasCheckpoint(db, c.key) then Fail(UNIQUE)
    else if !HasThread(db, c.key.threadId) then Fail(FOREIGN_KEY)
    else Ok(db.(checkpoints := db.checkpoints + {c}))
  }

  /** Inserting a write fails when its key is taken or its checkpoint is
      missing. */
  function InsertWrite(db: Db, w: Write): (r: Outcome<Db>)
    ensures r.Fail? <==> (exists x :: x in db.writes && x.key == w.key) || !HasCheckpoint(db, w.key.checkpoint)
    ensures r.Ok? ==> r.value == db.(writes := db.writes + {w})
  {
    if exists x :: x in db.writes && x.key == w.key then Fail(UNIQUE)
    else if !HasCheckpoint(db, w.key.checkpoint) then Fail(FOREIGN_KEY)
    else Ok(db.(writes := db.writes + {w}))
  }

  /** Successful inserts keep the schema's guarantees. */
  lemma InsertsKeepValid(db: Db, t: Thread, c: Checkpoint, w: Write)
    requires Valid(db)
    ensures InsertThread(db, t).Ok? ==> Valid(InsertThread(db, t).value)
    ensures InsertCheckpoint(db, c).Ok? ==> Valid(InsertCheckpoint(db, c).value)
    ensures InsertWrite(db, w).Ok? ==> Valid(InsertWrite(db, w).value)
  {
    InsertThreadKeepsValid(db, t);
    InsertCheckpointKeepsValid(db, c);
    InsertWriteKeepsValid(db, w);
  }

  lemma InsertThreadKeepsValid(db: Db, t: Thread)
    requires Valid(db)
    ensures InsertThread(db, t).Ok? ==> Valid(InsertThread(db, t).value)
  {
    if InsertThread(db, t).Fail? {
      return;
    }
    var d := InsertThread(db, t).value;
    forall x | x in d.checkpoints ensures HasThread(d, x.key.threadId) {
      var y :| y in db.threads && y.threadId == x.key.threadId;
      assert y in d.threads;
    }
  }

  lemma InsertCheckpointKeepsValid(db: Db, c: Checkpoint)
    requires Valid(db)
    ensures InsertCheckpoint(db, c).Ok? ==> Valid(InsertCheckpoint(db, c).value)
  {
    if InsertCheckpoint(db, c).Fail? {
      return;
    }
    var d := InsertCheckpoint(db, c).value;
    forall x | x in d.writes ensures HasCheckpoint(d, x.key.checkpoint) {
      var y :| y in db.checkpoints && y.key == x.key.checkpoint;
      assert y in d.checkpoints;
    }
  }

  lemma InsertWriteKeepsValid(db: Db, w: Write)
    requires Valid(db)
    ensures InsertWrite(db, w).Ok? ==> Valid(InsertWrite(db, w).value)
  {
  }

  /** Deleting a thread's row, with the cascades the schema declares: its
      checkpoints go with it, and their writes with them. */
  function DeleteThread(db: Db, id: int): (r: Db)
    ensures forall t :: t in r.threads <==> t in db.threads && t.threadId != id
    ensures forall c :: c in r.checkpoints <==> c in db.checkpoints && c.key.threadId != id
    ensures forall w :: w in r.writes <==> w in db.writes && w.key.checkpoint.threadId != id
  {
    Db(set t | t in db.threads && t.threadId != id,
       set c | c in db.checkpoints && c.key.threadId != id,
       set w | w in db.writes && w.key.checkpoint.threadId != id)
  }

  /** The cascade leaves a valid database valid: no checkpoint or write is
      left pointing at a deleted row. */
  lemma DeleteThreadKeepsValid(db: Db, id: int)
    requires Valid(db)
    ensures Valid(DeleteThread(db, id))
    ensures !HasThread(DeleteThread(db, id), id)
  {
    var d := DeleteThread(db, id);
    forall c | c in d.checkpoints ensures HasThread(d, c.key.threadId) {
      var t :| t in db.threads && t.threadId == c.key.threadId;
      assert t in d.threads;
    }
    forall w | w in d.writes ensures HasCheckpoint(d, w.key.checkpoint) {
      var c :| c in db.checkpoints && c.key == w.key.checkpoint;
      assert c in d.checkpoints;
    }
  }

  /** Deleting a checkpoint's row; its writes go with it. */
  function DeleteCheckpoint(db: Db, k: CheckpointKey): (r: Db)
    ensures r.threads == db.threads
    ensures forall c :: c in r.checkpoints <==> c in db.checkpoints && c.key != k
    ensures forall w :: w in r.writes <==> w in db.writes && w.key.checkpoint != k
  {
    var cs := set c | c in db.checkpoints && c.key != k;
    var ws := set w | w in db.writes && w.key.checkpoint != k;
    db.(checkpoints := cs, writes := ws)
  }

  lemma DeleteCheckpointKeepsValid(db: Db, k: CheckpointKey)
    requires Valid(db)
    ensures Valid(DeleteCheckpoint(db, k)) && !HasCheckpoint(DeleteCheckpoint(db, k), k)
  {
    var d := DeleteCheckpoint(db, k);
    forall w | w in d.writes ensures HasCheckpoint(d, w.key.checkpoint) {
      var c :| c in db.checkpoints && c.key == w.key.checkpoint;
      assert c in d.checkpoints;
    }
  }

  /** In a valid database, deleting a thread removes exactly the rows that
      hang off it, transitively: a write goes iff its checkpoint did, and a
      checkpoint goes iff its thread did. */
  lemma {:induction false} CascadeIsTransitive(db: Db, id: int, w: Write)
    requires Valid(db) && w in db.writes
    ensures w !in DeleteThread(db, id).writes <==> !HasCheckpoint(DeleteThread(db, id), w.key.checkpoint)
  {
    var d := DeleteThread(db, id);
    var c :| c in db.checkpoints && c.key == w.key.checkpoint;
    if w !in d.writes {
      forall x | x in d.checkpoints ensures x.key != w.key.checkpoint { }
    } else {
      assert c in d.checkpoints;
    }
  }
}

=== FILE: dict_to_pdf.dfy ===
/** The report writer of `src/resources/dict_to_pdf.py`: `clean_content`
    deletes think blocks and collapses blank-line runs, and `dict_to_pdf`
    lays out one titled section per item, its content split into
    paragraphs, with a spacer (and optionally a page break) between
    sections. The summary of an item is never rendered. */
module DictToPdf {
  import opened Text
  import opened Story

  // ---------------------------------------------------------------- blank-line runs

  /** The length of the whitespace run `s` starts with. */
  function SpaceRun(s: string): (r: nat)
    ensures r <= |s|
    ensures forall m :: 0 <= m < r ==> IsSpace(s[m])
    ensures r < |s| ==> !IsSpace(s[r])
    decreases |s|
  {
    if s != [] && IsSpace(s[0]) then 1 + SpaceRun(s[1..]) else 0
  }

  /** The length of the match of `\n\s*\n` at the start of `s`, 0 when
      there is none. The greedy `\s*` takes the whole whitespace run after
      the first newline and gives back up to the run's last newline, so the
      match is the longest one. */
  function MatchLength(s: string): (n: nat)
    ensures n == 0 || (2 <= n <= |s| && s[0] == '\n' && s[n - 1] == '\n')
    ensures forall m :: 0 <= m < n ==> IsSpace(s[m])
    ensures s != [] && s[0] == '\n' ==> forall m :: 1 <= m < 1 + SpaceRun(s[1..]) && n <= m ==> s[m] != '\n'
  {
    if s != [] && s[0] == '\n' then
      var run := s[1..1 + SpaceRun(s[1..])];
      var k := LastIndexOf(run, '\n');
      assert forall m :: 0 <= m < |run| ==> run[m] == s[1 + m];
      if k >= 0 then k + 2 else 0
    else 0
  }

  /** `re.sub(r'\n\s*\n', '\n\n', s)`: matches are found left to right
      and each is replaced by one empty line. */
  function Collapse(s: string): string
    decreases |s|
  {
    if s == [] then []
    else if MatchLength(s) > 0 then "\n\n" + Collapse(s[MatchLength(s)..])
    else [s[0]] + Collapse(s[1..])
  }

  /** The whitespace `s` starts with holds no newline. */
  ghost predicate NoLeadingNewline(s: string)
    decreases |s|
  {
    s == [] || !IsSpace(s[0]) || (s[0] != '\n' && NoLeadingNewline(s[1..]))
  }

  /** Two newlines with only whitespace between them are adjacent: every
      run of blank lines is exactly one empty line. */
  ghost predicate NoBlankRun(r: string)
  {
    forall i, j :: 0 <= i < j < |r| && r[i] == '\n' && r[j] == '\n' && AllSpace(r[i + 1..j]) ==> j == i + 1
  }

  /** The same property, read from the front one character at a time. */
  ghost predicate BlankFree(r: string)
    decreases |r|
  {
    r == [] ||
    (BlankFree(r[1..]) &&
     (r[0] == '\n' ==> NoLeadingNewline(r[1..]) || (|r| >= 2 && r[1] == '\n' && NoLeadingNewline(r[2..]))))
  }

  /** A newline reached over whitespace alone contradicts `NoLeadingNewline`. */
  lemma {:induction false} NewlineNotReached(u: string, j: nat)
    requires NoLeadingNewline(u) && j < |u|
    requires forall m :: 0 <= m < j ==> IsSpace(u[m])
    ensures u[j] != '\n'
    decreases j
  {
    if j > 0 {
      NewlineNotReached(u[1..], j - 1);
    }
  }

  /** The rest of a whitespace run past its last newline starts with no
      newline in its whitespace. */
  lemma {:induction false} RunTail(t: string, a: nat)
    requires a <= SpaceRun(t)
    requires forall j :: a <= j < SpaceRun(t) ==> t[j] != '\n'
    ensures NoLeadingNewline(t[a..])
    decreases SpaceRun(t) - a
  {
    if a < SpaceRun(t) {
      RunTail(t, a + 1);
      assert t[a..][1..] == t[a + 1..];
    }
  }

  /** What a match, or a newline that does not start one, leaves behind. */
  lemma AfterNewline(s: string)
    requires s != [] && s[0] == '\n'
    ensures MatchLength(s) > 0 ==> NoLeadingNewline(s[MatchLength(s)..])
    ensures MatchLength(s) == 0 ==> NoLeadingNewline(s[1..])
  {
    var n := MatchLength(s);
    var t := s[1..];
    if n > 0 {
      RunTail(t, n - 1);
      assert t[n - 1..] == s[n..];
    } else {
      RunTail(t, 0);
      assert t[0..] == t;
    }
  }

  /** The substitution keeps a text's leading whitespace free of newlines. */
  lemma {:induction false} CollapseKeepsNoLeadingNewline(s: string)
    requires NoLeadingNewline(s)
    ensures NoLeadingNewline(Collapse(s))
    decreases |s|
  {
    if s != [] && IsSpace(s[0]) {
      CollapseKeepsNoLeadingNewline(s[1..]);
      assert Collapse(s)[1..] == Collapse(s[1..]);
    }
  }

  /** After the substitution no blank line is left beside another. */
  lemma {:induction false} CollapseBlankFree(s: string)
    ensures BlankFree(Collapse(s))
    decreases |s|
  {
    if s != [] {
      var n := MatchLength(s);
      if n > 0 {
        CollapseBlankFree(s[n..]);
        AfterNewline(s);
        CollapseKeepsNoLeadingNewline(s[n..]);
        var u := Collapse(s[n..]);
        assert ("\n\n" + u)[1..] == "\n" + u && ("\n" + u)[1..] == u && ("\n\n" + u)[2..] == u;
      } else {
        CollapseBlankFree(s[1..]);
        if s[0] == '\n' {
          AfterNewline(s);
          CollapseKeepsNoLeadingNewline(s[1..]);
        }
        assert Collapse(s)[1..] == Collapse(s[1..]);
      }
    }
  }

  /** The character-by-character property is the pairwise one. */
  lemma {:induction false} BlankFreeNoBlankRun(r: string)
    requires BlankFree(r)
    ensures NoBlankRun(r)
    decreases |r|
  {
    if r != [] {
      BlankFreeNoBlankRun(r[1..]);
      forall i, j | 0 <= i < j < |r| && r[i] == '\n' && r[j] == '\n' && AllSpace(r[i + 1..j])
        ensures j == i + 1
      {
        assert forall m :: i + 1 <= m < j ==> IsSpace(r[m]) by {
          forall m | i + 1 <= m < j ensures IsSpace(r[m]) {
            assert r[i + 1..j][m - i - 1] == r[m];
          }
        }
        if i >= 1 {
          assert r[1..][i..j - 1] == r[i + 1..j];
          assert r[1..][i - 1] == r[i] && r[1..][j - 1] == r[j];
        } else if NoLeadingNewline(r[1..]) {
          NewlineNotReached(r[1..], j - 1);
        } else if j >= 2 {
          NewlineNotReached(r[2..], j - 2);
        }
      }
    }
  }

  /** The substitution's promise: no run of blank lines survives. */
  lemma CollapseNoBlankRun(s: string)
    ensures NoBlankRun(Collapse(s))
  {
    CollapseBlankFree(s);
    BlankFreeNoBlankRun(Collapse(s));
  }

  /** Replacing a whitespace prefix by an empty line keeps the visible
      characters. */
  lemma MatchVisible(s: string, n: nat, u: string)
    requires 0 < n <= |s| && forall m :: 0 <= m < n ==> IsSpace(s[m])
    requires Visible(u) == Visible(s[n..])
    ensures Visible("\n\n" + u) == Visible(s)
  {
    var gap := "\n\n";
    assert IsSpace(gap[0]) && IsSpace(gap[1]);
    assert gap + u == [] + gap + u;
    VisibleSpaceBetween([], gap, u);
    assert s == [] + s[..n] + s[n..];
    VisibleSpaceBetween([], s[..n], s[n..]);
  }

  /** The substitution only rewrites whitespace: the visible characters
      are kept, in order. */
  lemma {:induction false} CollapseKeepsVisible(s: string)
    ensures Visible(Collapse(s)) == Visible(s)
    decreases |s|
  {
    if s != [] {
      var n := MatchLength(s);
      if n > 0 {
        CollapseKeepsVisible(s[n..]);
        MatchVisible(s, n, Collapse(s[n..]));
      } else {
        CollapseKeepsVisible(s[1..]);
        VisibleAppend([s[0]], Collapse(s[1..]));
      }
    }
  }

  /** A text without newlines is left as it is. */
  lemma {:induction false} CollapseWithoutNewline(s: string)
    requires '\n' !in s
    ensures Collapse(s) == s
    decreases |s|
  {
    if s != [] {
      assert '\n' !in s[1..];
      CollapseWithoutNewline(s[1..]);
      assert s == [s[0]] + s[1..];
    }
  }

  // ---------------------------------------------------------------- clean_content

  /** `clean_content`: think blocks (tags matched case-sensitively, the
      body across lines) are deleted, blank-line runs collapsed, and the
      result stripped. */
  function CleanContent(content: string): string
  {
    Strip(Collapse(RemoveBlocks(content, false, true)))
  }

  /** A slice of a text without blank runs has none. */
  lemma NoBlankRunSlice(r: string, a: nat, b: nat)
    requires a <= b <= |r| && NoBlankRun(r)
    ensures NoBlankRun(r[a..b])
  {
    var x := r[a..b];
    forall i, j | 0 <= i < j < |x| && x[i] == '\n' && x[j] == '\n' && AllSpace(x[i + 1..j])
      ensures j == i + 1
    {
      assert AllSpace(r[a + i + 1..a + j]) by {
        forall m | a + i + 1 <= m < a + j ensures IsSpace(r[m]) {
          assert r[m] == x[i + 1..j][m - a - i - 1];
        }
      }
      assert r[a + i] == x[i] && r[a + j] == x[j];
    }
  }

  /** Stripping keeps a text free of blank runs. */
  lemma StripKeepsNoBlankRun(c: string)
    requires NoBlankRun(c)
    ensures NoBlankRun(Strip(c))
  {
    var l := LStrip(c);
    LStripSuffix(c);
    RStripPrefix(l);
    var a, k := |c| - |l|, |RStrip(l)|;
    assert Strip(c) == l[..k];
    assert l[..k] == c[a..a + k] by {
      assert l == c[a..];
    }
    NoBlankRunSlice(c, a, a + k);
  }

  /** What `clean_content` promises: no run of blank lines, no surrounding
      whitespace, and every visible character outside the think blocks
      kept in order. */
  lemma CleanContentShape(content: string)
    ensures NoBlankRun(CleanContent(content))
    ensures Visible(CleanContent(content)) == Visible(RemoveBlocks(content, false, true))
    ensures Strip(CleanContent(content)) == CleanContent(content)
  {
    var c := Collapse(RemoveBlocks(content, false, true));
    CollapseNoBlankRun(RemoveBlocks(content, false, true));
    StripKeepsNoBlankRun(c);
    StripKeepsVisible(c);
    CollapseKeepsVisible(RemoveBlocks(content, false, true));
    StripIdempotent(c);
  }

  /** A think block opening the content is deleted with its body, even
      across lines; the tags must be written in lower case. */
  lemma LeadingThinkBlockDeleted(t: string, a: string)
    requires '<' !in t
    ensures CleanContent(OPEN + t + CLOSE + a) == CleanContent(a)
  {
    LeadingBlockDropped(t, a, false, true);
  }

  /** The tags are matched case-sensitively: an upper-case block is left
      in place. */
  lemma UpperCaseBlockKept()
    ensures RemoveBlocks("<THINK>", false, true) == "<THINK>"
  {
    var s := "<THINK>";
    assert !TagAt(s, 0, OPEN, false) by { assert s[1] != OPEN[1]; }
    assert '<' !in s[1..];
    OnlyFirstAngleKept(s, false, true);
  }

  /** A text whose only `<` opens it, but not with an opening tag, is left
      as it is. */
  lemma OnlyFirstAngleKept(s: string, ci: bool, dotall: bool)
    requires s != [] && !TagAt(s, 0, OPEN, ci) && '<' !in s[1..]
    ensures RemoveBlocks(s, ci, dotall) == s
  {
    assert BlockAt(s, ci, dotall).None?;
    var rest := s[1..];
    assert RemoveBlocks(rest, ci, dotall) == rest by {
      NoAngleNoBlock(rest, ci, dotall);
      NoBlockUnchanged(rest, ci, dotall);
    }
    assert s == [s[0]] + rest;
  }

  // ---------------------------------------------------------------- the story

  const TITLE_STYLE := "CustomTitle"
  const CONTENT_STYLE := "CustomContent"

  /** One piece of the content: its stripped text and a 6-point spacer,
      or nothing when the piece is blank. */
  function PieceFlowables(p: string): seq<Flowable>
  {
    if Strip(p) != "" then [Paragraph(Strip(p), CONTENT_STYLE), Spacer(1, 6)] else []
  }

  /** The content's pieces, in order. Only content paragraphs and 6-point
      spacers are produced. */
  function ContentParagraphs(pieces: seq<string>): (r: seq<Flowable>)
    ensures forall k :: 0 <= k < |r| ==> (r[k].Paragraph? && r[k].style == CONTENT_STYLE) || r[k] == Spacer(1, 6)
  {
    if pieces == [] then [] else PieceFlowables(pieces[0]) + ContentParagraphs(pieces[1..])
  }

  lemma {:induction false} ContentParagraphsSnoc(pieces: seq<string>, p: string)
    ensures ContentParagraphs(pieces + [p]) == ContentParagraphs(pieces) + PieceFlowables(p)
  {
    if pieces == [] {
      assert [] + [p] == [p];
      assert ContentParagraphs([p]) == PieceFlowables(p) + ContentParagraphs([]);
    } else {
      assert (pieces + [p])[1..] == pieces[1..] + [p];
      ContentParagraphsSnoc(pieces[1..], p);
    }
  }

  /** The content of a section: split at empty lines unless it is blank. */
  function ContentFlowables(content: string): seq<Flowable>
  {
    if Strip(content) != "" then ContentParagraphs(Split(content, "\n\n")) else []
  }

  /** What `dict_to_pdf` appends for the `i`-th of `n` items: the title (the
      default one when the item has none) and a 6-point spacer, the cleaned
      content, and between sections a 20-point spacer followed, on request,
      by a page break. The summary is read but never shown. */
  function ItemFlowables(i: nat, n: nat, item: Item, pageBreaks: bool): seq<Flowable>
  {
    [Paragraph(ItemGet(item, "title", DefaultTitle(i)), TITLE_STYLE), Spacer(1, 6)]
    + ContentFlowables(CleanContent(ItemGet(item, "content", "")))
    + (if i + 1 < n then [Spacer(1, 20)] + (if pageBreaks then [PageBreak] else []) else [])
  }

  /** The story for the first `|items|` of `n` items. */
  function ReportStory(items: seq<Item>, n: nat, pageBreaks: bool): seq<Flowable>
    decreases |items|
  {
    if items == [] then []
    else ReportStory(items[..|items| - 1], n, pageBreaks) + ItemFlowables(|items| - 1, n, items[|items| - 1], pageBreaks)
  }

  /** One more piece of the content adds its own flowables at the end. */
  lemma ContentParagraphsStep(pieces: seq<string>, k: nat)
    requires k < |pieces|
    ensures ContentParagraphs(pieces[..k + 1]) == ContentParagraphs(pieces[..k]) + PieceFlowables(pieces[k])
  {
    assert pieces[..k + 1] == pieces[..k] + [pieces[k]];
    ContentParagraphsSnoc(pieces[..k], pieces[k]);
  }

  /** The inner loop of `dict_to_pdf`: the paragraphs of a cleaned content. */
  method AppendContent(story: seq<Flowable>, content: string) returns (r: seq<Flowable>)
    ensures r == story + ContentFlowables(content)
  {
    r := story;
    if Strip(content) != "" {
      var paragraphs := Split(content, "\n\n");
      ghost var added: seq<Flowable> := [];
      for k := 0 to |paragraphs|
        invariant added == ContentParagraphs(paragraphs[..k])
        invariant r == story + added
      {
        var paragraph := paragraphs[k];
        ContentParagraphsStep(paragraphs, k);
        if Strip(paragraph) != "" {
          var piece := [Paragraph(Strip(paragraph), CONTENT_STYLE), Spacer(1, 6)];
          AppendAssoc(story, added, piece);
          r := r + piece;
          added := added + piece;
        } else {
          assert added + PieceFlowables(paragraph) == added;
        }
      }
      assert paragraphs[..|paragraphs|] == paragraphs;
    } else {
      assert story + ContentFlowables(content) == story;
    }
  }

  /** One pass of the loop in `dict_to_pdf`: the flowables of the `i`-th item. */
  method AppendItem(story: seq<Flowable>, i: nat, n: nat, item: Item, addPageBreaks: bool)
    returns (r: seq<Flowable>)
    ensures r == story + ItemFlowables(i, n, item, addPageBreaks)
  {
    var title := ItemGet(item, "title", DefaultTitle(i));
    var content := ItemGet(item, "content", "");
    content := CleanContent(content);
    var head := [Paragraph(title, TITLE_STYLE), Spacer(1, 6)];
    r := AppendContent(story + head, content);
    AppendAssoc(story, head, ContentFlowables(content));
    ghost var added := head + ContentFlowables(content);
    if i + 1 < n {
      AppendAssoc(story, added, [Spacer(1, 20)]);
      r := r + [Spacer(1, 20)];
      added := added + [Spacer(1, 20)];
      if addPageBreaks {
        AppendAssoc(story, added, [PageBreak]);
        r := r + [PageBreak];
        added := added + [PageBreak];
      }
    } else {
      assert added + [] == added;
    }
    assert added == ItemFlowables(i, n, item, addPageBreaks);
  }

  /** `dict_to_pdf`, up to building the document: the story. */
  method DictToPdf(data: seq<Item>, addPageBreaks: bool) returns (story: seq<Flowable>)
    ensures story == ReportStory(data, |data|, addPageBreaks)
  {
    story := [];
    for i := 0 to |data|
      invariant story == ReportStory(data[..i], |data|, addPageBreaks)
    {
      story := AppendItem(story, i, |data|, data[i], addPageBreaks);
      assert data[..i + 1][..i] == data[..i];
    }
    assert data[..|data|] == data;
  }

  // ---------------------------------------------------------------- what the story shows

  /** What of an item reaches the story: its title, if it has one, and its
      content. */
  function Shown(item: Item): (Option<string>, string)
  {
    (if "title" in item then Some(item["title"]) else None, ItemGet(item, "content", ""))
  }

  /** Items that agree on title and content give the same story, whatever
      else they hold. */
  lemma {:induction false} OnlyTitleAndContentShown(a: seq<Item>, b: seq<Item>, n: nat, pageBreaks: bool)
    requires |a| == |b|
    requires forall k :: 0 <= k < |a| ==> Shown(a[k]) == Shown(b[k])
    ensures ReportStory(a, n, pageBreaks) == ReportStory(b, n, pageBreaks)
    decreases |a|
  {
    if a != [] {
      var m := |a| - 1;
      OnlyTitleAndContentShown(a[..m], b[..m], n, pageBreaks);
      assert Shown(a[m]) == Shown(b[m]);
      assert ItemGet(a[m], "title", DefaultTitle(m)) == ItemGet(b[m], "title", DefaultTitle(m));
    }
  }

  /** The summary is never rendered: replacing every item's summary leaves
      the story as it was. */
  lemma SummaryNeverShown(items: seq<Item>, summaries: seq<string>, n: nat, pageBreaks: bool)
    requires |summaries| == |items|
    ensures ReportStory(seq(|items|, k requires 0 <= k < |items| => items[k]["summary" := summaries[k]]), n, pageBreaks)
         == ReportStory(items, n, pageBreaks)
  {
    var changed := seq(|items|, k requires 0 <= k < |items| => items[k]["summary" := summaries[k]]);
    forall k | 0 <= k < |items| ensures Shown(changed[k]) == Shown(items[k]) {
      assert changed[k] == items[k]["summary" := summaries[k]];
    }
    OnlyTitleAndContentShown(changed, items, n, pageBreaks);
  }

  /** The separators one item contributes. */
  lemma ItemSeparators(i: nat, n: nat, item: Item, pageBreaks: bool)
    ensures Count(ItemFlowables(i, n, item, pageBreaks), Spacer(1, 20)) == if i + 1 < n then 1 else 0
    ensures Count(ItemFlowables(i, n, item, pageBreaks), PageBreak) == if i + 1 < n && pageBreaks then 1 else 0
  {
    var c := ContentFlowables(CleanContent(ItemGet(item, "content", "")));
    assert Spacer(1, 20) !in c && PageBreak !in c;
  }

  /** Sections are separated, and only separated: among `n` sections there
      are `n - 1` 20-point spacers, and as many page breaks when they are
      asked for, none otherwise. */
  lemma {:induction false} Separators(items: seq<Item>, n: nat, pageBreaks: bool)
    requires |items| <= n
    ensures Count(ReportStory(items, n, pageBreaks), Spacer(1, 20)) == |items| - (if |items| == n && n > 0 then 1 else 0)
    ensures Count(ReportStory(items, n, pageBreaks), PageBreak) == if pageBreaks then |items| - (if |items| == n && n > 0 then 1 else 0) else 0
    decreases |items|
  {
    if items != [] {
      var m := |items| - 1;
      Separators(items[..m], n, pageBreaks);
      ItemSeparators(m, n, items[m], pageBreaks);
    }
  }

  /** The same for a whole report. */
  lemma ReportSeparators(data: seq<Item>, pageBreaks: bool)
    ensures data != [] ==> Count(ReportStory(data, |data|, pageBreaks), Spacer(1, 20)) == |data| - 1
    ensures Count(ReportStory(data, |data|, pageBreaks), PageBreak) == if pageBreaks && data != [] then |data| - 1 else 0
  {
    Separators(data, |data|, pageBreaks);
  }

  /** The texts of the title paragraphs, in order. */
  function Titles(story: seq<Flowable>): seq<string>
  {
    if story == [] then []
    else (if story[0].Paragraph? && story[0].style == TITLE_STYLE then [story[0].text] else []) + Titles(story[1..])
  }

  lemma {:induction false} TitlesAppend(a: seq<Flowable>, b: seq<Flowable>)
    ensures Titles(a + b) == Titles(a) + Titles(b)
  {
    if a == [] {
      assert a + b == b;
    } else {
      assert (a + b)[1..] == a[1..] + b;
      TitlesAppend(a[1..], b);
    }
  }

  lemma {:induction false} NoTitles(s: seq<Flowable>)
    requires forall k :: 0 <= k < |s| ==> !s[k].Paragraph? || s[k].style != TITLE_STYLE
    ensures Titles(s) == []
  {
    if s != [] {
      NoTitles(s[1..]);
    }
  }

  /** An item contributes exactly its title to the titles. */
  lemma ItemTitle(i: nat, n: nat, item: Item, pageBreaks: bool)
    ensures Titles(ItemFlowables(i, n, item, pageBreaks)) == [ItemGet(item, "title", DefaultTitle(i))]
  {
    var title := ItemGet(item, "title", DefaultTitle(i));
    var content := ContentFlowables(CleanContent(ItemGet(item, "content", "")));
    var tail := if i + 1 < n then [Spacer(1, 20)] + (if pageBreaks then [PageBreak] else []) else [];
    assert ItemFlowables(i, n, item, pageBreaks) == [Paragraph(title, TITLE_STYLE), Spacer(1, 6)] + content + tail;
    assert forall k :: 0 <= k < |tail| ==> !tail[k].Paragraph?;
    SectionTitle(title, content, tail);
  }

  /** A section headed by a title paragraph, with no other title in it. */
  lemma SectionTitle(title: string, content: seq<Flowable>, tail: seq<Flowable>)
    requires forall k :: 0 <= k < |content| ==> !content[k].Paragraph? || content[k].style != TITLE_STYLE
    requires forall k :: 0 <= k < |tail| ==> !tail[k].Paragraph? || tail[k].style != TITLE_STYLE
    ensures Titles([Paragraph(title, TITLE_STYLE), Spacer(1, 6)] + content + tail) == [title]
  {
    var head := [Paragraph(title, TITLE_STYLE), Spacer(1, 6)];
    NoTitles(content);
    NoTitles(tail);
    assert Titles(head) == [title] by {
      assert head[1..] == [Spacer(1, 6)];
      assert Titles([Spacer(1, 6)]) == Titles([]);
    }
    TitlesAppend(head, content);
    TitlesAppend(head + content, tail);
  }

  lemma {:induction false} TitleCount(items: seq<Item>, n: nat, pageBreaks: bool)
    ensures |Titles(ReportStory(items, n, pageBreaks))| == |items|
    decreases |items|
  {
    if items != [] {
      var m := |items| - 1;
      TitleCount(items[..m], n, pageBreaks);
      ItemTitle(m, n, items[m], pageBreaks);
      TitlesAppend(ReportStory(items[..m], n, pageBreaks), ItemFlowables(m, n, items[m], pageBreaks));
    }
  }

  /** Appending a section with one title adds that title after the others. */
  lemma TitleInSnoc(before: seq<Flowable>, item: seq<Flowable>, t: string, k: nat)
    requires Titles(item) == [t] && k <= |Titles(before)|
    ensures |Titles(before + item)| == |Titles(before)| + 1
    ensures k < |Titles(before)| ==> Titles(before + item)[k] == Titles(before)[k]
    ensures k == |Titles(before)| ==> Titles(before + item)[k] == t
  {
    TitlesAppend(before, item);
  }

  lemma {:induction false} TitleAt(items: seq<Item>, n: nat, pageBreaks: bool, k: nat)
    requires k < |items|
    ensures k < |Titles(ReportStory(items, n, pageBreaks))|
    ensures Titles(ReportStory(items, n, pageBreaks))[k] == ItemGet(items[k], "title", DefaultTitle(k))
    decreases |items|
  {
    var m := |items| - 1;
    TitleCount(items[..m], n, pageBreaks);
    ItemTitle(m, n, items[m], pageBreaks);
    TitleInSnoc(ReportStory(items[..m], n, pageBreaks), ItemFlowables(m, n, items[m], pageBreaks),
                ItemGet(items[m], "title", DefaultTitle(m)), k);
    if k < m {
      TitleAt(items[..m], n, pageBreaks, k);
      assert items[..m][k] == items[k];
    }
  }

  /** One title per item, in order: the item's own, or "Section i+1". */
  lemma SectionTitles(items: seq<Item>, n: nat, pageBreaks: bool)
    ensures |Titles(ReportStory(items, n, pageBreaks))| == |items|
    ensures forall k :: 0 <= k < |items| ==> Titles(ReportStory(items, n, pageBreaks))[k] == ItemGet(items[k], "title", DefaultTitle(k))
  {
    TitleCount(items, n, pageBreaks);
    forall k | 0 <= k < |items|
      ensures Titles(ReportStory(items, n, pageBreaks))[k] == ItemGet(items[k], "title", DefaultTitle(k))
    {
      TitleAt(items, n, pageBreaks, k);
    }
  }

  /** A content paragraph as the story shows it: non-empty, stripped, and
      free of empty lines. */
  predicate CleanParagraph(f: Flowable)
  {
    f.Paragraph? && f.style == CONTENT_STYLE ==> f.text != "" && Strip(f.text) == f.text && !Contains(f.text, "\n\n")
  }

  /** A slice of a text holds no pattern the text does not hold. */
  lemma SliceAvoids(p: string, a: nat, b: nat, x: string)
    requires a <= b <= |p| && !Contains(p, x)
    ensures !Contains(p[a..b], x)
  {
    forall i | 0 <= i <= b - a ensures !IsAt(p[a..b], i, x) {
      if i + |x| <= b - a {
        NotContainsAt(p, x, a + i);
        var inSlice, inText := p[a..b][i..i + |x|], p[a + i..a + i + |x|];
        assert inText != x;
        assert |inSlice| == |inText| == |x|;
        forall j | 0 <= j < |x| ensures inSlice[j] == inText[j] {
          assert inSlice[j] == p[a..b][i + j] == p[a + i + j];
        }
        assert inSlice == inText;
      }
    }
  }

  lemma NotContainsAt(s: string, x: string, i: nat)
    requires !Contains(s, x) && i <= |s|
    ensures !IsAt(s, i, x)
  {
  }

  /** Stripping a piece cannot create an empty line in it. */
  lemma StripAvoids(p: string, x: string)
    requires !Contains(p, x)
    ensures !Contains(Strip(p), x)
  {
    var l := LStrip(p);
    LStripSuffix(p);
    RStripPrefix(l);
    var a := |p| - |l|;
    assert Strip(p) == p[a..a + |RStrip(l)|];
    SliceAvoids(p, a, a + |RStrip(l)|, x);
  }

  lemma {:induction false} ContentParagraphsClean(pieces: seq<string>)
    requires forall k :: 0 <= k < |pieces| ==> !Contains(pieces[k], "\n\n")
    ensures forall k :: 0 <= k < |ContentParagraphs(pieces)| ==> CleanParagraph(ContentParagraphs(pieces)[k])
  {
    if pieces != [] {
      ContentParagraphsClean(pieces[1..]);
      StripAvoids(pieces[0], "\n\n");
      StripIdempotent(pieces[0]);
    }
  }

  /** The content paragraphs of one item are clean. */
  lemma ItemClean(i: nat, n: nat, item: Item, pageBreaks: bool)
    ensures forall k :: 0 <= k < |ItemFlowables(i, n, item, pageBreaks)| ==> CleanParagraph(ItemFlowables(i, n, item, pageBreaks)[k])
  {
    var c := CleanContent(ItemGet(item, "content", ""));
    if Strip(c) != "" {
      SplitPiecesFree(c, "\n\n");
      ContentParagraphsClean(Split(c, "\n\n"));
    }
  }

  /** Every content paragraph in a story is non-empty, stripped, and free
      of empty lines. */
  lemma {:induction false} ContentParagraphsAreClean(items: seq<Item>, n: nat, pageBreaks: bool)
    ensures forall k :: 0 <= k < |ReportStory(items, n, pageBreaks)| ==> CleanParagraph(ReportStory(items, n, pageBreaks)[k])
    decreases |items|
  {
    if items != [] {
      var m := |items| - 1;
      var before := ReportStory(items[..m], n, pageBreaks);
      var item := ItemFlowables(m, n, items[m], pageBreaks);
      ContentParagraphsAreClean(items[..m], n, pageBreaks);
      ItemClean(m, n, items[m], pageBreaks);
      assert ReportStory(items, n, pageBreaks) == before + item;
      forall k | 0 <= k < |before + item| ensures CleanParagraph((before + item)[k]) {
        if k >= |before| {
          assert (before + item)[k] == item[k - |before|];
        }
      }
    }
  }

  /** The texts of all paragraphs, run together. */
  function TextOf(story: seq<Flowable>): string
  {
    if story == [] then [] else (if story[0].Paragraph? then story[0].text else []) + TextOf(story[1..])
  }

  lemma {:induction false} TextOfAppend(a: seq<Flowable>, b: seq<Flowable>)
    ensures TextOf(a + b) == TextOf(a) + TextOf(b)
  {
    if a == [] {
      assert a + b == b;
    } else {
      assert (a + b)[1..] == a[1..] + b;
      TextOfAppend(a[1..], b);
    }
  }

  /** A piece's paragraph shows every visible character of the piece. */
  lemma PieceVisible(p: string)
    ensures Visible(TextOf(PieceFlowables(p))) == Visible(p)
  {
    StripKeepsVisible(p);
    StripEmptyIff(p);
    if Strip(p) == "" {
      VisibleAllSpace(p);
    } else {
      assert TextOf(PieceFlowables(p)) == Strip(p) + TextOf([Spacer(1, 6)]);
      assert TextOf([Spacer(1, 6)]) == [] + TextOf([]);
      assert Strip(p) + [] == Strip(p);
    }
  }

  /** Joining at an empty line adds nothing visible. */
  lemma JoinVisible(p: string, rest: string)
    ensures Visible(p + "\n\n" + rest) == Visible(p) + Visible(rest)
  {
    var gap := "\n\n";
    assert IsSpace(gap[0]) && IsSpace(gap[1]);
    VisibleSpaceBetween(p, gap, rest);
  }

  /** The pieces' paragraphs show every visible character of the pieces
      joined at empty lines. */
  lemma {:induction false} ContentParagraphsVisible(pieces: seq<string>)
    ensures Visible(TextOf(ContentParagraphs(pieces))) == Visible(Join("\n\n", pieces))
  {
    if pieces != [] {
      var p := pieces[0];
      ContentParagraphsVisible(pieces[1..]);
      TextOfAppend(PieceFlowables(p), ContentParagraphs(pieces[1..]));
      VisibleAppend(TextOf(PieceFlowables(p)), TextOf(ContentParagraphs(pieces[1..])));
      PieceVisible(p);
      if |pieces| > 1 {
        JoinVisible(p, Join("\n\n", pieces[1..]));
      } else {
        assert pieces[1..] == [];
      }
    }
  }

  /** Nothing of the content is lost but whitespace and think blocks: a
      section's content paragraphs show every other character of the raw
      content, in order. */
  lemma ContentKept(raw: string)
    ensures Visible(TextOf(ContentFlowables(CleanContent(raw)))) == Visible(RemoveBlocks(raw, false, true))
  {
    var c := CleanContent(raw);
    CleanContentShape(raw);
    if Strip(c) != "" {
      ContentParagraphsVisible(Split(c, "\n\n"));
      JoinSplit(c, "\n\n");
    } else {
      StripEmptyIff(c);
      VisibleAllSpace(c);
      assert ContentFlowables(c) == [];
      assert Visible(TextOf([])) == [];
    }
  }
}

=== FILE: docs.dfy ===
/** The records the pipelines pass around: LangChain documents with their
    metadata, chat messages with their several content shapes, and the text
    rendering Python gives metadata values (`repr`). */
module Docs {
  import opened Text

  /** A metadata value: the pipelines store strings (file paths, uuids). */
  datatype MetaValue = Str(s: string) | Int(i: int) | NoneValue

  /** A metadata dictionary, in insertion order (Python dicts keep it). */
  type Metadata = seq<(string, MetaValue)>

  datatype Document = Document(pageContent: string, metadata: Metadata)

  /** `metadata.get(key)`: the value stored under the first entry with that key. */
  function Get(m: Metadata, key: string): (r: Option<MetaValue>)
    ensures r.Some? <==> exists i :: 0 <= i < |m| && m[i].0 == key
    ensures r.Some? ==> exists i :: 0 <= i < |m| && m[i] == (key, r.value)
  {
    if m == [] then None
    else if m[0].0 == key then Some(m[0].1)
    else
      var r := Get(m[1..], key);
      assert forall i :: 1 <= i < |m| ==> m[i] == m[1..][i - 1];
      r
  }

  // ---------------------------------------------------------------- messages

  datatype Role = Human | AI | System | Tool

  /** One element of a list-shaped message content: a string, or a dict whose
      "text" entry may be missing. */
  datatype Part = PText(s: string) | PDict(text: Option<string>)

  /** A message content: a string, a dict, or a list of parts. */
  datatype Content = CStr(s: string) | CDict(text: Option<string>) | CParts(parts: seq<Part>)

  datatype Message = Message(role: Role, content: Content)

  function PartText(p: Part): string
  {
    match p
    case PText(s) => s
    case PDict(t) => if t.Some? then t.value else ""
  }

  function PartsText(ps: seq<Part>): (r: string)
    ensures ps == [] ==> r == []
  {
    if ps == [] then [] else PartText(ps[0]) + PartsText(ps[1..])
  }

  /** `get_message_text`: a string content as is, a dict's "text" entry (empty
      when missing), or the stripped concatenation of a list's parts. */
  function MessageText(m: Message): (r: string)
    ensures m.content.CStr? ==> r == m.content.s
    ensures m.content.CDict? ==> r == (if m.content.text.Some? then m.content.text.value else "")
    ensures m.content.CDict? ==> (r == [] <==> m.content.text.None? || m.content.text.value == [])
    ensures m.content.CParts? ==> r == Strip(PartsText(m.content.parts))
    ensures m.content.CParts? ==> r == [] || (!IsSpace(r[0]) && !IsSpace(r[|r| - 1]))
    ensures m.content.CParts? && (forall i :: 0 <= i < |m.content.parts| ==> m.content.parts[i].PDict? && m.content.parts[i].text.None?) ==> r == []
  {
    match m.content
    case CStr(s) => s
    case CDict(t) => if t.Some? then t.value else ""
    case CParts(ps) =>
      MissingTextsEmpty(ps);
      Strip(PartsText(ps))
  }

  lemma {:induction false} MissingTextsEmpty(ps: seq<Part>)
    ensures (forall i :: 0 <= i < |ps| ==> ps[i].PDict? && ps[i].text.None?) ==> PartsText(ps) == []
  {
    if ps != [] {
      MissingTextsEmpty(ps[1..]);
      assert forall i :: 1 <= i < |ps| ==> ps[1..][i - 1] == ps[i];
    }
  }

  /** The parts' texts are joined in order: the text of two runs of parts is
      the text of the first followed by the text of the second. */
  lemma {:induction false} PartsTextAppend(a: seq<Part>, b: seq<Part>)
    ensures PartsText(a + b) == PartsText(a) + PartsText(b)
    decreases |a|
  {
    if a == [] {
      assert a + b == b;
    } else {
      assert (a + b)[1..] == a[1..] + b;
      PartsTextAppend(a[1..], b);
    }
  }

  /** Appending one part appends its text: a string part as is, a dict part's
      "text" entry or nothing when it is missing. */
  lemma PartsTextSnoc(ps: seq<Part>, p: Part)
    ensures PartsText(ps + [p]) == PartsText(ps) + (match p case PText(s) => s case PDict(t) => if t.Some? then t.value else "")
  {
    PartsTextAppend(ps, [p]);
    assert [p][1..] == [];
  }

  /** The examples documented with `get_message_text`. */
  lemma MessageTextExamples()
    ensures MessageText(Message(Human, CStr("Hello"))) == "Hello"
    ensures MessageText(Message(Human, CDict(Some("World")))) == "World"
    ensures MessageText(Message(Human, CParts([PDict(Some("Hello")), PText(" "), PDict(Some("World"))]))) == "Hello World"
  {
    var ps := [PDict(Some("Hello")), PText(" "), PDict(Some("World"))];
    var t := "Hello World";
    assert PartsText(ps) == t by {
      assert PartsText(ps) == "Hello" + PartsText(ps[1..]);
      assert PartsText(ps[1..]) == " " + PartsText(ps[2..]);
      assert PartsText(ps[2..]) == "World" + PartsText(ps[3..]);
      assert ps[3..] == [];
    }
    assert Strip(t) == t by {
      assert !IsSpace(t[0]) && !IsSpace(t[|t| - 1]);
      assert LStrip(t) == t;
      assert RStrip(t) == t;
    }
  }

  // ---------------------------------------------------------------- repr

  function HexDigit(d: nat): char
    requires d < 16
  {
    if d < 10 then ('0' as int + d) as char else ('a' as int + d - 10) as char
  }

  function HexValue(c: char): nat
  {
    if '0' <= c <= '9' then c as int - '0' as int
    else if 'a' <= c <= 'f' then c as int - 'a' as int + 10
    else 0
  }

  /** The quote `repr` puts around a string: a double quote when the text holds
      a single quote and no double quote, a single quote otherwise. */
  function QuoteFor(s: string): (q: char)
    ensures q == '\'' || q == '"'
    ensures q == '"' <==> ('\'' in s && '"' !in s)
  {
    if '\'' in s && '"' !in s then '"' else '\''
  }

  /** The characters `repr` writes as a two-digit hexadecimal escape: the
      non-printable characters below 0x100 other than tab, newline and
      carriage return, namely the C0 controls, 0x7f-0xa0 and the soft
      hyphen 0xad. */
  predicate HexEscaped(c: char)
  {
    (c < ' ' && c != '\t' && c != '\n' && c != '\r') || ('\U{7f}' <= c <= '\U{a0}') || c == '\U{ad}'
  }

  /** How `repr` writes one character of a string quoted with `q`. */
  function EscapeChar(c: char, q: char): (r: string)
    ensures |r| >= 1
    ensures r[0] == '\\' || r == [c]
  {
    if c == '\\' || c == q then ['\\', c]
    else if c == '\t' then "\\t"
    else if c == '\n' then "\\n"
    else if c == '\r' then "\\r"
    else if HexEscaped(c) then ['\\', 'x', HexDigit(c as int / 16), HexDigit(c as int % 16)]
    else [c]
  }

  function EscapeBody(s: string, q: char): string
  {
    if s == [] then [] else EscapeChar(s[0], q) + EscapeBody(s[1..], q)
  }

  /** Python's `repr` of a metadata value. */
  function PyRepr(v: MetaValue): (r: string)
    ensures v.Str? ==> |r| >= 2 && r[0] == r[|r| - 1] == QuoteFor(v.s)
  {
    match v
    case Str(s) => [QuoteFor(s)] + EscapeBody(s, QuoteFor(s)) + [QuoteFor(s)]
    case Int(i) => if i < 0 then "-" + NatToString(-i) else NatToString(i)
    case NoneValue => "None"
  }

  /** Reading back the body of a quoted string literal. */
  function UnescapeBody(e: string): string
    decreases |e|
  {
    if e == [] then []
    else if e[0] != '\\' || |e| == 1 then [e[0]] + UnescapeBody(e[1..])
    else if e[1] == 't' then "\t" + UnescapeBody(e[2..])
    else if e[1] == 'n' then "\n" + UnescapeBody(e[2..])
    else if e[1] == 'r' then "\r" + UnescapeBody(e[2..])
    else if e[1] == 'x' && |e| >= 4 then [(16 * HexValue(e[2]) + HexValue(e[3])) as char] + UnescapeBody(e[4..])
    else [e[1]] + UnescapeBody(e[2..])
  }

  lemma UnescapeOne(c: char, q: char, rest: string)
    requires q == '\'' || q == '"'
    ensures UnescapeBody(EscapeChar(c, q) + rest) == [c] + UnescapeBody(rest)
  {
    var e := EscapeChar(c, q) + rest;
    if HexEscaped(c) && !(c == '\\' || c == q) && c != '\t' && c != '\n' && c != '\r' {
      var hi, lo := c as int / 16, c as int % 16;
      assert e[4..] == rest;
      assert HexValue(HexDigit(hi)) == hi;
      assert HexValue(HexDigit(lo)) == lo;
    } else if c == '\\' || c == q || c == '\t' || c == '\n' || c == '\r' {
      assert e[2..] == rest;
    } else {
      assert e[1..] == rest;
    }
  }

  /** A string's `repr` determines the string: its body reads back to it. */
  lemma {:induction false} ReprRoundTrip(s: string)
    ensures var r := PyRepr(Str(s)); UnescapeBody(r[1..|r| - 1]) == s
  {
    var r := PyRepr(Str(s));
    assert r[1..|r| - 1] == EscapeBody(s, QuoteFor(s));
    EscapeRoundTrip(s, QuoteFor(s));
  }

  lemma {:induction false} EscapeRoundTrip(s: string, q: char)
    requires q == '\'' || q == '"'
    ensures UnescapeBody(EscapeBody(s, q)) == s
  {
    if s != [] {
      EscapeRoundTrip(s[1..], q);
      UnescapeOne(s[0], q, EscapeBody(s[1..], q));
    }
  }

  /** Inside a `repr`, the quote character only ever appears right after a
      backslash. */
  lemma {:induction false} QuoteAlwaysEscaped(s: string, q: char, i: int)
    requires 0 <= i < |EscapeBody(s, q)| && EscapeBody(s, q)[i] == q && q != '\\'
    requires q == '\'' || q == '"'
    ensures i > 0 && EscapeBody(s, q)[i - 1] == '\\'
    decreases |s|
  {
    var head := EscapeChar(s[0], q);
    var e := EscapeBody(s, q);
    assert e == head + EscapeBody(s[1..], q);
    if i < |head| {
      assert head[i] == q;
    } else {
      QuoteAlwaysEscaped(s[1..], q, i - |head|);
      assert e[i] == EscapeBody(s[1..], q)[i - |head|];
      if i - |head| > 0 {
        assert e[i - 1] == EscapeBody(s[1..], q)[i - |head| - 1];
      }
    }
  }
}

=== FILE: image_loader.dfy ===
/** Metadata of an image extracted from a PDF, read off its path
    (`parse_image_metadata` in `src/parser/loaders/image_loader.py`).
    Image files are named like `_page_100_Figure_3.jpeg` and sit in a
    directory named after the PDF they come from. */
module ImageLoader {
  import opened Text

  /** What `parse_image_metadata` returns: the figure label, when one was
      found, and the name of the directory holding the image. */
  datatype ImageMetadata = ImageMetadata(figure: Option<string>, source: string)

  /** The underscore-separated tokens of the file stem (`name.split('_')`). */
  function NameTokens(path: string): (parts: seq<string>)
    ensures |parts| >= 1
    ensures forall t :: t in parts ==> !Contains(t, "_")
  {
    SplitPiecesFree(Stem(PathName(path)), "_");
    Split(Stem(PathName(path)), "_")
  }

  // ---------------------------------------------------------------- page number

  /** The first position of `x` in `parts` (`parts.index(x)`), or None
      where Python raises `ValueError`. */
  function IndexOf(parts: seq<string>, x: string): (r: Option<nat>)
    ensures r.None? <==> x !in parts
    ensures r.Some? ==> r.value < |parts| && parts[r.value] == x && x !in parts[..r.value]
  {
    if parts == [] then None
    else if parts[0] == x then Some(0)
    else
      var r := IndexOf(parts[1..], x);
      assert parts == [parts[0]] + parts[1..];
      if r.None? then None
      else
        assert parts[..r.value + 1] == [parts[0]] + parts[1..][..r.value];
        Some(r.value + 1)
  }

  /** `int(s)` on text made of an optional sign and ASCII digits, with
      surrounding whitespace; None where Python raises `ValueError`. */
  function ParseInt(s: string): (r: Option<int>)
    ensures r.Some? ==> Strip(s) != []
  {
    var t := Strip(s);
    if t == [] then None
    else
      var negative := t[0] == '-';
      var digits := if t[0] == '-' || t[0] == '+' then t[1..] else t;
      if digits != [] && forall i :: 0 <= i < |digits| ==> IsDigit(digits[i]) then
        Some(if negative then -(DigitsValue(digits) as int) else DigitsValue(digits))
      else None
  }

  /** The page number: the token after the first `page` token, read as an
      integer. A missing `page` token, a missing next token or one that is
      not an integer gives None instead of an exception. */
  function PageNumber(parts: seq<string>): (r: Option<int>)
    ensures r.Some? ==> "page" in parts
  {
    match IndexOf(parts, "page")
    case None => None
    case Some(k) => if k + 1 < |parts| then ParseInt(parts[k + 1]) else None
  }

  lemma PageNumberOfFigureName()
    ensures PageNumber(["", "page", "100", "Figure", "3"]) == Some(100)
  {
    var parts := ["", "page", "100", "Figure", "3"];
    assert IndexOf(parts[2..], "page") == None;
    assert IndexOf(parts[1..], "page") == Some(0);
    assert Strip("100") == "100" by {
      assert LStrip("100") == "100";
      assert RStrip("100") == "100";
    }
    assert DigitsValue("100") == 100 by {
      assert DigitsValue("10") == 10 by {
        assert DigitsValue("1") == 1 by { assert "1"[..0] == []; }
        assert "10"[..1] == "1";
      }
      assert "100"[..2] == "10";
    }
  }

  // ---------------------------------------------------------------- figure label

  /** A token whose text begins with one of the figure words. */
  predicate StartsFigure(token: string)
  {
    StartsWith(token, "Figure") || StartsWith(token, "Picture")
  }

  /** A token that mentions one of the figure words. */
  predicate MentionsFigure(token: string)
  {
    Contains(token, "Figure") || Contains(token, "Picture")
  }

  /** The label a scan of `parts[i..]` ends with, starting from type
      `figureType` and number `figureNumber`. A token that begins with a
      figure word ends the scan; one that only mentions it sets the label
      and the scan goes on. */
  function Scan(parts: seq<string>, i: nat, figureType: Option<string>, figureNumber: Option<string>): (r: (Option<string>, Option<string>))
    requires i <= |parts|
    decreases |parts| - i
  {
    if i == |parts| then (figureType, figureNumber)
    else
      var token := parts[i];
      if StartsFigure(token) then
        var pieces := Split(token, "_");
        (Some(pieces[0]), Some(if Contains(token, "_") && |pieces| > 1 then pieces[1] else parts[|parts| - 1]))
      else if MentionsFigure(token) then
        var word := if Contains(token, "Figure") then "Figure" else "Picture";
        Scan(parts, i + 1, Some(word), Some(AfterLast(token, word)))
      else Scan(parts, i + 1, figureType, figureNumber)
  }

  /** The label of a path: `"<type> <number>"` when both are non-empty. */
  function Label(figureType: Option<string>, figureNumber: Option<string>): (r: Option<string>)
    ensures r.Some? <==> figureType.Some? && figureType.value != [] && figureNumber.Some? && figureNumber.value != []
    ensures r.Some? ==> r.value == figureType.value + " " + figureNumber.value
  {
    if figureType.Some? && figureType.value != [] && figureNumber.Some? && figureNumber.value != [] then
      Some(figureType.value + " " + figureNumber.value)
    else None
  }

  /** The metadata `parse_image_metadata` returns. */
  function Metadata(path: string): ImageMetadata
  {
    var scan := Scan(NameTokens(path), 0, None, None);
    ImageMetadata(Label(scan.0, scan.1), ParentName(path))
  }

  /** `parse_image_metadata`: the page number is computed and then
      discarded, and the token loop updates the figure type and number. */
  method ParseImageMetadata(path: string) returns (r: ImageMetadata)
    ensures r == Metadata(path)
  {
    var parts := Split(Stem(PathName(path)), "_");
    var pageNumber := PageNumber(parts);
    var figureType: Option<string> := None;
    var figureNumber: Option<string> := None;
    var i := 0;
    while i < |parts|
      invariant i <= |parts|
      invariant Scan(parts, i, figureType, figureNumber) == Scan(parts, 0, None, None)
      decreases |parts| - i
    {
      var token := parts[i];
      ghost var rest := Scan(parts, i, figureType, figureNumber);
      if StartsFigure(token) {
        var pieces := Split(token, "_");
        figureType := Some(pieces[0]);
        figureNumber := Some(if Contains(token, "_") && |pieces| > 1 then pieces[1] else parts[|parts| - 1]);
        assert (figureType, figureNumber) == rest;
        break;
      } else if MentionsFigure(token) {
        if Contains(token, "Figure") {
          figureType := Some("Figure");
          figureNumber := Some(AfterLast(token, "Figure"));
        } else {
          figureType := Some("Picture");
          figureNumber := Some(AfterLast(token, "Picture"));
        }
      }
      assert Scan(parts, i + 1, figureType, figureNumber) == rest;
      i := i + 1;
    }
    r := ImageMetadata(Label(figureType, figureNumber), ParentName(path));
  }

  // ---------------------------------------------------------------- properties

  /** Splitting a text without the separator gives the text back alone. */
  lemma SplitWithout(s: string, sep: string)
    requires sep != [] && !Contains(s, sep)
    ensures Split(s, sep) == [s]
  {
  }

  /** The `'_' in token` case never applies: a token of the stem has no
      underscore, so a token beginning with a figure word becomes the type
      and the number is always the last token of the stem. */
  lemma StartingTokenStops(parts: seq<string>, i: nat, figureType: Option<string>, figureNumber: Option<string>)
    requires i < |parts| && StartsFigure(parts[i]) && !Contains(parts[i], "_")
    ensures Scan(parts, i, figureType, figureNumber) == (Some(parts[i]), Some(parts[|parts| - 1]))
  {
    SplitWithout(parts[i], "_");
  }

  /** Tokens that do not mention a figure word leave the label as it is. */
  lemma {:induction false} QuietTokensKeep(parts: seq<string>, i: nat, figureType: Option<string>, figureNumber: Option<string>)
    requires i <= |parts|
    requires forall k :: i <= k < |parts| ==> !MentionsFigure(parts[k])
    ensures Scan(parts, i, figureType, figureNumber) == (figureType, figureNumber)
    decreases |parts| - i
  {
    if i < |parts| {
      assert !StartsFigure(parts[i]) by {
        assert !Contains(parts[i], "Figure") && !Contains(parts[i], "Picture");
        assert !IsAt(parts[i], 0, "Figure") && !IsAt(parts[i], 0, "Picture");
      }
      QuietTokensKeep(parts, i + 1, figureType, figureNumber);
    }
  }

  /** A path whose stem never mentions a figure word has no label. */
  lemma NoFigureNoLabel(path: string)
    requires forall t :: t in NameTokens(path) ==> !MentionsFigure(t)
    ensures Metadata(path).figure.None?
  {
    QuietTokensKeep(NameTokens(path), 0, None, None);
  }

  /** A token that mentions a figure word without beginning with one sets
      the label from the text after the word's last occurrence, unless a
      later token overrides it; the last such token wins. */
  lemma LastMentionWins(parts: seq<string>, i: nat, figureType: Option<string>, figureNumber: Option<string>)
    requires i < |parts| && !StartsFigure(parts[i]) && Contains(parts[i], "Figure")
    requires forall k :: i < k < |parts| ==> !MentionsFigure(parts[k])
    ensures Scan(parts, i, figureType, figureNumber) == (Some("Figure"), Some(AfterLast(parts[i], "Figure")))
  {
    QuietTokensKeep(parts, i + 1, Some("Figure"), Some(AfterLast(parts[i], "Figure")));
  }

  /** The stem `_page_100_Figure_3` is labelled "Figure 3". */
  lemma FigureExample()
    ensures var scan := Scan(["", "page", "100", "Figure", "3"], 0, None, None);
      Label(scan.0, scan.1) == Some("Figure 3")
  {
    var parts := ["", "page", "100", "Figure", "3"];
    assert !MentionsFigure(parts[0]) && !MentionsFigure(parts[1]) && !MentionsFigure(parts[2]);
    assert StartsFigure(parts[3]) by { assert parts[3][..6] == "Figure"; }
    assert !Contains(parts[3], "_") by {
      forall k | 0 <= k <= |parts[3]| ensures !IsAt(parts[3], k, "_") {
        if k < |parts[3]| { assert parts[3][k..k + 1][0] == parts[3][k] != '_'; }
      }
    }
    StartingTokenStops(parts, 3, None, None);
    assert Scan(parts, 0, None, None) == Scan(parts, 3, None, None);
    assert "Figure" + " " + "3" == "Figure 3";
  }
}

=== FILE: index_graph.dfy ===
/** The indexing pipeline of `src/core/graphs/index_graph.py`: `parse_pdfs`
    turns the directory's new PDF files into chunks, `should_index` ends the
    run when there are none, and `index_docs` adds them to the vector store
    in batches of 20. A file that cannot be loaded is skipped; a batch that
    cannot be added ends the run. */
module IndexGraph {
  import opened Text
  import opened Docs
  import opened States
  import Utils
  import Configuration

  /** The outside world: whether a path is a directory, the `*.pdf` paths
      in it, a file's chunks (loading and splitting it), and the vector
      store's `add_documents`. */
  datatype Oracles = Oracles(
    isDir: string -> bool,
    glob: string -> seq<string>,
    load: string -> Outcome<seq<Document>>,
    add: seq<Document> -> Outcome<()>)

  const OLLAMA_LOCALHOST := "http://127.0.0.1:11434/"

  /** Whether the local loader is used. The other branch reads a setting
      the configuration does not define (`vision_model`), so every file
      raises there and is skipped. */
  predicate LocalParser(cfg: Configuration.Config)
  {
    cfg.ollamaHost == Some(OLLAMA_LOCALHOST)
  }

  /** The metadata the first chunk of a file is given. */
  function SourceOnly(file: string): (m: Metadata)
    ensures Get(m, "source") == Some(Str(file)) && |m| == 1
  {
    [("source", Str(file))]
  }

  /** The chunks one file contributes: none when it is skipped (remote
      parser, load or split failure, or no chunk at all, where setting the
      first chunk's metadata raises), otherwise its chunks with the first
      one's metadata replaced by its source alone. */
  function FileChunks(file: string, local: bool, o: Oracles): seq<Document>
  {
    if !local then []
    else
      match o.load(file)
      case Fail(_) => []
      case Ok(cs) =>
        if cs == [] then [] else [Document(cs[0].pageContent, SourceOnly(file))] + cs[1..]
  }

  /** A skipped file yields nothing; any other yields its chunks, the first
      relabelled with its source alone and the rest unchanged. */
  lemma FileChunksCases(file: string, local: bool, o: Oracles)
    ensures !local || o.load(file).Fail? || o.load(file).value == [] ==> FileChunks(file, local, o) == []
    ensures local && o.load(file).Ok? && o.load(file).value != [] ==>
      var cs, r := o.load(file).value, FileChunks(file, local, o);
      |r| == |cs| && r[0] == Document(cs[0].pageContent, SourceOnly(file)) && r[1..] == cs[1..]
  {
  }

  /** The chunks of `files`, file after file. */
  function Parsed(files: seq<string>, local: bool, o: Oracles): seq<Document>
  {
    if files == [] then [] else FileChunks(files[0], local, o) + Parsed(files[1..], local, o)
  }

  /** Parsing two lists of files is parsing each, one after the other. */
  lemma {:induction false} ParsedAppend(a: seq<string>, b: seq<string>, local: bool, o: Oracles)
    ensures Parsed(a + b, local, o) == Parsed(a, local, o) + Parsed(b, local, o)
  {
    if a == [] {
      assert a + b == b;
    } else {
      assert (a + b)[1..] == a[1..] + b;
      ParsedAppend(a[1..], b, local, o);
    }
  }

  /** One more file adds its chunks at the end. */
  lemma ParsedSnoc(files: seq<string>, file: string, local: bool, o: Oracles)
    ensures Parsed(files + [file], local, o) == Parsed(files, local, o) + FileChunks(file, local, o)
  {
    ParsedAppend(files, [file], local, o);
    assert Parsed([file], local, o) == FileChunks(file, local, o) + Parsed([], local, o);
  }

  /** A file that fails to load is skipped and the files after it are
      still processed. */
  lemma SkippedFile(before: seq<string>, file: string, after: seq<string>, local: bool, o: Oracles)
    requires o.load(file).Fail?
    ensures Parsed(before + [file] + after, local, o) == Parsed(before, local, o) + Parsed(after, local, o)
  {
    ParsedAppend(before + [file], after, local, o);
    ParsedSnoc(before, file, local, o);
    assert FileChunks(file, local, o) == [];
  }

  /** With the remote parser configured, nothing is parsed. */
  lemma {:induction false} RemoteParsesNothing(files: seq<string>, o: Oracles)
    ensures Parsed(files, false, o) == []
    decreases |files|
  {
    if files != [] {
      RemoteParsesNothing(files[1..], o);
    }
  }

  const NOT_FOUND := "Directory not found: "

  /** `parse_pdfs`: the chunks of the directory's PDF files that are not
      among the already indexed sources `existing`. */
  method ParsePdfs(path: string, existing: seq<string>, cfg: Configuration.Config, o: Oracles) returns (r: Outcome<seq<Document>>)
    ensures r.Fail? <==> !o.isDir(path)
    ensures r.Fail? ==> r.msg == NOT_FOUND + path
    ensures r.Ok? ==> r.value == Parsed(Utils.RemoveDuplicates(existing, o.glob(path)), LocalParser(cfg), o)
  {
    if !o.isDir(path) {
      return Fail(NOT_FOUND + path);
    }
    var documents: seq<Document> := [];
    var files := Utils.RemoveDuplicates(existing, o.glob(path));
    if files == [] {
      return Ok(documents);
    }
    var local := LocalParser(cfg);
    for i := 0 to |files|
      invariant documents == Parsed(files[..i], local, o)
    {
      assert files[..i + 1] == files[..i] + [files[i]];
      ParsedSnoc(files[..i], files[i], local, o);
      if !local {
        continue;
      }
      var loaded := o.load(files[i]);
      if loaded.Fail? || loaded.value == [] {
        continue;
      }
      var chunks := loaded.value;
      chunks := chunks[0 := Document(chunks[0].pageContent, SourceOnly(files[i]))];
      assert chunks == FileChunks(files[i], local, o);
      documents := documents + chunks;
    }
    assert files[..|files|] == files;
    return Ok(documents);
  }

  /** `retriever.add_documents` over the batches in order; the first
      failure ends the loop. `added` are the batches the store accepted. */
  method AddBatches(batches: seq<seq<Document>>, add: seq<Document> -> Outcome<()>) returns (r: Outcome<()>, added: seq<seq<Document>>)
    ensures r.Ok? <==> forall i :: 0 <= i < |batches| ==> add(batches[i]).Ok?
    ensures r.Ok? ==> added == batches
    ensures r.Fail? ==> |added| < |batches| && added == batches[..|added|] && add(batches[|added|]).Fail?
  {
    added := [];
    for i := 0 to |batches|
      invariant added == batches[..i]
      invariant forall j :: 0 <= j < i ==> add(batches[j]).Ok?
    {
      var res := add(batches[i]);
      if res.Fail? {
        return Fail(res.msg), added;
      }
      added := added + [batches[i]];
    }
    assert batches[..|batches|] == batches;
    return Ok(()), added;
  }

  const BATCH_SIZE := 20

  /** `index_docs`: the documents in batches of 20, added in order; on
      success the documents field is set to the delete marker. */
  method IndexDocs(docs: seq<Document>, o: Oracles) returns (r: Outcome<DocsUpdate>, added: seq<seq<Document>>)
    ensures r.Ok? ==> r.value == Text(DELETE) && added == Utils.Chunks(docs, BATCH_SIZE) && Utils.Flatten(added) == docs
    ensures r.Fail? ==>
      var all := Utils.Chunks(docs, BATCH_SIZE);
      |added| < |all| && added == all[..|added|] && o.add(all[|added|]).Fail?
  {
    var batches := Utils.MakeDocumentBatch(docs, BATCH_SIZE);
    var res;
    res, added := AddBatches(batches.value, o.add);
    if res.Fail? {
      return Fail(res.msg), added;
    }
    Utils.ChunksFlatten(docs, BATCH_SIZE);
    return Ok(Text(DELETE)), added;
  }

  datatype Route = Index | End

  /** `should_index`. */
  function ShouldIndex(docs: seq<Document>): (r: Route)
    ensures r == End <==> docs == []
  {
    if docs == [] then End else Index
  }

  /** The documents a list of parsed chunks becomes in the state. */
  function AsItems(docs: seq<Document>): (r: seq<DocItem>)
    ensures |r| == |docs| && forall i :: 0 <= i < |docs| ==> r[i] == ItemDoc(docs[i])
  {
    seq(|docs|, i requires 0 <= i < |docs| => ItemDoc(docs[i]))
  }

  /** The whole graph, from an input state holding only the path: on
      success the store has received every parsed chunk, in order, and the
      state's documents are cleared again. */
  method Run(path: string, existing: seq<string>, cfg: Configuration.Config, o: Oracles, ids: nat -> string)
    returns (r: Outcome<IndexState>, added: seq<seq<Document>>)
    ensures r.Ok? ==> r.value.path == path && r.value.docs == []
    ensures r.Ok? ==> o.isDir(path) && Utils.Flatten(added) == Parsed(Utils.RemoveDuplicates(existing, o.glob(path)), LocalParser(cfg), o)
    ensures !o.isDir(path) ==> r.Fail? && added == []
  {
    added := [];
    var parsed := ParsePdfs(path, existing, cfg, o);
    if parsed.Fail? {
      return Fail(parsed.msg), added;
    }
    var docs := parsed.value;
    DocumentsStoredAsIs(docs, ids);
    assert AsItems(docs) == seq(|docs|, i requires 0 <= i < |docs| => ItemDoc(docs[i]));
    var stored := ReduceDocs(None, Items(AsItems(docs)), ids);
    var state := IndexState(path, stored.value);
    if ShouldIndex(state.docs) == End {
      assert Utils.Flatten(added) == [];
      return Ok(state), added;
    }
    var update;
    update, added := IndexDocs(state.docs, o);
    if update.Fail? {
      return Fail(update.msg), added;
    }
    var cleared := ReduceDocs(Some(state.docs), update.value, ids);
    return Ok(IndexState(path, cleared.value)), added;
  }
}

=== FILE: messages.dfy ===
/** The chat-history formatter shared by `src/utils/utils.py` and
    `src/resources/utils.py` (`_format_message`, `format_messages`): each
    message is wrapped in a tag named after its kind, with its think blocks
    removed, and the whole history in a `<messages>` envelope. */
module MessageFormat {
  import opened Text
  import opened Docs
  import Utils

  /** The tag name a message is wrapped in. The Human test is followed by an
      independent AI test whose `else` overwrites it, so only AI messages
      keep a specific name. */
  function Flag(role: Role): (f: string)
    ensures f == "AIMessage" <==> role == AI
    ensures role != AI ==> f == "message"
    ensures f != "HumanMessage"
  {
    if role == AI then "AIMessage" else "message"
  }

  function Wrap(flag: string, text: string): string
  {
    "<" + flag + ">\n" + text + "\n</" + flag + ">"
  }

  /** The wrapped text sits between the opening and the closing tag. */
  lemma Unwrap(flag: string, text: string)
    ensures var w := Wrap(flag, text);
      |w| == |text| + 2 * |flag| + 7 && w[|flag| + 3..|w| - |flag| - 4] == text
  {
    var w := Wrap(flag, text);
    assert w == ("<" + flag + ">\n") + text + ("\n</" + flag + ">");
  }

  /** `re.sub` on a content that is not a string raises `TypeError`. */
  const NOT_A_STRING := "expected string or bytes-like object"

  /** `_format_message`: the content, think blocks removed (case-sensitive,
      a block may span lines), wrapped in the message's tag. */
  function FormatMessage(m: Message): (r: Outcome<string>)
    ensures r.Ok? <==> m.content.CStr?
    ensures r.Fail? ==> r.msg == NOT_A_STRING
    ensures r.Ok? ==>
      var f := Flag(m.role);
      StartsWith(r.value, "<" + f + ">\n") && |r.value| >= 2 * |f| + 7
      && r.value[|f| + 3..|r.value| - |f| - 4] == RemoveBlocks(m.content.s, false, true)
  {
    match m.content
    case CStr(s) =>
      var text := RemoveBlocks(s, false, true);
      Unwrap(Flag(m.role), text);
      Ok(Wrap(Flag(m.role), text))
    case _ => Fail(NOT_A_STRING)
  }

  /** A content with no '<' is wrapped unchanged. */
  lemma FormatMessagePlain(role: Role, s: string)
    requires '<' !in s
    ensures FormatMessage(Message(role, CStr(s))) == Ok(Wrap(Flag(role), s))
  {
    NoAngleNoBlock(s, false, true);
    NoBlockUnchanged(s, false, true);
  }

  /** A leading think block is removed whole, even when it spans lines. */
  lemma FormatMessageDropsLeadingBlock(role: Role, t: string, a: string)
    requires '<' !in t
    ensures FormatMessage(Message(role, CStr(OPEN + t + CLOSE + a))) == FormatMessage(Message(role, CStr(a)))
  {
    LeadingBlockDropped(t, a, false, true);
  }

  /** Every message formatted, or the failure of the first that cannot be. */
  function FormatAll(ms: seq<Message>): (r: Outcome<seq<string>>)
    ensures r.Ok? <==> forall i :: 0 <= i < |ms| ==> ms[i].content.CStr?
    ensures r.Ok? ==> |r.value| == |ms| && forall i :: 0 <= i < |ms| ==> FormatMessage(ms[i]) == Ok(r.value[i])
    ensures r.Fail? ==> r.msg == NOT_A_STRING
  {
    if ms == [] then Ok([])
    else
      match FormatMessage(ms[0])
      case Fail(e) => Fail(e)
      case Ok(h) =>
        match FormatAll(ms[1..])
        case Fail(e) => Fail(e)
        case Ok(t) =>
          assert forall i :: 1 <= i < |ms| ==> ms[i] == ms[1..][i - 1];
          Ok([h] + t)
  }

  /** `format_messages`: an empty or missing history is an empty envelope;
      otherwise the formatted messages, one per line, between `<messages>`
      and a closing tag written without its slash. */
  function FormatMessages(messages: Option<seq<Message>>): (r: Outcome<string>)
    ensures messages.None? || messages.value == [] ==> r == Ok("<messages></messages>")
    ensures messages.Some? ==> (r.Ok? <==> forall i :: 0 <= i < |messages.value| ==> messages.value[i].content.CStr?)
    ensures r.Ok? && messages.Some? && messages.value != [] ==>
      StartsWith(r.value, "<messages>\n") && |r.value| >= 22
      && r.value[|r.value| - 11..] == "\n<messages>"
    ensures r.Ok? && messages.Some? && messages.value != [] ==>
      FormatAll(messages.value).Ok? && r.value == "<messages>\n" + Join("\n", FormatAll(messages.value).value) + "\n<messages>"
  {
    if messages.None? || messages.value == [] then Ok("<messages></messages>")
    else
      match FormatAll(messages.value)
      case Fail(e) => Fail(e)
      case Ok(parts) =>
        var body := Join("\n", parts);
        var r := "<messages>\n" + body + "\n<messages>";
        assert r[..11] == "<messages>\n";
        assert r[|r| - 11..] == "\n<messages>";
        Ok(r)
  }

  /** A formatted history never ends with a proper `</messages>` closing tag. */
  lemma NoClosingTag(ms: seq<Message>)
    requires ms != []
    ensures var r := FormatMessages(Some(ms)); r.Ok? ==> r.value[|r.value| - 11..] != "</messages>"
  {
    var r := FormatMessages(Some(ms));
    if r.Ok? {
      assert r.value[|r.value| - 11..][0] == '\n';
    }
  }

  /** Each message's formatted block appears in the formatted history. */
  lemma FormatMessagesHoldsEach(ms: seq<Message>, i: nat)
    requires i < |ms|
    requires forall j :: 0 <= j < |ms| ==> ms[j].content.CStr?
    ensures FormatMessages(Some(ms)).Ok? && FormatMessage(ms[i]).Ok?
    ensures Contains(FormatMessages(Some(ms)).value, FormatMessage(ms[i]).value)
  {
    var parts := FormatAll(ms).value;
    Utils.JoinedPartInside("<messages>\n", "\n", parts, "\n<messages>", i);
  }
}

=== FILE: parser.dfy ===
/** The PDF-to-markdown pipeline of `src/parser/parser.py`: every page of a
    PDF is rendered and transcribed by a vision model, page failures are
    recorded without stopping the run, the transcription is optionally
    validated, and the results are written out page by page. Rendering,
    the vision model and the file system are outside the model: what they
    return is given. */
module Parser {
  import opened Text
  import opened Validation

  /** The pipeline's settings, fixed at construction. */
  datatype Pipeline = Pipeline(model: string, baseUrl: string, dpi: int, enableValidation: bool, thresholds: Thresholds)

  /** `PDFToMarkdownPipeline(...)`: the validator is given the overall
      threshold and keeps its other defaults. */
  function NewPipeline(model: string, baseUrl: string, dpi: int, enableValidation: bool, threshold: real): (p: Pipeline)
    ensures p.thresholds.overall == threshold && p.enableValidation == enableValidation
  {
    Pipeline(model, baseUrl, dpi, enableValidation, DEFAULT_THRESHOLDS.(overall := threshold))
  }

  /** The defaults of the constructor: 300 dpi, validation on, threshold 0.65. */
  function DefaultPipeline(model: string, baseUrl: string): Pipeline
  {
    NewPipeline(model, baseUrl, 300, true, 0.65)
  }

  datatype ValidationSummary = ValidationSummary(pagesPassed: nat, totalPages: nat, passRate: real, averageScore: real)

  /** The metadata of a result: the pipeline's own entries, and after a
      run the source, the page counts and the validation summary. */
  datatype Metadata = Metadata(
    model: string,
    baseUrl: string,
    dpi: int,
    strategy: string,
    validationEnabled: bool,
    source: Option<string>,
    totalPages: Option<nat>,
    successfulPages: Option<int>,
    validation: Option<ValidationSummary>)

  /** `self.metadata` */
  function PipelineMetadata(p: Pipeline): (m: Metadata)
    ensures m.source.None? && m.totalPages.None? && m.successfulPages.None? && m.validation.None?
  {
    Metadata(p.model, p.baseUrl, p.dpi, "vision_only", p.enableValidation, None, None, None, None)
  }

  datatype ConversionResult = ConversionResult(
    pages: seq<string>,
    metadata: Metadata,
    success: bool,
    errors: Option<seq<string>>,
    validationResults: Option<seq<ValidationResult>>)

  /** What the environment answers for one input path: whether the file
      exists; when opened, each page's transcription or the message of the
      exception that stopped it (or the message of the failure to open);
      and what validation reads from the PDF. */
  datatype PdfInput = PdfInput(
    path: string,
    found: bool,
    document: Outcome<seq<Outcome<string>>>,
    measures: Measures)

  // ---------------------------------------------------------------- convert_pdf

  function PageError(i: nat, e: string): string
  {
    "Error processing page " + NatToString(i + 1) + ": " + e
  }

  /** The markdown kept for page `i`: its transcription, or a placeholder
      comment carrying the error. */
  function PageMarkdown(i: nat, page: Outcome<string>): string
  {
    match page
    case Ok(markdown) => markdown
    case Fail(e) => "<!-- " + PageError(i, e) + " -->"
  }

  /** The errors of the failed pages, in page order. */
  function PageErrors(pages: seq<Outcome<string>>): (r: seq<string>)
    ensures |r| <= |pages|
  {
    if pages == [] then []
    else
      var i := |pages| - 1;
      PageErrors(pages[..i]) + (if pages[i].Fail? then [PageError(i, pages[i].msg)] else [])
  }

  /** How many pages were transcribed. */
  function Successes(pages: seq<Outcome<string>>): nat
  {
    if pages == [] then 0 else Successes(pages[..|pages| - 1]) + (if pages[|pages| - 1].Ok? then 1 else 0)
  }

  /** Every page is either transcribed or reported. */
  lemma {:induction false} ErrorsAndSuccesses(pages: seq<Outcome<string>>)
    ensures |PageErrors(pages)| + Successes(pages) == |pages|
    ensures PageErrors(pages) == [] <==> forall i :: 0 <= i < |pages| ==> pages[i].Ok?
  {
    if pages != [] {
      var n := |pages| - 1;
      ErrorsAndSuccesses(pages[..n]);
      assert forall i :: 0 <= i < n ==> pages[..n][i] == pages[i];
    }
  }

  function PassedCount(results: seq<ValidationResult>): (r: nat)
    ensures r <= |results|
  {
    if results == [] then 0
    else PassedCount(results[..|results| - 1]) + (if results[|results| - 1].passed then 1 else 0)
  }

  function ScoreSum(results: seq<ValidationResult>): real
  {
    if results == [] then 0.0 else ScoreSum(results[..|results| - 1]) + results[|results| - 1].score
  }

  /** The validation entry of the metadata. */
  function Summary(results: seq<ValidationResult>): (s: ValidationSummary)
    requires results != []
    ensures s.totalPages == |results| && 0.0 <= s.passRate <= 1.0
  {
    RatioAtMostOne(PassedCount(results), |results|);
    ValidationSummary(PassedCount(results), |results|,
      PassedCount(results) as real / |results| as real,
      ScoreSum(results) / |results| as real)
  }

  /** The result of a run that got through every page. */
  function Finished(p: Pipeline, path: string, pages: seq<string>, errors: seq<string>,
                    validation: Option<seq<ValidationResult>>): ConversionResult
  {
    var summary := if validation.Some? && validation.value != [] then Some(Summary(validation.value)) else None;
    var metadata := PipelineMetadata(p).(source := Some(path), totalPages := Some(|pages|),
      successfulPages := Some(|pages| - |errors|), validation := summary);
    ConversionResult(pages, metadata, |errors| == 0, if errors == [] then None else Some(errors), validation)
  }

  /** The result of an exception outside the page loop. */
  function PipelineError(p: Pipeline, e: string): (r: ConversionResult)
    ensures !r.success && r.pages == [] && r.errors.Some? && |r.errors.value| == 1
  {
    ConversionResult([], PipelineMetadata(p), false, Some(["Pipeline error: " + e]), None)
  }

  /** The markdown of every page, placeholders included, in page order. */
  function Pages(outcomes: seq<Outcome<string>>): (r: seq<string>)
    ensures |r| == |outcomes|
  {
    seq(|outcomes|, i requires 0 <= i < |outcomes| => PageMarkdown(i, outcomes[i]))
  }

  /** `convert_pdf`, as a function of what the environment answers.
      Validation of a non-empty page list always yields results (see
      `ValidationNeverEmpty`), so the division by zero in
      `validate_document` is never reached from here. */
  function Convert(p: Pipeline, input: PdfInput): ConversionResult
  {
    if !input.found then
      ConversionResult([], PipelineMetadata(p), false, Some(["PDF file not found: " + input.path]), None)
    else match input.document
      case Fail(e) => PipelineError(p, e)
      case Ok(outcomes) =>
        var pages := Pages(outcomes);
        var validation :=
          if p.enableValidation && pages != [] then Some(DocumentResults(PageCheck(p.thresholds, input.measures), |outcomes|, pages))
          else None;
        Finished(p, input.path, pages, PageErrors(outcomes), validation)
  }

  /** The page loop of `convert_pdf`: a page that fails is reported and
      replaced by a placeholder, and the loop goes on. */
  method ProcessPages(doc: seq<Outcome<string>>) returns (pagesMarkdown: seq<string>, errors: seq<string>)
    ensures pagesMarkdown == Pages(doc) && errors == PageErrors(doc)
  {
    pagesMarkdown := [];
    errors := [];
    for pageNum := 0 to |doc|
      invariant |pagesMarkdown| == pageNum
      invariant forall i :: 0 <= i < pageNum ==> pagesMarkdown[i] == PageMarkdown(i, doc[i])
      invariant errors == PageErrors(doc[..pageNum])
    {
      assert doc[..pageNum + 1][..pageNum] == doc[..pageNum];
      match doc[pageNum]
      case Ok(markdown) =>
        pagesMarkdown := pagesMarkdown + [markdown];
      case Fail(e) =>
        var errorMsg := PageError(pageNum, e);
        errors := errors + [errorMsg];
        pagesMarkdown := pagesMarkdown + ["<!-- " + errorMsg + " -->"];
    }
    assert doc[..|doc|] == doc;
  }

  /** `convert_pdf`: the page loop collects markdown and errors, then
      validation runs when it is enabled and there are pages. */
  method ConvertPdf(p: Pipeline, input: PdfInput) returns (r: ConversionResult)
    ensures r == Convert(p, input)
  {
    if !input.found {
      return ConversionResult([], PipelineMetadata(p), false, Some(["PDF file not found: " + input.path]), None);
    }
    if input.document.Fail? {
      return PipelineError(p, input.document.msg);
    }
    var doc := input.document.value;
    var pagesMarkdown, errors := ProcessPages(doc);
    var validationResults: Option<seq<ValidationResult>> := None;
    if p.enableValidation && pagesMarkdown != [] {
      var outcome := ValidateDocument(p.thresholds, input.measures, |doc|, pagesMarkdown);
      assert outcome.Ok?;
      validationResults := Some(outcome.value);
    }
    r := Finished(p, input.path, pagesMarkdown, errors, validationResults);
  }

  // ---------------------------------------------------------------- what a run promises

  /** A missing file gives no pages and exactly one error. */
  lemma MissingFile(p: Pipeline, input: PdfInput)
    requires !input.found
    ensures var r := Convert(p, input);
      !r.success && r.pages == [] && r.errors == Some(["PDF file not found: " + input.path])
      && r.validationResults.None? && r.metadata == PipelineMetadata(p)
  {
  }

  /** An exception outside the page loop gives no pages and one error. */
  lemma OpenFailure(p: Pipeline, input: PdfInput)
    requires input.found && input.document.Fail?
    ensures var r := Convert(p, input);
      !r.success && r.pages == [] && r.errors == Some(["Pipeline error: " + input.document.msg])
  {
  }

  /** Validation cannot fail for want of pages inside a run: it is only
      started when there are pages, and the PDF has as many. */
  lemma ValidationNeverEmpty(check: (nat, string) -> ValidationResult, outcomes: seq<Outcome<string>>)
    requires outcomes != []
    ensures |DocumentResults(check, |outcomes|, Pages(outcomes))| == |outcomes|
  {
  }

  /** A run that opens the PDF keeps one page of markdown per PDF page, in
      order, placeholders included. */
  lemma PagesKept(p: Pipeline, input: PdfInput)
    requires input.found && input.document.Ok?
    ensures var outcomes := input.document.value;
      var r := Convert(p, input);
      && r.pages == Pages(outcomes)
      && forall i :: 0 <= i < |outcomes| ==> r.pages[i] == PageMarkdown(i, outcomes[i])
  {
  }

  /** Such a run succeeds exactly when no page failed, reports the errors
      only when there are some, and counts the pages in its metadata. */
  lemma PageAccounting(p: Pipeline, input: PdfInput)
    requires input.found && input.document.Ok?
    ensures var outcomes := input.document.value;
      var r := Convert(p, input);
      && (r.success <==> forall i :: 0 <= i < |outcomes| ==> outcomes[i].Ok?)
      && (r.errors.None? <==> r.success)
      && r.metadata.totalPages == Some(|outcomes|)
      && r.metadata.successfulPages == Some(Successes(outcomes))
      && r.metadata.source == Some(input.path)
  {
    var outcomes := input.document.value;
    ErrorsAndSuccesses(outcomes);
    var r := Convert(p, input);
    assert r.pages == Pages(outcomes) && r.errors == (if PageErrors(outcomes) == [] then None else Some(PageErrors(outcomes)));
  }

  /** Validation results are present exactly when validation is enabled
      and there are pages; then there is one per page and the metadata
      carries their summary. */
  lemma ValidationWhenEnabled(p: Pipeline, input: PdfInput)
    requires input.found && input.document.Ok?
    ensures var r := Convert(p, input);
      && (r.validationResults.Some? <==> p.enableValidation && input.document.value != [])
      && (r.validationResults.Some? ==>
            |r.validationResults.value| == |r.pages| && r.metadata.validation == Some(Summary(r.validationResults.value)))
  {
  }

  /** The error of a failed page names the page, counted from one, and
      ends with the exception's message. */
  lemma PageErrorNamesPage(i: nat, e: string)
    ensures var m := PageError(i, e);
      && |m| >= 24 + |e|
      && m[..22] == "Error processing page "
      && m[|m| - |e|..] == e
      && DigitsValue(m[22..|m| - |e| - 2]) == i + 1
  {
    var d := NatToString(i + 1);
    NatToStringRoundTrip(i + 1);
    var m := PageError(i, e);
    assert m == "Error processing page " + d + ": " + e;
    assert m[22..|m| - |e| - 2] == d;
  }

  // ---------------------------------------------------------------- save_results

  /** A file `save_results` writes, by name within the output directory,
      with its content where the model has it (the JSON files are not
      modelled). */
  datatype SavedFile = SavedFile(name: string, content: Option<string>)

  const PAGE_SEPARATOR := "\n\n---\n\n"

  /** `f"page_{i+1:03d}.md"` */
  function PageFileName(i: nat): (r: string)
    ensures |r| >= 11 && r[..5] == "page_" && r[|r| - 3..] == ".md"
  {
    "page_" + Pad3(i + 1) + ".md"
  }

  /** The page number can be read back from the file name. */
  lemma PageFileNumber(i: nat)
    ensures var name := PageFileName(i); DigitsValue(name[5..|name| - 3]) == i + 1
  {
    var name := PageFileName(i);
    assert name[5..|name| - 3] == Pad3(i + 1);
  }

  /** Different pages get different files. */
  lemma PageFileNamesDistinct(i: nat, j: nat)
    requires i != j
    ensures PageFileName(i) != PageFileName(j)
  {
    PageFileNumber(i);
    PageFileNumber(j);
  }

  /** The files of one result, in the order they are written. */
  function SavedFiles(result: ConversionResult): seq<SavedFile>
  {
    seq(|result.pages|, i requires 0 <= i < |result.pages| => SavedFile(PageFileName(i), Some(result.pages[i])))
    + [SavedFile("combined_document.md", Some(Join(PAGE_SEPARATOR, result.pages))),
       SavedFile("conversion_metadata.json", None)]
    + (if result.validationResults.Some? && result.validationResults.value != [] then [SavedFile("validation_report.json", None)] else [])
  }

  /** `save_results`: one file per page, then the combined document, the
      metadata and, when there are validation results, the report. */
  method SaveResults(result: ConversionResult) returns (saved: seq<SavedFile>)
    ensures saved == SavedFiles(result)
  {
    saved := [];
    for i := 0 to |result.pages|
      invariant |saved| == i
      invariant forall k :: 0 <= k < i ==> saved[k] == SavedFile(PageFileName(k), Some(result.pages[k]))
    {
      saved := saved + [SavedFile(PageFileName(i), Some(result.pages[i]))];
    }
    var combined := Join(PAGE_SEPARATOR, result.pages);
    saved := saved + [SavedFile("combined_document.md", Some(combined))];
    saved := saved + [SavedFile("conversion_metadata.json", None)];
    if result.validationResults.Some? && result.validationResults.value != [] {
      saved := saved + [SavedFile("validation_report.json", None)];
    }
  }

  /** No file is written twice: the names are pairwise different, and the
      page files are named after their page. */
  const OTHER_FILES := ["combined_document.md", "conversion_metadata.json", "validation_report.json"]

  /** The name of the `k`-th file written. */
  lemma SavedFileName(result: ConversionResult, k: nat)
    requires k < |SavedFiles(result)|
    ensures var n := |result.pages|;
      && (k < n ==> SavedFiles(result)[k].name == PageFileName(k))
      && (k >= n ==> k - n < 3 && SavedFiles(result)[k].name == OTHER_FILES[k - n])
  {
  }

  lemma SavedNamesDistinct(result: ConversionResult)
    ensures var files := SavedFiles(result);
      forall a, b :: 0 <= a < b < |files| ==> files[a].name != files[b].name
  {
    var files := SavedFiles(result);
    var n := |result.pages|;
    forall a, b | 0 <= a < b < |files| ensures files[a].name != files[b].name {
      SavedFileName(result, a);
      SavedFileName(result, b);
      if b < n {
        PageFileNamesDistinct(a, b);
      } else if a < n {
        assert files[a].name[0] == 'p';
        assert OTHER_FILES[b - n][0] != 'p';
      }
    }
  }
}

=== FILE: report_graph.dfy ===
/** The report pipeline of `src/core/graphs/report_graph.py`: an initial
    retrieval, an outline of section titles, then one retrieve, synthesize
    and review pass per section, driven by `current_section_index`. Every
    node catches its own failures and substitutes a fixed value, so the
    loop always moves forward. The language model and the retriever are the
    oracles of `Oracles`; a failure anywhere inside a node's `try` block is
    the oracle's `Fail`. */
module ReportGraph {
  import opened Text
  import opened Docs
  import opened States
  import Utils

  type State = ReportState<string>

  /** The external calls, each given what the node puts into its request. */
  datatype Oracles = Oracles(
    // the retriever: a query to the documents it finds
    retrieve: string -> Outcome<seq<Document>>,
    // the outline model: formatted context, number of parts, user content
    outline: (string, int, Content) -> Outcome<seq<string>>,
    // the section writer: technical style?, formatted context, section title, user content
    synthesize: (bool, string, string, Content) -> Outcome<Message>,
    // the review model: query text, section title, draft
    review: (string, string, string) -> Outcome<Message>)

  /** A node's partial output: the keys it returns. */
  datatype Update = Update(
    outlines: Option<seq<string>>,
    report: Option<SectionsUpdate>,
    retrievedDocs: Option<seq<Document>>,
    currentSectionIndex: Option<int>,
    writingStyle: Option<string>,
    reportHeader: Option<string>,
    rawSectionContent: Option<string>)

  const NO_CHANGE: Update := Update(None, None, None, None, None, None, None)

  function Or<T>(o: Option<T>, default: T): T
  {
    if o.Some? then o.value else default
  }

  /** Merging a partial output into the state: returned keys overwrite their
      field, except the report, which goes through `add_sections`. */
  function Apply(s: State, u: Update): (r: State)
    ensures r.messages == s.messages && r.numberOfParts == s.numberOfParts
    ensures u.report.None? ==> r.report == s.report
    ensures u.report.Some? ==> r.report == AddSections(s.report, u.report.value)
    ensures u.outlines.None? ==> r.outlines == s.outlines
    ensures u.currentSectionIndex.None? ==> r.currentSectionIndex == s.currentSectionIndex
    ensures u.writingStyle.None? ==> r.writingStyle == s.writingStyle
    ensures u.retrievedDocs.Some? ==> r.retrievedDocs == u.retrievedDocs.value
    ensures u.rawSectionContent.Some? ==> r.rawSectionContent == u.rawSectionContent.value
  {
    ReportState(
      s.messages,
      Or(u.outlines, s.outlines),
      if u.report.Some? then AddSections(s.report, u.report.value) else s.report,
      Or(u.retrievedDocs, s.retrievedDocs),
      Or(u.currentSectionIndex, s.currentSectionIndex),
      s.numberOfParts,
      Or(u.writingStyle, s.writingStyle),
      Or(u.reportHeader, s.reportHeader),
      Or(u.rawSectionContent, s.rawSectionContent))
  }

  function Last(ms: seq<Message>): Message
    requires ms != []
  {
    ms[|ms| - 1]
  }

  function DocsOnly(docs: seq<Document>): Update
  {
    NO_CHANGE.(retrievedDocs := Some(docs))
  }

  /** `initial_retrieval`: the documents found for the last message's text,
      or none when the lookup fails. */
  function InitialRetrieval(s: State, o: Oracles): (u: Update)
    ensures u.retrievedDocs.Some? && u.outlines.None? && u.report.None? && u.currentSectionIndex.None?
    ensures s.messages == [] ==> u.retrievedDocs == Some([])
    ensures s.messages != [] && o.retrieve(MessageText(Last(s.messages))).Ok? ==>
      u.retrievedDocs == Some(o.retrieve(MessageText(Last(s.messages))).value)
    ensures s.messages != [] && o.retrieve(MessageText(Last(s.messages))).Fail? ==> u.retrievedDocs == Some([])
  {
    if s.messages == [] then DocsOnly([])
    else
      match o.retrieve(MessageText(Last(s.messages)))
      case Ok(docs) => DocsOnly(docs)
      case Fail(_) => DocsOnly([])
  }

  /** The report header: the upper-cased style label and the query. */
  function Header(style: string, query: string): (h: string)
    ensures h == (if style == "technical" then "TECHNICAL REPORT" else "GENERIC REPORT") + "\nTITLE: " + query + "\n\n"
  {
    var styleLabel := if style == "technical" then "Technical Report" else "Generic Report";
    Upper(styleLabel) + "\nTITLE: " + query + "\n\n"
  }

  const FALLBACK_HEADER := "TECHNICAL REPORT\nTITLE: Error in outline generation\n\n"

  /** `generate_outline`: the generated titles with the index reset and a
      header; on failure a single "Report Section", a fixed header and the
      technical style. */
  function GenerateOutline(s: State, o: Oracles): (u: Update)
    ensures u.currentSectionIndex == Some(0) && u.outlines.Some? && u.report.None?
    ensures s.messages != [] && o.outline(Utils.FormatDocs(s.retrievedDocs), s.numberOfParts, Last(s.messages).content).Ok? ==>
      var entries := o.outline(Utils.FormatDocs(s.retrievedDocs), s.numberOfParts, Last(s.messages).content).value;
      u.outlines == Some(entries) && u.reportHeader == Some(Header(s.writingStyle, MessageText(Last(s.messages))))
      && u.writingStyle.None?
    ensures s.messages == [] || o.outline(Utils.FormatDocs(s.retrievedDocs), s.numberOfParts, Last(s.messages).content).Fail? ==>
      u.outlines == Some(["Report Section"]) && u.reportHeader == Some(FALLBACK_HEADER)
      && u.writingStyle == Some("technical")
  {
    var fallback := Update(Some(["Report Section"]), None, None, Some(0), Some("technical"), Some(FALLBACK_HEADER), None);
    if s.messages == [] then fallback
    else
      match o.outline(Utils.FormatDocs(s.retrievedDocs), s.numberOfParts, Last(s.messages).content)
      case Ok(entries) =>
        Update(Some(entries), None, None, Some(0), None, Some(Header(s.writingStyle, MessageText(Last(s.messages)))), None)
      case Fail(_) => fallback
  }

  /** The index designates a section still to write. */
  predicate InRange(s: State)
  {
    s.outlines != [] && s.currentSectionIndex < |s.outlines|
  }

  /** The documents the retriever finds for a section title, or none when
      the lookup fails. */
  function FoundFor(title: string, o: Oracles): seq<Document>
  {
    if o.retrieve(title).Ok? then o.retrieve(title).value else []
  }

  /** `retrieve_for_section`: the documents found for the current title;
      none when no section is in range or the lookup fails. */
  function RetrieveForSection(s: State, o: Oracles): (u: Update)
    ensures u == DocsOnly(if InRange(s) && PyIndex(s.outlines, s.currentSectionIndex).Some?
                          && o.retrieve(PyIndex(s.outlines, s.currentSectionIndex).value).Ok?
                          then o.retrieve(PyIndex(s.outlines, s.currentSectionIndex).value).value else [])
  {
    if !InRange(s) then DocsOnly([])
    else
      match PyIndex(s.outlines, s.currentSectionIndex)
      case None => DocsOnly([])
      case Some(title) =>
        DocsOnly(FoundFor(title, o))
  }

  function Draft(text: string): Update
  {
    NO_CHANGE.(rawSectionContent := Some(text))
  }

  const SYNTHESIS_ERROR := "Error synthesizing section: "

  /** The draft written for `title` from `docs`: the model's text stripped,
      an error note when it fails, the `IndexError` note without a message. */
  function DraftFor(messages: seq<Message>, style: string, docs: seq<Document>, title: string, o: Oracles): string
  {
    if messages == [] then SYNTHESIS_ERROR + INDEX_ERROR
    else
      match o.synthesize(style == "technical", Utils.FormatDocs(docs), title, Last(messages).content)
      case Ok(m) => Strip(MessageText(m))
      case Fail(e) => SYNTHESIS_ERROR + e
  }

  /** `synthesize_section`: the stripped text written for the current
      section; empty when no section is in range, an error note on failure. */
  function SynthesizeSection(s: State, o: Oracles): (u: Update)
    ensures u.rawSectionContent.Some? && u.outlines.None? && u.report.None? && u.currentSectionIndex.None?
    ensures u.writingStyle.None? && u.retrievedDocs.None?
    ensures !InRange(s) ==> u.rawSectionContent == Some("")
    ensures InRange(s) && (PyIndex(s.outlines, s.currentSectionIndex).None? || s.messages == []) ==>
      u.rawSectionContent == Some(SYNTHESIS_ERROR + INDEX_ERROR)
    ensures InRange(s) && PyIndex(s.outlines, s.currentSectionIndex).Some? && s.messages != [] ==>
      var res := o.synthesize(s.writingStyle == "technical", Utils.FormatDocs(s.retrievedDocs),
                              PyIndex(s.outlines, s.currentSectionIndex).value, Last(s.messages).content);
      u.rawSectionContent == Some(if res.Ok? then Strip(MessageText(res.value)) else SYNTHESIS_ERROR + res.msg)
    ensures InRange(s) ==>
      var d := u.rawSectionContent.value;
      d == [] || (!IsSpace(d[0]) && !IsSpace(d[|d| - 1])) || StartsWith(d, SYNTHESIS_ERROR)
  {
    if !InRange(s) then Draft("")
    else
      match PyIndex(s.outlines, s.currentSectionIndex)
      case None => Draft(SYNTHESIS_ERROR + INDEX_ERROR)
      case Some(title) =>
        DraftShape(s.messages, s.writingStyle, s.retrievedDocs, title, o);
        Draft(DraftFor(s.messages, s.writingStyle, s.retrievedDocs, title, o))
  }

  /** A draft is stripped text or opens with the error prefix. */
  lemma DraftShape(messages: seq<Message>, style: string, docs: seq<Document>, title: string, o: Oracles)
    ensures var d := DraftFor(messages, style, docs, title, o);
      d == [] || (!IsSpace(d[0]) && !IsSpace(d[|d| - 1])) || StartsWith(d, SYNTHESIS_ERROR)
  {
    var d := DraftFor(messages, style, docs, title, o);
    if messages == [] {
      ErrorNoteStarts(SYNTHESIS_ERROR, INDEX_ERROR);
    } else if o.synthesize(style == "technical", Utils.FormatDocs(docs), title, Last(messages).content).Fail? {
      ErrorNoteStarts(SYNTHESIS_ERROR, o.synthesize(style == "technical", Utils.FormatDocs(docs), title, Last(messages).content).msg);
    }
  }

  /** An error note opens with its prefix. */
  lemma ErrorNoteStarts(prefix: string, e: string)
    ensures StartsWith(prefix + e, prefix)
  {
    assert (prefix + e)[0..|prefix|] == prefix;
  }

  const REVIEW_ERROR := "Error reviewing section: "

  function SectionOf(title: string, content: string): (r: Section)
    ensures r.Keys == {"title", "content"} && r["title"] == title && r["content"] == content
  {
    map["title" := title, "content" := content]
  }

  /** The title `review_section` gives the section it emits: the current
      outline entry, or "Error" when looking it up raised. */
  function ReviewTitle(s: State): string
  {
    match PyIndex(s.outlines, s.currentSectionIndex)
    case None => "Error"
    case Some(t) => t
  }

  /** The reviewed text of a draft: the review model's reply stripped, an error
      note when it fails, the `IndexError` note without a message. */
  function ReviewFor(messages: seq<Message>, title: string, draft: string, o: Oracles): string
  {
    if messages == [] then REVIEW_ERROR + INDEX_ERROR
    else
      match o.review(MessageText(Last(messages)), title, draft)
      case Ok(m) => Strip(MessageText(m))
      case Fail(e) => REVIEW_ERROR + e
  }

  /** The content of the section emitted by a review. */
  function ReviewedContent(u: Update): string
    requires u.report.Some? && u.report.value.ManySections? && |u.report.value.sections| == 1
    requires "content" in u.report.value.sections[0]
  {
    u.report.value.sections[0]["content"]
  }

  /** `review_section`: nothing when no section is in range; otherwise one
      `{title, content}` section and the index moved on, whether the review
      succeeds (polished text) or fails (an error note). */
  function ReviewSection(s: State, o: Oracles): (u: Update)
    ensures !InRange(s) ==> u == NO_CHANGE
    ensures InRange(s) ==>
      u.outlines.None? && u.currentSectionIndex == Some(s.currentSectionIndex + 1)
      && u.writingStyle.None?
      && u.report.Some? && u.report.value.ManySections? && |u.report.value.sections| == 1
      && "title" in u.report.value.sections[0] && "content" in u.report.value.sections[0]
      && u.report.value.sections[0]["title"] == ReviewTitle(s)
    ensures InRange(s) && (PyIndex(s.outlines, s.currentSectionIndex).None? || s.messages == []) ==>
      ReviewedContent(u) == REVIEW_ERROR + INDEX_ERROR
    ensures InRange(s) && PyIndex(s.outlines, s.currentSectionIndex).Some? && s.messages != [] ==>
      var res := o.review(MessageText(Last(s.messages)), PyIndex(s.outlines, s.currentSectionIndex).value, s.rawSectionContent);
      ReviewedContent(u) == (if res.Ok? then Strip(MessageText(res.value)) else REVIEW_ERROR + res.msg)
  {
    if !InRange(s) then NO_CHANGE
    else
      var next := Some(s.currentSectionIndex + 1);
      var content :=
        match PyIndex(s.outlines, s.currentSectionIndex)
        case None => REVIEW_ERROR + INDEX_ERROR
        case Some(title) => ReviewFor(s.messages, title, s.rawSectionContent, o);
      NO_CHANGE.(report := Some(ManySections([SectionOf(ReviewTitle(s), content)])), currentSectionIndex := next)
  }

  /** What one pass writes for an outline entry: the review of the draft
      written from the documents found for that title. */
  function SectionWritten(messages: seq<Message>, style: string, title: string, o: Oracles): string
  {
    ReviewFor(messages, title, DraftFor(messages, style, FoundFor(title, o), title, o), o)
  }

  /** In a state the pipeline reaches (index at least 0), the "Error" title
      never occurs: the section is always named after its outline entry. */
  lemma ReviewTitleIsEntry(s: State)
    requires InRange(s) && s.currentSectionIndex >= 0
    ensures ReviewTitle(s) == s.outlines[s.currentSectionIndex]
  {
  }

  // ---------------------------------------------------------------- the graph

  datatype Node = Start | InitialRetrievalNode | GenerateOutlineNode | RetrieveForSectionNode
                | SynthesizeSectionNode | ReviewSectionNode | End

  /** `should_continue`. */
  function ShouldContinue(s: State): (n: Node)
    ensures n == End <==> s.outlines == [] || s.currentSectionIndex >= |s.outlines|
    ensures n != End ==> n == RetrieveForSectionNode
  {
    if s.outlines == [] then End
    else if s.currentSectionIndex >= |s.outlines| then End
    else RetrieveForSectionNode
  }

  /** The edges of `get_report_graph`, the last one conditional. */
  function Next(n: Node, s: State): Node
  {
    match n
    case Start => InitialRetrievalNode
    case InitialRetrievalNode => GenerateOutlineNode
    case GenerateOutlineNode => RetrieveForSectionNode
    case RetrieveForSectionNode => SynthesizeSectionNode
    case SynthesizeSectionNode => ReviewSectionNode
    case ReviewSectionNode => ShouldContinue(s)
    case End => End
  }

  /** Running one node on the state. */
  function Exec(n: Node, s: State, o: Oracles): State
  {
    match n
    case InitialRetrievalNode => Apply(s, InitialRetrieval(s, o))
    case GenerateOutlineNode => Apply(s, GenerateOutline(s, o))
    case RetrieveForSectionNode => Apply(s, RetrieveForSection(s, o))
    case SynthesizeSectionNode => Apply(s, SynthesizeSection(s, o))
    case ReviewSectionNode => Apply(s, ReviewSection(s, o))
    case _ => s
  }

  /** One pass through the loop: the three nodes from `retrieve_for_section`
      to `review_section`, in edge order. A pass over a section in range
      appends exactly one section and moves the index on; any other pass
      changes neither. */
  function Pass(s: State, o: Oracles): (r: State)
    ensures r.outlines == s.outlines && r.messages == s.messages && r.writingStyle == s.writingStyle
    ensures InRange(s) ==>
      r.currentSectionIndex == s.currentSectionIndex + 1 && |r.report| == |s.report| + 1
      && r.report[..|s.report|] == s.report && "title" in r.report[|s.report|]
      && r.report[|s.report|]["title"] == ReviewTitle(s)
    ensures InRange(s) && s.currentSectionIndex >= 0 ==>
      SectionFor(r.report[|s.report|], s.outlines[s.currentSectionIndex], Writer(s.messages, s.writingStyle, o))
    ensures !InRange(s) ==> r.currentSectionIndex == s.currentSectionIndex && r.report == s.report
  {
    assert Next(RetrieveForSectionNode, s) == SynthesizeSectionNode;
    var s1 := Exec(RetrieveForSectionNode, s, o);
    assert Next(SynthesizeSectionNode, s1) == ReviewSectionNode;
    var s2 := Exec(SynthesizeSectionNode, s1, o);
    assert InRange(s2) == InRange(s) && ReviewTitle(s2) == ReviewTitle(s);
    PassContent(s, o);
    Exec(ReviewSectionNode, s2, o)
  }

  /** The section a pass over an entry in range emits holds what the pass
      writes for that entry. */
  lemma PassContent(s: State, o: Oracles)
    ensures var s2 := Exec(SynthesizeSectionNode, Exec(RetrieveForSectionNode, s, o), o);
      InRange(s) && s.currentSectionIndex >= 0 ==>
      ReviewedContent(ReviewSection(s2, o)) == SectionWritten(s.messages, s.writingStyle, s.outlines[s.currentSectionIndex], o)
  {
    var s1 := Exec(RetrieveForSectionNode, s, o);
    var s2 := Exec(SynthesizeSectionNode, s1, o);
    if InRange(s) && s.currentSectionIndex >= 0 {
      var title := s.outlines[s.currentSectionIndex];
      assert PyIndex(s.outlines, s.currentSectionIndex) == Some(title);
      assert s1.retrievedDocs == FoundFor(title, o);
      assert InRange(s1) && s1.messages == s.messages && s1.writingStyle == s.writingStyle;
      assert s2.rawSectionContent == DraftFor(s.messages, s.writingStyle, FoundFor(title, o), title, o);
      assert InRange(s2) && s2.messages == s.messages && PyIndex(s2.outlines, s2.currentSectionIndex) == Some(title);
    }
  }

  /** What passes write for each title, given the run's messages and style. */
  function Writer(messages: seq<Message>, style: string, o: Oracles): string -> string
  {
    title => SectionWritten(messages, style, title, o)
  }

  /** `sec` is the section written for `title`: named after it, holding
      what `write` gives for it. */
  predicate SectionFor(sec: Section, title: string, write: string -> string)
  {
    "title" in sec && sec["title"] == title && "content" in sec && sec["content"] == write(title)
  }

  /** The loop: passes until `should_continue` routes to the end. */
  function Loop(s: State, o: Oracles): State
    decreases |s.outlines| - s.currentSectionIndex
  {
    var p := Pass(s, o);
    if Next(ReviewSectionNode, p) == End then p else Loop(p, o)
  }

  /** The whole pipeline from its input state. */
  function Run(s0: State, o: Oracles): State
  {
    var s1 := Exec(InitialRetrievalNode, s0, o);
    var s2 := Exec(GenerateOutlineNode, s1, o);
    Loop(s2, o)
  }

  /** The facts the loop lemma states about a run `r` that started from
      state `s`, its index at `k`, each section holding what `write` gives
      for its entry. */
  predicate WroteRemaining(s: State, r: State, write: string -> string)
    requires 0 <= s.currentSectionIndex <= |s.outlines|
  {
    var k := s.currentSectionIndex;
    r.outlines == s.outlines && r.currentSectionIndex == |s.outlines|
    && |r.report| == |s.report| + |s.outlines| - k && r.report[..|s.report|] == s.report
    && forall j :: |s.report| <= j < |r.report| ==> SectionFor(r.report[j], s.outlines[k + j - |s.report|], write)
  }

  /** From index `k` with `0 <= k <= |outlines|`, the loop appends one
      section per remaining entry, titled after it and holding what the pass
      over it writes, and stops with the index at the end of the outline.
      With no outline, one pass appends nothing. */
  lemma {:induction false} LoopAppendsRemaining(s: State, o: Oracles)
    requires 0 <= s.currentSectionIndex <= |s.outlines|
    ensures WroteRemaining(s, Loop(s, o), Writer(s.messages, s.writingStyle, o))
    decreases |s.outlines| - s.currentSectionIndex
  {
    var p := Pass(s, o);
    var w := Writer(s.messages, s.writingStyle, o);
    if !InRange(s) {
      assert Loop(s, o) == p;
    } else if s.currentSectionIndex + 1 == |s.outlines| {
      assert Loop(s, o) == p;
      LastPass(s, o);
      LastPassWrote(s, p, w);
    } else {
      assert Loop(s, o) == Loop(p, o);
      LoopAppendsRemaining(p, o);
      assert Writer(p.messages, p.writingStyle, o) == w;
      FirstPassThenRest(s, p, Loop(p, o), w);
    }
  }

  /** The pass over the last entry writes it and ends the loop. */
  lemma LastPass(s: State, o: Oracles)
    requires InRange(s) && 0 <= s.currentSectionIndex && s.currentSectionIndex + 1 == |s.outlines|
    ensures var r := Pass(s, o);
      r.outlines == s.outlines && r.currentSectionIndex == |s.outlines|
      && |r.report| == |s.report| + 1 && r.report[..|s.report|] == s.report
      && SectionFor(r.report[|s.report|], s.outlines[s.currentSectionIndex], Writer(s.messages, s.writingStyle, o))
  {
  }

  /** A pass that wrote the last entry has written everything that remained. */
  lemma LastPassWrote(s: State, p: State, w: string -> string)
    requires 0 <= s.currentSectionIndex && s.currentSectionIndex + 1 == |s.outlines|
    requires p.outlines == s.outlines && p.currentSectionIndex == |s.outlines|
    requires |p.report| == |s.report| + 1 && p.report[..|s.report|] == s.report
    requires SectionFor(p.report[|s.report|], s.outlines[s.currentSectionIndex], w)
    ensures WroteRemaining(s, p, w)
  {
  }

  /** A pass that wrote entry `k`, followed by a run that wrote the rest. */
  lemma FirstPassThenRest(s: State, p: State, r: State, w: string -> string)
    requires 0 <= s.currentSectionIndex < |s.outlines|
    requires p.outlines == s.outlines && p.currentSectionIndex == s.currentSectionIndex + 1
    requires |p.report| == |s.report| + 1 && p.report[..|s.report|] == s.report
    requires SectionFor(p.report[|s.report|], s.outlines[s.currentSectionIndex], w)
    requires WroteRemaining(p, r, w)
    ensures WroteRemaining(s, r, w)
  {
    assert r.report[..|s.report|] == r.report[..|p.report|][..|s.report|];
    assert r.report[|s.report|] == r.report[..|p.report|][|s.report|];
  }

  /** After `generate_outline` the loop writes exactly one section per
      outline entry, in outline order, and then halts; the entries are the
      generated ones, or the single fallback entry, and each section's
      content is what the pass over its entry writes. */
  lemma RunWritesEveryEntry(s0: State, o: Oracles)
    ensures var s2 := Exec(GenerateOutlineNode, Exec(InitialRetrievalNode, s0, o), o);
      var r := Run(s0, o);
      s2.currentSectionIndex == 0 && r.outlines == s2.outlines
      && |r.report| == |s0.report| + |s2.outlines| && r.report[..|s0.report|] == s0.report
      && (forall j :: |s0.report| <= j < |r.report| ==>
            SectionFor(r.report[j], s2.outlines[j - |s0.report|], Writer(s2.messages, s2.writingStyle, o)))
      && Next(ReviewSectionNode, r) == End
  {
    var s1 := Exec(InitialRetrievalNode, s0, o);
    var s2 := Exec(GenerateOutlineNode, s1, o);
    assert s2.currentSectionIndex == 0;
    LoopAppendsRemaining(s2, o);
    assert Run(s0, o) == Loop(s2, o);
  }
}

=== FILE: retrieval.dfy ===
/** Source bookkeeping over the vector store (`src/core/retrieval.py`). The
    store's collection is modelled by the metadata of its entries, in order;
    an entry may have no metadata at all. */
module Retrieval {
  import opened Text

  /** The metadata of one stored chunk, when it has any. */
  type Meta = Option<map<string, string>>

  /** The `"source"` an entry carries, if any. */
  predicate HasSource(e: Meta)
  {
    e.Some? && "source" in e.value
  }

  /** Every distinct source named in `entries`. */
  ghost function SourcesOf(entries: seq<Meta>): (r: set<string>)
    ensures forall x :: x in r <==> exists i :: 0 <= i < |entries| && HasSource(entries[i]) && entries[i].value["source"] == x
  {
    set i | 0 <= i < |entries| && HasSource(entries[i]) :: entries[i].value["source"]
  }

  /** The entries a `where={"source": x}` delete for each `x` in `xs` keeps:
      those without a source, and those whose source is not in `xs`. */
  function Kept(entries: seq<Meta>, xs: seq<string>): (r: seq<Meta>)
    ensures |r| <= |entries|
    ensures forall e :: e in r <==> e in entries && !(HasSource(e) && e.value["source"] in xs)
  {
    if entries == [] then []
    else
      var rest := Kept(entries[1..], xs);
      assert forall e :: e in entries <==> e == entries[0] || e in entries[1..];
      if HasSource(entries[0]) && entries[0].value["source"] in xs then rest else [entries[0]] + rest
  }

  /** Deleting one list of sources, then another, is deleting both. */
  lemma {:induction false} KeptTwice(entries: seq<Meta>, a: seq<string>, b: seq<string>)
    ensures Kept(Kept(entries, a), b) == Kept(entries, a + b)
  {
    if entries != [] {
      KeptTwice(entries[1..], a, b);
    }
  }

  /** Deleting no source keeps every entry. */
  lemma {:induction false} KeptNothing(entries: seq<Meta>)
    ensures Kept(entries, []) == entries
  {
    if entries != [] {
      KeptNothing(entries[1..]);
    }
  }

  /** After the delete, the listed sources are gone and every other source
      is still there. */
  lemma {:induction false} KeptSources(entries: seq<Meta>, xs: seq<string>)
    ensures SourcesOf(Kept(entries, xs)) == SourcesOf(entries) - set x | x in xs
  {
    var k := Kept(entries, xs);
    forall x | x in SourcesOf(k)
      ensures x in SourcesOf(entries) && x !in xs
    {
      var i :| 0 <= i < |k| && HasSource(k[i]) && k[i].value["source"] == x;
      assert k[i] in k;
      var j :| 0 <= j < |entries| && entries[j] == k[i];
    }
    forall x | x in SourcesOf(entries) && x !in xs
      ensures x in SourcesOf(k)
    {
      var j :| 0 <= j < |entries| && HasSource(entries[j]) && entries[j].value["source"] == x;
      assert entries[j] in entries;
      var i :| 0 <= i < |k| && k[i] == entries[j];
    }
  }

  /** What `delete_documents` is given: one source name or a list of them. */
  datatype Sources = One(name: string) | Many(names: seq<string>)

  /** A single name is treated as a one-element list. */
  function AsList(docs: Sources): (r: seq<string>)
    ensures docs.One? ==> r == [docs.name]
    ensures docs.Many? ==> r == docs.names
  {
    match docs
    case One(n) => [n]
    case Many(ns) => ns
  }

  /** The store's collection. */
  class Collection {
    var entries: seq<Meta>

    constructor (entries: seq<Meta>)
      ensures this.entries == entries
    {
      this.entries := entries;
    }

    /** `get_existing_documents`: every distinct source in the collection;
        entries with no metadata or without a source add nothing. */
    method GetExistingDocuments() returns (sources: set<string>)
      ensures sources == SourcesOf(entries)
    {
      sources := {};
      for i := 0 to |entries|
        invariant sources == SourcesOf(entries[..i])
      {
        assert entries[..i + 1] == entries[..i] + [entries[i]];
        if entries[i].Some? && "source" in entries[i].value.Keys {
          sources := sources + {entries[i].value["source"]};
        }
        assert forall j :: 0 <= j < i ==> entries[..i + 1][j] == entries[..i][j];
      }
      assert entries[..|entries|] == entries;
    }

    /** `delete_documents`: deletes, one source at a time, every entry whose
        source is among `docs`. */
    method DeleteDocuments(docs: Sources)
      modifies this
      ensures entries == Kept(old(entries), AsList(docs))
    {
      var names := AsList(docs);
      KeptNothing(entries);
      assert names[..0] == [];
      for i := 0 to |names|
        invariant entries == Kept(old(entries), names[..i])
      {
        KeptTwice(old(entries), names[..i], [names[i]]);
        assert names[..i] + [names[i]] == names[..i + 1];
        entries := Kept(entries, [names[i]]);
      }
      assert names[..|names|] == names;
    }
  }

  /** Once deleted, a source is no longer listed, and the sources not
      deleted still are. */
  method DeleteThenList(c: Collection, docs: Sources) returns (sources: set<string>)
    modifies c
    ensures sources == SourcesOf(old(c.entries)) - set x | x in AsList(docs)
    ensures forall x :: x in AsList(docs) ==> x !in sources
  {
    c.DeleteDocuments(docs);
    sources := c.GetExistingDocuments();
    KeptSources(old(c.entries), AsList(docs));
  }
}

=== FILE: retrieval_graph.dfy ===
/** The conversational pipeline of `src/core/graphs/retrieval_graph.py`:
    `rephrase_query`, `retrieve`, `respond`, then `summarize_conversation`
    when the conversation length is a multiple of six. Every node catches
    its own failures and substitutes a fixed value, so a run never fails. */
module RetrievalGraph {
  import opened Text
  import opened Docs
  import opened States
  import Utils
  import MessageFormat

  /** The external calls: the query model (given the system prompt's
      previous-messages text and the last message's content), the retriever,
      the response model (given the formatted context, the summary and the
      last message's content) and the summary model (given its system
      prompt and the messages to summarise). */
  datatype Oracles = Oracles(
    rephrase: (string, Content) -> Outcome<string>,
    retrieve: string -> Outcome<seq<Document>>,
    respond: (string, string, Content) -> Outcome<Message>,
    summarize: (string, seq<Message>) -> Outcome<string>)

  /** A node's partial output: `messages` are appended, the rest overwrite. */
  datatype Update = Update(
    messages: Option<seq<Message>>,
    query: Option<string>,
    retrievedDocs: Option<DocsField>,
    summary: Option<string>)

  function Apply(s: RetrievalState, u: Update): (r: RetrievalState)
    ensures r.messages == s.messages + (if u.messages.Some? then u.messages.value else [])
    ensures r.query == (if u.query.Some? then u.query.value else s.query)
    ensures r.retrievedDocs == (if u.retrievedDocs.Some? then u.retrievedDocs.value else s.retrievedDocs)
    ensures r.summary == (if u.summary.Some? then u.summary.value else s.summary)
  {
    RetrievalState(
      s.messages + (if u.messages.Some? then u.messages.value else []),
      if u.query.Some? then u.query.value else s.query,
      if u.retrievedDocs.Some? then u.retrievedDocs.value else s.retrievedDocs,
      if u.summary.Some? then u.summary.value else s.summary)
  }

  // ---------------------------------------------------------------- rephrase_query

  const NO_PREVIOUS := "There were no previous messages."
  const FALLBACK_QUERY := "general search"

  /** What the query model is asked, or `None` where preparing it raises:
      formatting the two messages before the last (with three or more
      messages) fails on non-text content, and an empty conversation has no
      last message. The formatted messages are discarded, so the prompt
      always says there were none. */
  function RephraseRequest(messages: seq<Message>): (r: Option<(string, Content)>)
    ensures r.Some? <==> messages != [] && (|messages| >= 3 ==> messages[|messages| - 3].content.CStr? && messages[|messages| - 2].content.CStr?)
    ensures r.Some? ==> r.value == (NO_PREVIOUS, messages[|messages| - 1].content)
  {
    var n := |messages|;
    if n >= 3 && MessageFormat.FormatMessages(Some(PySlice(messages, -3, -1))).Fail? then
      assert PySlice(messages, -3, -1) == [messages[n - 3], messages[n - 2]];
      None
    else if n == 0 then None
    else
      assert n >= 3 ==> PySlice(messages, -3, -1) == [messages[n - 3], messages[n - 2]];
      Some((NO_PREVIOUS, messages[n - 1].content))
  }

  /** What a documents field becomes when a new query is written: the
      marker when it held something, an empty list otherwise. */
  function ClearedDocs(f: DocsField): (r: DocsField)
    ensures r == DeleteMarker <==> Truthy(f)
    ensures r != DeleteMarker ==> r == Docs([])
  {
    if Truthy(f) then DeleteMarker else Docs([])
  }

  /** `rephrase_query`: the generated query, or "general search" when any
      step fails; on both paths the documents field is cleared. */
  function RephraseQuery(s: RetrievalState, o: Oracles): (u: Update)
    ensures u.messages.None? && u.summary.None?
    ensures u.retrievedDocs == Some(ClearedDocs(s.retrievedDocs))
    ensures u.query.Some?
    ensures u.query.value != FALLBACK_QUERY ==>
      var req := RephraseRequest(s.messages);
      req.Some? && o.rephrase(req.value.0, req.value.1) == Ok(u.query.value)
    ensures RephraseRequest(s.messages).None? ==> u.query == Some(FALLBACK_QUERY)
    ensures var req := RephraseRequest(s.messages);
      req.Some? && o.rephrase(req.value.0, req.value.1).Ok? ==> u.query == Some(o.rephrase(req.value.0, req.value.1).value)
    ensures var req := RephraseRequest(s.messages);
      req.Some? && o.rephrase(req.value.0, req.value.1).Fail? ==> u.query == Some(FALLBACK_QUERY)
  {
    var q :=
      match RephraseRequest(s.messages)
      case None => FALLBACK_QUERY
      case Some((prev, user)) =>
        match o.rephrase(prev, user)
        case Ok(q) => q
        case Fail(_) => FALLBACK_QUERY;
    Update(None, Some(q), Some(ClearedDocs(s.retrievedDocs)), None)
  }

  // ---------------------------------------------------------------- retrieve

  /** `retrieve`: nothing for a blank query, and nothing when the
      retriever fails; otherwise what the retriever returns. */
  function Retrieve(s: RetrievalState, o: Oracles): (u: Update)
    ensures u.messages.None? && u.query.None? && u.summary.None?
    ensures Strip(s.query) == "" ==> u.retrievedDocs == Some(Docs([]))
    ensures Strip(s.query) != "" ==>
      u.retrievedDocs == Some(Docs(if o.retrieve(s.query).Ok? then o.retrieve(s.query).value else []))
  {
    if s.query == "" || Strip(s.query) == "" then Update(None, None, Some(Docs([])), None)
    else
      match o.retrieve(s.query)
      case Ok(docs) => Update(None, None, Some(Docs(docs)), None)
      case Fail(_) => Update(None, None, Some(Docs([])), None)
  }

  /** A blank query never reaches the retriever: its answer does not matter. */
  lemma BlankQuerySkipsRetriever(s: RetrievalState, o1: Oracles, o2: Oracles)
    requires Strip(s.query) == ""
    ensures Retrieve(s, o1) == Retrieve(s, o2)
    ensures Apply(s, Retrieve(s, o1)).retrievedDocs == Docs([])
  {
  }

  // ---------------------------------------------------------------- respond

  const APOLOGY := "I apologize, but I encountered an error while generating a response. Please try rephrasing your question."

  /** The context the response model is given, or `None` where formatting
      raises: the marker string is not a list of documents. */
  function Context(f: DocsField): (r: Option<string>)
    ensures r.None? <==> f.DeleteMarker?
    ensures f == Docs([]) ==> r == Some("")
    ensures f.Docs? && f.list != [] ==> r == Some(Utils.FormatDocs(f.list))
  {
    match f
    case DeleteMarker => None
    case Docs(ds) => Some(if ds == [] then "" else Utils.FormatDocs(ds))
  }

  /** Printing the sources of the retrieved documents, which `respond` does
      after the model answers, raises: some document's "source" entry is not
      text. An empty list prints a fixed line and never raises. */
  predicate SourcesRaise(f: DocsField)
  {
    f.Docs? && f.list != [] && !Utils.AllOk(Utils.SourceStems(f.list))
  }

  /** `respond`: exactly one new message, the model's answer or the fixed
      apology when any step fails, and the documents and query cleared. The
      answer is kept only when formatting the context, the model call and
      printing the sources all succeed. */
  function Respond(s: RetrievalState, o: Oracles): (u: Update)
    ensures u.messages.Some? && |u.messages.value| == 1
    ensures u.retrievedDocs == Some(Docs([])) && u.query == Some("") && u.summary.None?
  {
    var answer :=
      match Context(s.retrievedDocs)
      case None => Message(AI, CStr(APOLOGY))
      case Some(ctx) =>
        if s.messages == [] then Message(AI, CStr(APOLOGY))
        else
          match o.respond(ctx, s.summary, s.messages[|s.messages| - 1].content)
          case Ok(m) => if SourcesRaise(s.retrievedDocs) then Message(AI, CStr(APOLOGY)) else m
          case Fail(_) => Message(AI, CStr(APOLOGY));
    Update(Some([answer]), Some(""), Some(Docs([])), None)
  }

  /** The one message `respond` appends: the model's answer when there is a
      context, a last message and source names that format, the apology
      otherwise. */
  lemma RespondAnswer(s: RetrievalState, o: Oracles)
    ensures var u := Respond(s, o);
      u.messages.value[0] != Message(AI, CStr(APOLOGY)) ==>
      Context(s.retrievedDocs).Some? && s.messages != [] && !SourcesRaise(s.retrievedDocs)
      && o.respond(Context(s.retrievedDocs).value, s.summary, s.messages[|s.messages| - 1].content) == Ok(u.messages.value[0])
    ensures s.messages == [] || s.retrievedDocs.DeleteMarker? ==> Respond(s, o).messages.value == [Message(AI, CStr(APOLOGY))]
    ensures Context(s.retrievedDocs).Some? && s.messages != [] ==>
      var res := o.respond(Context(s.retrievedDocs).value, s.summary, s.messages[|s.messages| - 1].content);
      (res.Ok? && !SourcesRaise(s.retrievedDocs) ==> Respond(s, o).messages.value == [res.value])
      && (res.Fail? || SourcesRaise(s.retrievedDocs) ==> Respond(s, o).messages.value == [Message(AI, CStr(APOLOGY))])
  {
  }

  // ---------------------------------------------------------------- summarize_conversation

  const CREATE_PROMPT := "Create a summary of the conversation:"

  const EXTEND_HEAD := "This is summary of the conversation to date:\n<summary>\n"
  const EXTEND_TAIL := "\n</summary>\n\nExtend the summary by taking into account the new messages:"

  /** The prompt that asks to extend an existing summary, which it quotes
      between `head` and `tail`; each pipeline has its own wording. */
  function ExtendPrompt(head: string, summary: string, tail: string): (p: string)
    ensures StartsWith(p, head) && IsAt(p, |head|, summary + tail)
  {
    var p := head + summary + tail;
    assert p[..|head|] == head;
    assert p[|head|..|head| + |summary + tail|] == summary + tail;
    p
  }

  /** What the summary model is asked: the extend prompt exactly when there
      is a summary, and the last six messages (all of them when fewer). */
  function SummaryRequest(s: RetrievalState, head: string, tail: string): (r: (string, seq<Message>))
    requires |head| >= |CREATE_PROMPT|
    ensures r.0 == CREATE_PROMPT <==> s.summary == ""
    ensures s.summary != "" ==> r.0 == ExtendPrompt(head, s.summary, tail)
    ensures |r.1| == (if |s.messages| < 6 then |s.messages| else 6)
    ensures r.1 == s.messages[|s.messages| - |r.1|..]
  {
    var p := if s.summary != "" then ExtendPrompt(head, s.summary, tail) else CREATE_PROMPT;
    assert s.summary != "" ==> |p| > |CREATE_PROMPT|;
    (p, LastN(s.messages, 6))
  }

  /** `summarize_conversation`: the new summary, or the existing one when
      the model fails. */
  function SummarizeConversation(s: RetrievalState, o: Oracles): (u: Update)
    ensures u.messages.None? && u.query.None? && u.retrievedDocs.None? && u.summary.Some?
    ensures var req := SummaryRequest(s, EXTEND_HEAD, EXTEND_TAIL);
      (o.summarize(req.0, req.1).Ok? ==> u.summary == Some(o.summarize(req.0, req.1).value))
      && (o.summarize(req.0, req.1).Fail? ==> u.summary == Some(s.summary))
  {
    var (p, ms) := SummaryRequest(s, EXTEND_HEAD, EXTEND_TAIL);
    match o.summarize(p, ms)
    case Ok(t) => Update(None, None, None, Some(t))
    case Fail(_) => Update(None, None, None, Some(s.summary))
  }

  // ---------------------------------------------------------------- edges

  datatype Route = Summarize | End

  /** `should_summarize`. */
  function ShouldSummarize(messages: seq<Message>): (r: Route)
    ensures r == Summarize <==> |messages| % 6 == 0
  {
    if |messages| % 6 == 0 then Summarize else End
  }

  /** One turn: start, `rephrase_query`, `retrieve`, `respond`, then the
      summary when `should_summarize` asks for it. */
  function Run(s: RetrievalState, o: Oracles): (r: RetrievalState)
  {
    var s1 := Apply(s, RephraseQuery(s, o));
    var s2 := Apply(s1, Retrieve(s1, o));
    var s3 := Apply(s2, Respond(s2, o));
    if ShouldSummarize(s3.messages) == Summarize then Apply(s3, SummarizeConversation(s3, o)) else s3
  }

  /** The two nodes before `respond` leave the messages and the summary as
      they were. */
  lemma RetrievedKeepsHistory(s: RetrievalState, o: Oracles)
    ensures var s1 := Apply(s, RephraseQuery(s, o));
      var s2 := Apply(s1, Retrieve(s1, o));
      s2.messages == s.messages && s2.summary == s.summary
  {
    var u1 := RephraseQuery(s, o);
    assert u1.messages.None? && u1.summary.None?;
  }

  /** A turn appends exactly one message, leaves the query and documents
      cleared, and changes the summary only on turns that end with a
      conversation length divisible by six. */
  lemma {:induction false} RunShape(s: RetrievalState, o: Oracles)
    ensures |Run(s, o).messages| == |s.messages| + 1
    ensures Run(s, o).messages[..|s.messages|] == s.messages
    ensures Run(s, o).query == "" && Run(s, o).retrievedDocs == Docs([])
    ensures (|s.messages| + 1) % 6 != 0 ==> Run(s, o).summary == s.summary
  {
    var s1 := Apply(s, RephraseQuery(s, o));
    var s2 := Apply(s1, Retrieve(s1, o));
    RetrievedKeepsHistory(s, o);
    RespondThenSummary(s.messages, s.summary, s2, o);
  }

  /** From a state holding `messages` and `summary`, `respond` and the
      optional summary append one message, clear the query and documents,
      and keep the summary unless the new length is a multiple of six. */
  lemma RespondThenSummary(messages: seq<Message>, summary: string, s2: RetrievalState, o: Oracles)
    requires s2.messages == messages && s2.summary == summary
    ensures var s3 := Apply(s2, Respond(s2, o));
      var r := if ShouldSummarize(s3.messages) == Summarize then Apply(s3, SummarizeConversation(s3, o)) else s3;
      |r.messages| == |messages| + 1 && r.messages[..|messages|] == messages &&
      r.query == "" && r.retrievedDocs == Docs([]) &&
      ((|messages| + 1) % 6 != 0 ==> r.summary == summary)
  {
    var u := Respond(s2, o);
    var s3 := Apply(s2, u);
    assert s3.messages == messages + u.messages.value;
    assert s3.messages[..|messages|] == messages;
  }

  /** The retriever sees the rephrased query: when the query model answers
      with a non-blank query, the response is built on what the retriever
      returned for it. */
  lemma {:induction false} RetrieverSeesRephrasedQuery(s: RetrievalState, o: Oracles, q: string)
    requires RephraseRequest(s.messages).Some?
    requires o.rephrase(NO_PREVIOUS, s.messages[|s.messages| - 1].content) == Ok(q)
    requires Strip(q) != ""
    ensures var s1 := Apply(s, RephraseQuery(s, o));
      s1.query == q && Apply(s1, Retrieve(s1, o)).retrievedDocs == Docs(if o.retrieve(q).Ok? then o.retrieve(q).value else [])
  {
    var s1 := Apply(s, RephraseQuery(s, o));
    assert s1.query == q;
  }
}

=== FILE: states.dfy ===
/** The graph states of the pipelines and the reducers that merge a node's
    partial output into them (`src/core/states.py`). */
module States {
  import opened Text
  import opened Docs

  // ---------------------------------------------------------------- reduce_docs

  /** An element of a list handed to `reduce_docs`: a string, a dict of
      `Document` keyword arguments (either key may be missing), or a value
      that is kept as it is (in practice a `Document`). */
  datatype DocItem = ItemStr(s: string) | ItemDict(pageContent: Option<string>, metadata: Option<Metadata>) | ItemDoc(d: Document)

  /** What a node writes to a documents field: a string (the sentinel
      "delete" among them), a list of items, or anything else. */
  datatype DocsUpdate = Text(s: string) | Items(items: seq<DocItem>) | Other

  const DELETE := "delete"

  /** `Document(**item)` without a `page_content` entry fails validation. */
  const MISSING_CONTENT := "page_content: Field required"

  /** A fresh document for a string, tagged with a generated id. */
  function FromText(s: string, id: string): (d: Document)
    ensures d.pageContent == s && Get(d.metadata, "id") == Some(Str(id)) && |d.metadata| == 1
  {
    Document(s, [("id", Str(id))])
  }

  /** The document one list item becomes, given the id generated for it. */
  function Coerce(item: DocItem, id: string): (r: Outcome<Document>)
    ensures r.Fail? <==> item.ItemDict? && item.pageContent.None?
    ensures item.ItemStr? ==> r == Ok(FromText(item.s, id))
    ensures item.ItemDict? && item.pageContent.Some? ==>
      r == Ok(Document(item.pageContent.value, if item.metadata.Some? then item.metadata.value else []))
    ensures item.ItemDoc? ==> r == Ok(item.d)
  {
    match item
    case ItemStr(s) => Ok(FromText(s, id))
    case ItemDict(pc, md) =>
      if pc.None? then Fail(MISSING_CONTENT)
      else Ok(Document(pc.value, if md.Some? then md.value else []))
    case ItemDoc(d) => Ok(d)
  }

  /** Every item coerced, the `k`-th with the `k`-th generated id; the first
      item that cannot be coerced fails the whole list. */
  function CoerceAll(items: seq<DocItem>, ids: nat -> string): (r: Outcome<seq<Document>>)
    ensures r.Ok? <==> forall i :: 0 <= i < |items| ==> Coerce(items[i], ids(i)).Ok?
    ensures r.Ok? ==> |r.value| == |items| && forall i :: 0 <= i < |items| ==> r.value[i] == Coerce(items[i], ids(i)).value
  {
    if items == [] then Ok([])
    else
      var n := |items| - 1;
      match CoerceAll(items[..n], ids)
      case Fail(e) => Fail(e)
      case Ok(p) =>
        assert forall i :: 0 <= i < n ==> items[..n][i] == items[i];
        match Coerce(items[n], ids(n))
        case Fail(e) => Fail(e)
        case Ok(d) => Ok(p + [d])
  }

  /** `reduce_docs`: the sentinel clears the field, a string becomes one
      fresh document, a list replaces the field with its coerced items, and
      anything else keeps the field (an empty or missing one as `[]`). */
  function Reduced(existing: Option<seq<Document>>, update: DocsUpdate, ids: nat -> string): (r: Outcome<seq<Document>>)
    ensures update == Text(DELETE) ==> r == Ok([])
    ensures update.Text? && update.s != DELETE ==> r == Ok([FromText(update.s, ids(0))])
    ensures update.Items? ==> r == CoerceAll(update.items, ids)
    ensures update.Other? ==> r == Ok(if existing.Some? then existing.value else [])
  {
    match update
    case Text(s) => if s == DELETE then Ok([]) else Ok([FromText(s, ids(0))])
    case Items(items) => CoerceAll(items, ids)
    case Other => Ok(if existing.Some? then existing.value else [])
  }

  /** `reduce_docs` as the source runs it: the list case builds the coerced
      list item by item. */
  method ReduceDocs(existing: Option<seq<Document>>, update: DocsUpdate, ids: nat -> string) returns (r: Outcome<seq<Document>>)
    ensures r == Reduced(existing, update, ids)
  {
    match update
    case Text(s) =>
      if s == DELETE {
        return Ok([]);
      }
      return Ok([FromText(s, ids(0))]);
    case Other =>
      return Ok(if existing.Some? then existing.value else []);
    case Items(items) =>
      var coerced: seq<Document> := [];
      for i := 0 to |items|
        invariant CoerceAll(items[..i], ids) == Ok(coerced)
      {
        assert items[..i + 1][..i] == items[..i];
        var c := Coerce(items[i], ids(i));
        if c.Fail? {
          assert CoerceAll(items[..i + 1], ids) == Fail(c.msg);
          CoerceAllFailExtends(items, ids, i + 1);
          return Fail(c.msg);
        }
        coerced := coerced + [c.value];
      }
      assert items[..|items|] == items;
      return Ok(coerced);
  }

  /** Once a prefix fails, the whole list fails with the same message. */
  lemma {:induction false} CoerceAllFailExtends(items: seq<DocItem>, ids: nat -> string, k: nat)
    requires k <= |items| && CoerceAll(items[..k], ids).Fail?
    ensures CoerceAll(items, ids) == CoerceAll(items[..k], ids)
    decreases |items| - k
  {
    if k < |items| {
      assert items[..k + 1][..k] == items[..k];
      CoerceAllFailExtends(items, ids, k + 1);
    } else {
      assert items[..k] == items;
    }
  }

  /** A list update replaces the field: what the field held does not matter. */
  lemma ListReplaces(e1: Option<seq<Document>>, e2: Option<seq<Document>>, items: seq<DocItem>, ids: nat -> string)
    ensures Reduced(e1, Items(items), ids) == Reduced(e2, Items(items), ids)
  {
  }

  /** A list of documents is stored as it is. */
  lemma {:induction false} DocumentsStoredAsIs(docs: seq<Document>, ids: nat -> string)
    ensures Reduced(None, Items(seq(|docs|, i requires 0 <= i < |docs| => ItemDoc(docs[i]))), ids) == Ok(docs)
  {
    var items := seq(|docs|, i requires 0 <= i < |docs| => ItemDoc(docs[i]));
    var r := CoerceAll(items, ids);
    assert forall i :: 0 <= i < |items| ==> Coerce(items[i], ids(i)) == Ok(docs[i]);
    assert r.Ok?;
    assert r.value == docs;
  }

  /** The sentinel clears the field whatever it held, and a later update that
      is neither a string nor a list then reads it as empty. */
  lemma DeleteClears(existing: Option<seq<Document>>, ids: nat -> string)
    ensures Reduced(existing, Text(DELETE), ids) == Ok([])
    ensures Reduced(Some(Reduced(existing, Text(DELETE), ids).value), Other, ids) == Ok([])
  {
  }

  // ---------------------------------------------------------------- add_sections

  /** A report section: a dict of strings ("title", "content", ...). */
  type Section = map<string, string>

  /** What a node writes to the report: one section, a list of them, or
      anything else. */
  datatype SectionsUpdate = OneSection(section: Section) | ManySections(sections: seq<Section>) | NoSections

  /** `add_sections`: one dict is appended, a list is appended in order, and
      anything else leaves the report as it was. */
  function AddSections(existing: seq<Section>, update: SectionsUpdate): (r: seq<Section>)
    ensures update.OneSection? ==> |r| == |existing| + 1 && r[|existing|] == update.section
    ensures update.ManySections? ==>
      |r| == |existing| + |update.sections| && forall i :: 0 <= i < |update.sections| ==> r[|existing| + i] == update.sections[i]
    ensures update.NoSections? ==> r == existing
    ensures r[..|existing|] == existing
  {
    match update
    case OneSection(s) => existing + [s]
    case ManySections(ss) => existing + ss
    case NoSections => existing
  }

  /** Adding a one-element list and adding that one dict agree. */
  lemma OneAsList(existing: seq<Section>, s: Section)
    ensures AddSections(existing, ManySections([s])) == AddSections(existing, OneSection(s))
  {
  }

  /** Two list updates in a row add up to one with both lists. */
  lemma AddSectionsAssociative(existing: seq<Section>, a: seq<Section>, b: seq<Section>)
    ensures AddSections(AddSections(existing, ManySections(a)), ManySections(b)) == AddSections(existing, ManySections(a + b))
  {
    assert existing + a + b == existing + (a + b);
  }

  /** The section an outline entry becomes in both report pipelines: the
      entry's title and summary with the written content added. */
  function Written(title: string, summary: string, content: string): (r: Section)
    ensures r.Keys == {"title", "summary", "content"}
    ensures r["title"] == title && r["summary"] == summary && r["content"] == content
  {
    map["title" := title, "summary" := summary, "content" := content]
  }

  /** `section.get("content", "")`. */
  function ContentOf(sec: Section): string
  {
    if "content" in sec then sec["content"] else ""
  }

  function Contents(report: seq<Section>): (r: seq<string>)
    ensures |r| == |report| && forall i :: 0 <= i < |report| ==> r[i] == ContentOf(report[i])
  {
    seq(|report|, i requires 0 <= i < |report| => ContentOf(report[i]))
  }

  const FIRST_SECTION := "This is the first section. There are no previous sections."

  /** The previous-sections text the section writer of both report pipelines
      is given: a fixed sentence before the first section, otherwise every
      written section's content, one per line, in report order. */
  function PreviousSections(report: seq<Section>): (r: string)
    ensures report == [] ==> r == FIRST_SECTION
    ensures report != [] ==> r == Join("\n", Contents(report))
  {
    if report == [] then FIRST_SECTION else Join("\n", Contents(report))
  }

  /** Writing one more section adds a line with its content at the end; the
      first section written becomes the whole text. */
  lemma PreviousSectionsAppend(report: seq<Section>, sec: Section)
    ensures report == [] ==> PreviousSections(report + [sec]) == ContentOf(sec)
    ensures report != [] ==> PreviousSections(report + [sec]) == PreviousSections(report) + "\n" + ContentOf(sec)
  {
    assert Contents(report + [sec]) == Contents(report) + [ContentOf(sec)];
    if report != [] {
      JoinSnoc("\n", Contents(report), ContentOf(sec));
    }
  }

  // ---------------------------------------------------------------- records

  /** `IndexState`: the directory to index and the documents waiting for it. */
  datatype IndexState = IndexState(path: string, docs: seq<Document>)

  /** A documents field with no reducer: a node's value is stored as it is,
      so the "delete" marker a node writes stays there as a string until a
      later node overwrites it. */
  datatype DocsField = Docs(list: seq<Document>) | DeleteMarker

  /** Python truthiness of the field: the marker is a non-empty string. */
  predicate Truthy(f: DocsField)
  {
    f.DeleteMarker? || f.list != []
  }

  /** `RetrievalState`. */
  datatype RetrievalState = RetrievalState(messages: seq<Message>, query: string, retrievedDocs: DocsField, summary: string)

  /** A `RetrievalState` built from its messages alone. */
  function NewRetrievalState(messages: seq<Message>): (s: RetrievalState)
    ensures s.messages == messages && s.query == "" && s.retrievedDocs == Docs([]) && s.summary == ""
    ensures !Truthy(s.retrievedDocs)
  {
    RetrievalState(messages, "", Docs([]), "")
  }

  /** `ReportState`, plus four fields that its nodes read and return but
      that the source's dataclass does not declare: the requested number of
      parts and writing style, the report header and the draft of the
      section in progress. The model gives them channels, so a draft reaches
      the review step. `O` is the outline entry type, which differs between
      the report pipelines. */
  datatype ReportState<O> = ReportState(
    messages: seq<Message>,
    outlines: seq<O>,
    report: seq<Section>,
    retrievedDocs: seq<Document>,
    currentSectionIndex: int,
    numberOfParts: int,
    writingStyle: string,
    reportHeader: string,
    rawSectionContent: string)

  /** A `ReportState` built from a pipeline's input: no outline, no report,
      no documents, the first section next. */
  function NewReportState<O>(messages: seq<Message>, numberOfParts: int, writingStyle: string): (s: ReportState<O>)
    ensures s.messages == messages && s.numberOfParts == numberOfParts && s.writingStyle == writingStyle
    ensures s.outlines == [] && s.report == [] && s.retrievedDocs == [] && s.currentSectionIndex == 0
  {
    ReportState(messages, [], [], [], 0, numberOfParts, writingStyle, "", "")
  }
}

=== FILE: story.dfy ===
/** The part of ReportLab the report writers use: a document is a story,
    a list of flowables built in order. Only what is appended, and with
    which style, is modelled; layout and rendering are not. */
module Story {
  import opened Text

  datatype Flowable =
    | Paragraph(text: string, style: string)
    | Spacer(width: int, height: int)
    | PageBreak

  /** A report section as the writers receive it: a dictionary of strings. */
  type Item = map<string, string>

  /** `item.get(key, default)` */
  function ItemGet(item: Item, key: string, default: string): (r: string)
    ensures key in item ==> r == item[key]
    ensures key !in item ==> r == default
  {
    if key in item then item[key] else default
  }

  /** The title a section without one is given: `f"Section {i+1}"`. */
  function DefaultTitle(i: nat): (r: string)
    ensures |r| > |"Section "| && r[..|"Section "|] == "Section "
  {
    "Section " + NatToString(i + 1)
  }

  /** How often `x` occurs in a story. */
  function Count(story: seq<Flowable>, x: Flowable): nat
  {
    multiset(story)[x]
  }

  /** Appending to a story step by step regroups its parts. */
  lemma AppendAssoc<T>(a: seq<T>, b: seq<T>, c: seq<T>)
    ensures (a + b) + c == a + (b + c)
  {
  }
}

=== FILE: stream_worker.dfy ===
/** The think-tag filter of the chat widget's stream worker
    (`src/ui/widgets/chat_widget.py`): tokens from the model are buffered so
    that a `<think>` tag split across tokens is still seen; text inside a
    think block is held back, the first block announces itself once with a
    notice, and everything else is passed on as it arrives. */
module StreamWorker {
  import opened Text

  /** The notice shown on the first entry into a think block. */
  const THINKING := "Thinking..."

  /** The worker's three fields, as a value. */
  datatype WorkerState = WorkerState(buffer: string, inThink: bool, shownThinking: bool)

  const INITIAL := WorkerState("", false, false)

  /** `_process_token`, on the worker's state: the new state and what the
      call returns (None holds the output back). */
  function Step(s: WorkerState, token: string): (r: (WorkerState, Option<string>))
    // the notice flag only ever goes up, and only together with the notice
    ensures s.shownThinking ==> r.0.shownThinking
    ensures r.0.shownThinking && !s.shownThinking ==> r.1 == Some(THINKING)
    // outside a block the buffer is always empty, and output is held back only inside one
    ensures !r.0.inThink ==> r.0.buffer == ""
    ensures r.1.None? ==> r.0.inThink
  {
    var b := s.buffer + token;
    if !s.inThink && Contains(b, OPEN) && !s.shownThinking then
      (WorkerState(AfterFirst(b, OPEN), true, true), Some(THINKING))
    else
      var (buffer, inThink) := if !s.inThink && Contains(b, OPEN) then (AfterFirst(b, OPEN), true) else (b, s.inThink);
      if inThink then
        if Contains(buffer, CLOSE) then (WorkerState("", false, s.shownThinking), Some(AfterFirst(buffer, CLOSE)))
        else (WorkerState(buffer, true, s.shownThinking), None)
      else (WorkerState("", false, s.shownThinking), Some(buffer))
  }

  /** `_process_token` case by case. */
  lemma StepCases(s: WorkerState, token: string)
    // outside a block, with no opening tag, the whole buffer is passed on and emptied
    ensures !s.inThink && !Contains(s.buffer + token, OPEN) ==>
      Step(s, token) == (WorkerState("", false, s.shownThinking), Some(s.buffer + token))
    // the first opening tag of the worker's life: the notice, and the block is entered
    // holding only the text after the tag
    ensures !s.inThink && Contains(s.buffer + token, OPEN) && !s.shownThinking ==>
      Step(s, token) == (WorkerState(AfterFirst(s.buffer + token, OPEN), true, true), Some(THINKING))
    // inside a block, with no closing tag yet: nothing is returned and the buffer grows
    ensures s.inThink && !Contains(s.buffer + token, CLOSE) ==>
      Step(s, token) == (s.(buffer := s.buffer + token), None)
    // a closing tag: the text after it is returned and the block is left with an empty buffer
    ensures s.inThink && Contains(s.buffer + token, CLOSE) ==>
      Step(s, token) == (WorkerState("", false, s.shownThinking), Some(AfterFirst(s.buffer + token, CLOSE)))
    // a later opening tag is entered silently, and the same token may close it again
    ensures !s.inThink && Contains(s.buffer + token, OPEN) && s.shownThinking ==>
      var after := AfterFirst(s.buffer + token, OPEN);
      Step(s, token) == if Contains(after, CLOSE) then (WorkerState("", false, true), Some(AfterFirst(after, CLOSE)))
                        else (WorkerState(after, true, true), None)
  {
  }

  /** What `run` adds to the final response for one result: every returned
      text except the notice (compared by value, so a returned text equal to
      the notice is dropped as well). */
  function Kept(r: Option<string>): (t: string)
    ensures r.None? || r == Some(THINKING) ==> t == ""
    ensures r.Some? && r.value != THINKING ==> t == r.value
  {
    if r.Some? && r.value != THINKING then r.value else ""
  }

  /** The state after a stream of tokens, and the response `run` collects. */
  function Stream(s: WorkerState, tokens: seq<string>): (WorkerState, string)
    decreases |tokens|
  {
    if tokens == [] then (s, "")
    else
      var (s1, r) := Step(s, tokens[0]);
      var (s2, rest) := Stream(s1, tokens[1..]);
      (s2, Kept(r) + rest)
  }

  /** How many times the notice is returned over a stream. */
  function Notices(s: WorkerState, tokens: seq<string>): nat
    decreases |tokens|
  {
    if tokens == [] then 0
    else
      var s1 := Step(s, tokens[0]).0;
      (if s1.shownThinking && !s.shownThinking then 1 else 0) + Notices(s1, tokens[1..])
  }

  /** The notice appears at most once per worker, and never again once shown. */
  lemma {:induction false} NoticeAtMostOnce(s: WorkerState, tokens: seq<string>)
    ensures Notices(s, tokens) <= 1
    ensures s.shownThinking ==> Notices(s, tokens) == 0
    decreases |tokens|
  {
    if tokens != [] {
      var s1 := Step(s, tokens[0]).0;
      NoticeAtMostOnce(s1, tokens[1..]);
    }
  }

  lemma ConcatCons(t: string, rest: seq<string>)
    ensures Concat([t] + rest) == t + Concat(rest)
  {
    if rest != [] {
      assert ([t] + rest)[1..] == rest;
    }
  }

  lemma ContainsExtends(x: string, y: string, p: string)
    requires Contains(x, p)
    ensures Contains(x + y, p)
  {
    var i :| 0 <= i <= |x| && IsAt(x, i, p);
    assert (x + y)[i..i + |p|] == x[i..i + |p|];
    assert IsAt(x + y, i, p);
  }

  /** A stream with no think tag in any token, and no token equal to the
      notice, reaches the response unchanged. */
  lemma {:induction false} PlainStreamPassesThrough(shown: bool, tokens: seq<string>)
    requires forall i :: 0 <= i < |tokens| ==> !Contains(tokens[i], OPEN) && tokens[i] != THINKING
    ensures Stream(WorkerState("", false, shown), tokens) == (WorkerState("", false, shown), Concat(tokens))
  {
    if tokens != [] {
      var s := WorkerState("", false, shown);
      PlainStep(shown, tokens[0]);
      StreamCons(s, tokens);
      PlainStreamPassesThrough(shown, tokens[1..]);
      assert tokens == [tokens[0]] + tokens[1..];
      ConcatCons(tokens[0], tokens[1..]);
    }
  }

  /** The invariant of `run`'s loop carries over one processed token. */
  lemma RunStep(start: WorkerState, tokens: seq<string>, i: nat, before: WorkerState, sofar: string,
                after: WorkerState, result: Option<string>)
    requires i < |tokens|
    requires Stream(start, tokens) == (Stream(before, tokens[i..]).0, sofar + Stream(before, tokens[i..]).1)
    requires (after, result) == Step(before, tokens[i])
    ensures Stream(start, tokens) == (Stream(after, tokens[i + 1..]).0, (sofar + Kept(result)) + Stream(after, tokens[i + 1..]).1)
  {
    var t := tokens[i..];
    assert t[0] == tokens[i] && t[1..] == tokens[i + 1..];
    StreamCons(before, t);
    var rest := Stream(after, tokens[i + 1..]).1;
    assert sofar + (Kept(result) + rest) == (sofar + Kept(result)) + rest;
  }

  /** A plain token outside a block is passed on as it is. */
  lemma PlainStep(shown: bool, t: string)
    requires !Contains(t, OPEN) && t != THINKING
    ensures Step(WorkerState("", false, shown), t) == (WorkerState("", false, shown), Some(t))
    ensures Kept(Some(t)) == t
  {
    assert "" + t == t;
  }

  /** One step of a stream. */
  lemma StreamCons(s: WorkerState, tokens: seq<string>)
    requires tokens != []
    ensures var (s1, r) := Step(s, tokens[0]);
      Stream(s, tokens) == (Stream(s1, tokens[1..]).0, Kept(r) + Stream(s1, tokens[1..]).1)
  {
  }

  /** Inside a think block, a stream that never completes the closing tag
      yields nothing and only grows the buffer. */
  lemma {:induction false} OpenBlockHidesEverything(s: WorkerState, tokens: seq<string>)
    requires s.inThink && !Contains(s.buffer + Concat(tokens), CLOSE)
    ensures Stream(s, tokens) == (s.(buffer := s.buffer + Concat(tokens)), "")
    decreases |tokens|
  {
    if tokens != [] {
      assert tokens == [tokens[0]] + tokens[1..];
      ConcatCons(tokens[0], tokens[1..]);
      var b := s.buffer + tokens[0];
      assert s.buffer + Concat(tokens) == b + Concat(tokens[1..]);
      if Contains(b, CLOSE) {
        ContainsExtends(b, Concat(tokens[1..]), CLOSE);
      }
      OpenBlockHidesEverything(s.(buffer := b), tokens[1..]);
      assert Step(s, tokens[0]) == (s.(buffer := b), None);
      assert Kept(None) + "" == "";
    } else {
      assert s.buffer + Concat(tokens) == s.buffer;
    }
  }

  /** The worker object: its fields change on every processed token. */
  class Worker {
    var buffer: string
    var inThink: bool
    var shownThinking: bool

    function State(): WorkerState
      reads this
    {
      WorkerState(buffer, inThink, shownThinking)
    }

    constructor ()
      ensures State() == INITIAL
    {
      buffer := "";
      inThink := false;
      shownThinking := false;
    }

    /** `_process_token`. */
    method ProcessToken(token: string) returns (r: Option<string>)
      modifies this
      ensures (State(), r) == Step(old(State()), token)
    {
      buffer := buffer + token;
      if !inThink && Contains(buffer, OPEN) {
        inThink := true;
        buffer := AfterFirst(buffer, OPEN);
        if !shownThinking {
          shownThinking := true;
          return Some(THINKING);
        }
      }
      if inThink {
        if Contains(buffer, CLOSE) {
          var after := AfterFirst(buffer, CLOSE);
          buffer := "";
          inThink := false;
          return Some(after);
        }
        return None;
      }
      r := Some(buffer);
      buffer := "";
    }

    /** `run`: every token of the stream is processed in order, and the
        returned texts other than the notice make up the response. */
    method Run(tokens: seq<string>) returns (full: string)
      modifies this
      ensures (State(), full) == Stream(old(State()), tokens)
    {
      full := "";
      ghost var start := State();
      assert tokens[0..] == tokens;
      ghost var whole := Stream(start, tokens);
      assert full + whole.1 == whole.1;
      for i := 0 to |tokens|
        invariant Stream(start, tokens) == (Stream(State(), tokens[i..]).0, full + Stream(State(), tokens[i..]).1)
      {
        ghost var before, sofar := State(), full;
        var result := ProcessToken(tokens[i]);
        if result.Some? {
          if result.value != THINKING {
            full := full + result.value;
          }
        }
        assert full == sofar + Kept(result);
        RunStep(start, tokens, i, before, sofar, State(), result);
      }
      assert tokens[|tokens|..] == [];
      assert full + "" == full;
    }
  }
}

=== FILE: text.dfy ===
/** Python string primitives the pipelines rely on, stated over `seq<char>`:
    whitespace, `strip`, `in`, `find`, `replace`, `split`, `join`, slicing with
    negative indices, and decimal rendering of integers. */
module Text {

  datatype Option<T> = None | Some(value: T)

  /** Outcome of a call into a collaborator the model does not see
      (language model, retriever, loader, file system): its value, or the
      message of the exception it raised. */
  datatype Outcome<T> = Ok(value: T) | Fail(msg: string)

  // ---------------------------------------------------------------- whitespace

  /** The characters for which Python's `str.isspace()` holds; the same class
      is matched by `\s` in `str` patterns and removed by `str.strip()`. */
  predicate IsSpace(c: char)
  {
    || c == ' '
    || ('\t' <= c <= '\r')
    || ('\U{1c}' <= c <= '\U{1f}')
    || c == '\U{85}' || c == '\U{a0}' || c == '\U{1680}'
    || ('\U{2000}' <= c <= '\U{200a}')
    || c == '\U{2028}' || c == '\U{2029}' || c == '\U{202f}' || c == '\U{205f}' || c == '\U{3000}'
  }

  predicate AllSpace(s: string)
  {
    forall i :: 0 <= i < |s| ==> IsSpace(s[i])
  }

  /** `s.lstrip()` */
  function LStrip(s: string): (r: string)
    ensures |r| <= |s|
    ensures r == [] || !IsSpace(r[0])
  {
    if s != [] && IsSpace(s[0]) then LStrip(s[1..]) else s
  }

  /** `s.lstrip()` is a suffix of `s` after nothing but whitespace. */
  lemma {:induction false} LStripSuffix(s: string)
    ensures LStrip(s) == s[|s| - |LStrip(s)|..]
    ensures AllSpace(s[..|s| - |LStrip(s)|])
  {
    if s != [] && IsSpace(s[0]) {
      LStripSuffix(s[1..]);
      assert s[1..][..|s| - 1 - |LStrip(s)|] == s[1..|s| - |LStrip(s)|];
    }
  }

  /** `s.rstrip()` */
  function RStrip(s: string): (r: string)
    ensures |r| <= |s|
    ensures r == [] || !IsSpace(r[|r| - 1])
  {
    if s != [] && IsSpace(s[|s| - 1]) then RStrip(s[..|s| - 1]) else s
  }

  /** `s.rstrip()` is a prefix of `s` before nothing but whitespace. */
  lemma {:induction false} RStripPrefix(s: string)
    ensures RStrip(s) == s[..|RStrip(s)|]
    ensures AllSpace(s[|RStrip(s)|..])
  {
    if s != [] && IsSpace(s[|s| - 1]) {
      RStripPrefix(s[..|s| - 1]);
      assert s[..|s| - 1][|RStrip(s)|..] == s[|RStrip(s)|..|s| - 1];
    }
  }

  /** `s.strip()` */
  function Strip(s: string): (r: string)
    ensures |r| <= |s|
    ensures r == [] || (!IsSpace(r[0]) && !IsSpace(r[|r| - 1]))
  {
    RStripPrefix(LStrip(s));
    RStrip(LStrip(s))
  }

  /** A string strips to nothing exactly when it is all whitespace
      (Python's `not s.strip()`). */
  lemma StripEmptyIff(s: string)
    ensures Strip(s) == [] <==> AllSpace(s)
  {
    if AllSpace(s) {
      StripAllSpace(s);
    } else {
      var i :| 0 <= i < |s| && !IsSpace(s[i]);
      StripKeepsNonSpace(s, i);
    }
  }

  lemma StripAllSpace(s: string)
    requires AllSpace(s)
    ensures LStrip(s) == [] && Strip(s) == []
  {
    if s != [] {
      assert AllSpace(s[1..]);
      StripAllSpace(s[1..]);
    }
  }

  lemma StripKeepsNonSpace(s: string, i: int)
    requires 0 <= i < |s| && !IsSpace(s[i])
    ensures Strip(s) != []
  {
    var l := LStrip(s);
    var off := |s| - |l|;
    LStripSuffix(s);
    RStripPrefix(l);
    forall j | 0 <= j < off
      ensures IsSpace(s[j])
    {
      assert s[..off][j] == s[j];
    }
    assert l[i - off] == s[i];
    var r := RStrip(l);
    forall k | |r| <= k < |l|
      ensures IsSpace(l[k])
    {
      assert l[|r|..][k - |r|] == l[k];
    }
  }

  /** Stripping is idempotent. */
  lemma StripIdempotent(s: string)
    ensures Strip(Strip(s)) == Strip(s)
  {
    var r := Strip(s);
    RStripPrefix(LStrip(s));
    if r != [] {
      assert LStrip(r) == r;
      assert RStrip(r) == r;
    }
  }

  // ---------------------------------------------------------------- search

  /** `p` occurs in `s` at position `i`. */
  predicate IsAt(s: string, i: int, p: string)
  {
    0 <= i && i + |p| <= |s| && s[i..i + |p|] == p
  }

  /** Python's `p in s`. */
  predicate Contains(s: string, p: string)
  {
    exists i :: 0 <= i <= |s| && IsAt(s, i, p)
  }

  predicate StartsWith(s: string, p: string)
  {
    IsAt(s, 0, p)
  }

  /** The first occurrence of `p` in `s` at or after `from`, or -1
      (`s.find(p, from)`). */
  function FindFrom(s: string, p: string, from: nat): (r: int)
    requires from <= |s|
    ensures r == -1 || (from <= r && IsAt(s, r, p))
    ensures r == -1 ==> forall j :: from <= j ==> !IsAt(s, j, p)
    ensures r >= 0 ==> forall j :: from <= j < r ==> !IsAt(s, j, p)
    decreases |s| - from
  {
    if from + |p| > |s| then -1
    else if s[from..from + |p|] == p then from
    else if from == |s| then -1
    else FindFrom(s, p, from + 1)
  }

  /** `s.find(p)`: the first occurrence, -1 exactly when `p` does not occur. */
  function Find(s: string, p: string): (r: int)
    ensures r == -1 <==> !Contains(s, p)
    ensures r >= 0 ==> IsAt(s, r, p) && forall j :: 0 <= j < r ==> !IsAt(s, j, p)
  {
    FindFrom(s, p, 0)
  }

  // ---------------------------------------------------------------- replace, split, join

  /** `s.replace(pat, rep)` for a non-empty `pat`: occurrences are replaced left
      to right and never overlap. */
  function ReplaceAll(s: string, pat: string, rep: string): string
    requires pat != []
    decreases |s|
  {
    if |s| < |pat| then s
    else if s[..|pat|] == pat then rep + ReplaceAll(s[|pat|..], pat, rep)
    else [s[0]] + ReplaceAll(s[1..], pat, rep)
  }

  /** Replacing a character by a text that does not contain it leaves no
      occurrence of that character. */
  lemma {:induction false} ReplaceCharRemoves(s: string, c: char, rep: string)
    requires c !in rep
    ensures c !in ReplaceAll(s, [c], rep)
  {
    if |s| >= 1 {
      ReplaceCharRemoves(s[1..], c, rep);
    }
  }

  /** Replacing a character keeps every character the replacement does not
      introduce out of the result unless it was already in `s`. */
  lemma {:induction false} ReplaceCharIntroduces(s: string, c: char, rep: string, d: char)
    requires d !in s && d !in rep
    ensures d !in ReplaceAll(s, [c], rep)
  {
    if |s| >= 1 {
      ReplaceCharIntroduces(s[1..], c, rep, d);
    }
  }

  /** Replacing a pattern that does not occur changes nothing. */
  lemma {:induction false} ReplaceAbsent(s: string, pat: string, rep: string)
    requires pat != []
    ensures !Contains(s, pat) ==> ReplaceAll(s, pat, rep) == s
    decreases |s|
  {
    if |s| >= |pat| && !Contains(s, pat) {
      assert s[..|pat|] != pat by { if s[..|pat|] == pat { assert IsAt(s, 0, pat); } }
      forall i | 0 <= i <= |s[1..]| && IsAt(s[1..], i, pat) ensures false {
        assert s[1..][i..i + |pat|] == s[i + 1..i + 1 + |pat|];
        assert IsAt(s, i + 1, pat);
      }
      ReplaceAbsent(s[1..], pat, rep);
      assert s == [s[0]] + s[1..];
    }
  }

  /** A prefix holding no occurrence of the pattern's first character is
      copied as it is. */
  lemma {:induction false} ReplaceSkip(u: string, rest: string, pat: string, rep: string)
    requires pat != [] && pat[0] !in u
    ensures ReplaceAll(u + rest, pat, rep) == u + ReplaceAll(rest, pat, rep)
    decreases |u|
  {
    if u != [] {
      var s := u + rest;
      if |s| < |pat| {
        ReplaceSkip(u[1..], rest, pat, rep);
        assert ReplaceAll(rest, pat, rep) == rest;
        assert ReplaceAll(u[1..] + rest, pat, rep) == u[1..] + rest;
      } else {
        assert s[0] == u[0];
        assert s[..|pat|][0] == s[0];
        assert s[1..] == u[1..] + rest;
        ReplaceSkip(u[1..], rest, pat, rep);
      }
    } else {
      assert u + rest == rest;
    }
  }

  /** A character absent from `s` is absent from its strip. */
  lemma StripKeepsOut(s: string, c: char)
    requires c !in s
    ensures c !in Strip(s)
  {
    var l := LStrip(s);
    LStripSuffix(s);
    assert forall i :: 0 <= i < |l| ==> l[i] == s[|s| - |l| + i];
    var r := RStrip(l);
    RStripPrefix(l);
    assert forall i :: 0 <= i < |r| ==> r[i] == l[i];
  }

  /** The characters that are not whitespace, in order. */
  function Visible(s: string): string
  {
    if s == [] then [] else (if IsSpace(s[0]) then [] else [s[0]]) + Visible(s[1..])
  }

  lemma {:induction false} VisibleAppend(a: string, b: string)
    ensures Visible(a + b) == Visible(a) + Visible(b)
  {
    if a == [] {
      assert a + b == b;
    } else {
      assert (a + b)[1..] == a[1..] + b;
      VisibleAppend(a[1..], b);
    }
  }

  lemma {:induction false} VisibleAllSpace(a: string)
    requires forall m :: 0 <= m < |a| ==> IsSpace(a[m])
    ensures Visible(a) == []
  {
    if a != [] {
      VisibleAllSpace(a[1..]);
    }
  }

  /** Whitespace between two texts adds nothing visible. */
  lemma VisibleSpaceBetween(p: string, w: string, rest: string)
    requires forall m :: 0 <= m < |w| ==> IsSpace(w[m])
    ensures Visible(p + w + rest) == Visible(p) + Visible(rest)
  {
    assert p + w + rest == p + (w + rest);
    VisibleAppend(p, w + rest);
    VisibleAppend(w, rest);
    VisibleAllSpace(w);
  }

  /** Stripping keeps the visible characters. */
  lemma StripKeepsVisible(s: string)
    ensures Visible(Strip(s)) == Visible(s)
  {
    var l := LStrip(s);
    LStripSuffix(s);
    assert s == s[..|s| - |l|] + l;
    VisibleAppend(s[..|s| - |l|], l);
    VisibleAllSpace(s[..|s| - |l|]);
    var r := RStrip(l);
    RStripPrefix(l);
    assert l == r + l[|r|..];
    VisibleAppend(r, l[|r|..]);
    VisibleAllSpace(l[|r|..]);
  }

  /** `sep.join(parts)` */
  function Join(sep: string, parts: seq<string>): (r: string)
    ensures parts == [] ==> r == []
    ensures |parts| == 1 ==> r == parts[0]
  {
    if parts == [] then []
    else if |parts| == 1 then parts[0]
    else parts[0] + sep + Join(sep, parts[1..])
  }

  /** Joining one more part adds the separator and that part at the end. */
  lemma {:induction false} JoinSnoc(sep: string, parts: seq<string>, p: string)
    requires parts != []
    ensures Join(sep, parts + [p]) == Join(sep, parts) + sep + p
    decreases |parts|
  {
    var q := parts + [p];
    assert q[1..] == parts[1..] + [p];
    if |parts| > 1 {
      JoinSnoc(sep, parts[1..], p);
    } else {
      assert q[1..] == [p];
    }
  }

  /** `"".join(parts)` */
  function Concat(parts: seq<string>): string
  {
    Join("", parts)
  }

  /** `s.split(sep)` for a non-empty separator. */
  function Split(s: string, sep: string): (r: seq<string>)
    requires sep != []
    ensures |r| >= 1
    decreases |s|
  {
    var k := Find(s, sep);
    if k < 0 then [s] else [s[..k]] + Split(s[k + |sep|..], sep)
  }

  /** Splitting and joining on the same separator gives back the text. */
  lemma {:induction false} JoinSplit(s: string, sep: string)
    requires sep != []
    ensures Join(sep, Split(s, sep)) == s
    decreases |s|
  {
    var k := Find(s, sep);
    if k >= 0 {
      var rest := s[k + |sep|..];
      var parts := Split(rest, sep);
      assert Split(s, sep) == [s[..k]] + parts;
      JoinSplit(rest, sep);
      assert ([s[..k]] + parts)[1..] == parts;
      assert Join(sep, [s[..k]] + parts) == s[..k] + sep + Join(sep, parts);
      assert s[k..k + |sep|] == sep;
      assert s == s[..k] + s[k..k + |sep|] + rest;
    }
  }

  /** No piece of a split contains the separator. */
  lemma {:induction false} SplitPiecesFree(s: string, sep: string)
    requires sep != []
    ensures forall p :: p in Split(s, sep) ==> !Contains(p, sep)
    decreases |s|
  {
    var k := Find(s, sep);
    if k >= 0 {
      SplitPiecesFree(s[k + |sep|..], sep);
      forall i | IsAt(s[..k], i, sep) ensures false {
        assert s[..k][i..i + |sep|] == s[i..i + |sep|];
        assert IsAt(s, i, sep);
      }
    }
  }

  /** The text after the first occurrence of `sep` (`s.split(sep, 1)[1]`). */
  function AfterFirst(s: string, sep: string): (r: string)
    requires Contains(s, sep)
    ensures |r| < |s| || sep == []
    ensures exists k :: IsAt(s, k, sep) && r == s[k + |sep|..]
    ensures r == s[Find(s, sep) + |sep|..]
  {
    var k := Find(s, sep);
    s[k + |sep|..]
  }

  /** The text after the last occurrence of `sep` (`s.split(sep)[-1]`). */
  function AfterLast(s: string, sep: string): string
    requires sep != []
  {
    var parts := Split(s, sep);
    parts[|parts| - 1]
  }

  // ---------------------------------------------------------------- case

  function LowerChar(c: char): char
  {
    if 'A' <= c <= 'Z' then (c as int + 32) as char else c
  }

  function UpperChar(c: char): char
  {
    if 'a' <= c <= 'z' then (c as int - 32) as char else c
  }

  /** `s.lower()` on ASCII letters. */
  function Lower(s: string): (r: string)
    ensures |r| == |s| && forall i :: 0 <= i < |s| ==> r[i] == LowerChar(s[i])
  {
    seq(|s|, i requires 0 <= i < |s| => LowerChar(s[i]))
  }

  /** `s.upper()` on ASCII letters. */
  function Upper(s: string): (r: string)
    ensures |r| == |s| && forall i :: 0 <= i < |s| ==> r[i] == UpperChar(s[i])
  {
    seq(|s|, i requires 0 <= i < |s| => UpperChar(s[i]))
  }

  // ---------------------------------------------------------------- slicing

  /** Python's normalisation of a slice bound against a length. */
  function SliceBound(n: nat, x: int): (b: nat)
    ensures b <= n
  {
    if x < 0 then (if n + x < 0 then 0 else n + x) else if x > n then n else x
  }

  /** `s[a:b]` with Python's handling of negative and out-of-range bounds. */
  function PySlice<T>(s: seq<T>, a: int, b: int): (r: seq<T>)
    ensures |r| <= |s|
  {
    var lo, hi := SliceBound(|s|, a), SliceBound(|s|, b);
    if lo >= hi then [] else s[lo..hi]
  }

  /** Slicing after dropping `d` items is slicing further along. */
  lemma PySliceShift<T>(s: seq<T>, d: nat, a: nat, b: nat)
    requires d <= |s| && a <= b
    ensures PySlice(s[d..], a, b) == PySlice(s, a + d, b + d)
  {
    var t := s[d..];
    if a < |t| {
      var hi := if b <= |t| then b else |t|;
      assert |t[a..hi]| == |s[a + d..hi + d]|;
      forall j | 0 <= j < hi - a ensures t[a..hi][j] == s[a + d..hi + d][j] {
        assert t[a..hi][j] == t[a + j] == s[a + d + j];
      }
      assert t[a..hi] == s[a + d..hi + d];
    }
  }

  /** `s[-k:]`: the last `k` elements, or all of them when there are fewer. */
  function LastN<T>(s: seq<T>, k: nat): (r: seq<T>)
    requires k >= 1
    ensures |r| == if |s| < k then |s| else k
    ensures r == s[|s| - |r|..]
  {
    PySlice(s, -(k as int), |s|)
  }

  /** `s[i]` with Python's negative indices; `None` where Python raises
      `IndexError`. */
  function PyIndex<T>(s: seq<T>, i: int): (r: Option<T>)
    ensures r.Some? <==> -|s| <= i < |s|
    ensures 0 <= i < |s| ==> r == Some(s[i])
    ensures -|s| <= i < 0 ==> r == Some(s[|s| + i])
  {
    if 0 <= i < |s| then Some(s[i]) else if -|s| <= i < 0 then Some(s[|s| + i]) else None
  }

  /** The message of the `IndexError` an out-of-range list index raises. */
  const INDEX_ERROR := "list index out of range"

  // ---------------------------------------------------------------- numbers

  function DigitChar(d: nat): char
    requires d < 10
  {
    ('0' as int + d) as char
  }

  predicate IsDigit(c: char)
  {
    '0' <= c <= '9'
  }

  /** `str(n)` for a natural number. */
  function NatToString(n: nat): (r: string)
    ensures |r| >= 1 && forall i :: 0 <= i < |r| ==> IsDigit(r[i])
    ensures n >= 10 ==> r[0] != '0'
  {
    if n < 10 then [DigitChar(n)] else NatToString(n / 10) + [DigitChar(n % 10)]
  }

  /** The value of a string of decimal digits. */
  function DigitsValue(s: string): nat
    requires forall i :: 0 <= i < |s| ==> IsDigit(s[i])
  {
    if s == [] then 0
    else
      var c := s[|s| - 1];
      assert IsDigit(c);
      10 * DigitsValue(s[..|s| - 1]) + (c as int - '0' as int)
  }

  /** Rendering a number in decimal and reading it back gives the number. */
  lemma {:induction false} NatToStringRoundTrip(n: nat)
    ensures DigitsValue(NatToString(n)) == n
  {
    if n >= 10 {
      NatToStringRoundTrip(n / 10);
      var s := NatToString(n);
      assert s[..|s| - 1] == NatToString(n / 10);
    }
  }

  /** `f"{n:03d}"`: at least three digits, padded with leading zeros. */
  function Pad3(n: nat): (r: string)
    ensures |r| >= 3 && forall i :: 0 <= i < |r| ==> IsDigit(r[i])
    ensures DigitsValue(r) == n
    ensures n < 1000 ==> |r| == 3
  {
    var d := NatToString(n);
    NatToStringRoundTrip(n);
    var pad := if |d| >= 3 then [] else seq(3 - |d|, _ => '0');
    LeadingZerosValue(pad, d);
    assert n < 1000 ==> |d| <= 3 by { if n < 1000 { NatToStringShort(n); } }
    pad + d
  }

  lemma {:induction false} NatToStringShort(n: nat)
    requires n < 1000
    ensures |NatToString(n)| <= 3
  {
    if n >= 10 { NatToStringShort(n / 10); }
  }

  lemma {:induction false} LeadingZerosValue(z: string, d: string)
    requires forall i :: 0 <= i < |z| ==> z[i] == '0'
    requires forall i :: 0 <= i < |d| ==> IsDigit(d[i])
    ensures forall i :: 0 <= i < |z + d| ==> IsDigit((z + d)[i])
    ensures DigitsValue(z + d) == DigitsValue(d)
    decreases |d|
  {
    if d == [] {
      assert z + d == z;
      ZerosValue(z);
    } else {
      LeadingZerosValue(z, d[..|d| - 1]);
      assert (z + d)[..|z + d| - 1] == z + d[..|d| - 1];
    }
  }

  lemma {:induction false} ZerosValue(z: string)
    requires forall i :: 0 <= i < |z| ==> z[i] == '0'
    ensures DigitsValue(z) == 0
  {
    if z != [] { ZerosValue(z[..|z| - 1]); }
  }

  // ---------------------------------------------------------------- think blocks

  /** The pattern `<think>.*?</think>`, matched case-insensitively when `ci`
      and with `.` also matching a newline when `dotall`. */
  const OPEN := "<think>"
  const CLOSE := "</think>"

  /** The lower-case literal `tag` occurs at `i`. */
  predicate TagAt(s: string, i: int, tag: string, ci: bool)
  {
    0 <= i && i + |tag| <= |s| && (if ci then Lower(s[i..i + |tag|]) == tag else s[i..i + |tag|] == tag)
  }

  /** The first occurrence of `tag` at or after `from`, or -1. */
  function FindTag(s: string, tag: string, ci: bool, from: nat): (r: int)
    requires from <= |s|
    ensures r == -1 || (from <= r && TagAt(s, r, tag, ci))
    ensures r == -1 ==> forall j :: from <= j ==> !TagAt(s, j, tag, ci)
    ensures r >= 0 ==> forall j :: from <= j < r ==> !TagAt(s, j, tag, ci)
    decreases |s| - from
  {
    if from + |tag| > |s| then -1
    else if TagAt(s, from, tag, ci) then from
    else FindTag(s, tag, ci, from + 1)
  }

  /** A tag starting with '<' cannot occur where `s` has no '<'. */
  lemma TagNeedsAngle(s: string, i: int, tag: string, ci: bool)
    requires tag != [] && tag[0] == '<'
    requires 0 <= i < |s|
    ensures TagAt(s, i, tag, ci) ==> s[i] == '<'
  {
    if i + |tag| <= |s| {
      assert Lower(s[i..i + |tag|])[0] == LowerChar(s[i]);
      assert s[i..i + |tag|][0] == s[i];
    }
  }

  /** The match of the pattern that starts at the beginning of `s`, as the
      index where its closing tag starts; the body is `s[|OPEN|..j]` and the
      match ends at `j + |CLOSE|`. The lazy `.*?` stops at the first closing
      tag; without `dotall` a newline before it means there is no match. */
  function BlockAt(s: string, ci: bool, dotall: bool): (r: Option<nat>)
    ensures r.Some? ==> TagAt(s, 0, OPEN, ci) && |OPEN| <= r.value && TagAt(s, r.value, CLOSE, ci)
    ensures r.Some? ==> forall j :: |OPEN| <= j < r.value ==> !TagAt(s, j, CLOSE, ci)
    ensures r.Some? && !dotall ==> '\n' !in s[|OPEN|..r.value]
  {
    if !TagAt(s, 0, OPEN, ci) then None
    else
      var j := FindTag(s, CLOSE, ci, |OPEN|);
      if j < 0 then None
      else if !dotall && '\n' in s[|OPEN|..j] then None
      else Some(j)
  }

  /** `re.sub(pattern, "", s)`: every match, found left to right without
      overlap, is deleted. */
  function RemoveBlocks(s: string, ci: bool, dotall: bool): (r: string)
    ensures |r| <= |s|
    decreases |s|
  {
    if s == [] then []
    else match BlockAt(s, ci, dotall)
      case Some(j) => RemoveBlocks(s[j + |CLOSE|..], ci, dotall)
      case None => [s[0]] + RemoveBlocks(s[1..], ci, dotall)
  }

  /** `re.search(pattern, s)`: the first position where a match starts, with
      the index of its closing tag relative to that position. */
  function SearchBlock(s: string, ci: bool, dotall: bool): (r: Option<(nat, nat)>)
    ensures r.Some? ==> r.value.0 <= |s| && BlockAt(s[r.value.0..], ci, dotall) == Some(r.value.1)
    ensures r.Some? ==> forall i :: 0 <= i < r.value.0 ==> BlockAt(s[i..], ci, dotall).None?
    ensures r.None? ==> forall i :: 0 <= i <= |s| ==> BlockAt(s[i..], ci, dotall).None?
    decreases |s|
  {
    if s == [] then None
    else match BlockAt(s, ci, dotall)
      case Some(j) => Some((0, j))
      case None =>
        var rest := SearchBlock(s[1..], ci, dotall);
        match rest
        case Some(p) =>
          TailSuffixes(s);
          Some((1 + p.0, p.1))
        case None =>
          TailSuffixes(s);
          None
  }

  /** The suffixes of `s[1..]` are those of `s` from the second on. */
  lemma TailSuffixes(s: string)
    requires s != []
    ensures s[0..] == s
    ensures forall i :: 1 <= i <= |s| ==> s[1..][i - 1..] == s[i..]
  {
  }

  /** When the pattern matches nowhere, substitution changes nothing. */
  lemma {:induction false} NoBlockUnchanged(s: string, ci: bool, dotall: bool)
    requires SearchBlock(s, ci, dotall).None?
    ensures RemoveBlocks(s, ci, dotall) == s
    decreases |s|
  {
    if s != [] {
      assert s[0..] == s;
      assert s[1..] == s[1..][0..];
      NoBlockUnchanged(s[1..], ci, dotall);
    }
  }

  /** Text without a '<' holds no block. */
  lemma {:induction false} NoAngleNoBlock(s: string, ci: bool, dotall: bool)
    requires '<' !in s
    ensures SearchBlock(s, ci, dotall).None?
    decreases |s|
  {
    if s != [] {
      TagNeedsAngle(s, 0, OPEN, ci);
      NoAngleNoBlock(s[1..], ci, dotall);
    }
  }

  /** A text that opens with a think block whose body holds no '<' (and no
      newline unless `dotall`) matches that block first. */
  lemma LeadingBlockAt(t: string, a: string, ci: bool, dotall: bool)
    requires '<' !in t && (dotall || '\n' !in t)
    ensures BlockAt(OPEN + t + CLOSE + a, ci, dotall) == Some(|OPEN| + |t|)
    ensures (OPEN + t + CLOSE + a)[|OPEN|..|OPEN| + |t|] == t
    ensures (OPEN + t + CLOSE + a)[|OPEN| + |t| + |CLOSE|..] == a
  {
    var s := OPEN + t + CLOSE + a;
    var c := |OPEN| + |t|;
    ConcatParts(OPEN, t, CLOSE, a);
    assert TagAt(s, 0, OPEN, ci) by { assert Lower(OPEN) == OPEN; }
    assert TagAt(s, c, CLOSE, ci) by { assert Lower(CLOSE) == CLOSE; }
    NoCloseInside(s, |OPEN|, t, ci);
    assert FindTag(s, CLOSE, ci, |OPEN|) == c;
  }

  /** The four parts of a concatenation, recovered by slicing. */
  lemma ConcatParts(p: string, t: string, q: string, a: string)
    ensures var s := p + t + q + a;
      s[..|p|] == p && s[|p|..|p| + |t|] == t
      && s[|p| + |t|..|p| + |t| + |q|] == q && s[|p| + |t| + |q|..] == a
  {
  }

  /** No closing tag starts inside a stretch of `s` that holds no '<'. */
  lemma NoCloseInside(s: string, from: nat, t: string, ci: bool)
    requires from + |t| <= |s| && s[from..from + |t|] == t && '<' !in t
    ensures forall j :: from <= j < from + |t| ==> !TagAt(s, j, CLOSE, ci)
  {
    forall j | from <= j < from + |t|
      ensures !TagAt(s, j, CLOSE, ci)
    {
      assert s[j] == t[j - from];
      TagNeedsAngle(s, j, CLOSE, ci);
    }
  }

  /** A leading block whose body holds no '<' (and no newline unless `dotall`)
      is deleted whole: what follows it is treated as if it stood alone. */
  lemma LeadingBlockDropped(t: string, a: string, ci: bool, dotall: bool)
    requires '<' !in t && (dotall || '\n' !in t)
    ensures RemoveBlocks(OPEN + t + CLOSE + a, ci, dotall) == RemoveBlocks(a, ci, dotall)
  {
    LeadingBlockAt(t, a, ci, dotall);
  }

  // ---------------------------------------------------------------- pathlib

  /** The last index of `c` in `s`, or -1 (`s.rfind(c)`). */
  function LastIndexOf(s: string, c: char): (r: int)
    ensures -1 <= r < |s|
    ensures r >= 0 ==> s[r] == c && forall j :: r < j < |s| ==> s[j] != c
    ensures r == -1 <==> c !in s
  {
    if s == [] then -1
    else if s[|s| - 1] == c then |s| - 1
    else
      var r := LastIndexOf(s[..|s| - 1], c);
      assert r >= 0 ==> s[..|s| - 1][r] == s[r];
      assert c in s[..|s| - 1] ==> c in s;
      assert s == s[..|s| - 1] + [s[|s| - 1]];
      r
  }

  /** The components a POSIX path keeps: the pieces between slashes other
      than empty ones and ".". */
  function Components(parts: seq<string>): (r: seq<string>)
    ensures forall i :: 0 <= i < |r| ==> r[i] != [] && r[i] != "."
  {
    if parts == [] then []
    else if parts[0] == [] || parts[0] == "." then Components(parts[1..])
    else [parts[0]] + Components(parts[1..])
  }

  /** `Path(p).name`: the last component, or "" when there is none. */
  function PathName(p: string): (r: string)
    ensures '/' !in r
  {
    var cs := Components(Split(p, "/"));
    if cs == [] then "" else
      SplitPiecesFree(p, "/");
      LastComponentFree(Split(p, "/"), "/");
      CharContains(cs[|cs| - 1], '/');
      cs[|cs| - 1]
  }

  lemma CharContains(s: string, c: char)
    ensures c in s ==> Contains(s, [c])
  {
    if c in s {
      var i :| 0 <= i < |s| && s[i] == c;
      assert s[i..i + 1] == [c];
      assert IsAt(s, i, [c]);
    }
  }

  lemma {:induction false} LastComponentFree(parts: seq<string>, sep: string)
    requires forall q :: q in parts ==> !Contains(q, sep)
    ensures forall q :: q in Components(parts) ==> !Contains(q, sep)
  {
    if parts != [] {
      LastComponentFree(parts[1..], sep);
    }
  }

  /** `Path(p).parent.name`: the component before the last, or "". */
  function ParentName(p: string): string
  {
    var cs := Components(Split(p, "/"));
    if |cs| < 2 then "" else cs[|cs| - 2]
  }

  /** `PurePath.suffix` of a file name: from the last dot, when that dot is
      neither the first nor the last character. */
  function Suffix(name: string): (r: string)
    ensures r == [] || r[0] == '.'
    ensures |r| <= |name| && r == name[|name| - |r|..]
  {
    var i := LastIndexOf(name, '.');
    if 0 < i < |name| - 1 then name[i..] else ""
  }

  /** `PurePath.stem` of a file name: the name without its suffix. */
  function Stem(name: string): (r: string)
    ensures r + Suffix(name) == name
  {
    var i := LastIndexOf(name, '.');
    if 0 < i < |name| - 1 then name[..i] else name
  }
}

=== FILE: utils.dfy ===
/** The list, text and record helpers of `src/utils/utils.py`. */
module Utils {
  import opened Text
  import opened Docs

  // ---------------------------------------------------------------- remove_duplicates

  /** `remove_duplicates(base, candidates)`: the candidates not in `base`, in
      their order and with their repeats. */
  function RemoveDuplicates(base: seq<string>, candidates: seq<string>): (r: seq<string>)
    ensures forall x :: x in r <==> x in candidates && x !in base
  {
    if candidates == [] then []
    else if candidates[0] in base then RemoveDuplicates(base, candidates[1..])
    else [candidates[0]] + RemoveDuplicates(base, candidates[1..])
  }

  /** Each kept candidate keeps its number of repeats. */
  lemma {:induction false} RemoveDuplicatesCounts(base: seq<string>, candidates: seq<string>, x: string)
    ensures multiset(RemoveDuplicates(base, candidates))[x] == if x in base then 0 else multiset(candidates)[x]
  {
    if candidates != [] {
      RemoveDuplicatesCounts(base, candidates[1..], x);
      assert candidates == [candidates[0]] + candidates[1..];
      assert multiset(candidates) == multiset([candidates[0]]) + multiset(candidates[1..]);
    }
  }

  /** Filtering distributes over concatenation, so the order of the
      candidates is kept. */
  lemma {:induction false} RemoveDuplicatesAppend(base: seq<string>, a: seq<string>, b: seq<string>)
    ensures RemoveDuplicates(base, a + b) == RemoveDuplicates(base, a) + RemoveDuplicates(base, b)
  {
    if a != [] {
      var ab := a + b;
      assert ab[0] == a[0];
      assert ab[1..] == a[1..] + b;
      RemoveDuplicatesAppend(base, a[1..], b);
    } else {
      assert a + b == b;
    }
  }

  // ---------------------------------------------------------------- make_document_batch

  /** The concatenation of a list of lists. */
  function Flatten<T>(xss: seq<seq<T>>): (r: seq<T>)
  {
    if xss == [] then [] else xss[0] + Flatten(xss[1..])
  }

  /** The consecutive slices of `size` items, the last one possibly shorter. */
  function Chunks<T>(xs: seq<T>, size: nat): seq<seq<T>>
    requires size >= 1
    decreases |xs|
  {
    if xs == [] then []
    else if |xs| <= size then [xs]
    else [xs[..size]] + Chunks(xs[size..], size)
  }

  /** The batches concatenate back to the input. */
  lemma {:induction false} ChunksFlatten<T>(xs: seq<T>, size: nat)
    requires size >= 1
    ensures Flatten(Chunks(xs, size)) == xs
    decreases |xs|
  {
    if |xs| > size {
      ChunksFlatten(xs[size..], size);
      var c := Chunks(xs, size);
      assert c[1..] == Chunks(xs[size..], size);
      assert xs == xs[..size] + xs[size..];
    }
  }

  /** Every batch has exactly `size` items except the last, which has 1 to
      `size` and holds what the full ones leave over. */
  lemma {:induction false} ChunksSizes<T>(xs: seq<T>, size: nat)
    requires size >= 1
    ensures var c := Chunks(xs, size);
      && (c == [] <==> xs == [])
      && (forall i :: 0 <= i < |c| - 1 ==> |c[i]| == size)
      && (c != [] ==> 1 <= |c[|c| - 1]| <= size && |c[|c| - 1]| == |xs| - size * (|c| - 1))
    decreases |xs|
  {
    var c := Chunks(xs, size);
    if |xs| > size {
      var ys := xs[size..];
      var c' := Chunks(ys, size);
      ChunksSizes(ys, size);
      assert c == [xs[..size]] + c';
      assert forall i :: 1 <= i < |c| ==> c[i] == c'[i - 1];
      assert size * |c'| == size * (|c'| - 1) + size;
    }
  }

  /** `make_document_batch(documents, size)`: draws `size` items at a time
      from one iterator until a draw comes back empty. */
  method MakeDocumentBatch(documents: seq<Document>, size: int) returns (r: Outcome<seq<seq<Document>>>)
    ensures r.Fail? <==> size < 1
    ensures r.Fail? ==> r.msg == "Batch size must be at least 1"
    ensures r.Ok? ==> r.value == Chunks(documents, size)
  {
    if size < 1 {
      return Fail("Batch size must be at least 1");
    }
    if documents == [] {
      return Ok([]);
    }
    var batches: seq<seq<Document>> := [];
    var pos := 0;
    while true
      invariant 0 <= pos <= |documents|
      invariant batches + Chunks(documents[pos..], size) == Chunks(documents, size)
      decreases |documents| - pos
    {
      var hi := if pos + size <= |documents| then pos + size else |documents|;
      var batch := documents[pos..hi];
      if batch == [] {
        break;
      }
      if pos + size < |documents| {
        assert documents[pos..][..size] == batch;
        assert documents[pos..][size..] == documents[hi..];
      } else {
        assert documents[pos..] == batch;
        assert documents[hi..] == [];
      }
      batches := batches + [batch];
      pos := hi;
    }
    assert documents[pos..] == [];
    return Ok(batches);
  }

  /** The worked example: 97 items in batches of 20 give sizes 20, 20, 20, 20, 17. */
  lemma ChunksExample(xs: seq<int>)
    requires |xs| == 97
    ensures var c := Chunks(xs, 20); |c| == 5 && |c[0]| == |c[1]| == |c[2]| == |c[3]| == 20 && |c[4]| == 17
  {
    ChunksSizes(xs, 20);
  }

  /** `range(start, stop, step)` for a positive step. */
  function RangeStep(start: nat, stop: nat, step: nat): seq<nat>
    requires step >= 1
    decreases stop - start
  {
    if start >= stop then [] else [start] + RangeStep(start + step, stop, step)
  }

  /** The slices of `size` items starting at each of `starts`. */
  function SlicesAt<T>(xs: seq<T>, starts: seq<nat>, size: nat): (r: seq<seq<T>>)
    ensures |r| == |starts| && forall k :: 0 <= k < |r| ==> r[k] == PySlice(xs, starts[k], starts[k] + size)
  {
    seq(|starts|, k requires 0 <= k < |starts| => PySlice(xs, starts[k], starts[k] + size))
  }

  /** `make_document_batch_oneliner(documents, size)`: one slice per start in
      `range(0, len, size)`; a zero step raises, a negative one gives no starts. */
  function MakeDocumentBatchOneliner<T>(documents: seq<T>, size: int): (r: Outcome<seq<seq<T>>>)
    ensures r.Fail? <==> size == 0
    ensures size < 0 ==> r == Ok([])
  {
    if size == 0 then Fail("range() arg 3 must not be zero")
    else if size < 0 then Ok([])
    else Ok(SlicesAt(documents, RangeStep(0, |documents|, size), size))
  }

  /** For a positive size the comprehension gives the same batches as the loop. */
  lemma OnelinerMatchesBatch<T>(documents: seq<T>, size: int)
    requires size >= 1
    ensures MakeDocumentBatchOneliner(documents, size) == Ok(Chunks(documents, size))
  {
    SlicesFromMatchChunks(documents, 0, size);
    assert documents[0..] == documents;
  }

  lemma {:induction false} SlicesFromMatchChunks<T>(xs: seq<T>, d: nat, size: nat)
    requires size >= 1 && d <= |xs|
    ensures SlicesAt(xs, RangeStep(d, |xs|, size), size) == Chunks(xs[d..], size)
    decreases |xs| - d
  {
    var ys := xs[d..];
    if d < |xs| {
      var next := d + size;
      var rest := RangeStep(next, |xs|, size);
      SlicesAtCons(xs, d, rest, size);
      if |ys| > size {
        SlicesFromMatchChunks(xs, next, size);
        assert PySlice(xs, d, next) == ys[..size];
        assert ys[size..] == xs[next..];
      } else {
        assert rest == [];
        assert PySlice(xs, d, next) == ys;
      }
    }
  }

  lemma SlicesAtCons<T>(xs: seq<T>, a: nat, rest: seq<nat>, size: nat)
    ensures SlicesAt(xs, [a] + rest, size) == [PySlice(xs, a, a + size)] + SlicesAt(xs, rest, size)
  {
    var l := SlicesAt(xs, [a] + rest, size);
    var r := [PySlice(xs, a, a + size)] + SlicesAt(xs, rest, size);
    forall k | 0 <= k < |l|
      ensures l[k] == r[k]
    {
      if k > 0 {
        assert ([a] + rest)[k] == rest[k - 1];
      }
    }
  }

  // ---------------------------------------------------------------- format_docs

  /** One metadata entry as an attribute: ` k=repr(v)`. */
  function Attr(e: (string, MetaValue)): string
  {
    " " + e.0 + "=" + PyRepr(e.1)
  }

  /** The attribute text of a metadata dictionary: one attribute per entry. */
  function MetaAttrs(m: Metadata): (r: string)
    ensures m == [] <==> r == []
  {
    if m == [] then "" else Attr(m[0]) + MetaAttrs(m[1..])
  }

  /** The attributes of two runs of entries are those of the first followed
      by those of the second. */
  lemma {:induction false} MetaAttrsAppend(a: Metadata, b: Metadata)
    ensures MetaAttrs(a + b) == MetaAttrs(a) + MetaAttrs(b)
    decreases |a|
  {
    if a == [] {
      assert a + b == b;
    } else {
      assert (a + b)[1..] == a[1..] + b;
      MetaAttrsAppend(a[1..], b);
    }
  }

  /** Entry `i` is rendered as ` k=repr(v)` between the entries before it and
      the entries after it, in the dictionary's order. */
  lemma MetaAttrsEntry(m: Metadata, i: nat)
    requires i < |m|
    ensures MetaAttrs(m) == MetaAttrs(m[..i]) + Attr(m[i]) + MetaAttrs(m[i + 1..])
  {
    MetaAttrsSplit(m, i);
    var post := m[i..];
    assert post[0] == m[i] && post[1..] == m[i + 1..];
    assert MetaAttrs(post) == Attr(m[i]) + MetaAttrs(m[i + 1..]);
    StringAssoc(MetaAttrs(m[..i]), Attr(m[i]), MetaAttrs(m[i + 1..]));
  }

  /** Cutting the dictionary at `i` cuts its attribute text there. */
  lemma MetaAttrsSplit(m: Metadata, i: nat)
    requires i <= |m|
    ensures MetaAttrs(m) == MetaAttrs(m[..i]) + MetaAttrs(m[i..])
  {
    assert m == m[..i] + m[i..];
    MetaAttrsAppend(m[..i], m[i..]);
  }

  lemma StringAssoc(x: string, y: string, z: string)
    ensures x + (y + z) == x + y + z
  {
  }

  /** `_format_doc`: the content inside a `<document ...>` element whose
      attributes render the metadata; a non-empty attribute text gets one
      more leading space. */
  function FormatDoc(d: Document): (r: string)
    ensures d.metadata == [] ==> r == "<document>\n" + d.pageContent + "\n</document>"
    ensures d.metadata != [] ==> r == "<document " + MetaAttrs(d.metadata) + ">\n" + d.pageContent + "\n</document>"
  {
    var meta := MetaAttrs(d.metadata);
    if meta == [] then "<document>\n" + d.pageContent + "\n</document>"
    else "<document " + meta + ">\n" + d.pageContent + "\n</document>"
  }

  /** Every rendering opens with `<document` and ends with the content and the
      closing tag; it has the bare `<document>` opening exactly when there is
      no metadata. */
  lemma FormatDocFrame(d: Document)
    ensures StartsWith(FormatDoc(d), "<document")
    ensures d.metadata == [] <==> FormatDoc(d) == "<document>\n" + d.pageContent + "\n</document>"
    ensures IsAt(FormatDoc(d), |FormatDoc(d)| - |d.pageContent| - 13, "\n" + d.pageContent + "\n</document>")
  {
    var bare := "<document>\n";
    OpeningTag(bare);
    ElementFrame(bare, d.pageContent);
    if d.metadata != [] {
      var open := "<document " + MetaAttrs(d.metadata) + ">\n";
      OpeningTag(open);
      ElementFrame(open, d.pageContent);
    }
  }

  /** Both opening tags start with `<document`, end with a line break, and
      differ in the character after `<document`. */
  lemma OpeningTag(open: string)
    requires open == "<document>\n" || exists meta: string :: open == "<document " + meta + ">\n"
    ensures |open| >= 11 && open[..9] == "<document" && open[|open| - 1] == '\n'
    ensures open[9] == (if open == "<document>\n" then '>' else ' ')
  {
    if open != "<document>\n" {
      var meta: string :| open == "<document " + meta + ">\n";
      assert open == "<document " + (meta + ">\n");
      assert open[..10] == "<document ";
    }
  }

  /** An element made of an opening tag, the content and the closing tag
      starts as its opening tag does and ends with a line break, the content
      and the closing tag. */
  lemma ElementFrame(open: string, content: string)
    requires |open| >= 11 && open[..9] == "<document" && open[|open| - 1] == '\n'
    ensures var r := open + content + "\n</document>";
      StartsWith(r, "<document") && r[9] == open[9]
      && IsAt(r, |r| - |content| - 13, "\n" + content + "\n</document>")
  {
    var r := open + content + "\n</document>";
    var tail := "\n" + content + "\n</document>";
    assert r[..9] == open[..9];
    assert |r| - |content| - 13 == |open| - 1;
    assert r[|open| - 1..] == tail by {
      assert r == open[..|open| - 1] + tail by {
        assert open == open[..|open| - 1] + "\n";
      }
    }
  }

  function FormatEach(docs: seq<Document>): (r: seq<string>)
    ensures |r| == |docs| && forall i :: 0 <= i < |docs| ==> r[i] == FormatDoc(docs[i])
  {
    seq(|docs|, i requires 0 <= i < |docs| => FormatDoc(docs[i]))
  }

  /** `format_docs`: an empty `<documents>` element for no documents,
      otherwise the documents one per line inside it. */
  function FormatDocs(docs: seq<Document>): (r: string)
    ensures docs == [] <==> r == "<documents></documents>"
    ensures docs != [] ==> r == "<documents>\n" + Join("\n", FormatEach(docs)) + "\n</documents>"
    ensures docs != [] ==> StartsWith(r, "<documents>\n") && IsAt(r, |r| - 13, "\n</documents>")
  {
    if docs == [] then "<documents></documents>"
    else
      var body := Join("\n", FormatEach(docs));
      var r := "<documents>\n" + body + "\n</documents>";
      assert r[..12] == "<documents>\n";
      assert r[|r| - 13..] == "\n</documents>";
      r
  }

  /** Every document's rendering appears in the formatted text. */
  lemma FormatDocsHoldsEach(docs: seq<Document>, i: nat)
    requires i < |docs|
    ensures Contains(FormatDocs(docs), FormatDoc(docs[i]))
  {
    var parts := FormatEach(docs);
    JoinedPartInside("<documents>\n", "\n", parts, "\n</documents>", i);
  }

  /** Every part of a joined text appears in it, whatever surrounds it. */
  lemma JoinedPartInside(pre: string, sep: string, parts: seq<string>, post: string, i: nat)
    requires i < |parts|
    ensures Contains(pre + Join(sep, parts) + post, parts[i])
  {
    var body := Join(sep, parts);
    var k := JoinOffset(sep, parts, i);
    var r := pre + body + post;
    var n := |parts[i]|;
    forall m | 0 <= m < n ensures r[|pre| + k + m] == parts[i][m] {
      assert r[|pre| + k + m] == body[k + m] == body[k..k + n][m];
    }
    assert r[|pre| + k..|pre| + k + n] == parts[i];
    assert IsAt(r, |pre| + k, parts[i]);
  }

  /** Where the `i`-th part starts in a joined text. */
  lemma {:induction false} JoinOffset(sep: string, parts: seq<string>, i: nat) returns (k: nat)
    requires i < |parts|
    ensures IsAt(Join(sep, parts), k, parts[i])
  {
    var j := Join(sep, parts);
    if |parts| == 1 {
      k := 0;
      assert j[0..|parts[0]|] == parts[0];
    } else if i == 0 {
      k := 0;
      assert j == parts[0] + sep + Join(sep, parts[1..]);
      assert j[0..|parts[0]|] == parts[0];
    } else {
      var k' := JoinOffset(sep, parts[1..], i - 1);
      k := |parts[0]| + |sep| + k';
      var tail := Join(sep, parts[1..]);
      assert j == parts[0] + sep + tail;
      assert j[k..k + |parts[i]|] == tail[k'..k' + |parts[i]|];
    }
  }

  // ---------------------------------------------------------------- format_sources

  /** Python's ordering of strings: by code point, a proper prefix first. */
  predicate StrLe(a: string, b: string)
    decreases |a|
  {
    a == [] || (b != [] && (a[0] < b[0] || (a[0] == b[0] && StrLe(a[1..], b[1..]))))
  }

  lemma {:induction false} StrLeTotal(a: string, b: string)
    ensures StrLe(a, b) || StrLe(b, a)
    decreases |a|
  {
    if a != [] && b != [] && a[0] == b[0] {
      StrLeTotal(a[1..], b[1..]);
    }
  }

  lemma {:induction false} StrLeAntisymmetric(a: string, b: string)
    requires StrLe(a, b) && StrLe(b, a)
    ensures a == b
    decreases |a|
  {
    if a != [] {
      StrLeAntisymmetric(a[1..], b[1..]);
      assert a == [a[0]] + a[1..] && b == [b[0]] + b[1..];
    }
  }

  lemma {:induction false} StrLeTransitive(a: string, b: string, c: string)
    requires StrLe(a, b) && StrLe(b, c)
    ensures StrLe(a, c)
    decreases |a|
  {
    if a != [] && a[0] == b[0] && b[0] == c[0] {
      StrLeTransitive(a[1..], b[1..], c[1..]);
    }
  }

  predicate StrictlySorted(s: seq<string>)
  {
    forall i, j :: 0 <= i < j < |s| ==> StrLe(s[i], s[j]) && s[i] != s[j]
  }

  /** The least element of a non-empty set of strings. */
  method Least(s: set<string>) returns (m: string)
    requires s != {}
    ensures m in s && forall y :: y in s ==> StrLe(m, y)
  {
    m :| m in s;
    StrLeTotal(m, m);
    var todo := s - {m};
    while todo != {}
      invariant m in s && todo <= s
      invariant forall y :: y in s && y !in todo ==> StrLe(m, y)
      decreases |todo|
    {
      var y :| y in todo;
      StrLeTotal(m, y);
      if !StrLe(m, y) {
        StrLeTotal(y, y);
        forall z | z in s && z !in todo
          ensures StrLe(y, z)
        {
          StrLeTransitive(y, m, z);
        }
        m := y;
      }
      todo := todo - {y};
    }
  }

  /** `sorted(sources)` for a set of distinct strings. */
  method SortStrings(s: set<string>) returns (r: seq<string>)
    ensures StrictlySorted(r)
    ensures forall x :: x in r <==> x in s
  {
    r := [];
    var rest := s;
    while rest != {}
      invariant forall x :: x in s <==> x in rest || x in r
      invariant forall x :: x in r ==> x !in rest
      invariant StrictlySorted(r)
      invariant forall i, y :: 0 <= i < |r| && y in rest ==> StrLe(r[i], y)
      decreases |rest|
    {
      var m := Least(rest);
      forall y | y in rest - {m}
        ensures StrLe(m, y)
      {
      }
      r := r + [m];
      rest := rest - {m};
    }
  }

  /** The stem a document contributes to `format_sources`: its "source"
      entry, "unknown" when there is none; a non-text source makes `Path`
      raise. */
  const PATH_TYPE_ERROR := "expected str, bytes or os.PathLike object"

  function SourceStem(d: Document): Outcome<string>
  {
    match Get(d.metadata, "source")
    case None => Ok(Stem(PathName("unknown")))
    case Some(Str(s)) => Ok(Stem(PathName(s)))
    case Some(_) => Fail(PATH_TYPE_ERROR)
  }

  function Bullets(sources: seq<string>): (r: seq<string>)
    ensures |r| == |sources| && forall i :: 0 <= i < |r| ==> r[i] == "- " + sources[i]
  {
    seq(|sources|, i requires 0 <= i < |sources| => "- " + sources[i])
  }

  /** The stem, or the failure, each document contributes. */
  function SourceStems(docs: seq<Document>): (r: seq<Outcome<string>>)
    ensures |r| == |docs|
  {
    if docs == [] then [] else [SourceStem(docs[0])] + SourceStems(docs[1..])
  }

  lemma {:induction false} SourceStemsAt(docs: seq<Document>, i: nat)
    requires i < |docs|
    ensures SourceStems(docs)[i] == SourceStem(docs[i])
  {
    if i > 0 {
      SourceStemsAt(docs[1..], i - 1);
    }
  }

  predicate AllOk(os: seq<Outcome<string>>)
  {
    forall i :: 0 <= i < |os| ==> os[i].Ok?
  }

  /** The set of values of a list of successful outcomes. */
  function OkSet(os: seq<Outcome<string>>): set<string>
    requires AllOk(os)
  {
    if os == [] then {} else OkSet(os[..|os| - 1]) + {os[|os| - 1].value}
  }

  lemma {:induction false} OkSetMembers(os: seq<Outcome<string>>)
    requires AllOk(os)
    ensures forall x :: x in OkSet(os) <==> exists i :: 0 <= i < |os| && os[i] == Ok(x)
  {
    if os != [] {
      var init := os[..|os| - 1];
      OkSetMembers(init);
      assert forall i :: 0 <= i < |init| ==> init[i] == os[i];
    }
  }

  /** `format_sources(documents)`: one "- stem" line per distinct source stem,
      in sorted order, returned with the sorted stems. */
  method FormatSources(documents: seq<Document>) returns (r: Outcome<string>, stems: seq<string>)
    ensures documents == [] ==> r == Ok("No sources available.")
    ensures documents != [] ==> (r.Fail? <==> !AllOk(SourceStems(documents)))
    ensures documents != [] && r.Ok? ==>
      && StrictlySorted(stems)
      && (forall x :: x in stems <==> exists i :: 0 <= i < |documents| && SourceStems(documents)[i] == Ok(x))
      && r.value == Join("\n", Bullets(stems))
  {
    stems := [];
    if documents == [] {
      return Ok("No sources available."), stems;
    }
    var os := SourceStems(documents);
    var sources := CollectStems(os);
    if sources.None? {
      return Fail(PATH_TYPE_ERROR), stems;
    }
    OkSetMembers(os);
    stems := SortStrings(sources.value);
    r := Ok(Join("\n", Bullets(stems)));
  }

  /** The loop of `format_sources` that adds each document's stem to a set;
      it stops at the first source `Path` rejects. */
  method CollectStems(os: seq<Outcome<string>>) returns (sources: Option<set<string>>)
    ensures sources.None? <==> !AllOk(os)
    ensures sources.Some? ==> sources.value == OkSet(os)
  {
    var acc: set<string> := {};
    for i := 0 to |os|
      invariant AllOk(os[..i])
      invariant acc == OkSet(os[..i])
    {
      if os[i].Fail? {
        return None;
      }
      assert os[..i + 1][..i] == os[..i];
      assert OkSet(os[..i + 1]) == OkSet(os[..i]) + {os[i].value};
      acc := acc + {os[i].value};
    }
    assert os[..|os|] == os;
    return Some(acc);
  }

  /** A document without a "source" entry counts as the source "unknown". */
  lemma UnknownStem(d: Document)
    requires Get(d.metadata, "source").None?
    ensures SourceStem(d) == Ok("unknown")
  {
    var u := "unknown";
    forall i | 0 <= i <= |u|
      ensures !IsAt(u, i, "/")
    {
      if i < |u| {
        assert u[i..i + 1] == [u[i]];
      }
    }
    assert Split(u, "/") == [u];
    assert Components([u]) == [u];
    assert '.' !in u;
  }

  // ---------------------------------------------------------------- extract_think_and_answer

  /** `extract_think_and_answer(text)`: without a think block the text comes
      back unchanged with no thinking part; otherwise the first block's body,
      stripped, and the text with every block removed, stripped. */
  function ExtractThinkAndAnswer(text: string): (r: (Option<string>, string))
    ensures SearchBlock(text, true, true).None? <==> r.0.None?
    ensures r.0.None? ==> r.1 == text && RemoveBlocks(text, true, true) == text
    ensures r.0.Some? ==> r.1 == Strip(RemoveBlocks(text, true, true))
    ensures r.0.Some? ==> var p := SearchBlock(text, true, true).value;
      r.0 == Some(Strip(text[p.0..][|OPEN|..p.1]))
  {
    match SearchBlock(text, true, true)
    case None =>
      NoBlockUnchanged(text, true, true);
      (None, text)
    case Some((start, close)) =>
      var body := text[start..][|OPEN|..close];
      (Some(Strip(body)), Strip(RemoveBlocks(text, true, true)))
  }

  /** A text that opens with a think block splits into that block's body and
      the rest. */
  lemma ExtractLeadingBlock(t: string, a: string)
    requires '<' !in t
    ensures ExtractThinkAndAnswer(OPEN + t + CLOSE + a) == (Some(Strip(t)), Strip(RemoveBlocks(a, true, true)))
  {
    var s := OPEN + t + CLOSE + a;
    LeadingBlockAt(t, a, true, true);
    LeadingBlockDropped(t, a, true, true);
    assert s[0..] == s;
    var c: nat := |OPEN| + |t|;
    assert SearchBlock(s, true, true) == Some((0, c));
  }

  // ---------------------------------------------------------------- combine_prompts

  const USER_MARK := "\nUSER:\n "

  /** `combine_prompts(system, user)`: a SYSTEM part (empty when the system
      prompt is missing or empty) followed by a USER part. */
  function CombinePrompts(system: Option<string>, user: string): (r: string)
    ensures StartsWith(r, "SYSTEM:\n ")
    ensures IsAt(r, |r| - |user| - |USER_MARK|, USER_MARK + user)
    ensures system.None? || system.value == [] <==> r == "SYSTEM:\n " + USER_MARK + user
    ensures system.Some? ==> IsAt(r, 9, system.value) && |r| == 9 + |system.value| + |USER_MARK| + |user|
  {
    var sys := if system.None? then "" else system.value;
    var r := "SYSTEM:\n " + sys + USER_MARK + user;
    assert r[..9] == "SYSTEM:\n ";
    assert r[|r| - |user| - |USER_MARK|..] == USER_MARK + user;
    assert sys != [] ==> |r| > |"SYSTEM:\n " + USER_MARK + user|;
    assert r[9..9 + |sys|] == sys;
    r
  }

  /** With a one-line system prompt, the user prompt is exactly what follows
      the first USER marker. */
  lemma CombinePromptsRecoversUser(system: string, user: string)
    requires '\n' !in system
    ensures var r := CombinePrompts(Some(system), user);
      Contains(r, USER_MARK) && AfterFirst(r, USER_MARK) == user
  {
    var r := CombinePrompts(Some(system), user);
    var k := 9 + |system|;
    assert r == "SYSTEM:\n " + system + USER_MARK + user;
    assert r[k..k + |USER_MARK|] == USER_MARK;
    assert IsAt(r, k, USER_MARK);
    forall j | 0 <= j < k
      ensures !IsAt(r, j, USER_MARK)
    {
      assert j + |USER_MARK| <= |r| ==> r[j..j + |USER_MARK|][0] == r[j] && r[j..j + |USER_MARK|][1] == r[j + 1];
      if j == 7 {
        assert r[j + 1] == ' ';
      } else if j < 9 {
        assert r[j] != '\n';
      } else {
        assert r[j] == system[j - 9];
      }
    }
    var f := Find(r, USER_MARK);
    assert f == k;
    assert r[k + |USER_MARK|..] == user;
  }
}

=== FILE: validation.dfy ===
/** The text validator of `src/parser/validation.py`: a page the vision
    model transcribed is compared with the text the PDF library extracts
    from it, by word, sentence and length measures combined into a score.
    The text cleaning and the two `difflib` measures are given as inputs. */
module Validation {
  import opened Text

  // ---------------------------------------------------------------- words

  /** `\w`, on ASCII. */
  predicate IsWordChar(c: char)
  {
    ('a' <= c <= 'z') || ('A' <= c <= 'Z') || ('0' <= c <= '9') || c == '_'
  }

  /** A run of word characters. */
  predicate IsToken(w: string)
  {
    w != [] && forall m :: 0 <= m < |w| ==> IsWordChar(w[m])
  }

  /** The length of the run of word characters `s` starts with. */
  function WordRun(s: string): (r: nat)
    ensures r <= |s|
    ensures forall m :: 0 <= m < r ==> IsWordChar(s[m])
    ensures r < |s| ==> !IsWordChar(s[r])
    decreases |s|
  {
    if s != [] && IsWordChar(s[0]) then 1 + WordRun(s[1..]) else 0
  }

  /** `re.findall(r'\b\w+\b', s)`: the maximal runs of word characters. */
  function Tokens(s: string): (r: seq<string>)
    ensures forall k :: 0 <= k < |r| ==> IsToken(r[k])
    decreases |s|
  {
    if s == [] then []
    else if !IsWordChar(s[0]) then Tokens(s[1..])
    else [s[..WordRun(s)]] + Tokens(s[WordRun(s)..])
  }

  /** The word characters of `s`, in order. */
  function WordChars(s: string): string
  {
    if s == [] then [] else (if IsWordChar(s[0]) then [s[0]] else []) + WordChars(s[1..])
  }

  lemma {:induction false} WordCharsOfRun(s: string, n: nat)
    requires n <= |s| && forall m :: 0 <= m < n ==> IsWordChar(s[m])
    ensures WordChars(s) == s[..n] + WordChars(s[n..])
    decreases n
  {
    if n > 0 {
      WordCharsOfRun(s[1..], n - 1);
      assert s[1..][n - 1..] == s[n..];
      assert s[..n] == [s[0]] + s[1..][..n - 1];
    } else {
      assert s[0..] == s;
    }
  }

  /** The tokens hold every word character of the text, in order, and
      nothing else. */
  lemma {:induction false} TokensCoverWordChars(s: string)
    ensures Concat(Tokens(s)) == WordChars(s)
    decreases |s|
  {
    if s != [] {
      if !IsWordChar(s[0]) {
        TokensCoverWordChars(s[1..]);
      } else {
        var n := WordRun(s);
        TokensCoverWordChars(s[n..]);
        WordCharsOfRun(s, n);
        var rest := Tokens(s[n..]);
        if rest != [] {
          assert Concat([s[..n]] + rest) == s[..n] + "" + Concat(rest) by {
            assert ([s[..n]] + rest)[1..] == rest;
          }
        }
      }
    }
  }

  /** `w.isdigit()` on ASCII, for a non-empty word. */
  predicate AllDigits(w: string)
  {
    forall m :: 0 <= m < |w| ==> IsDigit(w[m])
  }

  /** The filter of `_get_words`: longer than two characters and not a number. */
  predicate KeptWord(w: string)
  {
    |w| > 2 && !AllDigits(w)
  }

  function KeepWords(ts: seq<string>): (r: seq<string>)
    ensures |r| <= |ts|
    ensures forall k :: 0 <= k < |r| ==> KeptWord(r[k]) && r[k] in ts
  {
    if ts == [] then [] else (if KeptWord(ts[0]) then [ts[0]] else []) + KeepWords(ts[1..])
  }

  /** A token is kept exactly when the filter admits it. */
  lemma {:induction false} KeepWordsMembers(ts: seq<string>, w: string)
    ensures w in KeepWords(ts) <==> w in ts && KeptWord(w)
  {
    if ts != [] {
      KeepWordsMembers(ts[1..], w);
      assert w in ts <==> w == ts[0] || w in ts[1..];
    }
  }

  /** `_get_words`: the lower-cased tokens longer than two characters that
      are not numbers, with repetitions. */
  function Words(text: string): (r: seq<string>)
    ensures forall k :: 0 <= k < |r| ==> IsToken(r[k]) && KeptWord(r[k])
  {
    KeepWords(Tokens(Lower(text)))
  }

  /** Case does not matter to the words: they are found in the lower-cased
      text. */
  lemma WordsIgnoreCase(text: string)
    ensures Words(Lower(text)) == Words(text)
    ensures forall k :: 0 <= k < |Words(text)| ==> Lower(Words(text)[k]) == Words(text)[k]
  {
    assert Lower(Lower(text)) == Lower(text);
    forall k | 0 <= k < |Words(text)| ensures Lower(Words(text)[k]) == Words(text)[k] {
      var w := Words(text)[k];
      assert w in Tokens(Lower(text));
      TokensOfLower(Lower(text), w);
    }
  }

  /** The tokens of a lower-cased text are lower-case. */
  lemma {:induction false} TokensOfLower(s: string, w: string)
    requires Lower(s) == s && w in Tokens(s)
    ensures Lower(w) == w
    decreases |s|
  {
    if !IsWordChar(s[0]) {
      assert Lower(s[1..]) == s[1..];
      TokensOfLower(s[1..], w);
    } else {
      var n := WordRun(s);
      if w == s[..n] {
        assert Lower(w) == w;
      } else {
        assert Lower(s[n..]) == s[n..];
        TokensOfLower(s[n..], w);
      }
    }
  }

  /** The distinct words of a text. */
  function WordSet(text: string): set<string>
  {
    set w | w in Words(text)
  }

  // ---------------------------------------------------------------- set measures

  lemma SubsetCard<T>(a: set<T>, b: set<T>)
    requires a <= b
    ensures |a| <= |b|
    ensures |a| == |b| ==> a == b
    decreases |a|
  {
    if a != {} {
      var x :| x in a;
      SubsetCard(a - {x}, b - {x});
      assert a == (a - {x}) + {x};
      assert b == (b - {x}) + {x};
    } else if b != {} {
      var y :| y in b;
      assert |b| >= 1;
    }
  }

  lemma RatioAtMostOne(a: nat, b: nat)
    requires 0 < b && a <= b
    ensures 0.0 <= a as real / b as real <= 1.0
    ensures a as real / b as real == 1.0 <==> a == b
  {
    var p, q := a as real, b as real;
    assert p / q * q == p;
  }

  /** The share of the words of `e` that `l` also holds, with the cases of
      an empty `e` settled as `_calculate_word_overlap` settles them. */
  function Overlap(e: set<string>, l: set<string>): (r: real)
    ensures 0.0 <= r <= 1.0
  {
    if |e| == 0 then (if |l| == 0 then 1.0 else 0.0)
    else
      SubsetCard(e * l, e);
      RatioAtMostOne(|e * l|, |e|);
      |e * l| as real / |e| as real
  }

  /** The overlap is complete exactly when every word of `e` is in `l`
      (and, for an empty `e`, when `l` is empty too). */
  lemma OverlapFull(e: set<string>, l: set<string>)
    ensures Overlap(e, l) == 1.0 <==> e <= l && (e == {} ==> l == {})
  {
    if e != {} {
      SubsetCard(e * l, e);
      RatioAtMostOne(|e * l|, |e|);
      assert e * l == e <==> e <= l;
    }
  }

  /** The overlap is nothing exactly when `e` and `l` share no word (or
      `e` is empty and `l` is not). */
  lemma OverlapNone(e: set<string>, l: set<string>)
    ensures Overlap(e, l) == 0.0 <==> (e == {} && l != {}) || (e != {} && e * l == {})
  {
    if e != {} && e * l != {} {
      var x :| x in e * l;
      assert |e * l| >= 1;
    }
  }

  /** `_calculate_word_overlap` */
  function WordOverlap(extracted: string, llmText: string): (r: real)
    ensures 0.0 <= r <= 1.0
  {
    Overlap(WordSet(extracted), WordSet(llmText))
  }

  /** The common words `_find_missing_important_words` does not report. */
  const STOPWORDS: set<string> := {
    "the", "and", "are", "for", "this", "that", "with", "from", "they", "have",
    "been", "will", "their", "said", "each", "which", "what", "there", "more",
    "can", "may", "also", "some", "time", "very", "when", "much", "new", "two",
    "way", "who", "its", "now", "find", "long", "down", "day", "did", "get",
    "come", "made", "part", "over" }

  /** `_find_missing_important_words`: extracted words the transcription
      lacks, longer than four characters and not stopwords. */
  function MissingImportant(extracted: seq<string>, llm: seq<string>): (r: set<string>)
    ensures forall w :: w in r ==> |w| > 4 && w !in STOPWORDS
  {
    set w | w in extracted && w !in llm && |w| > 4 && w !in STOPWORDS
  }

  /** Nothing is missing when the transcription holds every extracted word,
      and a longer transcription never misses more. */
  lemma MissingShrinks(extracted: seq<string>, l1: seq<string>, l2: seq<string>)
    requires forall w :: w in l1 ==> w in l2
    ensures MissingImportant(extracted, l2) <= MissingImportant(extracted, l1)
    ensures (forall w :: w in extracted ==> w in l1) ==> MissingImportant(extracted, l1) == {}
  {
    if forall w :: w in extracted ==> w in l1 {
      assert MissingImportant(extracted, l1) == {};
    }
  }

  /** A long word of the extracted text that the transcription lacks is
      reported unless it is a stopword. */
  lemma MissingReported(extracted: seq<string>, llm: seq<string>, w: string)
    requires w in extracted && w !in llm && |w| > 4 && w !in STOPWORDS
    ensures w in MissingImportant(extracted, llm)
  {
  }

  // ---------------------------------------------------------------- sentences

  predicate IsTerminator(c: char)
  {
    c == '.' || c == '!' || c == '?'
  }

  /** The length of the run of terminators `s` starts with. */
  function TerminatorRun(s: string): (r: nat)
    ensures r <= |s|
    ensures forall m :: 0 <= m < r ==> IsTerminator(s[m])
    decreases |s|
  {
    if s != [] && IsTerminator(s[0]) then 1 + TerminatorRun(s[1..]) else 0
  }

  /** The first terminator in `s`, or `|s|`. */
  function FirstTerminator(s: string): (r: nat)
    ensures r <= |s|
    ensures forall m :: 0 <= m < r ==> !IsTerminator(s[m])
    ensures r < |s| ==> IsTerminator(s[r])
    decreases |s|
  {
    if s == [] || IsTerminator(s[0]) then 0 else 1 + FirstTerminator(s[1..])
  }

  /** `re.split(r'[.!?]+', s)`: the pieces between runs of terminators. */
  function Pieces(s: string): (r: seq<string>)
    ensures |r| >= 1
    ensures forall k :: 0 <= k < |r| ==> forall m :: 0 <= m < |r[k]| ==> !IsTerminator(r[k][m])
    decreases |s|
  {
    var k := FirstTerminator(s);
    if k == |s| then [s]
    else [s[..k]] + Pieces(s[k + TerminatorRun(s[k..])..])
  }

  /** A stretch without terminators keeps none when stripped. */
  lemma StripNoTerminator(p: string)
    requires forall m :: 0 <= m < |p| ==> !IsTerminator(p[m])
    ensures forall m :: 0 <= m < |Strip(p)| ==> !IsTerminator(Strip(p)[m])
  {
    StripKeepsOut(p, '.');
    StripKeepsOut(p, '!');
    StripKeepsOut(p, '?');
  }

  /** The stripped pieces that are not blank. */
  function KeepSentences(pieces: seq<string>): (r: seq<string>)
    requires forall k :: 0 <= k < |pieces| ==> forall m :: 0 <= m < |pieces[k]| ==> !IsTerminator(pieces[k][m])
    ensures |r| <= |pieces|
    ensures forall k :: 0 <= k < |r| ==> r[k] != "" && Strip(r[k]) == r[k]
    ensures forall k :: 0 <= k < |r| ==> forall m :: 0 <= m < |r[k]| ==> !IsTerminator(r[k][m])
  {
    if pieces == [] then []
    else
      var p := pieces[0];
      StripIdempotent(p);
      StripNoTerminator(p);
      (if Strip(p) != "" then [Strip(p)] else []) + KeepSentences(pieces[1..])
  }

  /** `_get_sentences`: the text split at runs of '.', '!' and '?', each
      piece stripped and the blank ones dropped. Every sentence is non-empty,
      stripped and free of terminators. */
  function Sentences(text: string): (r: seq<string>)
    ensures forall k :: 0 <= k < |r| ==> r[k] != "" && Strip(r[k]) == r[k]
    ensures forall k :: 0 <= k < |r| ==> forall m :: 0 <= m < |r[k]| ==> !IsTerminator(r[k][m])
  {
    KeepSentences(Pieces(text))
  }

  /** A text with no terminator is one sentence, or none when blank. */
  lemma SentencesWithoutTerminator(text: string)
    requires forall m :: 0 <= m < |text| ==> !IsTerminator(text[m])
    ensures Sentences(text) == if Strip(text) != "" then [Strip(text)] else []
  {
    assert FirstTerminator(text) == |text|;
    assert Pieces(text) == [text];
  }

  /** A sentence takes part when it has at least three distinct words. */
  predicate LongSentence(sentence: string)
  {
    |WordSet(sentence)| >= 3
  }

  /** `_calculate_sentence_overlap`'s test: more than 60% of the sentence's
      distinct words occur in the other sentence, stated over whole numbers
      (`SimilarRatio` relates it to the quotient the source compares). */
  predicate Similar(sentence: string, other: string)
    requires LongSentence(sentence)
  {
    10 * |WordSet(sentence) * WordSet(other)| > 6 * |WordSet(sentence)|
  }

  /** The share of the words of `a` that are also in `b`. */
  function SharedWordShare(a: set<string>, b: set<string>): real
    requires a != {}
  {
    |a * b| as real / |a| as real
  }

  /** The test as the source writes it, a quotient compared with 0.6, is
      the comparison of whole numbers that `Similar` makes. */
  lemma SimilarRatio(sentence: string, other: string)
    requires LongSentence(sentence)
    ensures Similar(sentence, other) <==> SharedWordShare(WordSet(sentence), WordSet(other)) > 0.6
  {
    QuotientAbove(|WordSet(sentence) * WordSet(other)|, |WordSet(sentence)|);
  }

  /** `k / n > 0.6` exactly when `10 * k > 6 * n`. */
  lemma QuotientAbove(k: nat, n: nat)
    requires n > 0
    ensures k as real / n as real > 0.6 <==> 10 * k > 6 * n
  {
    var q, m := k as real / n as real, n as real;
    assert q * m == k as real;
    ProductAbove(q, m, k as real);
    assert (10 * k) as real == 10.0 * k as real && (6 * n) as real == 6.0 * m;
  }

  /** For a positive `m`, `q > 0.6` exactly when `q * m > 0.6 * m`. */
  lemma ProductAbove(q: real, m: real, p: real)
    requires m > 0.0 && q * m == p
    ensures q > 0.6 <==> p > 0.6 * m
  {
    assert (q - 0.6) * m == p - 0.6 * m;
    if q > 0.6 {
      assert (q - 0.6) * m > 0.0;
    } else if q < 0.6 {
      assert (0.6 - q) * m > 0.0;
    }
  }

  /** A long sentence with a similar sentence among `others`. */
  predicate Matched(sentence: string, others: seq<string>)
  {
    LongSentence(sentence) && exists j :: 0 <= j < |others| && Similar(sentence, others[j])
  }

  /** How many of `sentences` are matched. */
  function MatchCount(sentences: seq<string>, others: seq<string>): (r: nat)
    ensures r <= |sentences|
  {
    if sentences == [] then 0
    else MatchCount(sentences[..|sentences| - 1], others) + (if Matched(sentences[|sentences| - 1], others) then 1 else 0)
  }

  /** `_calculate_sentence_overlap` */
  function SentenceOverlap(extracted: string, llmText: string): (r: real)
    ensures 0.0 <= r <= 1.0
  {
    var es, ls := Sentences(extracted), Sentences(llmText);
    if es == [] then (if ls == [] then 1.0 else 0.0)
    else
      RatioAtMostOne(MatchCount(es, ls), |es|);
      MatchCount(es, ls) as real / |es| as real
  }

  /** Whether some sentence of `others` is similar to a long `sentence`: the
      inner loop, which stops at the first match. */
  method FindSimilar(sentence: string, others: seq<string>) returns (found: bool)
    requires LongSentence(sentence)
    ensures found <==> Matched(sentence, others)
  {
    found := false;
    var ext := WordSet(sentence);
    for j := 0 to |others|
      invariant !found
      invariant forall i :: 0 <= i < j ==> !Similar(sentence, others[i])
    {
      var llm := WordSet(others[j]);
      SimilarRatio(sentence, others[j]);
      if SharedWordShare(ext, llm) > 0.6 {
        found := true;
        return;
      }
    }
  }

  /** One more sentence counts once when it is matched. */
  lemma MatchCountStep(sentences: seq<string>, i: nat, others: seq<string>)
    requires i < |sentences|
    ensures MatchCount(sentences[..i + 1], others)
         == MatchCount(sentences[..i], others) + (if Matched(sentences[i], others) then 1 else 0)
  {
    assert sentences[..i + 1][..i] == sentences[..i];
  }

  /** The counting loop of `_calculate_sentence_overlap`: sentences with
      fewer than three distinct words are skipped, the others count when
      a similar sentence is found. */
  method CountMatches(extractedSentences: seq<string>, llmSentences: seq<string>) returns (matches: nat)
    ensures matches == MatchCount(extractedSentences, llmSentences)
  {
    matches := 0;
    for i := 0 to |extractedSentences|
      invariant matches == MatchCount(extractedSentences[..i], llmSentences)
    {
      MatchCountStep(extractedSentences, i, llmSentences);
      var ext := extractedSentences[i];
      if |WordSet(ext)| < 3 {
        continue;
      }
      var found := FindSimilar(ext, llmSentences);
      if found {
        matches := matches + 1;
      }
    }
    assert extractedSentences[..|extractedSentences|] == extractedSentences;
  }

  /** `_calculate_sentence_overlap` */
  method CalculateSentenceOverlap(extracted: string, llmText: string) returns (r: real)
    ensures r == SentenceOverlap(extracted, llmText)
  {
    var extractedSentences := Sentences(extracted);
    var llmSentences := Sentences(llmText);
    if extractedSentences == [] {
      return if llmSentences == [] then 1.0 else 0.0;
    }
    var matches := CountMatches(extractedSentences, llmSentences);
    r := matches as real / |extractedSentences| as real;
  }

  /** Sentences with fewer than three distinct words are never matched,
      though they count in the denominator. */
  lemma {:induction false} ShortSentencesNeverMatch(sentences: seq<string>, others: seq<string>)
    requires forall k :: 0 <= k < |sentences| ==> !LongSentence(sentences[k])
    ensures MatchCount(sentences, others) == 0
  {
    if sentences != [] {
      ShortSentencesNeverMatch(sentences[..|sentences| - 1], others);
    }
  }

  /** How many of `sentences` have at least three distinct words. */
  function LongCount(sentences: seq<string>): (r: nat)
    ensures r <= |sentences|
  {
    if sentences == [] then 0
    else LongCount(sentences[..|sentences| - 1]) + (if LongSentence(sentences[|sentences| - 1]) then 1 else 0)
  }

  /** Every long sentence matches itself. */
  lemma {:induction false} SelfMatch(sentences: seq<string>, others: seq<string>)
    requires forall k :: 0 <= k < |sentences| ==> sentences[k] in others
    ensures MatchCount(sentences, others) == LongCount(sentences)
  {
    if sentences != [] {
      var s := sentences[|sentences| - 1];
      SelfMatch(sentences[..|sentences| - 1], others);
      if LongSentence(s) {
        var j :| 0 <= j < |others| && others[j] == s;
        assert WordSet(s) * WordSet(others[j]) == WordSet(s);
        assert Similar(s, others[j]);
      }
    }
  }

  /** A transcription identical to the extracted text matches every long
      sentence. */
  lemma SentenceOverlapOfSelf(text: string)
    requires Sentences(text) != []
    ensures SentenceOverlap(text, text) == LongCount(Sentences(text)) as real / |Sentences(text)| as real
  {
    SelfMatch(Sentences(text), Sentences(text));
  }

  // ---------------------------------------------------------------- extra content and score

  /** `_calculate_extra_content_ratio`: how much longer the transcription
      is, relative to the extracted text. */
  function ExtraContentRatio(extracted: string, llmText: string): (r: real)
    ensures r >= 0.0
  {
    if extracted == "" then (if llmText != "" then 1.0 else 0.0)
    else (if |llmText| > |extracted| then |llmText| - |extracted| else 0) as real / |extracted| as real
  }

  /** No extra content exactly when the transcription is not longer. */
  lemma NoExtraContent(extracted: string, llmText: string)
    ensures ExtraContentRatio(extracted, llmText) == 0.0 <==> |llmText| <= |extracted|
  {
  }

  /** `_calculate_validation_score`: the weighted sum, capped at 1. */
  function ValidationScore(word: real, chars: real, sentence: real, semantic: real): (r: real)
    ensures r <= 1.0
  {
    var score := word * 0.4 + chars * 0.2 + sentence * 0.3 + semantic * 0.1;
    if score < 1.0 then score else 1.0
  }

  /** With every measure in [0, 1] the score lies in [0, 1], grows with
      each measure, and is 1 when all are. */
  lemma ScoreBounds(word: real, chars: real, sentence: real, semantic: real)
    requires 0.0 <= word <= 1.0 && 0.0 <= chars <= 1.0 && 0.0 <= sentence <= 1.0 && 0.0 <= semantic <= 1.0
    ensures 0.0 <= ValidationScore(word, chars, sentence, semantic)
    ensures ValidationScore(word, chars, sentence, semantic) == word * 0.4 + chars * 0.2 + sentence * 0.3 + semantic * 0.1
    ensures ValidationScore(1.0, 1.0, 1.0, 1.0) == 1.0
  {
  }

  lemma ScoreMonotone(w1: real, w2: real, c1: real, c2: real, s1: real, s2: real, m1: real, m2: real)
    requires w1 <= w2 && c1 <= c2 && s1 <= s2 && m1 <= m2
    ensures ValidationScore(w1, c1, s1, m1) <= ValidationScore(w2, c2, s2, m2)
  {
  }

  // ---------------------------------------------------------------- pages and documents

  /** The validator's thresholds; only the overall one decides. */
  datatype Thresholds = Thresholds(word: real, chars: real, sentence: real, overall: real)

  const DEFAULT_THRESHOLDS := Thresholds(0.7, 0.6, 0.5, 0.65)

  datatype ValidationResult = ValidationResult(
    wordOverlap: real,
    charOverlap: real,
    sentenceOverlap: real,
    semanticSimilarity: real,
    extractedWordCount: nat,
    llmWordCount: nat,
    missingWords: set<string>,
    extraContentRatio: real,
    score: real,
    passed: bool)

  /** The parts of validation outside the model: cleaning the extracted
      and the transcribed text, and the two `difflib` measures. */
  datatype Measures = Measures(
    pageText: nat -> string,
    cleanTranscript: string -> string,
    charOverlap: (string, string) -> real,
    similarity: (string, string) -> real)

  /** `validate_page` on the cleaned texts of a page. */
  function ValidatePage(t: Thresholds, extracted: string, llmText: string, charOverlap: real, similarity: real): (r: ValidationResult)
    ensures r.passed <==> r.score >= t.overall
    ensures r.score <= 1.0
    ensures r.extractedWordCount == |Words(extracted)| && r.llmWordCount == |Words(llmText)|
    ensures r.wordOverlap == WordOverlap(extracted, llmText) && r.sentenceOverlap == SentenceOverlap(extracted, llmText)
    ensures r.charOverlap == charOverlap && r.semanticSimilarity == similarity
    ensures r.score == ValidationScore(r.wordOverlap, charOverlap, r.sentenceOverlap, similarity)
    ensures r.missingWords == MissingImportant(Words(extracted), Words(llmText))
    ensures r.extraContentRatio == ExtraContentRatio(extracted, llmText)
  {
    var word := WordOverlap(extracted, llmText);
    var sentence := SentenceOverlap(extracted, llmText);
    var score := ValidationScore(word, charOverlap, sentence, similarity);
    ValidationResult(word, charOverlap, sentence, similarity,
      |Words(extracted)|, |Words(llmText)|,
      MissingImportant(Words(extracted), Words(llmText)),
      ExtraContentRatio(extracted, llmText), score, score >= t.overall)
  }

  /** With the two `difflib` measures in [0, 1], a page's score lies in
      [0, 1] and is the weighted sum of its four measures. */
  lemma PageScoreBounds(t: Thresholds, extracted: string, llmText: string, charOverlap: real, similarity: real)
    requires 0.0 <= charOverlap <= 1.0 && 0.0 <= similarity <= 1.0
    ensures var r := ValidatePage(t, extracted, llmText, charOverlap, similarity);
      0.0 <= r.score <= 1.0 &&
      r.score == r.wordOverlap * 0.4 + charOverlap * 0.2 + r.sentenceOverlap * 0.3 + similarity * 0.1
  {
    var r := ValidatePage(t, extracted, llmText, charOverlap, similarity);
    ScoreBounds(r.wordOverlap, charOverlap, r.sentenceOverlap, similarity);
  }

  /** For the same texts, better `difflib` measures never lower the page's
      score, so they never turn a passing page into a failing one. */
  lemma PageScoreMonotone(t: Thresholds, extracted: string, llmText: string, c1: real, c2: real, m1: real, m2: real)
    requires c1 <= c2 && m1 <= m2
    ensures ValidatePage(t, extracted, llmText, c1, m1).score <= ValidatePage(t, extracted, llmText, c2, m2).score
    ensures ValidatePage(t, extracted, llmText, c1, m1).passed ==> ValidatePage(t, extracted, llmText, c2, m2).passed
  {
    var w, s := WordOverlap(extracted, llmText), SentenceOverlap(extracted, llmText);
    ScoreMonotone(w, w, c1, c2, s, s, m1, m2);
  }

  /** The check of page `i` of the PDF against its transcription. */
  function PageResult(t: Thresholds, m: Measures, i: nat, markdown: string): ValidationResult
  {
    var extracted := m.pageText(i);
    var llmText := m.cleanTranscript(markdown);
    ValidatePage(t, extracted, llmText, m.charOverlap(extracted, llmText), m.similarity(extracted, llmText))
  }

  /** How many pages `validate_document` checks: the transcribed pages
      that the PDF has. */
  function CheckedPages(pageCount: nat, pages: seq<string>): (n: nat)
    ensures n <= |pages| && n <= pageCount
    ensures n == |pages| || n == pageCount
  {
    if |pages| < pageCount then |pages| else pageCount
  }

  /** `validate_page` as the document loop calls it. */
  function PageCheck(t: Thresholds, m: Measures): (nat, string) -> ValidationResult
  {
    (i: nat, markdown: string) => PageResult(t, m, i, markdown)
  }

  /** The results `validate_document` collects, one per checked page, in
      page order. */
  function DocumentResults(check: (nat, string) -> ValidationResult, pageCount: nat, pages: seq<string>): (r: seq<ValidationResult>)
    ensures |r| == CheckedPages(pageCount, pages)
  {
    var n := CheckedPages(pageCount, pages);
    seq(n, i requires 0 <= i < n => check(i, pages[i]))
  }

  /** `validate_document`. The closing summary divides by the number of
      results, so a document without any fails. */
  method ValidateDocument(t: Thresholds, m: Measures, pageCount: nat, pages: seq<string>)
    returns (r: Outcome<seq<ValidationResult>>)
    ensures r == if DocumentResults(PageCheck(t, m), pageCount, pages) == [] then Fail("division by zero")
                 else Ok(DocumentResults(PageCheck(t, m), pageCount, pages))
  {
    var results := CheckPages(PageCheck(t, m), pageCount, pages);
    if |results| == 0 {
      return Fail("division by zero");
    }
    r := Ok(results);
  }

  /** The page loop of `validate_document`: each page the PDF has is
      checked, in order, and the rest are ignored. */
  method CheckPages(check: (nat, string) -> ValidationResult, pageCount: nat, pages: seq<string>)
    returns (results: seq<ValidationResult>)
    ensures results == DocumentResults(check, pageCount, pages)
  {
    results := [];
    for i := 0 to |pages|
      invariant |results| == if i < pageCount then i else pageCount
      invariant forall k :: 0 <= k < |results| ==> results[k] == check(k, pages[k])
    {
      if i < pageCount {
        var result := check(i, pages[i]);
        results := results + [result];
      }
    }
  }

  /** The document fails exactly when there is no page to validate. */
  lemma ValidateDocumentFails(check: (nat, string) -> ValidationResult, pageCount: nat, pages: seq<string>)
    ensures DocumentResults(check, pageCount, pages) == [] <==> pages == [] || pageCount == 0
  {
  }
}

=== FILE: vision_loader.dfy ===
/** The document loader that runs the PDF-to-markdown pipeline over one
    file (`src/parser/vision_loader.py`). */
module VisionLoader {
  import opened Text
  import opened Parser

  datatype Mode = Single | Page

  /** A loaded document: only its text is set. */
  datatype Document = Document(pageContent: string)

  datatype Loader = Loader(filePath: string, mode: Mode, pipeline: Pipeline)

  /** The suffix check of the constructor, on the lower-cased suffix. */
  predicate IsPdfPath(filePath: string)
  {
    Lower(Suffix(PathName(filePath))) == ".pdf"
  }

  /** `VisionLoader(...)`: a path whose suffix is not `.pdf` in any case
      fails the constructor's assertion; otherwise the loader runs a
      pipeline at 400 dpi without validation. The mode defaults to `Page`
      (`DefaultLoader`). */
  function NewLoader(filePath: string, model: string, baseUrl: string, mode: Mode): (r: Outcome<Loader>)
    ensures r.Ok? <==> IsPdfPath(filePath)
    ensures r.Ok? ==> (r.value.filePath == filePath && r.value.mode == mode
                       && r.value.pipeline.dpi == 400 && !r.value.pipeline.enableValidation)
  {
    if IsPdfPath(filePath) then Ok(Loader(filePath, mode, NewPipeline(model, baseUrl, 400, false, 0.65)))
    else Fail("AssertionError")
  }

  function DefaultLoader(filePath: string, model: string, baseUrl: string): (r: Outcome<Loader>)
    ensures r.Ok? ==> r.value.mode == Page
  {
    NewLoader(filePath, model, baseUrl, Page)
  }

  /** `load`: the pipeline's pages, joined into one document or one
      document per page. `answer` is what the environment answers for the
      loader's file. */
  function Load(loader: Loader, answer: PdfInput): (docs: seq<Document>)
    ensures loader.mode == Single ==> |docs| == 1
    ensures loader.mode == Page ==> |docs| == |Convert(loader.pipeline, answer.(path := loader.filePath)).pages|
  {
    var result := Convert(loader.pipeline, answer.(path := loader.filePath));
    match loader.mode
    case Single => [Document(Join("\n\n", result.pages))]
    case Page => seq(|result.pages|, i requires 0 <= i < |result.pages| => Document(result.pages[i]))
  }

  /** Upper case in the suffix is accepted. */
  lemma UpperCaseSuffixAccepted()
    ensures Lower(Suffix("report.PDF")) == ".pdf"
  {
    var name := "report.PDF";
    assert LastIndexOf(name, '.') == 6 by {
      assert name[..9][..8][..7] == "report.";
    }
    assert Suffix(name) == ".PDF";
  }

  /** In `Single` mode there is exactly one document, holding every page
      separated by a blank line. */
  lemma SingleModeOneDocument(loader: Loader, answer: PdfInput)
    requires loader.mode == Single
    ensures var result := Convert(loader.pipeline, answer.(path := loader.filePath));
      Load(loader, answer) == [Document(Join("\n\n", result.pages))]
  {
  }

  /** In `Page` mode there is one document per PDF page, in page order. */
  lemma PageModeOnePerPage(loader: Loader, answer: PdfInput)
    requires loader.mode == Page && answer.found && answer.document.Ok?
    ensures var outcomes := answer.document.value; var docs := Load(loader, answer);
      |docs| == |outcomes| && forall i :: 0 <= i < |docs| ==> docs[i].pageContent == PageMarkdown(i, outcomes[i])
  {
    PagesKept(loader.pipeline, answer.(path := loader.filePath));
  }

  /** Both modes carry the same text: the single document is the page
      documents joined. */
  lemma ModesAgree(loader: Loader, answer: PdfInput)
    ensures var single := Load(loader.(mode := Single), answer);
      var pages := Load(loader.(mode := Page), answer);
      |single| == 1 && single[0].pageContent == Join("\n\n", seq(|pages|, i requires 0 <= i < |pages| => pages[i].pageContent))
  {
    var result := Convert(loader.pipeline, answer.(path := loader.filePath));
    var pages := Load(loader.(mode := Page), answer);
    assert seq(|pages|, i requires 0 <= i < |pages| => pages[i].pageContent) == result.pages;
  }

  /** A missing file loads as no pages: nothing in `Page` mode, one empty
      document in `Single` mode. */
  lemma MissingFileLoads(loader: Loader, answer: PdfInput)
    requires !answer.found
    ensures loader.mode == Page ==> Load(loader, answer) == []
    ensures loader.mode == Single ==> Load(loader, answer) == [Document("")]
  {
  }
}
